=== FILE: README.md ===
# options-wheel, modelled in Dafny

options-wheel runs the *wheel* options strategy against a broker account. It:
- sells cash-secured puts on the configured underlyings;
- when a put is assigned and 100-share lots are held, sells covered calls on them, struck at or above the premium-adjusted cost basis;
- rolls short puts that are about to expire;
- places every option order as a limit order that a manager reprices step by step toward a fill.

A continuous runner repeats a strategy cycle during market hours and updates the pending orders between cycles.

This project models the decision and order-lifecycle logic of that system and proves properties of it. One Dafny module stands for each core file:

| module | file | models |
|---|---|---|
| `StateManager` | `state_manager.dfy` | the wheel state derived from the broker's positions (short put, long shares, short call, a call awaiting its stock), the per-underlying put/call/share-lot counts and the capital at risk, with the combinations that raise |
| `ThreadSafeManager` | `thread_safe_manager.dfy` | the cached state holder and its layer-capacity rule `max(puts, share lots) < max_layers` |
| `OrderManager` | `order_manager.dfy` | pending limit orders: submission at the clamped midpoint, repricing toward the far side of the spread, expiry by age, removal on a terminal status, cancel-all |
| `Strategy` | `strategy.dfy` | the underlying and contract screens and the per-underlying selection of scored puts |
| `Rolling` | `rolling.dfy`, `expiry_dates.dfy` | finding short puts close to expiry, their roll targets, close-then-open rolls and the roll loop; `ExpiryDates` reads the expiry out of an option symbol |
| `ExecutionLimit` | `execution_limit.dfy` | the limit-order put loop, the covered-call choice, and the binding of the strategy calls each sale makes before it trades |
| `Execution` | `execution.dfy` | the market-order put loop and covered-call sale |
| `PremiumTracker` | `premium_tracker.dfy` | premium totals per symbol and the adjusted cost basis |
| `RetryDecorator` | `retry_decorator.dfy` | exponential backoff, the retry loop and the circuit breaker |
| `ConfigLoader` | `config_loader.dfy` | configuration lookups with their defaults and `update_symbol` |
| `Runner` | `runner.dfy` | the market-hours window, one strategy cycle and the two-interval polling loop of the limit-order runner |
| `OptionSymbols`, `StrategyMatrix` | `option_symbols.dfy`, `strategy_matrix.dfy` | the option-symbol parser and the strategy matrix's state, layer and action classification |
| `Ledger` | `ledger.dfy` | the trade database as two append-only tables |

`Sequences` and `Wrappers` hold shared definitions: order-preserving filters, a stable descending sort, `Option` and `Result`.

Modelling choices:
- Code that changes state step by step is imperative Dafny. This covers the loops, the order manager, the state holder, the circuit breaker, the premium tracker, the configuration object and the database. Each method is proved equal to a specification function, and the properties are lemmas about those functions.
- Money is exact. Order-manager prices are integer cents, so `round(x, 2)` is exact, with round-half-even on a half cent. Strikes in option symbols are integer thousandths. Every other amount is a `real`.
- Time is an integer count of seconds. Dates are day ordinals.
- Broker answers are parameters. These are quotes, order ids, order statuses, whether a cancel, replace or market order raised (including each market sell of `sell_puts` and `sell_calls`), and the positions. The clock, the random jitter and the shutdown signal are parameters too.
- Contract scores are an abstract function from contract to `real`. The screening thresholds of `config.params` are a parameter.

## Model

| member | source | states |
|---|---|---|
| OptionSymbols.ScanFromSpec | core/elite_display.py:52-60 | a scan from position `i` answers the whole symbol exactly when no later position starts a 15-character digit-led suffix, and otherwise splits at the first such position |
| OptionSymbols.ParseOptionSymbolSpec | core/elite_display.py:47-61 | the symbol comes back whole exactly when no digit has 15 characters from it; otherwise the underlying is the digit-free prefix, the type the 7th character of the rest and the strike the value of the digits after it; a strike field that is not all ASCII digits is modelled as raising |
| OptionSymbols.EncodeDigitsValue | core/elite_display.py:58-59 | the strike field read back as a number is the thousandths that were written, when they fit in the width |
| OptionSymbols.ParseOptionSymbolRoundTrip | core/elite_display.py:47-61 | parsing an OCC-style symbol built from a digit-free underlying, a six-digit expiry, a type and an 8-digit strike gives back the underlying, type and strike |
| OptionSymbols.SplitPositionUnique | core/elite_display.py:52-57 | with a digit-free prefix ending at a split point, the parser splits there |
| OptionSymbols.ScanSplitsAtFirst | core/elite_display.py:52-60 | the scan stops at the first digit that has 15 characters from it |
| OptionSymbols.ParseExample | core/elite_display.py:47-61 | `AAPL241231P00150000` parses as AAPL, a put, strike 150.000 |
| PremiumTracker.TotalPremium | core/premium_tracker.py:61-74 | an unknown symbol has no premium; no type sums calls and puts; a type other than C or P gives zero |
| PremiumTracker.AdjustedCostBasis | core/premium_tracker.py:76-101 | no shares leaves the basis unchanged; otherwise the result is never negative, and without call premium a non-negative basis is unchanged |
| PremiumTracker.AddPremiumEffect | core/premium_tracker.py:32-59 | adding a premium appends one transaction, raises exactly the total of its type (C or P, any case) and touches no other symbol |
| PremiumTracker.PutPremiumKeepsBasis | core/premium_tracker.py:84-101 | put premium never moves the adjusted basis |
| PremiumTracker.CallPremiumLowersBasis | core/premium_tracker.py:84-101 | more call premium never raises the adjusted basis |
| PremiumTracker.AdjustedBasisExample | core/premium_tracker.py:76-101 | 100 shares at $50 with $1.50 and $1.00 of call premium give $47.50 |
| PremiumTracker.PremiumTracker.constructor | core/premium_tracker.py:13-18 | the tracker starts with the loaded history |
| PremiumTracker.PremiumTracker.AddPremium | core/premium_tracker.py:32-59 | the history becomes the old one with the premium added; a missing timestamp takes the caller's clock |
| PremiumTracker.PremiumTracker.ResetSymbol | core/premium_tracker.py:103-107 | the symbol is forgotten, so its totals read zero, and every other symbol keeps its totals |
| Ledger.WheelDatabase.constructor | core/database.py:13-19 | a new database has no premium and no trade rows |
| Ledger.WheelDatabase.AddPremium | core/database.py:112-131 | one premium row with status `collected` is appended; trades are unchanged |
| Ledger.WheelDatabase.AddTrade | core/database.py:270-286 | one trade row is appended; premiums are unchanged |
| StateManager.DeriveState | core/state_manager.py:51-124 | every state that survives is final (short put, long shares or short call) and carries exactly its underlying's counts |
| StateManager.CountsOkIff | core/state_manager.py:34-49 | counting raises exactly when some option symbol has a malformed strike |
| StateManager.CountsAreSums | core/state_manager.py:34-49 | each underlying's counts are the sums of its put contracts, call contracts and 100-share lots over all positions |
| StateManager.PutsAtRisk | core/state_manager.py:27-30 | the cash securing short puts is never negative |
| StateManager.TotalRiskAppend | core/state_manager.py:21-32 | the risk of two lists of positions is the sum of their risks |
| StateManager.RiskIsTotal | core/state_manager.py:21-32 | the risk loop raises exactly on a malformed strike and otherwise returns the reference sum |
| StateManager.TotalRiskRemove | core/state_manager.py:21-32 | taking one position out of the sum takes out its contribution |
| StateManager.TotalRiskPermutation | core/state_manager.py:21-32 | the reference sum does not depend on the order of the positions |
| StateManager.RiskOrderIndependent | core/state_manager.py:21-32 | permuting the positions changes neither whether risk raises nor its value |
| StateManager.StepTransition | core/state_manager.py:60-109 | one position leaves a present symbol's state as it was, or turns long shares or an awaiting call into a short call with the same entry |
| StateManager.WrongSignRaises | core/state_manager.py:61-63 | short stock or a long option anywhere in the list makes derivation raise |
| StateManager.SharesKeepShareState | core/state_manager.py:61-100 | once a symbol's shares are read, it stays in long shares or short call while nothing raises |
| StateManager.PutKeepsPutState | core/state_manager.py:93-107 | once a short put on a symbol is read, the symbol stays in short put while nothing raises |
| StateManager.SharesWithPutRaise | core/state_manager.py:66-68 | long shares and a short put on the same underlying raise, in either order |
| StateManager.PutsOnlyGiveShortPut | core/state_manager.py:93-107 | any number of short puts on one underlying derive short put for it |
| StateManager.SeveralPutsStayShortPut | core/state_manager.py:93-97 | several puts on one underlying are allowed and the only state is short put |
| StateManager.DeriveTwo | core/state_manager.py:60 | two positions are read in list order from an empty dictionary |
| StateManager.SharesStepOnEmpty | core/state_manager.py:70-85 | long shares on an empty state give long shares for that symbol only |
| StateManager.CallStepOnEmpty | core/state_manager.py:103-105 | a short call on an unseen underlying waits for its stock |
| StateManager.CallAfterShares | core/state_manager.py:98-100 | a short call after long shares makes a short call |
| StateManager.SharesAfterCall | core/state_manager.py:66-69 | shares after an awaiting call make a short call |
| StateManager.SharesAndCallGiveShortCall | core/state_manager.py:60-124 | long shares and a short call on them end in short call, whichever is listed first |
| StateManager.NoSharesNoShareState | core/state_manager.py:60-109 | without shares of a symbol it never reaches long shares or short call |
| StateManager.StepKeepsAwaiting | core/state_manager.py:87-109 | an awaiting call stays awaiting across any position that does not bring its shares |
| StateManager.CallStepAwaits | core/state_manager.py:93-105 | a short call read while its underlying is absent or already awaiting leaves it awaiting |
| StateManager.CallWithoutSharesAwaits | core/state_manager.py:60-109 | a short call with no shares anywhere leaves its underlying awaiting stock |
| StateManager.CallWithoutSharesRaises | core/state_manager.py:114-116 | a short call with no shares of its underlying raises at the final check or earlier |
| StateManager.EntryFromShares | core/state_manager.py:70-85 | a recorded entry comes from one of the symbol's equity positions, its price and quantity; without a tracker the adjusted price is the entry price |
| StateManager.LongSharesRecordsEntry | core/state_manager.py:71-85 | a long-shares state records the entry price and share count of one of its equity positions |
| StateManager.CalculateRisk | core/state_manager.py:21-32 | the loop's result equals the risk function, which the lemmas above tie to the reference sum |
| StateManager.CountPosition | core/state_manager.py:39-47 | one loop iteration adds the position's lots or contracts to its underlying |
| StateManager.CountPositionsBySymbol | core/state_manager.py:34-49 | the loop's result equals the counting function, whose sums are stated by CountsAreSums |
| StateManager.ReadPosition | core/state_manager.py:61-109 | one iteration of the derivation loop classifies the position or raises |
| StateManager.ReadShares | core/state_manager.py:61-85 | the equity branch of the derivation loop |
| StateManager.ReadOption | core/state_manager.py:87-109 | the option branch of the derivation loop, which does not use the tracker |
| StateManager.AttachCounts | core/state_manager.py:111-122 | raises when any state is not final; otherwise every state gets its counts, zero counts when missing |
| StateManager.ComputeState | core/state_manager.py:51-124 | the loop's result equals the derivation function |
| StateManager.WheelStateManager.constructor | core/state_manager.py:9-10 | a new manager holds no state |
| StateManager.WheelStateManager.UpdateState | core/state_manager.py:12-15 | the held state becomes the derivation's result; on an error it is left as it was |
| ThreadSafeManager.CallsIgnored | core/thread_safe_manager.py:140-145 | the capacity rule does not look at calls: changing an underlying's call count never changes whether a put is allowed |
| ThreadSafeManager.UnknownSymbolAllowed | core/thread_safe_manager.py:141-145 | an underlying with no counts counts as zero layers, so it is allowed exactly when the layer limit is positive |
| ThreadSafeManager.AllowedMonotone | core/thread_safe_manager.py:143-145 | raising the layer limit never turns an allowed underlying away |
| ThreadSafeManager.AllowedAfterCounting | core/thread_safe_manager.py:129-145 | after counting the broker's positions, an underlying is allowed exactly when both its short-put contracts and its share lots (shares div 100) are below the limit |
| ThreadSafeManager.ThreadSafeStateManager.constructor | core/thread_safe_manager.py:19-24 | a new holder has no states, no counts and zero risk |
| ThreadSafeManager.ThreadSafeStateManager.UpdateState | core/thread_safe_manager.py:36-53 | answers the derived wheel state and caches it; when derivation raises, the error propagates and the cache keeps its old state; counts and risk are untouched |
| ThreadSafeManager.ThreadSafeStateManager.CalculateRisk | core/thread_safe_manager.py:55-71 | answers the capital at risk of the positions and caches it; an error leaves the cached risk as it was; the other caches are untouched |
| ThreadSafeManager.ThreadSafeStateManager.CountPositionsBySymbol | core/thread_safe_manager.py:73-89 | answers the per-underlying counts and caches them; an error leaves the cached counts as they were; the other caches are untouched |
| ThreadSafeManager.ThreadSafeStateManager.GetState | core/thread_safe_manager.py:91-104 | no symbol or an empty one answers every state; a known symbol its own state; an unknown symbol nothing |
| ThreadSafeManager.ThreadSafeStateManager.GetPositionCount | core/thread_safe_manager.py:106-117 | the cached counts of the underlying, zero puts, calls and shares for an unknown one |
| ThreadSafeManager.ThreadSafeStateManager.GetCurrentRisk | core/thread_safe_manager.py:119-127 | the risk last cached |
| ThreadSafeManager.ThreadSafeStateManager.IsPositionAllowed | core/thread_safe_manager.py:129-145 | allowed exactly when the larger of the cached put count and share lots is below the layer limit |
| ThreadSafeManager.ThreadSafeStateManager.Reset | core/thread_safe_manager.py:147-153 | empties states and counts and zeroes the risk, after which every underlying is allowed exactly when the limit is positive |
| ConfigLoader.Keys | config/config_loader.py:56 | the symbols of the `symbols` object, one per entry, in document order |
| ConfigLoader.Lookup | config/config_loader.py:62 | a symbol's settings are found exactly when some entry has that key, and they are that entry's settings |
| ConfigLoader.EnabledInSpec | config/config_loader.py:53-58 | the enabled symbols keep document order and are exactly the configured symbols whose `enabled` flag is true or absent |
| ConfigLoader.Defaults | config/config_loader.py:22-39 | a new document answers allocation 0.5, two layers, one contract, no enabled symbols, rolling off with one day before expiry, 0.05 minimum premium, 0.25 delta target, and the `forward` strategy |
| ConfigLoader.SymbolRollingOverrides | config/config_loader.py:99-104 | a symbol's own rolling flag decides, whatever the global flag says |
| ConfigLoader.UpdatedLookup | config/config_loader.py:112-120 | `update_symbol` sets on that symbol only the fields it is given (an unknown symbol starts empty) and leaves every other symbol's settings unchanged |
| ConfigLoader.UpdatedKeys | config/config_loader.py:114-115 | the keys keep their order and a new symbol is added last |
| ConfigLoader.UpdatedUnique | config/config_loader.py:114-115 | updating keeps every key unique |
| ConfigLoader.EnabledAfterUpdate | config/config_loader.py:53-58 | after `update_symbol(s, enabled=b)` the symbol is among the enabled symbols exactly when `b` holds |
| ConfigLoader.ContractsAfterUpdate | config/config_loader.py:60-63 | after `update_symbol(s, contracts=k)` the symbol trades `k` contracts |
| ConfigLoader.StrategyConfig.constructor | config/config_loader.py:11-47 | the document is the parsed file, or the defaults when the file does not exist |
| ConfigLoader.StrategyConfig.Reload | config/config_loader.py:49-51 | the document becomes the file read again, or the defaults when it is gone |
| ConfigLoader.StrategyConfig.UpdateSymbol | config/config_loader.py:112-122 | a document without a `symbols` object raises and is unchanged; otherwise only that symbol's given fields change |
| RetryDecorator.Pow2 | core/retry_decorator.py:34 | a power of two is at least one |
| RetryDecorator.CappedDelayGrowth | core/retry_decorator.py:34 | the delay never exceeds `max_delay` and doubles with each attempt until it reaches it |
| RetryDecorator.BackoffRange | core/retry_decorator.py:16-37 | without jitter the delay is the capped exponential; with jitter it lies in [delay/2, delay) |
| RetryDecorator.FirstUncaught | core/retry_decorator.py:63-79 | the first attempt that is not a caught failure, with every attempt before it a caught failure |
| RetryDecorator.RetryOnFailure | core/retry_decorator.py:60-95 | the loop's outcome and call count are those of the retry specification, and it sleeps one backoff delay (or the base delay without backoff) between consecutive attempts |
| RetryDecorator.RetryCallBounds | core/retry_decorator.py:63 | the function runs at least once and at most `max_attempts` times |
| RetryDecorator.ReturnsIff | core/retry_decorator.py:63-79 | a value is returned exactly when some attempt succeeds after nothing but caught failures |
| RetryDecorator.ImmediateSuccess | core/retry_decorator.py:65-68 | a function that succeeds at once runs once and its value is returned |
| RetryDecorator.RecoversOnThirdTry | core/retry_decorator.py:63-79 | two caught failures then a success, with three attempts: three calls and the value |
| RetryDecorator.ExhaustionRaises | core/retry_decorator.py:73-79 | when every attempt fails with a caught exception, the function runs `max_attempts` times and RetryException carries the last error |
| RetryDecorator.UncaughtPropagates | core/retry_decorator.py:64-70 | an exception the decorator does not catch propagates from the first call without retry |
| RetryDecorator.BreakerCallKeepsInv | core/retry_decorator.py:117-151 | every call keeps the breaker's invariant (open only at or above the threshold, with a failure time) |
| RetryDecorator.OpenRejects | core/retry_decorator.py:121-130 | an open breaker before the recovery timeout rejects the call and changes nothing, whatever the function would do |
| RetryDecorator.HalfOpenTrial | core/retry_decorator.py:121-151 | after the timeout an open breaker calls the function: success closes it with a zero count; a caught failure opens it again with the new failure time |
| RetryDecorator.FailureCounts | core/retry_decorator.py:140-151 | each caught failure while closed adds one to the count and records the time; the breaker opens exactly when the count reaches the threshold |
| RetryDecorator.ClosedSuccessKeepsCount | core/retry_decorator.py:132-138 | a success while closed changes nothing, not even the failure count |
| RetryDecorator.TwoFailuresOpen | core/retry_decorator.py:117-151 | with a threshold of 2, two failures open a new breaker and the next call within the timeout is rejected |
| RetryDecorator.CircuitBreaker.constructor | core/retry_decorator.py:104-115 | a new breaker is closed, with no failures and no failure time |
| RetryDecorator.CircuitBreaker.Call | core/retry_decorator.py:117-151 | the breaker's new state and the call's outcome are those of the breaker transition, and the invariant holds |
| RetryDecorator.CircuitBreaker.Reset | core/retry_decorator.py:153-157 | closed, no failures, no failure time |
| OrderManager.RoundHalfCents | core/order_manager.py:98 | the rounded cent is within half a cent of the value, and a whole cent is kept as it is |
| OrderManager.RoundMonotone | core/order_manager.py:98 | rounding to cents never reverses the order of two prices |
| OrderManager.OpeningLimits | core/order_manager.py:97-99 | a new sell never asks less than the bid and a new buy never pays more than the ask; with no adjustment on an uncrossed quote both start at the rounded midpoint |
| OrderManager.RoundWhole | core/order_manager.py:290 | a price already in whole cents is left as it is by the rounding |
| OrderManager.SellRepriceBounds | core/order_manager.py:285-290 | on an uncrossed quote a repriced sell lies between the midpoint and the ask |
| OrderManager.BuyRepriceBounds | core/order_manager.py:291-296 | on an uncrossed quote a repriced buy lies between the bid and the midpoint |
| OrderManager.RepriceBounds | core/order_manager.py:283-296 | the sell and buy bounds together; on a locked quote both prices are the bid |
| OrderManager.RepriceMovesTowardFill | core/order_manager.py:283-296 | a later attempt never raises a sell's price nor lowers a buy's |
| OrderManager.TerminalStatusDrops | core/order_manager.py:223-233 | a filled, cancelled or expired order is dropped, reported 'filled' exactly when it filled and otherwise by its status |
| OrderManager.AgedOrderExpires | core/order_manager.py:236-241 | an open order at or past its age limit (minutes times 60) is cancelled, dropped and reported 'expired'; if the cancel raises it stays unchanged and is reported 'error' |
| OrderManager.DueOrderReprices | core/order_manager.py:243-245 | an open young order due for an update is reported 'repriced' and keeps its id; it either stays as it was or takes the repriced limit, the current time and one more attempt |
| OrderManager.SamePriceSkips | core/order_manager.py:298-301 | when the repriced limit equals the current one, no replace is sent and the order is unchanged |
| OrderManager.PolledMapStep | core/order_manager.py:219-251 | one order's turn changes only that order's entry: replaced by its next state, or removed |
| OrderManager.ReportsStep | core/order_manager.py:219-251 | one order's turn adds only that order's report |
| OrderManager.PollKeepsId | core/order_manager.py:219-251 | an order that stays tracked keeps its id |
| OrderManager.PollNeverAdds | core/order_manager.py:208-255 | an update never adds an order, and every order the broker reports closed is gone afterwards |
| OrderManager.OrderManager.constructor | core/order_manager.py:47-59 | a new manager keeps its update interval and age limit and tracks no order |
| OrderManager.OrderManager.SubmitLimitSell | core/order_manager.py:61-135 | without a quote or when the submission raises, nothing is tracked and no id is answered; otherwise the order is tracked under the broker's id at the opening sell limit, targeting the bid, with the underlying defaulting to the symbol and zero attempts |
| OrderManager.OrderManager.SubmitLimitBuy | core/order_manager.py:137-206 | as a sell, at the opening buy limit targeting the ask, with the symbol as its underlying |
| OrderManager.OrderManager.RepriceOrder | core/order_manager.py:257-322 | the order after a repricing attempt and whether the broker took the new price, as the repricing rule gives them |
| OrderManager.OrderManager.PollOrder | core/order_manager.py:219-251 | one order's turn of the update loop: its next state and its report |
| OrderManager.OrderManager.UpdatePendingOrders | core/order_manager.py:208-255 | every order tracked at the start gets exactly one report and its own next state, and an error on one order does not stop the others |
| OrderManager.OrderManager.CancelAllPending | core/order_manager.py:324-341 | exactly the orders whose cancel raised stay tracked, and the answer is the number removed |
| OrderManager.OrderManager.GetPendingOrders | core/order_manager.py:343-345 | every tracked order exactly once |
| OrderManager.OrderManager.HasPendingOrders | core/order_manager.py:347-348 | true exactly when some order is tracked |
| Sequences.FilterSpec | core/strategy.py:49 | a list comprehension with a condition keeps, in order, exactly the elements satisfying it |
| Sequences.SortDescSpec | core/strategy.py:61 | `sort(key=..., reverse=True)` gives a sorted permutation of its input, largest key first |
| Sequences.SortDescStable | core/strategy.py:61 | the sort is stable: the elements with any one key come out in the order they went in, so equally scored contracts keep their input order |
| Sequences.SortDescDistinct | core/strategy.py:69-73 | sorting a list without repeats keeps it without repeats |
| Sequences.Argmax | core/execution.py:106 | `numpy.argmax` answers a position of the largest value, the first one on ties |
| Strategy.FilterUnderlyingSpec | core/strategy.py:3-11 | a symbol is kept exactly when 100 shares at its last price fit the buying-power limit, in the answer's order |
| Strategy.FilterOptionsSpec | core/strategy.py:13-27 | the filter raises exactly when some contract inside the delta band has a zero strike or a `dte` of -1; otherwise it keeps, in order, exactly the contracts passing every screen |
| Strategy.KeptContractsPassScreens | core/strategy.py:17-25 | every kept contract has a delta strictly inside the band, an annualised yield strictly inside the band, open interest above the minimum and a strike at or above the floor |
| Strategy.ScoreOptions | core/strategy.py:29-35 | one score per contract, in the contracts' order |
| Strategy.Quota | core/strategy.py:77-80 | the number of positions to add never exceeds the candidates available |
| Strategy.Appended | core/strategy.py:82-85 | the inner loop appends at most the underlying's quota |
| Strategy.Taken | core/strategy.py:75-88 | the contracts taken for an underlying never exceed its quota |
| Strategy.GroupOrderMembers | core/strategy.py:52-57 | the dictionary's keys are exactly the underlyings with a candidate, each once |
| Strategy.SortedGroupOwn | core/strategy.py:57-61 | each underlying's sorted list holds only its own candidates |
| Strategy.SortedGroupsFacts | core/strategy.py:52-61 | each underlying's list is its candidates in order of appearance, stably sorted by score, largest first |
| Strategy.RankFacts | core/strategy.py:69-73 | the ranking lists each underlying with a candidate exactly once |
| Strategy.FillStops | core/strategy.py:83-88 | once a truthy `n` is reached, later underlyings add nothing |
| Strategy.FillBound | core/strategy.py:75-88 | with a truthy `n` the selection holds at most `n` contracts, none for a negative `n` |
| Strategy.FillUnderlyingsIn | core/strategy.py:75-85 | every selected contract belongs to one of the visited underlyings |
| Strategy.TakenBounds | core/strategy.py:75-85 | an underlying not visited gets nothing, and without a cap a visited underlying gets its whole quota |
| Strategy.FillOn | core/strategy.py:75-88 | the contracts selected for an underlying are, in order, the first ones of its sorted list, at most its quota |
| Strategy.FillOrdered | core/strategy.py:75-88 | the selection follows the order in which the underlyings are visited |
| Strategy.SelectedOn | core/strategy.py:37-90 | the selection restricted to one underlying is a prefix of its sorted candidates, within the room left by its puts, and the whole room (bounded by its candidates) without a cap |
| Strategy.SelectedAboveScoreMin | core/strategy.py:49 | every selected contract was paired with a score above `SCORE_MIN` |
| Strategy.SelectedPerUnderlying | core/strategy.py:37-90 | per underlying, the selection is the first `t` of its candidates sorted by score, largest first (a permutation of its candidates), with `t` at most the room left by its puts and exactly that room, bounded by the candidates, without a cap |
| Strategy.NoDuplicateUnderlyings | core/strategy.py:37-90 | with `max_per_symbol` of 1 or less no underlying is selected twice |
| Strategy.SelectionCapped | core/strategy.py:83-88 | a truthy `n` caps the selection at `n` contracts |
| Strategy.UnderlyingsByBestScore | core/strategy.py:69-75 | underlyings are filled in descending order of their best candidate's score |
| Strategy.BestIsTopScore | core/strategy.py:61-71 | an underlying's best score is at least the score of each of its candidates |
| Strategy.GroupByUnderlying | core/strategy.py:52-57 | the grouping loop builds, for each underlying in order of first appearance, the list of its candidates |
| Strategy.SortEachGroup | core/strategy.py:60-61 | each list becomes its stable sort by score, largest first |
| Strategy.AppendCandidates | core/strategy.py:82-85 | the inner loop appends the first candidates of one underlying, at most `positions_to_add`, stopping at a truthy `n` |
| Strategy.FillSelection | core/strategy.py:75-88 | the nested loops produce the selection of the specification |
| Strategy.SelectOptions | core/strategy.py:37-90 | `select_options` answers the specified selection, whose properties are the lemmas above |
| Rolling.CollectErr | core/rolling.py:34-79 | the scan over positions raises exactly when some position raises, and with one of the errors raised |
| Rolling.CollectMembers | core/rolling.py:34-79 | a successful scan holds exactly the entries kept for its positions, no more than it scanned |
| Rolling.AssessSpec | core/rolling.py:34-76 | a position raises exactly when it is a short option whose strike field is not a number; it is rollable exactly when it is a short put of a symbol with rolling enabled whose expiry reads as a date at most `days_before_expiry` days away, and then its entry carries the underlying, strike, expiry, days left and the absolute quantity |
| Rolling.RollableInErr | core/rolling.py:34-79 | the scan raises exactly when some position raises, and always with a ValueError |
| Rolling.RollableInMembers | core/rolling.py:34-79 | a successful scan lists exactly the rollable entries of the positions |
| Rolling.RollableSound | core/rolling.py:34-76 | every listed entry is one of the positions: a short put, close to expiry, of a symbol with rolling enabled, with its absolute quantity |
| Rolling.StandardSymbolReadBack | core/rolling.py:42-61 | a symbol written for a put on a digit-free underlying, a valid 20YY-MM-DD expiry and a strike of at most eight digits reads back as that underlying, type, strike and expiry |
| Rolling.AssessOfParts | core/rolling.py:44-76 | a short put with rolling enabled whose symbol reads as given is rollable exactly when its expiry is at most `days_before_expiry` days away, with the encoded strike and expiry |
| Rolling.IdentifyRollablePositions | core/rolling.py:16-79 | the loop answers the scan's list, or its error |
| Rolling.RankedSpec | core/rolling.py:133-137 | ranking keeps every filtered contract exactly, best score first |
| Rolling.FindRollTargets | core/rolling.py:81-139 | the loop over the chain answers the specified targets |
| Rolling.RollTargetsSpec | core/rolling.py:109-139 | the targets are exactly the puts with enough premium that fit the symbol's rolling strategy (forward, down or both, always later than the current expiry) and pass `filter_options`, best score first, each with a delta; the screen raises exactly when such a put divides by zero |
| Rolling.RollSpec | core/rolling.py:141-224 | the buy to close always goes first and the sell to open of the same quantity follows only if the buy went through; the roll succeeds exactly when both go through (and, with a ledger, the target has a delta); ledger rows are written only after both orders, two trades and one premium |
| Rolling.ExecuteRoll | core/rolling.py:141-224 | answers the roll's success and orders, and appends its rows to the ledger when there is one |
| Rolling.TargetsInHaveDelta | core/rolling.py:131-137 | every roll target passed `filter_options`, so it has a delta |
| Rolling.RollsUpToLedger | core/rolling.py:252-275 | the loop counts at most one success per position and writes two trades and one premium per successful roll, nothing without a ledger |
| Rolling.RollsUpToOrders | core/rolling.py:254-270 | every sell to open is sent right after a buy to close of the same quantity |
| Rolling.RollsUpToAttempts | core/rolling.py:254-270 | unless an exception escaped, every position with a target gets its buy to close sent: a missing target or a failed roll does not stop the loop |
| Rolling.RollsUpToFails | core/rolling.py:256 | an exception from the target search is recorded and nothing else changes |
| Rolling.RollsUpToStops | core/rolling.py:254-256 | once an exception escapes, later positions change nothing |
| Rolling.ProcessRollsFacts | core/rolling.py:226-275 | no orders and a count of 0 when rolling is disabled or nothing is rollable; otherwise at most one success per rollable position, sells always right after their buys, and ledger rows matching the count |
| Rolling.RollAt | core/rolling.py:255-270 | one pass of the loop: the targets for the position, then the roll into the first one when there is one |
| Rolling.RollStep | core/rolling.py:254-270 | one pass takes the loop's outcome over the first `i` positions to its outcome over the first `i + 1` |
| Rolling.RollEach | core/rolling.py:252-275 | the loop answers the specified count or exception, the orders in the order sent, and the ledger rows appended |
| Rolling.ProcessRolls | core/rolling.py:226-275 | `process_rolls` answers, sends and writes what its specification gives |
| ExpiryDates.PyIntDigits | core/rolling.py:58-60 | `int()` of a plain digit string is the number it spells |
| ExpiryDates.PyIntBlank | core/rolling.py:58-62 | an empty or all-blank field is not a number, so it raises the ValueError the scan skips |
| ExpiryDates.PyIntStripsSpaces | core/rolling.py:58-60 | `int()` strips blanks around the digits |
| ExpiryDates.PyIntSigned | core/rolling.py:58-60 | `int()` accepts one leading sign |
| ExpiryDates.PyIntRejects | core/rolling.py:58-62 | a letter, a doubled sign or a doubled underscore in a field is a ValueError |
| ExpiryDates.YearLength | core/rolling.py:61 | a year has 365 days, 366 when it is a leap year |
| ExpiryDates.DaysBeforeDecember | core/rolling.py:61 | the eleven months before December hold 334 days, 335 in a leap year |
| ExpiryDates.OrdinalNextDay | core/rolling.py:67 | day ordinals count days from 1 January of year 1, so their difference is the number of days between two dates |
| ExpiryDates.ParseExpiry | core/rolling.py:57-64 | an expiry that reads at all reads as a valid calendar date |
| ExpiryDates.RemoveAllKeepsDigits | core/rolling.py:54 | removing a digit-free underlying keeps a leading run of digits in place |
| ExpiryDates.ExpiryDigits | core/rolling.py:53-55 | the expiry field of a symbol is six digits |
| ExpiryDates.ExpiryFieldAfterUnderlying | core/rolling.py:54-55 | removing a digit-free underlying from its own symbol leaves the six characters after it |
| ExpiryDates.TwoDigitField | core/rolling.py:58-60 | a zero-padded two-digit field reads as its number |
| ExpiryDates.ParseExpiryDigits | core/rolling.py:57-61 | six digits spelling a valid 20YY-MM-DD read back as that date |
| ExpiryDates.ParseExpiryOfFields | core/rolling.py:57-64 | when the three fields read as numbers, the expiry is the date they name if there is one, and the scan skips the position otherwise |
| ExpiryDates.ExpiryRoundTrip | core/rolling.py:53-61 | from a symbol written for a valid 20YY-MM-DD expiry the roll engine reads back that date, whatever the type and strike |
| Execution.SellsIsPrefix | core/execution.py:33-36 | the puts sold are the next ones of the selection, in order: the loop breaks rather than skipping |
| Execution.SellsWithinBudget | core/execution.py:33-36 | the collateral (100 times the strike) of what is sold fits the buying power the loop started with |
| Execution.SellsStopsAtOverdraw | core/execution.py:33-36 | the loop stops early only at the put whose collateral would overdraw what the sold ones left |
| Execution.OnePremiumRowPerSoldPut | core/execution.py:41-50 | each sold put leaves one premium row, in order, for one put contract on its underlying at its bid |
| Execution.OneTradeRowPerSoldPut | core/execution.py:52-60 | each sold put leaves one `sell_put` trade row, in order, for one contract at its strike |
| Execution.RecordSoldPut | core/execution.py:41-60 | a sold put appends its premium row and its trade row to the ledger |
| Execution.FirstRaiseSpec | core/execution.py:33-38 | the sales before the first raising market sell all go through, and that one raises |
| Execution.SellSelected | core/execution.py:33-63 | the budget loop sells the specified leading part of the selection up to the first market sell that raises, reports whether one raised, and records each sold put in the ledger when there is one |
| Execution.SelectionFacts | core/execution.py:25-32 | every selected put is one of the chain's puts and passed the screens, and per underlying at most the wheel layers still free are selected |
| Execution.SoldPuts | core/execution.py:10-65 | nothing is sold without allowed symbols or buying power; what is sold is a leading part of the selection that fits the buying power, stopping at the put that would overdraw it, only screened puts, and per underlying no more than the free layers |
| Execution.SellPuts | core/execution.py:10-65 | `sell_puts` raises ZeroDivisionError exactly when its selection raises; otherwise it returns the specified puts when every market sell goes through and raises the broker's error when one does not; either way the ledger gets two rows for each put sold before that point |
| Execution.CallChoiceSpec | core/execution.py:67-140 | fewer than 100 shares raise ValueError; otherwise the call raises exactly when a screened contract divides by zero, sells nothing exactly when no call passes the screens, and otherwise sells a screened call struck at or above the floor whose score is at least every other screened call's |
| Execution.SellCalls | core/execution.py:67-140 | `sell_calls` sells the specified call, using the ledger's adjusted cost basis as the strike floor when it has one, and records its two rows; a market sell that raises propagates and no row is written |
| ExecutionLimit.RemoveFirstAbsent | core/execution_limit.py:92-93 | removing a symbol that is not in the list changes nothing |
| ExecutionLimit.RemoveFirstAt | core/execution_limit.py:92-93 | `list.remove` takes out the first copy of a present symbol and keeps the rest in order |
| ExecutionLimit.RemoveFirstMultiset | core/execution_limit.py:92-93 | exactly one copy of the symbol goes, when there is one |
| ExecutionLimit.SymbolList.constructor | core/execution_limit.py:19-20 | the caller's list of allowed symbols, shared with the loop |
| ExecutionLimit.SymbolList.RemoveIfPresent | core/execution_limit.py:92-93 | the list loses the first copy of the symbol when it holds one |
| ExecutionLimit.Stop | core/execution_limit.py:42-47 | the loop ends at or after where it starts and no later than the end of the selection |
| ExecutionLimit.PlacedAreSubmits | core/execution_limit.py:42-62 | each placed put lies before the stopping point and got an id back from the order manager |
| ExecutionLimit.PlacedIncreasing | core/execution_limit.py:42-62 | the placed puts are in selection order |
| ExecutionLimit.PlacedComplete | core/execution_limit.py:42-62 | every put before the stopping point that got an id back is placed: none is skipped |
| ExecutionLimit.StopIsUnaffordable | core/execution_limit.py:44-47 | the loop stops early only at a put whose collateral exceeds what the placed puts left over |
| ExecutionLimit.ReservedWithinBuyingPower | core/execution_limit.py:44-62 | the collateral reserved for placed puts never exceeds the starting buying power |
| ExecutionLimit.TrackedAsPut | core/execution_limit.py:52-58 | every id the order manager gave back is tracked as a one-contract put sell under that id |
| ExecutionLimit.TrackedElsewhere | core/execution_limit.py:52-58 | an order whose id no submission used keeps its entry, and no other id appears |
| ExecutionLimit.PrunedShrinks | core/execution_limit.py:83-93 | the allowed list only loses symbols |
| ExecutionLimit.PrunedOnlySaturated | core/execution_limit.py:83-93 | each symbol the allowed list lost belongs to a placed put whose underlying, counting the new order, reached the layer limit (with non-empty counts) |
| ExecutionLimit.SaturatedRemoved | core/execution_limit.py:83-93 | when the list holds each symbol at most once, every placed put's underlying at its limit is gone from it |
| ExecutionLimit.ProgressDone | core/execution_limit.py:42-95 | when the loop ends, its ids, tracked orders, allowed list and premium rows are those of the whole run |
| ExecutionLimit.SellOnePut | core/execution_limit.py:51-93 | one turn for an affordable put: on an id, it is recorded, its collateral reserved and the allowed list pruned; otherwise nothing changes; the loop's bookkeeping advances by one put |
| ExecutionLimit.SellPutsLimit | core/execution_limit.py:19-95 | the ids answered, the orders tracked, the allowed list and the premium rows noted PENDING are those of the specified run over the selection; no trade row is written |
| ExecutionLimit.ValidIndicesSpec | core/execution_limit.py:129 | the positions kept are exactly those of calls struck at or above the basis, in increasing order |
| ExecutionLimit.ChooseCall | core/execution_limit.py:110-138 | a chosen position is a position of the chain |
| ExecutionLimit.ChooseCallSpec | core/execution_limit.py:110-138 | nothing is chosen exactly when every strike is below the basis; otherwise the chosen call is struck at or above the basis, scores at least as well as every valid call, and strictly better than every earlier one |
| ExecutionLimit.AsWrittenNeverChooses | core/execution_limit.py:110-138 | as written the choice never yields a call: it raises exactly when the chain is non-empty and either an open stock row exists or some call is struck at or above the entry price |
| ExecutionLimit.CallIndexingExample | core/execution_limit.py:129-137 | a call struck above the entry price, without a database: the intended choice sells it, the code as written raises TypeError |
| ExecutionLimit.CallBasisLookupExample | core/execution_limit.py:118-122 | the same call with a database holding the open stock position: the code as written raises KeyError |
| ExecutionLimit.FirstUnbound | core/execution_limit.py:30-33 | making the strategy calls in order stops at the first call whose arguments do not bind to its function's parameters, where TypeError is raised; every call runs only when all bind |
| ExecutionLimit.PutSearchRaises | core/execution_limit.py:30-33 | as written, `sell_puts_limit` raises TypeError at line 30 whatever its arguments, because `filter_underlying` is called without `buying_power_limit`; with that argument added, every call of lines 30-33 binds |
| ExecutionLimit.CallSearchRaises | core/execution_limit.py:107-115 | as written, `sell_calls_limit` raises TypeError at line 107 whatever its arguments; with line 107 mended, line 108 still raises on the unknown keyword `contract_type`; the call at line 115 binds |
| ExecutionLimit.SellCallsLimit | core/execution_limit.py:98-176 | no order when no call is chosen; otherwise the chosen call is submitted as a one-contract limit sell, tracked under its id when one comes back, and a call premium row noted PENDING is written for it; no trade row is written |
| ExecutionLimit.FilledOrdersLeaveNoRecord | core/execution_limit.py:186-198 | an order reported filled is no longer tracked, so the ledger branch never finds its details |
| ExecutionLimit.UpdateFilledOrders | core/execution_limit.py:179-235 | the order manager's update, whose reports are handed back unchanged; every filled order is gone from tracking |
| StrategyMatrix.ActionSpec | core/elite_display.py:262-270 | each action holds exactly in its own case, checked in the order capacity, entry, managing, ready |
| StrategyMatrix.AtCapacityIffNotAllowed | core/elite_display.py:259-264 | the matrix shows AT CAPACITY exactly when the capacity rule of the state holder refuses another put |
| StrategyMatrix.LayersSpec | core/elite_display.py:259 | the layers shown are the larger of puts and share lots; the call count changes neither the layers nor the action |
| StrategyMatrix.MissingSymbolRow | core/elite_display.py:245-270 | an underlying without counts shows IDLE with zero layers, and is at capacity only under a limit of zero or less |
| StrategyMatrix.NothingHeldIsIdle | core/elite_display.py:253-256 | an underlying holding nothing shows IDLE whatever state is recorded for it |
| StrategyMatrix.ShownNames | core/elite_display.py:254 | the state names as shown: SHORT PUT, LONG SHARES, SHORT CALL, SHORT CALL A (cut to twelve characters) and IDLE |
| StrategyMatrix.HeldStateLabels | core/elite_display.py:246-254 | an underlying holding something shows its state's name, or IDLE when there is no state for it |
| Runner.Lex | scripts/run_strategy_limit.py:63 | comparing two-part clock values field by field is comparing their weighted sums |
| Runner.NotAfterIsClockOrder | scripts/run_strategy_limit.py:63 | comparing times of day field by field is comparing them on the clock |
| Runner.MarketOpenWindow | scripts/run_strategy_limit.py:49-63 | the market is open exactly on Monday to Friday from 09:30:00 to 16:00:00, both ends included |
| Runner.MarketOpenBoundaries | scripts/run_strategy_limit.py:54-63 | 16:00:00 and 09:30:00 are open, the microsecond after the close and the one before the opening are not, and weekends are closed |
| Runner.BuyingPowerSpec | scripts/run_strategy_limit.py:170-172 | the buying power is never negative, is positive exactly when both the options buying power and the allocated balance are, and then is the smaller of the two |
| Runner.MatchingEmpty | scripts/run_strategy_limit.py:138-141 | the comprehension over the pending orders is empty exactly when no order of that kind is pending on the underlying |
| Runner.HasPendingOf | scripts/run_strategy_limit.py:138-141 | true exactly when an order of that kind is pending on the underlying |
| Runner.NoSymbolsNoActivity | scripts/run_strategy_limit.py:77-81 | the cycle ends at once, before rolls, state or orders, exactly when no symbol is enabled |
| Runner.RollsFirst | scripts/run_strategy_limit.py:100-111 | an exception from the rolls ends the cycle; otherwise the state is derived from positions fetched again exactly when a roll succeeded |
| Runner.CallsSpec | scripts/run_strategy_limit.py:134-150 | a covered call is offered exactly to the underlyings in the long-shares state without a pending call; the counts the cycle sees for such an underlying are the ones attached to its state, and the positions hold a long stock position in it |
| Runner.AllowedSpec | scripts/run_strategy_limit.py:154-181 | the put list keeps the configuration's order and holds exactly the enabled underlyings the capacity rule allows with no pending put; puts are sold exactly when the list is non-empty and the buying power positive |
| Runner.AllowedBelowCapacity | scripts/run_strategy_limit.py:155-162 | an underlying on the put list has fewer puts and fewer share lots than the layer limit |
| Runner.CallCandidates | scripts/run_strategy_limit.py:135-141 | the loop over the states finds exactly the long-shares underlyings without a pending call |
| Runner.EligibleForPuts | scripts/run_strategy_limit.py:155-162 | the loop over the enabled symbols keeps, in order, those the state holder allows that have no pending put |
| Runner.RunStrategyCycle | scripts/run_strategy_limit.py:74-189 | the cycle's outcome is its specification over the rolls' outcome; with no symbol nothing changes; the ledger gets exactly the rows of the rolls; a roll error leaves the state holder as it was; otherwise it caches the risk, then the counts, then the state of the positions used, each only when it and the ones before it were computed |
| Runner.CycleAsWrittenRaises | scripts/run_strategy_limit.py:134-181 | as written, a cycle raises exactly when its rolls raised, deriving its state raised, or it reaches a sale: at line 107 of `core/execution_limit.py` when some underlying is offered a covered call, so the put list is never built, and otherwise at line 30 when there is buying power and an underlying on the put list; no cycle places an order |
| Runner.SalesAsWrittenRaise | scripts/run_strategy_limit.py:134-181 | for any cycle that sells puts exactly when it has buying power and a non-empty put list, the sales as written end it at line 107 when it offers a covered call, otherwise at line 30 when it sells puts, and it never places an order |
| Runner.CycleWithBindingSales | scripts/run_strategy_limit.py:134-181 | with sales whose strategy calls bind, the cycle is its specification, and it places orders exactly when it offers a covered call or has buying power and an underlying on the put list |
| Runner.MatrixNeverSeeksEntry | scripts/run_strategy_limit.py:119-126 | as written the matrix is drawn with an empty put list, so it never shows SEEKING ENTRY, and an unknown underlying shows READY under a positive limit |
| Runner.MatrixShowsEntry | core/elite_display.py:263-266 | drawn with the cycle's put list, every underlying the cycle sells puts on shows SEEKING ENTRY |
| Runner.GappedSnoc | scripts/run_strategy_limit.py:284 | one more time, at least the interval after the last, keeps a list of times spaced |
| Runner.RunCycleGapped | scripts/run_strategy_limit.py:284-292 | a cycle run once the interval has passed keeps the cycles spaced |
| Runner.RunUpdateKeepsCycles | scripts/run_strategy_limit.py:302-329 | the order-update step runs no cycle and leaves the cycle clock alone |
| Runner.PassCycles | scripts/run_strategy_limit.py:271-332 | one pass of the loop keeps the cycles spaced |
| Runner.CyclesSpaced | scripts/run_strategy_limit.py:254-332 | cycles run at least one cycle interval apart, the first at least one interval after time 0 |
| Runner.RunUpdateGapped | scripts/run_strategy_limit.py:302-329 | the update step keeps the order updates spaced |
| Runner.RunCycleKeepsUpdates | scripts/run_strategy_limit.py:284-299 | a cycle runs no order update and leaves the update clock alone |
| Runner.PassUpdates | scripts/run_strategy_limit.py:271-332 | one pass keeps the order updates spaced |
| Runner.UpdatesSpaced | scripts/run_strategy_limit.py:255-329 | order updates run at least one update interval apart |
| Runner.OnceRunsOneCycle | scripts/run_strategy_limit.py:294-296 | under `--once` at most one cycle runs, and the loop has left after it |
| Runner.StoppedStays | scripts/run_strategy_limit.py:271-279 | once the loop has left, later observations change nothing |
| Runner.QuietPass | scripts/run_strategy_limit.py:273-279 | a pass that sees the market closed or a shutdown signal does nothing; a signal, or `--once`, ends the loop |
| Runner.MainLoop | scripts/run_strategy_limit.py:270-332 | the loop's cycles and updates are those of its specification over the observations |
| Runner.Shutdown | scripts/run_strategy_limit.py:338-346 | every pending order is cancelled; those whose cancel raised stay tracked, and the answer is the number removed |
| Runner.RunMain | scripts/run_strategy_limit.py:254-346 | under `--once` with the market closed at start `main` leaves at once without cleaning up; otherwise it runs the loop and then cancels, leaving only orders whose cancel raised |

## Left out

- Network and broker calls: the Alpaca client and its pagination are not modelled. Their answers are parameters of the operations.
- The clock, the New York timezone and `random.random()` are inputs. `time.sleep` is not modelled; the backoff delays are returned as a list.
- Locks, the `RLock` and the double-checked singleton in `core/thread_safe_manager.py`: the state holder is a sequential class. Its readers return the cached maps themselves, since Dafny maps are values and the shallow-copy aliasing question does not arise.
- File I/O: loading and saving JSON configuration and premium history, `save` and the database connection. `reload` and the constructor take the parsed document, or `None` for a missing file.
- Logging, the strategy logger and all display formatting. Only the strategy matrix's classification is modelled.
- `sell_puts` calls `strat_logger.set_filtered_symbols` without checking for a logger; the model assumes a logger is present.
- Floating point: prices, premiums and risk are exact, so float rounding in the source is not reproduced. The only exception is the cent rounding of the order manager.
- Strategy.ScoreOptions: the score formula `(1 - |delta|) * (250 / (dte + 5)) * (bid / strike)` is an abstract function, so results hold for any score.
- Contract construction from snapshots is not modelled (`Contract.from_contract_snapshot`, `from_contract`, and `models/contract.py`, which is not part of this model). Contracts without a snapshot are left out of the chain.
- `core/utils.py` is not part of this model. Both `core/rolling.py:10` and `core/state_manager.py:1` import `parse_option_symbol` from it. The roll engine and the state manager use the option-symbol parser of `core/elite_display.py` in its place. So the raise conditions of StateManager.CountsOkIff, StateManager.RiskIsTotal and the derivation ("raises exactly on a malformed strike") rest on that parser's reading of the strike.
- OptionSymbols.ParseOptionSymbolSpec: only a strike field made entirely of ASCII digits parses. Every other strike field is modelled as raising, although Python's `float()` also reads a sign, surrounding blanks, a decimal point, underscores between digits, an exponent, `inf` and `nan`. The split test uses ASCII digits, where `str.isdigit` also accepts other Unicode digits (such as `²` or `٣`), so Python can split at a position the model skips. ExpiryDates.PyInt likewise strips only ASCII whitespace and reads only ASCII digits, where Python's `int()` also strips Unicode whitespace and reads Unicode decimal digits.
- ExecutionLimit.SellPutsLimit: as written, `sell_puts_limit` raises TypeError at `core/execution_limit.py:30` on every call, before its loop (ExecutionLimit.PutSearchRaises, see Findings). The method models the evident intent: the loop over a given selection of puts, which is an input. It writes the premium row for any put; `core/execution_limit.py:77` formats `p.delta` with `:.3f`, so with a database a put without a delta raises TypeError there, after its order is tracked. No such put reaches the loop, because `filter_options` keeps only contracts with a delta.
- ExecutionLimit.SellCallsLimit: as written, `sell_calls_limit` raises TypeError at `core/execution_limit.py:107` on every call, and line 108 would raise next (ExecutionLimit.CallSearchRaises, see Findings). The method models the evident intent over a given chain of calls and their scores: the intended basis lookup and selection. As with SellPutsLimit, a chosen call without a delta would raise TypeError at line 165 with a database, after its order is tracked; the model writes its row, and `filter_options` never lets such a call through.
- ExecutionLimit.UpdateFilledOrders: the database branch at lines 188-232 is never entered with a tracked order (FilledOrdersLeaveNoRecord), so its trade rows are not modelled.
- `PendingOrder.max_attempts` is carried as the constant 10 and never checked, as in the source.
- Runner.RunStrategyCycle: the method answers the cycle's decisions, namely which underlyings get a call and the put list with its buying power; it does not call the sales. As written, the first sale a cycle reaches raises TypeError, and `run_strategy_cycle` has no handler around it. So a cycle with a covered call to offer ends at `core/execution_limit.py:107` before its put list is built; otherwise a cycle with buying power and a non-empty put list ends at line 30. No cycle of the limit runner places an order, and the loop's handler logs the error on every such cycle. Runner.CycleAsWrittenRaises states this, and Runner.CycleWithBindingSales gives the intended cycle. The effects of the intended sales are modelled and proved in ExecutionLimit.
- `db.add_position` for untracked long shares (`scripts/run_strategy_limit.py:143-146`) is not modelled.
- Runner.MainLoop: the loop runs over a finite sequence of observations (time, market open, shutdown requested, orders pending); an endless run is every finite prefix of it. A failing cycle or update is caught and logged, which the model represents as the event still taking place. `KeyboardInterrupt` is not modelled. Runner.RunMain ends with the cancel-all: the `finally` block then calls `db.close()` (`scripts/run_strategy_limit.py:349-351`), but `WheelDatabase` in `core/database.py` defines no `close`. So with a database, it raises AttributeError right after the cancel-all, and the session summary of lines 353-363 never runs. Neither step is modelled.
- Ledger.WheelDatabase.AddPremium and Ledger.WheelDatabase.AddTrade: writes are taken not to raise. The notes, timestamps and the cost-basis refresh after an insert are not modelled.
- `web_app.py` repeats the runner's cycle without the zero floor on buying power; it is not modelled.
- `core/professional_display.py`, `core/position_display.py` and the interactive scripts are presentation or terminal I/O and are not modelled.
- `scripts/run_strategy.py`, the legacy single-shot runner that uses `core/execution.py`, is not modelled; only the `sell_puts` and `sell_calls` operations themselves are.
- RetryDecorator.RetryOnFailure: the decorated function is given by its per-attempt outcomes, and an exception is either one the decorator catches or one it does not. The exception classes are not modelled.

## Findings

| source | as written | input that shows it | evidently intended | confidence | as-written member | corrected member |
|---|---|---|---|---|---|---|
| core/execution_limit.py:30-33 | `filter_underlying(client, allowed_symbols)` leaves out the required `buying_power_limit` of `core/strategy.py:3`, so `sell_puts_limit` raises TypeError at line 30 on every call and its loop at lines 42-93 never runs. Line 31 also passes the client as `options`, and line 33 leaves `max_per_symbol` and `position_counts` at their defaults. | any call of `sell_puts_limit`, for example from a runner cycle with buying power and one symbol on its put list | the loop over the puts selected with the buying power and the caller's position counts | not executed | ExecutionLimit.PutSearchRaises | ExecutionLimit.SellPutsLimit |
| core/execution_limit.py:107-108 | `filter_underlying(client, [symbol])` leaves out `buying_power_limit`, so `sell_calls_limit` raises TypeError at line 107 on every call. With that mended, line 108 passes the keyword `contract_type`, which `filter_options` does not accept, and raises TypeError too. Lines 110-176 never run. | any call of `sell_calls_limit`, for example from a runner cycle holding 100 shares with no pending call | the best-scored call struck at or above the cost basis, submitted as a limit sell | not executed | ExecutionLimit.CallSearchRaises | ExecutionLimit.SellCallsLimit |
| scripts/run_strategy_limit.py:134-181 | `run_strategy_cycle` calls `sell_calls_limit` and then `sell_puts_limit` with no handler, so the first sale a cycle reaches raises; a cycle with a covered call to offer never builds its put list | a cycle with long shares and no pending call ends at `core/execution_limit.py:107`; a cycle with buying power and an enabled symbol below capacity ends at line 30 | the cycle sells its covered calls, then puts on its put list | not executed | Runner.CycleAsWrittenRaises | Runner.CycleWithBindingSales |
| core/execution_limit.py:118-137 | These lines are reachable only once lines 107-108 are mended. `scores[valid_indices]` indexes the Python list returned by `score_options` with a list, so it raises `TypeError` whenever some call qualifies. With a database holding an open stock row, line 122 reads `adjusted_cost_basis`, a column the positions table does not have, and raises `KeyError` first. | one call struck at 200 against an entry price of 150, no database: TypeError; with an open stock row in the database: KeyError | the best-scored call struck at or above the adjusted basis (falling back to the entry price), the first on ties | not executed | ExecutionLimit.AsWrittenNeverChooses | ExecutionLimit.ChooseCallSpec |
| scripts/run_strategy_limit.py:119-126 | the strategy matrix is drawn with `allowed_symbols` still empty; the list is only filled at lines 155-162, so `core/elite_display.py:265-266` never shows SEEKING ENTRY | an enabled underlying with no positions under `max_layers` 2, which the same cycle then sells puts on, is shown READY | the matrix shows SEEKING ENTRY for every underlying the cycle will sell puts on | not executed | Runner.MatrixNeverSeeksEntry | Runner.MatrixShowsEntry |

=== FILE: config_loader.dfy ===
/**
 * The strategy configuration: a JSON document of balance settings, option
 * filters, rolling settings, per-symbol settings and a default contract count.
 * A key that may be absent from the document is an `Option`; the `symbols`
 * object is a list of entries in document order, each key once (a JSON object keeps its key
 * order when loaded).  Reading and writing the file are not modelled: the
 * loaded document is a parameter.
 */
module ConfigLoader {
  import opened Wrappers
  import opened Sequences

  datatype RollingOverride = RollingOverride(enabled: Option<bool>, strategy: Option<string>)

  datatype SymbolSettings = SymbolSettings(enabled: Option<bool>, contracts: Option<int>, rolling: Option<RollingOverride>)

  datatype SymbolEntry = SymbolEntry(symbol: string, settings: SymbolSettings)

  datatype BalanceSettings = BalanceSettings(allocationPercentage: Option<real>, maxWheelLayers: Option<int>)

  datatype RollingSettings = RollingSettings(enabled: Option<bool>, daysBeforeExpiry: Option<int>,
                                             minPremiumToRoll: Option<real>, rollDeltaTarget: Option<real>)

  datatype OptionFilters = OptionFilters(deltaMin: real, deltaMax: real, yieldMin: real, yieldMax: real,
                                         expirationMinDays: int, expirationMaxDays: int,
                                         openInterestMin: int, scoreMin: real)

  datatype ConfigData = ConfigData(
    balanceSettings: Option<BalanceSettings>,
    optionFilters: Option<OptionFilters>,
    rollingSettings: Option<RollingSettings>,
    symbols: Option<SymbolsObject>,
    defaultContracts: Option<int>)

  const DefaultFilters := OptionFilters(0.15, 0.30, 0.04, 1.00, 0, 21, 100, 0.05)

  /** The document written when no configuration file exists. */
  const DefaultConfig := ConfigData(Some(BalanceSettings(Some(0.5), Some(2))), Some(DefaultFilters), None, Some([]), Some(1))

  /** The rolling settings used when the document has none. */
  const DefaultRolling := RollingSettings(Some(false), Some(1), Some(0.05), Some(0.25))

  // ---------------------------------------------------------------------------
  // The symbols object

  function Keys(t: seq<SymbolEntry>): (ks: seq<string>)
    ensures |ks| == |t| && forall i :: 0 <= i < |t| ==> ks[i] == t[i].symbol
  {
    if t == [] then [] else [t[0].symbol] + Keys(t[1..])
  }

  /** A loaded JSON object has each key once. */
  predicate UniqueKeys(t: seq<SymbolEntry>)
  {
    Distinct(Keys(t))
  }

  /** The `symbols` object as `json.load` gives it: one entry per key. */
  type SymbolsObject = t: seq<SymbolEntry> | UniqueKeys(t) witness []

  /** `symbols.get(symbol)`: the first entry with that key. */
  function Lookup(t: seq<SymbolEntry>, s: string): (r: Option<SymbolSettings>)
    ensures r.None? <==> forall i :: 0 <= i < |t| ==> t[i].symbol != s
    ensures r.Some? ==> exists i :: 0 <= i < |t| && t[i] == SymbolEntry(s, r.value)
  {
    if t == [] then None
    else if t[0].symbol == s then Some(t[0].settings)
    else
      var r := Lookup(t[1..], s);
      assert forall i :: 1 <= i < |t| ==> t[1..][i - 1] == t[i];
      r
  }

  /** The settings of a symbol, `{}` when it has none (or the document has no symbols). */
  function SymbolConfig(c: ConfigData, s: string): SymbolSettings
  {
    if c.symbols.Some? && Lookup(c.symbols.value, s).Some? then Lookup(c.symbols.value, s).value
    else SymbolSettings(None, None, None)
  }

  /** `settings.get("enabled", True)`. */
  predicate EnabledFlag(settings: SymbolSettings)
  {
    settings.enabled.None? || settings.enabled.value
  }

  /** The keys of the entries whose `enabled` flag is true or absent, in document order. */
  function EnabledIn(t: seq<SymbolEntry>): seq<string>
  {
    if t == [] then [] else (if EnabledFlag(t[0].settings) then [t[0].symbol] else []) + EnabledIn(t[1..])
  }

  /** `get_enabled_symbols`. */
  function EnabledSymbols(c: ConfigData): seq<string>
  {
    if c.symbols.Some? then EnabledIn(c.symbols.value) else []
  }

  /**
   * The enabled symbols are, in document order, exactly the configured symbols
   * whose `enabled` flag is true or absent.
   */
  lemma {:induction false} EnabledInSpec(t: seq<SymbolEntry>)
    requires UniqueKeys(t)
    ensures IsSubsequence(EnabledIn(t), Keys(t))
    ensures forall s :: s in EnabledIn(t) <==> Lookup(t, s).Some? && EnabledFlag(Lookup(t, s).value)
  {
    if t != [] {
      EnabledInSpec(t[1..]);
      var rest := EnabledIn(t[1..]);
      assert Keys(t) == [t[0].symbol] + Keys(t[1..]);
      if EnabledFlag(t[0].settings) {
        assert ([t[0].symbol] + rest)[1..] == rest;
        assert Keys(t)[1..] == Keys(t[1..]);
      } else {
        assert [] + rest == rest;
        assert Keys(t)[1..] == Keys(t[1..]);
      }
      forall s
        ensures s in EnabledIn(t) <==> Lookup(t, s).Some? && EnabledFlag(Lookup(t, s).value)
      {
        if s == t[0].symbol {
          assert s !in Keys(t[1..]) by {
            forall i | 0 <= i < |t[1..]| ensures Keys(t[1..])[i] != s {
              assert t[1..][i] == t[i + 1];
            }
          }
          assert Lookup(t[1..], s).None?;
          assert s !in rest;
        }
      }
    }
  }

  // ---------------------------------------------------------------------------
  // Getters with defaults

  /** `get_contracts_for_symbol`: the symbol's own count, else the document's default, else 1. */
  function ContractsFor(c: ConfigData, s: string): int
  {
    var own := SymbolConfig(c, s).contracts;
    if own.Some? then own.value else if c.defaultContracts.Some? then c.defaultContracts.value else 1
  }

  /** `get_balance_allocation`: 0.5 when absent. */
  function BalanceAllocation(c: ConfigData): real
  {
    if c.balanceSettings.Some? && c.balanceSettings.value.allocationPercentage.Some? then
      c.balanceSettings.value.allocationPercentage.value
    else 0.5
  }

  /** `get_max_wheel_layers`: 2 when absent. */
  function MaxWheelLayers(c: ConfigData): int
  {
    if c.balanceSettings.Some? && c.balanceSettings.value.maxWheelLayers.Some? then
      c.balanceSettings.value.maxWheelLayers.value
    else 2
  }

  /** `get_option_filters`: the document's filters, or the built-in ones. */
  function Filters(c: ConfigData): OptionFilters
  {
    if c.optionFilters.Some? then c.optionFilters.value else DefaultFilters
  }

  /** `get_rolling_settings`: the document's rolling settings, or the defaults. */
  function Rolling(c: ConfigData): RollingSettings
  {
    if c.rollingSettings.Some? then c.rollingSettings.value else DefaultRolling
  }

  /** `rolling_settings.get("enabled", False)`. */
  predicate RollingGloballyEnabled(c: ConfigData)
  {
    Rolling(c).enabled == Some(true)
  }

  /** `rolling_settings.get("days_before_expiry", 1)`. */
  function DaysBeforeExpiry(c: ConfigData): int
  {
    if Rolling(c).daysBeforeExpiry.Some? then Rolling(c).daysBeforeExpiry.value else 1
  }

  /** `rolling_settings.get("min_premium_to_roll", 0.05)`. */
  function MinPremiumToRoll(c: ConfigData): real
  {
    if Rolling(c).minPremiumToRoll.Some? then Rolling(c).minPremiumToRoll.value else 0.05
  }

  /** `is_rolling_enabled_for_symbol`: the symbol's own `rolling.enabled`, else the global flag. */
  predicate RollingEnabledFor(c: ConfigData, s: string)
  {
    var r := SymbolConfig(c, s).rolling;
    if r.Some? && r.value.enabled.Some? then r.value.enabled.value else RollingGloballyEnabled(c)
  }

  /** `get_rolling_strategy_for_symbol`: "forward" unless the symbol sets one. */
  function RollingStrategyFor(c: ConfigData, s: string): string
  {
    var r := SymbolConfig(c, s).rolling;
    if r.Some? && r.value.strategy.Some? then r.value.strategy.value else "forward"
  }

  /** What a new or empty document answers: every documented default. */
  lemma Defaults(s: string)
    ensures BalanceAllocation(DefaultConfig) == 0.5 && MaxWheelLayers(DefaultConfig) == 2
    ensures ContractsFor(DefaultConfig, s) == 1
    ensures EnabledSymbols(DefaultConfig) == []
    ensures Rolling(DefaultConfig) == RollingSettings(Some(false), Some(1), Some(0.05), Some(0.25))
    ensures !RollingEnabledFor(DefaultConfig, s) && RollingStrategyFor(DefaultConfig, s) == "forward"
    ensures DaysBeforeExpiry(DefaultConfig) == 1 && MinPremiumToRoll(DefaultConfig) == 0.05
  {
  }

  /** A symbol's own rolling flag wins over the global one, whichever way it points. */
  lemma SymbolRollingOverrides(c: ConfigData, s: string, b: bool)
    requires c.symbols.Some? && Lookup(c.symbols.value, s).Some?
    requires Lookup(c.symbols.value, s).value.rolling.Some? && Lookup(c.symbols.value, s).value.rolling.value.enabled == Some(b)
    ensures RollingEnabledFor(c, s) == b
  {
  }

  // ---------------------------------------------------------------------------
  // update_symbol

  /** Sets the given fields of a symbol's settings, leaving the rest as they were. */
  function Merge(settings: SymbolSettings, enabled: Option<bool>, contracts: Option<int>): SymbolSettings
  {
    settings.(enabled := if enabled.Some? then enabled else settings.enabled,
              contracts := if contracts.Some? then contracts else settings.contracts)
  }

  /** The symbols object after `update_symbol`: the entry is updated in place, or added at the end. */
  function Updated(t: seq<SymbolEntry>, s: string, enabled: Option<bool>, contracts: Option<int>): seq<SymbolEntry>
  {
    if t == [] then [SymbolEntry(s, Merge(SymbolSettings(None, None, None), enabled, contracts))]
    else if t[0].symbol == s then [t[0].(settings := Merge(t[0].settings, enabled, contracts))] + t[1..]
    else [t[0]] + Updated(t[1..], s, enabled, contracts)
  }

  /** `update_symbol` sets only the fields it is given on that symbol; every other symbol keeps its settings. */
  lemma {:induction false} UpdatedLookup(t: seq<SymbolEntry>, s: string, enabled: Option<bool>, contracts: Option<int>, x: string)
    ensures Lookup(Updated(t, s, enabled, contracts), x) ==
              if x == s then Some(Merge(if Lookup(t, s).Some? then Lookup(t, s).value else SymbolSettings(None, None, None),
                                        enabled, contracts))
              else Lookup(t, x)
  {
    if t != [] && t[0].symbol != s {
      var u := Updated(t[1..], s, enabled, contracts);
      assert Updated(t, s, enabled, contracts)[1..] == u;
      UpdatedLookup(t[1..], s, enabled, contracts, x);
    } else if t != [] {
      assert Updated(t, s, enabled, contracts)[1..] == t[1..];
    }
  }

  /** The keys keep their order; a new symbol is added at the end. */
  lemma {:induction false} UpdatedKeys(t: seq<SymbolEntry>, s: string, enabled: Option<bool>, contracts: Option<int>)
    ensures Keys(Updated(t, s, enabled, contracts)) == if Lookup(t, s).Some? then Keys(t) else Keys(t) + [s]
  {
    if t != [] && t[0].symbol != s {
      var u := Updated(t[1..], s, enabled, contracts);
      assert Updated(t, s, enabled, contracts) == [t[0]] + u;
      UpdatedKeys(t[1..], s, enabled, contracts);
      assert Keys([t[0]] + u) == [t[0].symbol] + Keys(u);
      assert Keys(t) == [t[0].symbol] + Keys(t[1..]);
      assert Lookup(t, s) == Lookup(t[1..], s);
    }
  }

  /** Each key stays unique. */
  lemma UpdatedUnique(t: seq<SymbolEntry>, s: string, enabled: Option<bool>, contracts: Option<int>)
    requires UniqueKeys(t)
    ensures UniqueKeys(Updated(t, s, enabled, contracts))
  {
    UpdatedKeys(t, s, enabled, contracts);
    if Lookup(t, s).None? {
      var ks := Keys(t) + [s];
      forall i, j | 0 <= i < j < |ks| ensures ks[i] != ks[j] {
        if j == |ks| - 1 {
          assert ks[i] == t[i].symbol;
        }
      }
    }
  }

  /** The symbols object after `update_symbol`, which still holds each key once. */
  function UpdatedObject(t: SymbolsObject, s: string, enabled: Option<bool>, contracts: Option<int>): SymbolsObject
  {
    UpdatedUnique(t, s, enabled, contracts);
    Updated(t, s, enabled, contracts)
  }

  /** After `update_symbol(s, enabled=b)`, `s` is listed among the enabled symbols exactly when `b` holds. */
  lemma EnabledAfterUpdate(t: seq<SymbolEntry>, s: string, b: bool, contracts: Option<int>)
    requires UniqueKeys(t)
    ensures s in EnabledIn(Updated(t, s, Some(b), contracts)) <==> b
  {
    UpdatedUnique(t, s, Some(b), contracts);
    UpdatedLookup(t, s, Some(b), contracts, s);
    EnabledInSpec(Updated(t, s, Some(b), contracts));
  }

  /** After `update_symbol(s, contracts=k)`, `s` trades `k` contracts. */
  lemma ContractsAfterUpdate(c: ConfigData, s: string, enabled: Option<bool>, k: int)
    requires c.symbols.Some?
    ensures ContractsFor(c.(symbols := Some(UpdatedObject(c.symbols.value, s, enabled, Some(k)))), s) == k
  {
    UpdatedLookup(c.symbols.value, s, enabled, Some(k), s);
  }

  /** Why `update_symbol` raised. */
  datatype ConfigError = MissingSymbols  // `self.config["symbols"]` is a KeyError

  /** `StrategyConfig`: the loaded document; `save` and `reload` file I/O are not modelled. */
  class StrategyConfig {
    var config: ConfigData

    /** `loaded` is the parsed file, or `None` when it does not exist and the defaults are written. */
    constructor (loaded: Option<ConfigData>)
      ensures config == if loaded.Some? then loaded.value else DefaultConfig
    {
      config := if loaded.Some? then loaded.value else DefaultConfig;
    }

    /** `reload`: the document read again from the file. */
    method Reload(loaded: Option<ConfigData>)
      modifies this
      ensures config == if loaded.Some? then loaded.value else DefaultConfig
    {
      config := if loaded.Some? then loaded.value else DefaultConfig;
    }

    /** `update_symbol`; a document without a `symbols` object raises and is left unchanged. */
    method UpdateSymbol(s: string, enabled: Option<bool>, contracts: Option<int>) returns (r: Result<(), ConfigError>)
      modifies this
      ensures old(config).symbols.None? ==> r == Err(MissingSymbols) && config == old(config)
      ensures old(config).symbols.Some? ==>
                r.Ok? && config == old(config).(symbols := Some(UpdatedObject(old(config).symbols.value, s, enabled, contracts)))
    {
      if config.symbols.None? {
        return Err(MissingSymbols);
      }
      config := config.(symbols := Some(UpdatedObject(config.symbols.value, s, enabled, contracts)));
      r := Ok(());
    }
  }
}

=== FILE: execution.dfy ===
/**
 * Selling options with market orders.
 *
 * `sell_puts` screens the affordable underlyings, filters and scores their put
 * contracts, selects at most the configured number of wheel layers per
 * underlying, and sells down the selection: it takes each put's collateral
 * (100 times the strike) off the buying power first and stops as soon as the
 * balance goes negative.  `sell_calls` needs 100 shares, keeps the calls struck
 * at or above the cost basis (the database's adjusted cost when it has one)
 * and sells the best-scored one.
 *
 * The broker's answers (latest trades, the contracts with a snapshot, the
 * recorded cost basis, whether each market sell goes through) are parameters,
 * and a market sell is the contract returned in the list of sold ones.  A
 * market sell that raises (after its own retries) propagates out of both
 * functions: in `sell_puts` after the puts before it were sold and recorded.
 */
module Execution {
  import opened Wrappers
  import opened Sequences
  import SM = StateManager
  import L = Ledger
  import S = Strategy

  /** The exceptions that escape `sell_puts` and `sell_calls`; `BrokerError` is the one a raising market sell re-raises. */
  datatype ExecError = ValueError | ZeroDivisionError | BrokerError

  /** The collateral of a short put: 100 shares at the strike. */
  function Capital(c: S.Contract): real
  {
    100.0 * c.strike
  }

  function TotalCapital(cs: seq<S.Contract>): real
  {
    if cs == [] then 0.0 else Capital(cs[0]) + TotalCapital(cs[1..])
  }

  // ---------------------------------------------------------------------------
  // The put budget loop, as a function of its inputs

  /** The puts the loop sells from position `i` of `sel` on with `bp` left: it stops at the first whose collateral overdraws. */
  function SellsFrom(sel: seq<S.Contract>, i: nat, bp: real): seq<S.Contract>
    requires i <= |sel|
    decreases |sel| - i
  {
    if i == |sel| || bp - Capital(sel[i]) < 0.0 then [] else [sel[i]] + SellsFrom(sel, i + 1, bp - Capital(sel[i]))
  }

  /** The puts the loop sells from the selection `sel` with `bp` to spend. */
  function Sells(sel: seq<S.Contract>, bp: real): seq<S.Contract>
  {
    SellsFrom(sel, 0, bp)
  }

  /** The sold puts are the selection's next ones, in order: the loop breaks rather than skipping. */
  lemma {:induction false} SellsIsPrefix(sel: seq<S.Contract>, i: nat, bp: real)
    requires i <= |sel|
    ensures i + |SellsFrom(sel, i, bp)| <= |sel| && SellsFrom(sel, i, bp) == sel[i..i + |SellsFrom(sel, i, bp)|]
    decreases |sel| - i
  {
    if i < |sel| && bp - Capital(sel[i]) >= 0.0 {
      SellsIsPrefix(sel, i + 1, bp - Capital(sel[i]));
    }
  }

  /** Whatever is sold fits the buying power the loop started with. */
  lemma {:induction false} SellsWithinBudget(sel: seq<S.Contract>, i: nat, bp: real)
    requires i <= |sel|
    ensures SellsFrom(sel, i, bp) != [] || 0.0 <= bp ==> TotalCapital(SellsFrom(sel, i, bp)) <= bp
    decreases |sel| - i
  {
    if i < |sel| && bp - Capital(sel[i]) >= 0.0 {
      var rest := SellsFrom(sel, i + 1, bp - Capital(sel[i]));
      SellsWithinBudget(sel, i + 1, bp - Capital(sel[i]));
      assert ([sel[i]] + rest)[1..] == rest;
    }
  }

  /** The loop stops early only at the put that would overdraw what the sold ones left. */
  lemma {:induction false} SellsStopsAtOverdraw(sel: seq<S.Contract>, i: nat, bp: real)
    requires i <= |sel|
    ensures var k := i + |SellsFrom(sel, i, bp)|;
            k < |sel| ==> TotalCapital(SellsFrom(sel, i, bp)) + Capital(sel[k]) > bp
    decreases |sel| - i
  {
    if i < |sel| && bp - Capital(sel[i]) >= 0.0 {
      var rest := SellsFrom(sel, i + 1, bp - Capital(sel[i]));
      SellsStopsAtOverdraw(sel, i + 1, bp - Capital(sel[i]));
      assert ([sel[i]] + rest)[1..] == rest;
    }
  }

  // ---------------------------------------------------------------------------
  // Market sells that raise

  /** The first of the sales `i`..`n - 1` whose market sell raises, or `n` when all go through; `sellOk(k)` answers for the k-th sale. */
  function FirstRaise(i: nat, n: nat, sellOk: nat -> bool): (k: nat)
    requires i <= n
    ensures i <= k <= n
    decreases n - i
  {
    if i == n || !sellOk(i) then i else FirstRaise(i + 1, n, sellOk)
  }

  /** Every sale before the first raising one goes through, and that one (when it is within `n`) raises. */
  lemma {:induction false} FirstRaiseSpec(i: nat, n: nat, sellOk: nat -> bool)
    requires i <= n
    ensures forall j :: i <= j < FirstRaise(i, n, sellOk) ==> sellOk(j)
    ensures FirstRaise(i, n, sellOk) < n ==> !sellOk(FirstRaise(i, n, sellOk))
    decreases n - i
  {
    if i < n && sellOk(i) {
      FirstRaiseSpec(i + 1, n, sellOk);
    }
  }

  /** The puts of `due` that are sold: those before the first market sell that raises. */
  function SoldThrough(due: seq<S.Contract>, sellOk: nat -> bool): seq<S.Contract>
  {
    due[..FirstRaise(0, |due|, sellOk)]
  }

  /** A loop that has seen `i` sales go through and stops at `i` has sold `due[..i]`. */
  lemma SoldThroughAt(due: seq<S.Contract>, i: nat, sellOk: nat -> bool)
    requires i <= |due| && FirstRaise(0, |due|, sellOk) == FirstRaise(i, |due|, sellOk)
    requires i == |due| || !sellOk(i)
    ensures SoldThrough(due, sellOk) == due[..i]
  {
  }

  /** The premium row of a sold put: its bid as the premium, one contract, the contract's own expiration. */
  function PutPremiumRow(p: S.Contract): L.PremiumRecord
  {
    L.PremiumRecord(p.underlying, 'P', p.strike, p.bidPrice, 1, Some(p.expiration), "collected")
  }

  /** The trade row of a sold put. */
  function PutTradeRow(p: S.Contract): L.TradeRecord
  {
    L.TradeRecord(p.underlying, "sell_put", 1, p.bidPrice, Some(p.strike), Some(p.expiration), Some(p.bidPrice))
  }

  function PutPremiumRows(sold: seq<S.Contract>): seq<L.PremiumRecord>
  {
    if sold == [] then [] else PutPremiumRows(sold[..|sold| - 1]) + [PutPremiumRow(sold[|sold| - 1])]
  }

  function PutTradeRows(sold: seq<S.Contract>): seq<L.TradeRecord>
  {
    if sold == [] then [] else PutTradeRows(sold[..|sold| - 1]) + [PutTradeRow(sold[|sold| - 1])]
  }

  /** Each sold put leaves exactly one premium row, in order, for one contract of that put at its bid. */
  lemma {:induction false} OnePremiumRowPerSoldPut(sold: seq<S.Contract>)
    ensures |PutPremiumRows(sold)| == |sold|
    ensures forall k :: 0 <= k < |sold| ==>
              PutPremiumRows(sold)[k].symbol == sold[k].underlying && PutPremiumRows(sold)[k].optionType == 'P' &&
              PutPremiumRows(sold)[k].contracts == 1 && PutPremiumRows(sold)[k].premium == sold[k].bidPrice
  {
    if sold != [] {
      var init := sold[..|sold| - 1];
      OnePremiumRowPerSoldPut(init);
      forall k | 0 <= k < |sold| - 1 ensures PutPremiumRows(sold)[k] == PutPremiumRows(init)[k] && sold[k] == init[k] {
      }
    }
  }

  /** Each sold put leaves exactly one `sell_put` trade row, in order, for one contract at its strike. */
  lemma {:induction false} OneTradeRowPerSoldPut(sold: seq<S.Contract>)
    ensures |PutTradeRows(sold)| == |sold|
    ensures forall k :: 0 <= k < |sold| ==>
              PutTradeRows(sold)[k].symbol == sold[k].underlying && PutTradeRows(sold)[k].tradeType == "sell_put" &&
              PutTradeRows(sold)[k].quantity == 1 && PutTradeRows(sold)[k].strike == Some(sold[k].strike)
  {
    if sold != [] {
      var init := sold[..|sold| - 1];
      OneTradeRowPerSoldPut(init);
      forall k | 0 <= k < |sold| - 1 ensures PutTradeRows(sold)[k] == PutTradeRows(init)[k] && sold[k] == init[k] {
      }
    }
  }

  /** The rows of one more sold put. */
  lemma RowsSnoc(sold: seq<S.Contract>, p: S.Contract)
    ensures PutPremiumRows(sold + [p]) == PutPremiumRows(sold) + [PutPremiumRow(p)]
    ensures PutTradeRows(sold + [p]) == PutTradeRows(sold) + [PutTradeRow(p)]
  {
    assert (sold + [p])[..|sold|] == sold;
  }

  /** The two database rows of a sold put. */
  method RecordSoldPut(db: L.WheelDatabase, p: S.Contract)
    modifies db
    ensures db.premiums == old(db.premiums) + [PutPremiumRow(p)]
    ensures db.trades == old(db.trades) + [PutTradeRow(p)]
  {
    db.AddPremium(p.underlying, 'P', p.strike, p.bidPrice, 1, Some(p.expiration));
    db.AddTrade(p.underlying, "sell_put", 1, p.bidPrice, Some(p.strike), Some(p.expiration), Some(p.bidPrice));
  }

  /**
   * The budget loop of `sell_puts` over the selected puts: each put's collateral
   * is taken off first, the loop breaks once the balance is negative, a market
   * sell that raises ends the loop (`raised`), and a sold put is recorded in the
   * database when there is one.
   */
  method SellSelected(db: L.WheelDatabase?, selected: seq<S.Contract>, buyingPower: real, sellOk: nat -> bool)
    returns (sold: seq<S.Contract>, raised: bool)
    modifies db
    ensures sold == SoldThrough(Sells(selected, buyingPower), sellOk)
    ensures raised <==> |sold| < |Sells(selected, buyingPower)|
    ensures db != null ==> db.premiums == old(db.premiums) + PutPremiumRows(sold)
    ensures db != null ==> db.trades == old(db.trades) + PutTradeRows(sold)
  {
    ghost var premiums0 := if db != null then db.premiums else [];
    ghost var trades0 := if db != null then db.trades else [];
    ghost var due := Sells(selected, buyingPower);
    var bp := buyingPower;
    sold := [];
    raised := false;
    var i := 0;
    while i < |selected|
      invariant i <= |selected| && |sold| == i
      invariant due == sold + SellsFrom(selected, i, bp)
      invariant FirstRaise(0, |due|, sellOk) == FirstRaise(i, |due|, sellOk)
      invariant db != null ==> db.premiums == premiums0 + PutPremiumRows(sold) && db.trades == trades0 + PutTradeRows(sold)
    {
      var p := selected[i];
      bp := bp - 100.0 * p.strike;
      if bp < 0.0 {
        assert sold + [] == sold;
        break;
      }
      AppendCons(sold, p, SellsFrom(selected, i + 1, bp));
      assert i < |due|;
      if !sellOk(i) {
        raised := true;
        assert due[..i] == sold;
        SoldThroughAt(due, i, sellOk);
        return;
      }
      assert FirstRaise(i, |due|, sellOk) == FirstRaise(i + 1, |due|, sellOk);
      RowsSnoc(sold, p);
      if db != null {
        AppendSnoc(premiums0, PutPremiumRows(sold), PutPremiumRow(p));
        AppendSnoc(trades0, PutTradeRows(sold), PutTradeRow(p));
        RecordSoldPut(db, p);
      }
      sold := sold + [p];
      i := i + 1;
    }
    if i == |selected| {
      assert sold + [] == sold;
    }
    assert due[..i] == sold && i == |due|;
    SoldThroughAt(due, i, sellOk);
  }

  // ---------------------------------------------------------------------------
  // sell_puts

  /**
   * The selection `sell_puts` sells down: nothing without allowed symbols, with
   * no buying power or with no affordable underlying; otherwise the puts that
   * pass the screens (no strike floor), selected with at most `maxLayers` per
   * underlying less the puts already held.  A screen that divides by zero fails
   * the whole call.
   */
  function PutSelection(allowed: seq<string>, buyingPower: real, trades: seq<S.Trade>, puts: seq<S.Contract>,
                        th: S.Thresholds, score: S.Contract -> real, maxLayers: int, counts: map<string, SM.Counts>)
    : Result<seq<S.Contract>, ExecError>
  {
    if allowed == [] || buyingPower <= 0.0 || S.FilterUnderlying(trades, buyingPower) == [] then Ok([])
    else match S.FilterOptions(puts, th, 0.0)
      case Err(_) => Err(ZeroDivisionError)
      case Ok(fs) =>
        Ok(if fs == [] then [] else S.SelectSpec(fs, S.ScoreOptions(fs, score), th.scoreMin, S.Limits(maxLayers, counts, None)))
  }

  /** The number of sold puts on underlying `u`. */
  function SoldOn(sold: seq<S.Contract>, u: string): nat
  {
    |Filter(sold, S.On(u))|
  }

  /** Every selected put passed the screens, and per underlying at most the free wheel layers are selected. */
  lemma SelectionFacts(allowed: seq<string>, buyingPower: real, trades: seq<S.Trade>, puts: seq<S.Contract>,
                       th: S.Thresholds, score: S.Contract -> real, maxLayers: int, counts: map<string, SM.Counts>, u: string)
    requires PutSelection(allowed, buyingPower, trades, puts, th, score, maxLayers, counts).Ok?
    ensures var sel := PutSelection(allowed, buyingPower, trades, puts, th, score, maxLayers, counts).value;
            (forall c :: c in sel ==> c in puts && S.Keep(c, th, 0.0) == Ok(true)) &&
            SoldOn(sel, u) <= S.Max0(maxLayers - SM.Get(counts, u).puts)
  {
    var sel := PutSelection(allowed, buyingPower, trades, puts, th, score, maxLayers, counts).value;
    if sel != [] {
      var fs := S.FilterOptions(puts, th, 0.0).value;
      var scores := S.ScoreOptions(fs, score);
      var lim := S.Limits(maxLayers, counts, None);
      S.FilterOptionsSpec(puts, th, 0.0);
      S.SelectedAboveScoreMin(fs, scores, th.scoreMin, lim);
      var t := S.SelectedOn(fs, scores, th.scoreMin, lim, u);
    }
  }

  /** Filtering a prefix keeps at most as many elements as filtering the whole. */
  lemma FilterPrefix<T>(xs: seq<T>, k: nat, p: T -> bool)
    requires k <= |xs|
    ensures |Filter(xs[..k], p)| <= |Filter(xs, p)|
  {
    assert xs == xs[..k] + xs[k..];
    FilterAppend(xs[..k], xs[k..], p);
  }

  /**
   * What `sell_puts` sells: nothing without allowed symbols or buying power; a
   * leading part of the selection whose collateral fits the buying power, up to
   * the put that would overdraw it; only screened puts; and per underlying no
   * more than the wheel layers still free.
   */
  lemma SoldPuts(allowed: seq<string>, buyingPower: real, trades: seq<S.Trade>, puts: seq<S.Contract>,
                 th: S.Thresholds, score: S.Contract -> real, maxLayers: int, counts: map<string, SM.Counts>, u: string)
    requires PutSelection(allowed, buyingPower, trades, puts, th, score, maxLayers, counts).Ok?
    ensures var sel := PutSelection(allowed, buyingPower, trades, puts, th, score, maxLayers, counts).value;
            var sold := Sells(sel, buyingPower);
            (allowed == [] || buyingPower <= 0.0 ==> sold == []) &&
            |sold| <= |sel| && sold == sel[..|sold|] &&
            (sold != [] ==> TotalCapital(sold) <= buyingPower) &&
            (|sold| < |sel| ==> TotalCapital(sold) + Capital(sel[|sold|]) > buyingPower) &&
            (forall c :: c in sold ==> c in puts && S.Keep(c, th, 0.0) == Ok(true)) &&
            SoldOn(sold, u) <= S.Max0(maxLayers - SM.Get(counts, u).puts)
  {
    var sel := PutSelection(allowed, buyingPower, trades, puts, th, score, maxLayers, counts).value;
    var sold := Sells(sel, buyingPower);
    SellsIsPrefix(sel, 0, buyingPower);
    SellsWithinBudget(sel, 0, buyingPower);
    SellsStopsAtOverdraw(sel, 0, buyingPower);
    SelectionFacts(allowed, buyingPower, trades, puts, th, score, maxLayers, counts, u);
    FilterPrefix(sel, |sold|, S.On(u));
  }

  /**
   * `sell_puts`: the contracts market-sold, in order, or the exception that
   * escapes; `trades` is the latest-trade answer for the allowed symbols and
   * `puts` the put contracts that have a snapshot.
   */
  method SellPuts(db: L.WheelDatabase?, allowed: seq<string>, buyingPower: real, trades: seq<S.Trade>,
                  puts: seq<S.Contract>, th: S.Thresholds, score: S.Contract -> real, maxLayers: int,
                  counts: map<string, SM.Counts>, sellOk: nat -> bool)
    returns (r: Result<seq<S.Contract>, ExecError>)
    modifies db
    ensures var plan := PutSelection(allowed, buyingPower, trades, puts, th, score, maxLayers, counts);
            (plan.Err? ==> r == Err(ZeroDivisionError)) &&
            (plan.Ok? ==>
               var due := Sells(plan.value, buyingPower);
               (r.Ok? <==> FirstRaise(0, |due|, sellOk) == |due|) &&
               (r.Ok? ==> r.value == due) && (r.Err? ==> r == Err(BrokerError)))
    ensures var plan := PutSelection(allowed, buyingPower, trades, puts, th, score, maxLayers, counts);
            var sold := if plan.Ok? then SoldThrough(Sells(plan.value, buyingPower), sellOk) else [];
            db != null ==> db.premiums == old(db.premiums) + PutPremiumRows(sold) &&
                           db.trades == old(db.trades) + PutTradeRows(sold)
  {
    if allowed == [] || buyingPower <= 0.0 {
      return Ok([]);
    }
    var filteredSymbols := S.FilterUnderlying(trades, buyingPower);
    if |filteredSymbols| == 0 {
      return Ok([]);
    }
    var putOptions := S.FilterOptions(puts, th, 0.0);
    if putOptions.Err? {
      return Err(ZeroDivisionError);
    }
    if putOptions.value == [] {
      return Ok([]);
    }
    var scores := S.ScoreOptions(putOptions.value, score);
    var selected := S.SelectOptions(putOptions.value, scores, None, maxLayers, counts, th.scoreMin);
    var sold, raised := SellSelected(db, selected, buyingPower, sellOk);
    if raised {
      return Err(BrokerError);
    }
    r := Ok(sold);
  }

  // ---------------------------------------------------------------------------
  // sell_calls

  /** The call strike floor: the database's adjusted cost when it has one, otherwise the purchase price. */
  function StrikeFloor(recorded: Option<real>, purchasePrice: real): real
  {
    if recorded.Some? then recorded.value else purchasePrice
  }

  /**
   * The call `sell_calls` sells: a `ValueError` below 100 shares, the screen's
   * failure when a contract divides by zero, nothing when no call passes the
   * screens with the strike floor, otherwise the first best-scored one.
   */
  function CallChoice(stockQty: int, floor: real, calls: seq<S.Contract>, th: S.Thresholds, score: S.Contract -> real)
    : Result<Option<S.Contract>, ExecError>
  {
    if stockQty < 100 then Err(ValueError)
    else match S.FilterOptions(calls, th, floor)
      case Err(_) => Err(ZeroDivisionError)
      case Ok(cs) => if cs == [] then Ok(None) else Ok(Some(cs[Argmax(S.ScoreOptions(cs, score))]))
  }

  /**
   * Fewer than 100 shares always raise `ValueError`; otherwise the call fails
   * exactly when a screened contract divides by zero, sells nothing exactly
   * when no call passes the screens, and otherwise sells a call struck at or
   * above the floor that passes the screens and scores at least as well as
   * every other such call.
   */
  lemma CallChoiceSpec(stockQty: int, floor: real, calls: seq<S.Contract>, th: S.Thresholds, score: S.Contract -> real)
    ensures var r := CallChoice(stockQty, floor, calls, th, score);
            (r == Err(ValueError) <==> stockQty < 100) &&
            (r == Err(ZeroDivisionError) <==>
               stockQty >= 100 && exists i :: 0 <= i < |calls| && S.Keep(calls[i], th, floor).Err?) &&
            (r == Ok(None) <==> stockQty >= 100 && forall i :: 0 <= i < |calls| ==> S.Keep(calls[i], th, floor) == Ok(false))
    ensures var r := CallChoice(stockQty, floor, calls, th, score);
            r.Ok? && r.value.Some? ==>
              var c := r.value.value;
              c in calls && c.strike >= floor && S.Keep(c, th, floor) == Ok(true) &&
              forall d :: d in calls && S.Keep(d, th, floor) == Ok(true) ==> score(d) <= score(c)
  {
    S.FilterOptionsSpec(calls, th, floor);
    var f := S.FilterOptions(calls, th, floor);
    if stockQty >= 100 && f.Ok? {
      var cs := f.value;
      if cs == [] {
        forall i | 0 <= i < |calls| ensures S.Keep(calls[i], th, floor) == Ok(false) {
          assert calls[i] !in cs;
        }
      } else {
        assert cs[0] in cs;
        var xs := S.ScoreOptions(cs, score);
        var k := Argmax(xs);
        assert cs[k] in cs;
        forall d | d in calls && S.Keep(d, th, floor) == Ok(true) ensures score(d) <= score(cs[k]) {
          var j :| 0 <= j < |cs| && cs[j] == d;
          assert xs[j] <= xs[k];
        }
        var i :| 0 <= i < |calls| && calls[i] == cs[0];
        assert S.Keep(calls[i], th, floor) != Ok(false);
      }
    }
  }

  /** The premium row of a sold call. */
  function CallPremiumRow(symbol: string, c: S.Contract): L.PremiumRecord
  {
    L.PremiumRecord(symbol, 'C', c.strike, c.bidPrice, 1, Some(c.expiration), "collected")
  }

  /** The trade row of a sold call. */
  function CallTradeRow(symbol: string, c: S.Contract): L.TradeRecord
  {
    L.TradeRecord(symbol, "sell_call", 1, c.bidPrice, Some(c.strike), Some(c.expiration), Some(c.bidPrice))
  }

  /**
   * `sell_calls`: the call market-sold, if any, or the exception that escapes.
   * `recorded` is the database's adjusted cost basis for the symbol when it has
   * a row, and is only consulted when there is a database; `sellOk` says
   * whether the market sell goes through.
   */
  method SellCalls(db: L.WheelDatabase?, symbol: string, purchasePrice: real, stockQty: int, recorded: Option<real>,
                   calls: seq<S.Contract>, th: S.Thresholds, score: S.Contract -> real, sellOk: bool)
    returns (r: Result<Option<S.Contract>, ExecError>)
    modifies db
    ensures var choice := CallChoice(stockQty, StrikeFloor(if db != null then recorded else None, purchasePrice), calls, th, score);
            r == (if choice.Ok? && choice.value.Some? && !sellOk then Err(BrokerError) else choice)
    ensures db != null ==>
              db.premiums == old(db.premiums) + (if r.Ok? && r.value.Some? then [CallPremiumRow(symbol, r.value.value)] else []) &&
              db.trades == old(db.trades) + (if r.Ok? && r.value.Some? then [CallTradeRow(symbol, r.value.value)] else [])
  {
    if stockQty < 100 {
      return Err(ValueError);
    }
    var strikeFilterPrice := purchasePrice;
    if db != null {
      if recorded.Some? {
        strikeFilterPrice := recorded.value;
      }
    }
    var callOptions := S.FilterOptions(calls, th, strikeFilterPrice);
    if callOptions.Err? {
      return Err(ZeroDivisionError);
    }
    if callOptions.value == [] {
      return Ok(None);
    }
    var scores := S.ScoreOptions(callOptions.value, score);
    var contract := callOptions.value[Argmax(scores)];
    if !sellOk {
      return Err(BrokerError);
    }
    if db != null {
      db.AddPremium(symbol, 'C', contract.strike, contract.bidPrice, 1, Some(contract.expiration));
      db.AddTrade(symbol, "sell_call", 1, contract.bidPrice, Some(contract.strike), Some(contract.expiration),
                  Some(contract.bidPrice));
    }
    r := Ok(Some(contract));
  }
}

=== FILE: execution_limit.dfy ===
/**
 * Selling options with limit orders through the order manager.
 *
 * The put loop walks a selected list of put contracts, stops at the first one
 * whose collateral (100 times the strike) exceeds the buying power left,
 * reserves that collateral only when the order manager hands back an order id,
 * records each placed put in the database, and takes an underlying that has
 * reached its layer limit out of the caller's list of allowed symbols.  The
 * call choice keeps the calls struck at or above the cost basis and takes the
 * best-scored one, the first on ties.
 *
 * As written, both sales call `filter_underlying` without its buying-power
 * argument, so each raises TypeError before it trades; Python's argument
 * binding is modelled to show it.  The methods model the evident intent, with
 * the selected puts and the call candidates as inputs.  Every broker answer is
 * a parameter, indexed by the position of the contract in the selection.
 */
module ExecutionLimit {
  import opened Wrappers
  import opened Sequences
  import OM = OrderManager
  import SM = StateManager
  import L = Ledger
  import S = Strategy

  // ---------------------------------------------------------------------------
  // The caller's list of allowed symbols

  /** `xs` without the first occurrence of `x` (`xs` itself when `x` is absent). */
  function RemoveFirst(xs: seq<string>, x: string): seq<string>
  {
    if xs == [] then [] else if xs[0] == x then xs[1..] else [xs[0]] + RemoveFirst(xs[1..], x)
  }

  /** Removing an absent symbol changes nothing. */
  lemma {:induction false} RemoveFirstAbsent(xs: seq<string>, x: string)
    requires x !in xs
    ensures RemoveFirst(xs, x) == xs
  {
    if xs != [] {
      assert x !in xs[1..] by {
        forall k | 0 <= k < |xs[1..]| ensures xs[1..][k] != x {
          assert xs[1..][k] == xs[k + 1];
        }
      }
      RemoveFirstAbsent(xs[1..], x);
    }
  }

  /** `list.remove` takes out the first copy of a present symbol and keeps the order of the rest. */
  lemma {:induction false} RemoveFirstAt(xs: seq<string>, x: string) returns (k: nat)
    requires x in xs
    ensures k < |xs| && xs[k] == x && x !in xs[..k]
    ensures RemoveFirst(xs, x) == xs[..k] + xs[k + 1..]
  {
    if xs[0] == x {
      k := 0;
    } else {
      assert x in xs[1..] by {
        var j :| 0 <= j < |xs| && xs[j] == x;
        assert xs[1..][j - 1] == x;
      }
      var k' := RemoveFirstAt(xs[1..], x);
      k := k' + 1;
      assert xs[..k] == [xs[0]] + xs[1..][..k'];
      assert xs[k + 1..] == xs[1..][k' + 1..];
    }
  }

  /** Exactly one copy of the symbol goes, when there is one. */
  lemma {:induction false} RemoveFirstMultiset(xs: seq<string>, x: string)
    ensures multiset(RemoveFirst(xs, x)) == multiset(xs) - multiset{x}
  {
    if x in xs {
      var k := RemoveFirstAt(xs, x);
      RemoveAtMultiset(xs, k);
    } else {
      RemoveFirstAbsent(xs, x);
    }
  }

  /** The `allowed_symbols` list the caller passes in and sees edited. */
  class SymbolList {
    var items: seq<string>

    constructor (items: seq<string>)
      ensures this.items == items
    {
      this.items := items;
    }

    /** `if x in allowed_symbols: allowed_symbols.remove(x)`. */
    method RemoveIfPresent(x: string)
      modifies this
      ensures items == RemoveFirst(old(items), x)
    {
      if x in items {
        items := RemoveFirst(items, x);
      } else {
        RemoveFirstAbsent(items, x);
      }
    }
  }

  // ---------------------------------------------------------------------------
  // The put loop, as a function of its inputs

  /** The order manager's answers for the i-th contract of a run: its quote and the id the broker gives the order. */
  datatype SellAnswers = SellAnswers(quotes: nat -> Option<OM.Quote>, placed: nat -> Option<string>)

  /** What `submit_limit_sell` returns for the i-th contract. */
  function Submitted(a: SellAnswers, i: nat): Option<string>
  {
    if a.quotes(i).Some? then a.placed(i) else None
  }

  /** `if order_id:` — an id came back and it is not the empty string. */
  predicate Truthy(r: Option<string>)
  {
    r.Some? && r.value != ""
  }

  /** The id of the i-th order, when it has one. */
  function IdAt(a: SellAnswers, i: nat): string
  {
    if Submitted(a, i).Some? then Submitted(a, i).value else ""
  }

  /** The collateral a short put ties up: 100 shares at the strike. */
  function Capital(c: S.Contract): real
  {
    100.0 * c.strike
  }

  /** The positions, from `i` on, of the puts that get an order when `bp` is left. */
  function Placed(sel: seq<S.Contract>, a: SellAnswers, i: nat, bp: real): seq<nat>
    requires i <= |sel|
    decreases |sel| - i
  {
    if i == |sel| || Capital(sel[i]) > bp then []
    else if Truthy(Submitted(a, i)) then [i] + Placed(sel, a, i + 1, bp - Capital(sel[i]))
    else Placed(sel, a, i + 1, bp)
  }

  /** Where the loop ends: the first put it cannot afford, or the end of the selection. */
  function Stop(sel: seq<S.Contract>, a: SellAnswers, i: nat, bp: real): (k: nat)
    requires i <= |sel|
    ensures i <= k <= |sel|
    decreases |sel| - i
  {
    if i == |sel| || Capital(sel[i]) > bp then i
    else Stop(sel, a, i + 1, if Truthy(Submitted(a, i)) then bp - Capital(sel[i]) else bp)
  }

  /** The collateral of the puts at positions `ps`. */
  function CapitalSum(sel: seq<S.Contract>, ps: seq<nat>): real
  {
    if ps == [] then 0.0 else (if ps[0] < |sel| then Capital(sel[ps[0]]) else 0.0) + CapitalSum(sel, ps[1..])
  }

  /** The puts at positions `ps`. */
  function Sold(sel: seq<S.Contract>, ps: seq<nat>): seq<S.Contract>
  {
    if ps == [] then []
    else Sold(sel, ps[..|ps| - 1]) + (if ps[|ps| - 1] < |sel| then [sel[ps[|ps| - 1]]] else [])
  }

  /** The order ids of the puts at positions `ps`. */
  function IdsOf(a: SellAnswers, ps: seq<nat>): seq<string>
  {
    if ps == [] then [] else IdsOf(a, ps[..|ps| - 1]) + [IdAt(a, ps[|ps| - 1])]
  }

  /** The pending order `submit_limit_sell` tracks for a put (no price adjustment). */
  function PutOrder(c: S.Contract, q: OM.Quote, id: string, now: int): OM.PendingOrder
  {
    OM.PendingOrder(id, c.symbol, OM.Sell, 1, OM.SellLimit(q, 0), q.bid, now, now, "put",
                    if c.underlying != "" then c.underlying else c.symbol, Some(c.strike), None, 0, 10)
  }

  /** The order manager's orders after the first `k` puts were submitted. */
  function Tracked(m: map<string, OM.PendingOrder>, sel: seq<S.Contract>, a: SellAnswers, k: nat, now: int)
    : map<string, OM.PendingOrder>
    requires k <= |sel|
  {
    if k == 0 then m
    else
      var prev := Tracked(m, sel, a, k - 1, now);
      if Submitted(a, k - 1).Some? then prev[IdAt(a, k - 1) := PutOrder(sel[k - 1], a.quotes(k - 1).value, IdAt(a, k - 1), now)]
      else prev
  }

  /** The database row of a placed put: the bid as the premium, expiring `dte` days from `today`. */
  function PutRow(c: S.Contract, today: int): L.PremiumRecord
  {
    L.PremiumRecord(c.underlying, 'P', c.strike, c.bidPrice, 1, Some(today + c.dte), "collected")
  }

  function PutRows(sold: seq<S.Contract>, today: int): seq<L.PremiumRecord>
  {
    if sold == [] then [] else PutRows(sold[..|sold| - 1], today) + [PutRow(sold[|sold| - 1], today)]
  }

  /** `if position_counts:` and the pending order takes the underlying to its layer limit. */
  predicate Saturated(counts: map<string, SM.Counts>, u: string, maxLayers: int)
  {
    |counts| > 0 && SM.Get(counts, u).puts + 1 >= maxLayers
  }

  /** The allowed list after each sold put whose underlying reached its limit was taken out once. */
  function Pruned(allowed: seq<string>, sold: seq<S.Contract>, counts: map<string, SM.Counts>, maxLayers: int): seq<string>
  {
    if sold == [] then allowed
    else
      var prev := Pruned(allowed, sold[..|sold| - 1], counts, maxLayers);
      var u := sold[|sold| - 1].underlying;
      if Saturated(counts, u, maxLayers) then RemoveFirst(prev, u) else prev
  }

  // ---------------------------------------------------------------------------
  // What the put loop promises

  /** Each placed position lies inside the part the loop reached and got an id back. */
  lemma {:induction false} PlacedAreSubmits(sel: seq<S.Contract>, a: SellAnswers, i: nat, bp: real)
    requires i <= |sel|
    ensures forall m :: 0 <= m < |Placed(sel, a, i, bp)| ==>
              i <= Placed(sel, a, i, bp)[m] < Stop(sel, a, i, bp) && Truthy(Submitted(a, Placed(sel, a, i, bp)[m]))
    decreases |sel| - i
  {
    if i < |sel| && Capital(sel[i]) <= bp {
      var bp' := if Truthy(Submitted(a, i)) then bp - Capital(sel[i]) else bp;
      PlacedAreSubmits(sel, a, i + 1, bp');
      PutLoopStep(sel, a, i, bp);
      var rest := Placed(sel, a, i + 1, bp');
      if Truthy(Submitted(a, i)) {
        assert forall m :: 1 <= m < |[i] + rest| ==> ([i] + rest)[m] == rest[m - 1];
      }
    }
  }

  /** The placed positions are in selection order. */
  lemma {:induction false} PlacedIncreasing(sel: seq<S.Contract>, a: SellAnswers, i: nat, bp: real)
    requires i <= |sel|
    ensures forall m, n :: 0 <= m < n < |Placed(sel, a, i, bp)| ==> Placed(sel, a, i, bp)[m] < Placed(sel, a, i, bp)[n]
    decreases |sel| - i
  {
    if i < |sel| && Capital(sel[i]) <= bp {
      var bp' := if Truthy(Submitted(a, i)) then bp - Capital(sel[i]) else bp;
      PlacedIncreasing(sel, a, i + 1, bp');
      PlacedAreSubmits(sel, a, i + 1, bp');
      PutLoopStep(sel, a, i, bp);
      var rest := Placed(sel, a, i + 1, bp');
      if Truthy(Submitted(a, i)) {
        ConsIncreasing(i, rest);
      }
    }
  }

  /** Putting a position before larger, increasing positions keeps them increasing. */
  lemma ConsIncreasing(i: nat, rest: seq<nat>)
    requires forall m :: 0 <= m < |rest| ==> i < rest[m]
    requires forall m, n :: 0 <= m < n < |rest| ==> rest[m] < rest[n]
    ensures forall m, n :: 0 <= m < n < |[i] + rest| ==> ([i] + rest)[m] < ([i] + rest)[n]
  {
    var p := [i] + rest;
    forall m, n | 0 <= m < n < |p| ensures p[m] < p[n] {
      assert p[n] == rest[n - 1];
      if m > 0 {
        assert p[m] == rest[m - 1];
      }
    }
  }

  /** Every put before the stopping point that got an id back is among the placed ones: no put is skipped. */
  lemma {:induction false} PlacedComplete(sel: seq<S.Contract>, a: SellAnswers, i: nat, bp: real, j: nat)
    requires i <= |sel| && i <= j < Stop(sel, a, i, bp) && Truthy(Submitted(a, j))
    ensures j in Placed(sel, a, i, bp)
    decreases |sel| - i
  {
    var bp' := if Truthy(Submitted(a, i)) then bp - Capital(sel[i]) else bp;
    if j > i {
      PlacedComplete(sel, a, i + 1, bp', j);
    }
  }

  /** The loop stops early only at a put whose collateral exceeds what the placed puts left over. */
  lemma {:induction false} StopIsUnaffordable(sel: seq<S.Contract>, a: SellAnswers, i: nat, bp: real)
    requires i <= |sel|
    ensures var k := Stop(sel, a, i, bp);
            k < |sel| ==> Capital(sel[k]) > bp - CapitalSum(sel, Placed(sel, a, i, bp))
    decreases |sel| - i
  {
    if i < |sel| && Capital(sel[i]) <= bp {
      var bp' := if Truthy(Submitted(a, i)) then bp - Capital(sel[i]) else bp;
      StopIsUnaffordable(sel, a, i + 1, bp');
      var p := Placed(sel, a, i, bp);
      if Truthy(Submitted(a, i)) {
        assert p == [i] + Placed(sel, a, i + 1, bp');
        assert p[1..] == Placed(sel, a, i + 1, bp');
      }
    }
  }

  /** The collateral reserved for placed puts never exceeds the buying power the loop started with. */
  lemma {:induction false} ReservedWithinBuyingPower(sel: seq<S.Contract>, a: SellAnswers, i: nat, bp: real)
    requires i <= |sel|
    ensures Placed(sel, a, i, bp) != [] ==> CapitalSum(sel, Placed(sel, a, i, bp)) <= bp
    decreases |sel| - i
  {
    if i < |sel| && Capital(sel[i]) <= bp {
      var bp' := if Truthy(Submitted(a, i)) then bp - Capital(sel[i]) else bp;
      ReservedWithinBuyingPower(sel, a, i + 1, bp');
      var p := Placed(sel, a, i, bp);
      if Truthy(Submitted(a, i)) {
        assert p[1..] == Placed(sel, a, i + 1, bp');
      }
    }
  }

  /** Every submitted id ends up tracked as a one-contract sell of a put. */
  lemma {:induction false} TrackedAsPut(m: map<string, OM.PendingOrder>, sel: seq<S.Contract>, a: SellAnswers,
                                        k: nat, now: int, j: nat)
    requires j < k <= |sel| && Submitted(a, j).Some?
    ensures var t := Tracked(m, sel, a, k, now);
            IdAt(a, j) in t && t[IdAt(a, j)].orderType == "put" && t[IdAt(a, j)].quantity == 1 &&
            t[IdAt(a, j)].side == OM.Sell && t[IdAt(a, j)].orderId == IdAt(a, j)
  {
    if j < k - 1 {
      TrackedAsPut(m, sel, a, k - 1, now, j);
    }
  }

  /** An order whose id no submission used keeps its entry, and no other id appears. */
  lemma {:induction false} TrackedElsewhere(m: map<string, OM.PendingOrder>, sel: seq<S.Contract>, a: SellAnswers,
                                            k: nat, now: int, id: string)
    requires k <= |sel|
    requires forall j :: 0 <= j < k && Submitted(a, j).Some? ==> IdAt(a, j) != id
    ensures var t := Tracked(m, sel, a, k, now);
            (id in t <==> id in m) && (id in m ==> t[id] == m[id])
  {
    if k > 0 {
      TrackedElsewhere(m, sel, a, k - 1, now, id);
    }
  }

  /** The allowed list only loses symbols: every symbol keeps at most as many copies as it had. */
  lemma {:induction false} PrunedShrinks(allowed: seq<string>, sold: seq<S.Contract>,
                                         counts: map<string, SM.Counts>, maxLayers: int)
    ensures multiset(Pruned(allowed, sold, counts, maxLayers)) <= multiset(allowed)
  {
    if sold != [] {
      var prev := Pruned(allowed, sold[..|sold| - 1], counts, maxLayers);
      PrunedShrinks(allowed, sold[..|sold| - 1], counts, maxLayers);
      RemoveFirstMultiset(prev, sold[|sold| - 1].underlying);
    }
  }

  /** Each symbol the allowed list lost belongs to a sold put whose underlying reached the layer limit. */
  lemma {:induction false} PrunedOnlySaturated(allowed: seq<string>, sold: seq<S.Contract>,
                                               counts: map<string, SM.Counts>, maxLayers: int)
    ensures forall x :: x in allowed && x !in Pruned(allowed, sold, counts, maxLayers) ==>
              exists m :: 0 <= m < |sold| && sold[m].underlying == x && Saturated(counts, x, maxLayers)
  {
    if sold != [] {
      var init := sold[..|sold| - 1];
      PrunedOnlySaturated(allowed, init, counts, maxLayers);
      var prev := Pruned(allowed, init, counts, maxLayers);
      var u := sold[|sold| - 1].underlying;
      var r := Pruned(allowed, sold, counts, maxLayers);
      assert r == if Saturated(counts, u, maxLayers) then RemoveFirst(prev, u) else prev;
      RemoveFirstMultiset(prev, u);
      forall x | x in allowed && x !in r
        ensures exists m :: 0 <= m < |sold| && sold[m].underlying == x && Saturated(counts, x, maxLayers)
      {
        if x in prev {
          assert multiset(prev)[x] >= 1 && multiset(r)[x] == 0;
          assert sold[|sold| - 1].underlying == x;
        } else {
          var m :| 0 <= m < |init| && init[m].underlying == x && Saturated(counts, x, maxLayers);
          assert sold[m] == init[m];
        }
      }
    }
  }

  /** When the list holds each symbol at most once, every sold put's underlying at its limit is gone from it. */
  lemma {:induction false} SaturatedRemoved(allowed: seq<string>, sold: seq<S.Contract>,
                                            counts: map<string, SM.Counts>, maxLayers: int, m: nat)
    requires forall x :: multiset(allowed)[x] <= 1
    requires m < |sold| && Saturated(counts, sold[m].underlying, maxLayers)
    ensures sold[m].underlying !in Pruned(allowed, sold, counts, maxLayers)
  {
    var init := sold[..|sold| - 1];
    var prev := Pruned(allowed, init, counts, maxLayers);
    var u := sold[|sold| - 1].underlying;
    var x := sold[m].underlying;
    PrunedShrinks(allowed, init, counts, maxLayers);
    RemoveFirstMultiset(prev, u);
    if m < |sold| - 1 {
      assert init[m] == sold[m];
      SaturatedRemoved(allowed, init, counts, maxLayers, m);
      assert x !in multiset(prev);
    } else {
      assert multiset(prev)[x] <= multiset(allowed)[x];
    }
    assert x !in multiset(Pruned(allowed, sold, counts, maxLayers));
  }

  // ---------------------------------------------------------------------------
  // The put loop

  /** How one affordable put moves the run's functions forward. */
  lemma PutLoopStep(sel: seq<S.Contract>, a: SellAnswers, i: nat, bp: real)
    requires i < |sel| && Capital(sel[i]) <= bp
    ensures var bp' := if Truthy(Submitted(a, i)) then bp - Capital(sel[i]) else bp;
            Placed(sel, a, i, bp) == (if Truthy(Submitted(a, i)) then [i] else []) + Placed(sel, a, i + 1, bp') &&
            Stop(sel, a, i, bp) == Stop(sel, a, i + 1, bp')
  {
  }

  /** The allowed list after one more sold put. */
  lemma PrunedSnoc(allowed: seq<string>, sold: seq<S.Contract>, c: S.Contract, counts: map<string, SM.Counts>, maxLayers: int)
    ensures Pruned(allowed, sold + [c], counts, maxLayers) ==
            if Saturated(counts, c.underlying, maxLayers) then RemoveFirst(Pruned(allowed, sold, counts, maxLayers), c.underlying)
            else Pruned(allowed, sold, counts, maxLayers)
  {
    assert (sold + [c])[..|sold|] == sold;
  }

  /** The fixed inputs of a run of the put loop. */
  datatype PutsEnv = PutsEnv(sel: seq<S.Contract>, a: SellAnswers, counts: map<string, SM.Counts>, maxLayers: int,
                             today: int, now: int, bp0: real)

  /** Where the run stands after the puts before position `i`: `placed` got an id, and `bp` is left. */
  predicate RunAt(e: PutsEnv, placed: seq<nat>, ids: seq<string>, i: nat, bp: real)
  {
    i <= |e.sel| &&
    Placed(e.sel, e.a, 0, e.bp0) == placed + Placed(e.sel, e.a, i, bp) &&
    Stop(e.sel, e.a, 0, e.bp0) == Stop(e.sel, e.a, i, bp) &&
    ids == IdsOf(e.a, placed)
  }

  lemma RunStep(e: PutsEnv, placed: seq<nat>, ids: seq<string>, i: nat, bp: real)
    requires RunAt(e, placed, ids, i, bp) && i < |e.sel| && Capital(e.sel[i]) <= bp
    ensures Truthy(Submitted(e.a, i)) ==>
              RunAt(e, placed + [i], ids + [Submitted(e.a, i).value], i + 1, bp - Capital(e.sel[i]))
    ensures !Truthy(Submitted(e.a, i)) ==> RunAt(e, placed, ids, i + 1, bp)
  {
    PutLoopStep(e.sel, e.a, i, bp);
    if Truthy(Submitted(e.a, i)) {
      assert placed + Placed(e.sel, e.a, i, bp) == (placed + [i]) + Placed(e.sel, e.a, i + 1, bp - Capital(e.sel[i]));
      PlaceOne(e.sel, e.a, i, placed, e.today);
    } else {
      assert [] + Placed(e.sel, e.a, i + 1, bp) == Placed(e.sel, e.a, i + 1, bp);
    }
  }

  /** The order manager's orders after the puts before position `i` were submitted. */
  predicate OrdersAt(e: PutsEnv, orders0: map<string, OM.PendingOrder>, i: nat, orders: map<string, OM.PendingOrder>)
  {
    i <= |e.sel| && orders == Tracked(orders0, e.sel, e.a, i, e.now)
  }

  /** The allowed list after the puts at `placed` were sold. */
  predicate ItemsAt(e: PutsEnv, items0: seq<string>, placed: seq<nat>, items: seq<string>)
  {
    items == Pruned(items0, Sold(e.sel, placed), e.counts, e.maxLayers)
  }

  /** The premium rows after the puts at `placed` were recorded, when they are recorded. */
  predicate PremiumsAt(e: PutsEnv, premiums0: seq<L.PremiumRecord>, recording: bool, placed: seq<nat>,
                       premiums: seq<L.PremiumRecord>)
  {
    recording ==> premiums == premiums0 + PutRows(Sold(e.sel, placed), e.today)
  }

  lemma OrdersStep(e: PutsEnv, orders0: map<string, OM.PendingOrder>, i: nat, orders: map<string, OM.PendingOrder>)
    requires OrdersAt(e, orders0, i, orders) && i < |e.sel|
    ensures OrdersAt(e, orders0, i + 1,
                     if Submitted(e.a, i).Some? then orders[IdAt(e.a, i) := PutOrder(e.sel[i], e.a.quotes(i).value, IdAt(e.a, i), e.now)]
                     else orders)
  {
  }

  lemma ItemsStep(e: PutsEnv, items0: seq<string>, placed: seq<nat>, items: seq<string>, i: nat)
    requires ItemsAt(e, items0, placed, items) && i < |e.sel|
    ensures ItemsAt(e, items0, placed + [i],
                    if Saturated(e.counts, e.sel[i].underlying, e.maxLayers) then RemoveFirst(items, e.sel[i].underlying)
                    else items)
  {
    PlaceOne(e.sel, e.a, i, placed, e.today);
    PrunedSnoc(items0, Sold(e.sel, placed), e.sel[i], e.counts, e.maxLayers);
  }

  lemma PremiumsStep(e: PutsEnv, premiums0: seq<L.PremiumRecord>, recording: bool, placed: seq<nat>,
                     premiums: seq<L.PremiumRecord>, i: nat)
    requires PremiumsAt(e, premiums0, recording, placed, premiums) && i < |e.sel|
    ensures PremiumsAt(e, premiums0, recording, placed + [i], if recording then premiums + [PutRow(e.sel[i], e.today)] else premiums)
  {
    PlaceOne(e.sel, e.a, i, placed, e.today);
  }

  /**
   * The loop's bookkeeping after the puts before position `i`: the orders, the
   * allowed list and (when `recording`) the premium rows are what the run's
   * functions say.
   */
  predicate Progress(e: PutsEnv, orders0: map<string, OM.PendingOrder>, items0: seq<string>, premiums0: seq<L.PremiumRecord>,
                     recording: bool, placed: seq<nat>, ids: seq<string>, i: nat, bp: real,
                     orders: map<string, OM.PendingOrder>, items: seq<string>, premiums: seq<L.PremiumRecord>)
  {
    RunAt(e, placed, ids, i, bp) && OrdersAt(e, orders0, i, orders) && ItemsAt(e, items0, placed, items) &&
    PremiumsAt(e, premiums0, recording, placed, premiums)
  }

  /** Where the loop ends, the bookkeeping is the whole run's. */
  lemma ProgressDone(e: PutsEnv, orders0: map<string, OM.PendingOrder>, items0: seq<string>, premiums0: seq<L.PremiumRecord>,
                     recording: bool, placed: seq<nat>, ids: seq<string>, i: nat, bp: real,
                     orders: map<string, OM.PendingOrder>, items: seq<string>, premiums: seq<L.PremiumRecord>)
    requires Progress(e, orders0, items0, premiums0, recording, placed, ids, i, bp, orders, items, premiums)
    requires i == |e.sel| || Capital(e.sel[i]) > bp
    ensures var p := Placed(e.sel, e.a, 0, e.bp0);
            ids == IdsOf(e.a, p) &&
            orders == Tracked(orders0, e.sel, e.a, Stop(e.sel, e.a, 0, e.bp0), e.now) &&
            items == Pruned(items0, Sold(e.sel, p), e.counts, e.maxLayers) &&
            (recording ==> premiums == premiums0 + PutRows(Sold(e.sel, p), e.today))
  {
    assert placed + [] == placed;
  }

  /** The premium rows of the database, when there is one. */
  ghost function PremiumsOf(db: L.WheelDatabase?): seq<L.PremiumRecord>
    reads db
  {
    if db != null then db.premiums else []
  }

  /**
   * One turn of the put loop for an affordable put: submit it, and when an id
   * comes back record it and prune the allowed list.
   */
  method SellOnePut(om: OM.OrderManager, allowed: SymbolList, db: L.WheelDatabase?, e: PutsEnv, i: nat, bp: real,
                    ghost orders0: map<string, OM.PendingOrder>, ghost items0: seq<string>,
                    ghost premiums0: seq<L.PremiumRecord>, ghost placed: seq<nat>, ids: seq<string>)
    returns (orderId: Option<string>, ids': seq<string>, bp': real, ghost placed': seq<nat>)
    requires om.Valid()
    requires Progress(e, orders0, items0, premiums0, db != null, placed, ids, i, bp, om.pendingOrders, allowed.items, PremiumsOf(db))
    requires i < |e.sel| && Capital(e.sel[i]) <= bp
    modifies om, allowed, db
    ensures om.Valid()
    ensures db != null ==> db.trades == old(db.trades)
    ensures Truthy(orderId) ==> ids' == ids + [orderId.value] && bp' == bp - Capital(e.sel[i]) && placed' == placed + [i]
    ensures !Truthy(orderId) ==> ids' == ids && bp' == bp && placed' == placed
    ensures Progress(e, orders0, items0, premiums0, db != null, placed', ids', i + 1, bp', om.pendingOrders, allowed.items,
                     PremiumsOf(db))
  {
    ids', bp', placed' := ids, bp, placed;
    var p := e.sel[i];
    ghost var orders, items, premiums := om.pendingOrders, allowed.items, PremiumsOf(db);
    RunStep(e, placed, ids, i, bp);
    OrdersStep(e, orders0, i, orders);
    orderId := om.SubmitLimitSell(p.symbol, 1, 0, "put", Some(p.underlying), Some(p.strike), e.a.quotes(i), e.a.placed(i), e.now);
    ghost var orders' := om.pendingOrders;
    assert OrdersAt(e, orders0, i + 1, orders');
    if orderId.Some? && orderId.value != "" {
      if db != null {
        db.AddPremium(p.underlying, 'P', p.strike, p.bidPrice, 1, Some(e.today + p.dte));
      }
      if |e.counts| > 0 {
        var putCount := SM.Get(e.counts, p.underlying).puts + 1;
        if putCount >= e.maxLayers {
          allowed.RemoveIfPresent(p.underlying);
        }
      }
      assert allowed.items == if Saturated(e.counts, p.underlying, e.maxLayers) then RemoveFirst(items, p.underlying) else items;
      assert PremiumsOf(db) == if db != null then premiums + [PutRow(p, e.today)] else premiums;
      ItemsStep(e, items0, placed, items, i);
      PremiumsStep(e, premiums0, db != null, placed, premiums, i);
      assert ItemsAt(e, items0, placed + [i], allowed.items);
      assert PremiumsAt(e, premiums0, db != null, placed + [i], PremiumsOf(db));
      ids', bp', placed' := ids + [orderId.value], bp - Capital(p), placed + [i];
    }
    assert om.pendingOrders == orders';
  }

  /**
   * `sell_puts_limit` over the selected puts.  `maxLayers` is the configured
   * maximum number of wheel layers, `counts` the caller's position counts
   * (empty when none were passed), `db` the database when one is used.
   */
  method SellPutsLimit(om: OM.OrderManager, allowed: SymbolList, selected: seq<S.Contract>, buyingPower: real,
                       counts: map<string, SM.Counts>, maxLayers: int, db: L.WheelDatabase?, a: SellAnswers,
                       today: int, now: int)
    returns (orderIds: seq<string>)
    requires om.Valid()
    modifies om, allowed, db
    ensures om.Valid()
    ensures orderIds == IdsOf(a, Placed(selected, a, 0, buyingPower))
    ensures om.pendingOrders == Tracked(old(om.pendingOrders), selected, a, Stop(selected, a, 0, buyingPower), now)
    ensures allowed.items == Pruned(old(allowed.items), Sold(selected, Placed(selected, a, 0, buyingPower)), counts, maxLayers)
    ensures db != null ==> db.premiums == old(db.premiums) + PutRows(Sold(selected, Placed(selected, a, 0, buyingPower)), today)
    ensures db != null ==> db.trades == old(db.trades)
  {
    var e := PutsEnv(selected, a, counts, maxLayers, today, now, buyingPower);
    ghost var m0 := om.pendingOrders;
    ghost var items0 := allowed.items;
    ghost var premiums0 := PremiumsOf(db);
    ghost var trades0 := if db != null then db.trades else [];
    ghost var placed: seq<nat> := [];
    var bp := buyingPower;
    orderIds := [];
    var i := 0;
    while i < |e.sel|
      invariant om.Valid() && (db != null ==> db.trades == trades0)
      invariant Progress(e, m0, items0, premiums0, db != null, placed, orderIds, i, bp, om.pendingOrders, allowed.items,
                         PremiumsOf(db))
    {
      var requiredCapital := Capital(e.sel[i]);
      if requiredCapital > bp {
        break;
      }
      var _, ids', bp', placed' := SellOnePut(om, allowed, db, e, i, bp, m0, items0, premiums0, placed, orderIds);
      orderIds, bp, placed := ids', bp', placed';
      i := i + 1;
    }
    ProgressDone(e, m0, items0, premiums0, db != null, placed, orderIds, i, bp, om.pendingOrders, allowed.items,
                 PremiumsOf(db));
  }

  /** The bookkeeping of one placed put: the derived lists each grow by that put. */
  lemma PlaceOne(sel: seq<S.Contract>, a: SellAnswers, i: nat, placed: seq<nat>, today: int)
    requires i < |sel|
    ensures Sold(sel, placed + [i]) == Sold(sel, placed) + [sel[i]]
    ensures IdsOf(a, placed + [i]) == IdsOf(a, placed) + [IdAt(a, i)]
    ensures PutRows(Sold(sel, placed + [i]), today) == PutRows(Sold(sel, placed), today) + [PutRow(sel[i], today)]
  {
    assert (placed + [i])[..|placed|] == placed;
    assert (Sold(sel, placed) + [sel[i]])[..|Sold(sel, placed)|] == Sold(sel, placed);
  }

  // ---------------------------------------------------------------------------
  // The strategy calls each sale makes before it trades

  /**
   * A Python function's parameters, none of them `*args` or `**kwargs`: their
   * names in order, and how many of the first ones have no default.
   */
  datatype Signature = Signature(params: seq<string>, required: nat)

  /** A call's arguments: how many it passes by position and the keywords it names. */
  datatype CallSite = CallSite(positional: nat, keywords: seq<string>)

  /** One call of a strategy function, at a line of `core/execution_limit.py`. */
  datatype StrategyCall = StrategyCall(line: nat, callee: Signature, site: CallSite)

  /** `filter_underlying(client, symbols, buying_power_limit)`. */
  const FilterUnderlyingSig := Signature(["client", "symbols", "buying_power_limit"], 3)

  /** `filter_options(options, min_strike = 0)`. */
  const FilterOptionsSig := Signature(["options", "min_strike"], 1)

  /** `score_options(options)`. */
  const ScoreOptionsSig := Signature(["options"], 1)

  /** `select_options(options, scores, n=None, max_per_symbol=1, position_counts=None)`. */
  const SelectOptionsSig := Signature(["options", "scores", "n", "max_per_symbol", "position_counts"], 2)

  /**
   * Python's binding of a call's arguments to a function's parameters: the
   * call binds when it passes no more positional arguments than there are
   * parameters, names by keyword only parameters it did not fill by position,
   * and fills every parameter without a default.  A call that does not bind
   * raises TypeError before the function's body runs.
   */
  predicate Binds(f: Signature, site: CallSite)
  {
    site.positional <= |f.params| &&
    (forall k :: k in site.keywords ==> k in f.params[site.positional..]) &&
    (forall i :: 0 <= i < f.required && i < |f.params| ==> i < site.positional || f.params[i] in site.keywords)
  }

  /**
   * Making the calls in order: the line of the first one that does not bind,
   * where TypeError is raised and nothing after it runs, or `None` when every
   * call binds.
   */
  function FirstUnbound(calls: seq<StrategyCall>): (r: Option<nat>)
    ensures r.None? <==> forall i :: 0 <= i < |calls| ==> Binds(calls[i].callee, calls[i].site)
    ensures r.Some? ==> exists i :: 0 <= i < |calls| && calls[i].line == r.value &&
                                    !Binds(calls[i].callee, calls[i].site) &&
                                    forall j :: 0 <= j < i ==> Binds(calls[j].callee, calls[j].site)
  {
    if calls == [] then None
    else if !Binds(calls[0].callee, calls[0].site) then Some(calls[0].line)
    else
      var r := FirstUnbound(calls[1..]);
      assert forall i :: 1 <= i < |calls| ==> calls[1..][i - 1] == calls[i];
      if r.Some? then
        assert exists i :: 0 <= i < |calls[1..]| && calls[1..][i].line == r.value &&
                           !Binds(calls[1..][i].callee, calls[1..][i].site) &&
                           forall j :: 0 <= j < i ==> Binds(calls[1..][j].callee, calls[1..][j].site);
        var i :| 0 <= i < |calls[1..]| && calls[1..][i].line == r.value &&
                 !Binds(calls[1..][i].callee, calls[1..][i].site) &&
                 forall j :: 0 <= j < i ==> Binds(calls[1..][j].callee, calls[1..][j].site);
        assert calls[i + 1].line == r.value && !Binds(calls[i + 1].callee, calls[i + 1].site);
        assert forall j :: 1 <= j < i + 1 ==> Binds(calls[j].callee, calls[j].site);
        r
      else r
  }

  /**
   * Lines 30-33 of `sell_puts_limit`: `filter_underlying(client,
   * allowed_symbols)`, `filter_options(client, puts)`,
   * `score_options(put_options)`, `select_options(put_options, scores)`.
   */
  const PutSearchAsWritten := [StrategyCall(30, FilterUnderlyingSig, CallSite(2, [])),
                               StrategyCall(31, FilterOptionsSig, CallSite(2, [])),
                               StrategyCall(32, ScoreOptionsSig, CallSite(1, [])),
                               StrategyCall(33, SelectOptionsSig, CallSite(2, []))]

  /**
   * Lines 107, 108 and 115 of `sell_calls_limit`: `filter_underlying(client,
   * [symbol])`, `filter_options(client, calls, contract_type='C')`,
   * `score_options(call_options)`.
   */
  const CallSearchAsWritten := [StrategyCall(107, FilterUnderlyingSig, CallSite(2, [])),
                                StrategyCall(108, FilterOptionsSig, CallSite(2, ["contract_type"])),
                                StrategyCall(115, ScoreOptionsSig, CallSite(1, []))]

  /**
   * As written, `sell_puts_limit` raises TypeError at line 30 whatever its
   * arguments, so its put loop never runs.  Passing the buying power as the
   * third argument there is enough for every call of lines 30-33 to bind
   * (line 31 then hands the client over as the options, and line 33 leaves
   * `max_per_symbol` and `position_counts` at their defaults).
   */
  lemma PutSearchRaises()
    ensures FirstUnbound(PutSearchAsWritten) == Some(30)
    ensures FirstUnbound(PutSearchAsWritten[0 := StrategyCall(30, FilterUnderlyingSig, CallSite(3, []))]) == None
  {
    assert !Binds(FilterUnderlyingSig, CallSite(2, [])) by {
      assert !(2 < 2 || FilterUnderlyingSig.params[2] in []);
    }
  }

  /**
   * As written, `sell_calls_limit` raises TypeError at line 107 whatever its
   * arguments, before any call is chosen; with line 107 mended, line 108
   * still raises, because `filter_options` has no `contract_type` parameter.
   */
  lemma CallSearchRaises()
    ensures FirstUnbound(CallSearchAsWritten) == Some(107)
    ensures FirstUnbound(CallSearchAsWritten[1..]) == Some(108)
    ensures FirstUnbound(CallSearchAsWritten[2..]) == None
  {
    assert !Binds(FilterUnderlyingSig, CallSite(2, [])) by {
      assert !(2 < 2 || FilterUnderlyingSig.params[2] in []);
    }
    assert !Binds(FilterOptionsSig, CallSite(2, ["contract_type"])) by {
      assert "contract_type" in ["contract_type"];
      assert FilterOptionsSig.params[2..] == [];
    }
    assert CallSearchAsWritten[1..][1..] == CallSearchAsWritten[2..];
  }

  // ---------------------------------------------------------------------------
  // The covered call

  /** The failures of the call-selection code as written. */
  datatype CallError = KeyError | TypeError

  /** `[i for i, c in enumerate(calls) if c.strike >= basis]`, from position `i` on. */
  function ValidFrom(calls: seq<S.Contract>, basis: real, i: nat): seq<nat>
    decreases |calls| - i
  {
    if i >= |calls| then [] else (if calls[i].strike >= basis then [i] else []) + ValidFrom(calls, basis, i + 1)
  }

  function ValidIndices(calls: seq<S.Contract>, basis: real): seq<nat>
  {
    ValidFrom(calls, basis, 0)
  }

  lemma {:induction false} ValidFromRange(calls: seq<S.Contract>, basis: real, i: nat)
    ensures forall m :: 0 <= m < |ValidFrom(calls, basis, i)| ==>
              i <= ValidFrom(calls, basis, i)[m] < |calls| && calls[ValidFrom(calls, basis, i)[m]].strike >= basis
    decreases |calls| - i
  {
    if i < |calls| {
      ValidFromRange(calls, basis, i + 1);
      var rest := ValidFrom(calls, basis, i + 1);
      if calls[i].strike >= basis {
        assert forall m :: 1 <= m < |[i] + rest| ==> ([i] + rest)[m] == rest[m - 1];
      } else {
        assert ValidFrom(calls, basis, i) == rest;
      }
    }
  }

  lemma {:induction false} ValidFromIncreasing(calls: seq<S.Contract>, basis: real, i: nat)
    ensures forall m, n :: 0 <= m < n < |ValidFrom(calls, basis, i)| ==> ValidFrom(calls, basis, i)[m] < ValidFrom(calls, basis, i)[n]
    decreases |calls| - i
  {
    if i < |calls| {
      ValidFromIncreasing(calls, basis, i + 1);
      ValidFromRange(calls, basis, i + 1);
      var rest := ValidFrom(calls, basis, i + 1);
      if calls[i].strike >= basis {
        ConsIncreasing(i, rest);
      } else {
        assert ValidFrom(calls, basis, i) == rest;
      }
    }
  }

  lemma {:induction false} ValidFromComplete(calls: seq<S.Contract>, basis: real, i: nat)
    ensures forall j :: i <= j < |calls| && calls[j].strike >= basis ==> j in ValidFrom(calls, basis, i)
    decreases |calls| - i
  {
    if i < |calls| {
      ValidFromComplete(calls, basis, i + 1);
    }
  }

  /** The positions kept are exactly those struck at or above the basis, in increasing order. */
  lemma ValidIndicesSpec(calls: seq<S.Contract>, basis: real)
    ensures var v := ValidIndices(calls, basis);
            (forall m :: 0 <= m < |v| ==> v[m] < |calls| && calls[v[m]].strike >= basis) &&
            (forall m, n :: 0 <= m < n < |v| ==> v[m] < v[n]) &&
            (forall j :: 0 <= j < |calls| ==> (j in v <==> calls[j].strike >= basis))
  {
    ValidFromRange(calls, basis, 0);
    ValidFromIncreasing(calls, basis, 0);
    ValidFromComplete(calls, basis, 0);
    var v := ValidIndices(calls, basis);
    forall j | 0 <= j < |calls| && j in v ensures calls[j].strike >= basis {
      var m :| 0 <= m < |v| && v[m] == j;
    }
  }

  /** `position[0]['adjusted_cost_basis'] or entry_price`: a missing or zero recorded basis falls back to the entry price. */
  function CallBasis(recorded: Option<real>, entryPrice: real): real
  {
    if recorded.Some? && recorded.value != 0.0 then recorded.value else entryPrice
  }

  /** The scores of the valid calls, in the order of `v`. */
  function ScoresAt(calls: seq<S.Contract>, score: S.Contract -> real, v: seq<nat>): seq<real>
    requires forall m :: 0 <= m < |v| ==> v[m] < |calls|
  {
    seq(|v|, m requires 0 <= m < |v| => score(calls[v[m]]))
  }

  /**
   * The call `sell_calls_limit` is meant to sell: the position of the best
   * scored call struck at or above the basis, the first on ties; `None` when
   * there is no call at all or none is struck high enough.
   */
  function ChooseCall(calls: seq<S.Contract>, score: S.Contract -> real, recorded: Option<real>, entryPrice: real)
    : (r: Option<nat>)
    ensures r.Some? ==> r.value < |calls|
  {
    var basis := CallBasis(recorded, entryPrice);
    var v := ValidIndices(calls, basis);
    ValidIndicesSpec(calls, basis);
    if calls == [] || v == [] then None else Some(v[Argmax(ScoresAt(calls, score, v))])
  }

  /** The chosen call is struck at or above the basis, out-scores every earlier valid call and ties no later one; none exists only when every strike is below the basis. */
  lemma ChooseCallSpec(calls: seq<S.Contract>, score: S.Contract -> real, recorded: Option<real>, entryPrice: real)
    ensures var basis := CallBasis(recorded, entryPrice);
            var r := ChooseCall(calls, score, recorded, entryPrice);
            (r.None? <==> forall j :: 0 <= j < |calls| ==> calls[j].strike < basis) &&
            (r.Some? ==> r.value < |calls| && calls[r.value].strike >= basis &&
                         (forall j :: 0 <= j < |calls| && calls[j].strike >= basis ==> score(calls[j]) <= score(calls[r.value])) &&
                         (forall j :: 0 <= j < r.value && calls[j].strike >= basis ==> score(calls[j]) < score(calls[r.value])))
  {
    var basis := CallBasis(recorded, entryPrice);
    var v := ValidIndices(calls, basis);
    ValidIndicesSpec(calls, basis);
    if calls != [] && v != [] {
      var xs := ScoresAt(calls, score, v);
      var k := Argmax(xs);
      forall j | 0 <= j < |calls| && calls[j].strike >= basis
        ensures score(calls[j]) <= score(calls[v[k]])
        ensures j < v[k] ==> score(calls[j]) < score(calls[v[k]])
      {
        var n :| 0 <= n < |v| && v[n] == j;
        assert xs[n] == score(calls[j]);
        if j < v[k] {
          assert n < k;
        }
      }
    } else if v == [] {
      forall j | 0 <= j < |calls| ensures calls[j].strike < basis {
        assert j !in v;
      }
    }
  }

  /**
   * Lines 110-138 of `sell_calls_limit` as written: with a database holding an
   * open stock position the basis lookup reads a column the positions table
   * does not have, and whenever some call is struck high enough the list of
   * scores is indexed with a list.
   */
  function ChooseCallAsWritten(calls: seq<S.Contract>, hasOpenPositionRow: bool, entryPrice: real)
    : Result<Option<nat>, CallError>
  {
    if calls == [] then Ok(None)
    else if hasOpenPositionRow then Err(KeyError)
    else if ValidIndices(calls, entryPrice) == [] then Ok(None)
    else Err(TypeError)
  }

  /** As written, the call choice never yields a contract. */
  lemma AsWrittenNeverChooses(calls: seq<S.Contract>, hasOpenPositionRow: bool, entryPrice: real)
    ensures ChooseCallAsWritten(calls, hasOpenPositionRow, entryPrice).Ok? ==>
            ChooseCallAsWritten(calls, hasOpenPositionRow, entryPrice).value.None?
    ensures ChooseCallAsWritten(calls, hasOpenPositionRow, entryPrice).Err? <==>
            calls != [] && (hasOpenPositionRow || exists j :: 0 <= j < |calls| && calls[j].strike >= entryPrice)
  {
    ValidIndicesSpec(calls, entryPrice);
    var v := ValidIndices(calls, entryPrice);
    if v != [] {
      assert calls[v[0]].strike >= entryPrice;
    }
  }

  /** A call struck above the entry price, no database: the intended choice sells it, the code as written raises. */
  lemma CallIndexingExample()
    ensures var c := S.Contract("AAPL241220C00200000", "AAPL", 200.0, 1.5, Some(0.2), 10, Some(500), 0);
            ChooseCallAsWritten([c], false, 150.0) == Err(TypeError) &&
            ChooseCall([c], (x: S.Contract) => 1.0, None, 150.0) == Some(0)
  {
    var c := S.Contract("AAPL241220C00200000", "AAPL", 200.0, 1.5, Some(0.2), 10, Some(500), 0);
    assert ValidFrom([c], 150.0, 1) == [];
    assert ValidIndices([c], 150.0) == [0];
  }

  /** The same call with a database holding the open stock position: the basis lookup raises first. */
  lemma CallBasisLookupExample()
    ensures var c := S.Contract("AAPL241220C00200000", "AAPL", 200.0, 1.5, Some(0.2), 10, Some(500), 0);
            ChooseCallAsWritten([c], true, 150.0) == Err(KeyError) &&
            ChooseCall([c], (x: S.Contract) => 1.0, Some(140.0), 150.0) == Some(0)
  {
    var c := S.Contract("AAPL241220C00200000", "AAPL", 200.0, 1.5, Some(0.2), 10, Some(500), 0);
    assert ValidFrom([c], 140.0, 1) == [];
    assert ValidIndices([c], 140.0) == [0];
  }

  /** The pending order `submit_limit_sell` tracks for a covered call. */
  function CallOrder(c: S.Contract, symbol: string, q: OM.Quote, id: string, now: int): OM.PendingOrder
  {
    OM.PendingOrder(id, c.symbol, OM.Sell, 1, OM.SellLimit(q, 0), q.bid, now, now, "call",
                    if symbol != "" then symbol else c.symbol, Some(c.strike), None, 0, 10)
  }

  /**
   * `sell_calls_limit` with the intended basis lookup and selection: `recorded`
   * is the recorded adjusted basis when the database has one, `quote` and
   * `placed` the order manager's answers for the chosen call.
   */
  method SellCallsLimit(om: OM.OrderManager, symbol: string, entryPrice: real, calls: seq<S.Contract>,
                        score: S.Contract -> real, recorded: Option<real>, db: L.WheelDatabase?,
                        quote: Option<OM.Quote>, placed: Option<string>, today: int, now: int)
    returns (orderId: Option<string>)
    requires om.Valid()
    modifies om, db
    ensures om.Valid()
    ensures db != null ==> db.trades == old(db.trades)
    ensures ChooseCall(calls, score, recorded, entryPrice).None? ==>
              orderId.None? && om.pendingOrders == old(om.pendingOrders) && (db != null ==> db.premiums == old(db.premiums))
    ensures ChooseCall(calls, score, recorded, entryPrice).Some? ==>
              var c := calls[ChooseCall(calls, score, recorded, entryPrice).value];
              orderId == (if quote.Some? then placed else None) &&
              (orderId.Some? ==> om.pendingOrders == old(om.pendingOrders)[orderId.value := CallOrder(c, symbol, quote.value, orderId.value, now)]) &&
              (orderId.None? ==> om.pendingOrders == old(om.pendingOrders)) &&
              (db != null ==>
                 db.premiums == old(db.premiums) + (if Truthy(orderId) then [L.PremiumRecord(symbol, 'C', c.strike, c.bidPrice, 1, Some(today + c.dte), "collected")] else []))
  {
    ChooseCallSpec(calls, score, recorded, entryPrice);
    var choice := ChooseCall(calls, score, recorded, entryPrice);
    if choice.None? {
      return None;
    }
    var contract := calls[choice.value];
    orderId := om.SubmitLimitSell(contract.symbol, 1, 0, "call", Some(symbol), Some(contract.strike), quote, placed, now);
    if orderId.Some? && orderId.value != "" {
      if db != null {
        db.AddPremium(symbol, 'C', contract.strike, contract.bidPrice, 1, Some(today + contract.dte));
      }
    }
  }

  // ---------------------------------------------------------------------------
  // Filled orders

  /** An order reported filled is no longer tracked, so the database branch of `update_filled_orders` never finds it. */
  lemma FilledOrdersLeaveNoRecord(m: map<string, OM.PendingOrder>, now: int, updateInterval: int, maxOrderAge: int,
                                  a: OM.Answers, id: string)
    requires id in OM.Reports(m, m.Keys, now, updateInterval, maxOrderAge, a)
    requires OM.Reports(m, m.Keys, now, updateInterval, maxOrderAge, a)[id] == OM.Filled
    ensures id !in OM.PolledMap(m, m.Keys, now, updateInterval, maxOrderAge, a)
  {
    assert a.status(id) == OM.StatusFilled;
  }

  /** `update_filled_orders`: the order manager's update, whose reports it hands back unchanged. */
  method UpdateFilledOrders(om: OM.OrderManager, db: L.WheelDatabase?, now: int, a: OM.Answers)
    returns (results: map<string, OM.Report>)
    requires om.Valid()
    modifies om
    ensures om.Valid()
    ensures om.pendingOrders == OM.PolledMap(old(om.pendingOrders), old(om.pendingOrders).Keys, now, om.updateInterval, om.maxOrderAge, a)
    ensures results == OM.Reports(old(om.pendingOrders), old(om.pendingOrders).Keys, now, om.updateInterval, om.maxOrderAge, a)
    ensures forall id :: id in results && results[id] == OM.Filled ==> id !in om.pendingOrders
  {
    ghost var m0 := om.pendingOrders;
    results := om.UpdatePendingOrders(now, a);
    forall id | id in results && results[id] == OM.Filled
      ensures id !in om.pendingOrders
    {
      FilledOrdersLeaveNoRecord(m0, now, om.updateInterval, om.maxOrderAge, a, id);
    }
  }
}

=== FILE: expiry_dates.dfy ===
/**
 * Reading an option's expiration out of its symbol, as the roll engine does:
 * every occurrence of the underlying is removed (`str.replace`), the first six
 * characters left are YYMMDD, each two-character field goes through Python's
 * `int`, and the three numbers must form a date of the proleptic Gregorian
 * calendar (`datetime`, year 2000 + YY).  Dates are compared as day ordinals,
 * numbered as `date.toordinal` numbers them (0001-01-01 is day 1).
 */
module ExpiryDates {
  import opened Wrappers
  import opened OptionSymbols

  // ---------------------------------------------------------------------------
  // Python's int() on a short string

  /** The ASCII characters `str.isspace` accepts (tab to carriage return, the four separators, space). */
  predicate IsSpace(c: char)
  {
    9 <= c as int <= 13 || 28 <= c as int <= 32
  }

  function StripLeft(s: string): string
  {
    if s != [] && IsSpace(s[0]) then StripLeft(s[1..]) else s
  }

  function StripRight(s: string): string
  {
    if s != [] && IsSpace(s[|s| - 1]) then StripRight(s[..|s| - 1]) else s
  }

  predicate DigitsOrUnderscores(s: string)
  {
    forall i :: 0 <= i < |s| ==> IsDigit(s[i]) || s[i] == '_'
  }

  /** A run of decimal digits, with single underscores allowed between two digits. */
  predicate DigitRun(s: string)
  {
    |s| > 0 && IsDigit(s[0]) && IsDigit(s[|s| - 1]) && DigitsOrUnderscores(s) &&
    forall i :: 0 <= i < |s| && s[i] == '_' ==> i + 1 < |s| && IsDigit(s[i + 1])
  }

  /** The number a digit run stands for, underscores skipped. */
  function RunValue(s: string): nat
    requires DigitsOrUnderscores(s)
  {
    if s == [] then 0
    else if s[|s| - 1] == '_' then RunValue(s[..|s| - 1])
    else RunValue(s[..|s| - 1]) * 10 + DigitValue(s[|s| - 1])
  }

  /** `int(s)` in base 10: surrounding whitespace, an optional sign, a digit run; `None` is the `ValueError`. */
  function PyInt(s: string): Option<int>
  {
    var t := StripRight(StripLeft(s));
    if |t| > 0 && (t[0] == '+' || t[0] == '-') then
      if DigitRun(t[1..]) then Some(if t[0] == '-' then -(RunValue(t[1..]) as int) else RunValue(t[1..])) else None
    else if DigitRun(t) then Some(RunValue(t))
    else None
  }

  lemma {:induction false} RunValueDigits(s: string)
    requires AllDigits(s)
    ensures RunValue(s) == DigitsValue(s)
  {
    if s != [] {
      RunValueDigits(s[..|s| - 1]);
    }
  }

  /** A plain string of digits reads as the number it spells. */
  lemma PyIntDigits(s: string)
    requires s != [] && AllDigits(s)
    ensures PyInt(s) == Some(DigitsValue(s))
  {
    assert !IsSpace(s[0]) && !IsSpace(s[|s| - 1]);
    assert StripLeft(s) == s;
    assert StripRight(s) == s;
    RunValueDigits(s);
  }

  /** Neither an empty nor an all-blank field is a number. */
  lemma {:induction false} PyIntBlank(s: string)
    requires forall i :: 0 <= i < |s| ==> IsSpace(s[i])
    ensures PyInt(s) == None
  {
    StripLeftBlank(s);
  }

  lemma {:induction false} StripLeftBlank(s: string)
    requires forall i :: 0 <= i < |s| ==> IsSpace(s[i])
    ensures StripLeft(s) == []
  {
    if s != [] {
      StripLeftBlank(s[1..]);
    }
  }

  /** Whitespace around the digits is stripped, as Python strips it. */
  lemma PyIntStripsSpaces()
    ensures PyInt(" 7\t") == Some(7)
  {
    assert StripLeft(" 7\t") == "7\t";
    assert StripRight("7\t") == "7";
    assert RunValue("7") == 7 by { assert "7"[..0] == ""; }
  }

  /** A leading sign is accepted, as Python accepts it. */
  lemma PyIntSigned()
    ensures PyInt("-1") == Some(-1) && PyInt("+4") == Some(4)
  {
    assert StripLeft("-1") == "-1" && StripRight("-1") == "-1" && "-1"[1..] == "1";
    assert StripLeft("+4") == "+4" && StripRight("+4") == "+4" && "+4"[1..] == "4";
    assert RunValue("1") == 1 by { assert "1"[..0] == ""; }
    assert RunValue("4") == 4 by { assert "4"[..0] == ""; }
  }

  /** A letter in the field, or a sign with no digits, is a `ValueError`. */
  lemma PyIntRejects()
    ensures PyInt("1A") == None && PyInt("--") == None && PyInt("1__2") == None
  {
    assert StripLeft("1A") == "1A" && StripRight("1A") == "1A";
    assert !DigitRun("1A") by { assert !IsDigit("1A"[1]); }
    assert StripLeft("--") == "--" && StripRight("--") == "--";
    assert StripLeft("1__2") == "1__2" && StripRight("1__2") == "1__2";
    assert !DigitRun("1__2") by { assert "1__2"[1] == '_' && !IsDigit("1__2"[2]); }
  }

  // ---------------------------------------------------------------------------
  // The calendar

  datatype Date = Date(year: int, month: int, day: int)

  predicate IsLeap(y: int)
  {
    y % 4 == 0 && (y % 100 != 0 || y % 400 == 0)
  }

  function DaysInMonth(y: int, m: int): int
    requires 1 <= m <= 12
  {
    if m == 2 then (if IsLeap(y) then 29 else 28)
    else if m == 4 || m == 6 || m == 9 || m == 11 then 30
    else 31
  }

  /** The dates `datetime` accepts: years 1 to 9999, months 1 to 12, days within the month. */
  predicate ValidDate(dt: Date)
  {
    1 <= dt.year <= 9999 && 1 <= dt.month <= 12 && 1 <= dt.day <= DaysInMonth(dt.year, dt.month)
  }

  /** Days in the years before year `y`. */
  function DaysBeforeYear(y: int): int
    requires y >= 1
  {
    var p := y - 1;
    p * 365 + p / 4 - p / 100 + p / 400
  }

  /** Days in the months of year `y` before month `m`. */
  function DaysBeforeMonth(y: int, m: int): int
    requires 1 <= m <= 12
  {
    if m == 1 then 0 else DaysBeforeMonth(y, m - 1) + DaysInMonth(y, m - 1)
  }

  /** `date.toordinal`. */
  function Ordinal(dt: Date): int
    requires ValidDate(dt)
  {
    DaysBeforeYear(dt.year) + DaysBeforeMonth(dt.year, dt.month) + dt.day
  }

  /** The day after `dt`. */
  function NextDay(dt: Date): Date
    requires ValidDate(dt)
  {
    if dt.day < DaysInMonth(dt.year, dt.month) then Date(dt.year, dt.month, dt.day + 1)
    else if dt.month < 12 then Date(dt.year, dt.month + 1, 1)
    else Date(dt.year + 1, 1, 1)
  }

  /** Leap days before year `y + 1`: one more than before `y` exactly when `y` is a leap year. */
  lemma LeapDaysStep(y: int)
    ensures y / 4 - y / 100 + y / 400 == (y - 1) / 4 - (y - 1) / 100 + (y - 1) / 400 + (if IsLeap(y) then 1 else 0)
  {
    DivStep4(y);
    DivStep100(y);
    DivStep400(y);
  }

  lemma DivStep4(y: int)
    ensures y / 4 == (y - 1) / 4 + (if y % 4 == 0 then 1 else 0)
  {
  }

  lemma DivStep100(y: int)
    ensures y / 100 == (y - 1) / 100 + (if y % 100 == 0 then 1 else 0)
    ensures y % 100 == 0 ==> y % 4 == 0
  {
  }

  lemma DivStep400(y: int)
    ensures y / 400 == (y - 1) / 400 + (if y % 400 == 0 then 1 else 0)
    ensures y % 400 == 0 ==> y % 100 == 0
  {
  }

  /** A year has 365 days, 366 when it is a leap year. */
  lemma YearLength(y: int)
    requires y >= 1
    ensures DaysBeforeYear(y + 1) == DaysBeforeYear(y) + (if IsLeap(y) then 366 else 365)
  {
    LeapDaysStep(y);
  }

  /** The eleven months before December hold 334 days, 335 in a leap year. */
  lemma DaysBeforeDecember(y: int)
    ensures DaysBeforeMonth(y, 12) == if IsLeap(y) then 335 else 334
  {
    var feb := if IsLeap(y) then 29 else 28;
    assert DaysBeforeMonth(y, 2) == 31;
    assert DaysBeforeMonth(y, 3) == 31 + feb;
    assert DaysBeforeMonth(y, 4) == 62 + feb;
    assert DaysBeforeMonth(y, 5) == 92 + feb;
    assert DaysBeforeMonth(y, 6) == 123 + feb;
    assert DaysBeforeMonth(y, 7) == 153 + feb;
    assert DaysBeforeMonth(y, 8) == 184 + feb;
    assert DaysBeforeMonth(y, 9) == 215 + feb;
    assert DaysBeforeMonth(y, 10) == 245 + feb;
    assert DaysBeforeMonth(y, 11) == 276 + feb;
  }

  /**
   * Day ordinals count days: the first day of the calendar is day 1 and the
   * day after any date is the next ordinal, so the difference of two ordinals
   * is the number of days between the dates (`(expiration - today).days`).
   */
  lemma OrdinalNextDay(dt: Date)
    requires ValidDate(dt) && ValidDate(NextDay(dt))
    ensures Ordinal(NextDay(dt)) == Ordinal(dt) + 1
    ensures Ordinal(Date(1, 1, 1)) == 1
  {
    if dt.day == DaysInMonth(dt.year, dt.month) && dt.month == 12 {
      YearLength(dt.year);
      DaysBeforeDecember(dt.year);
    }
  }

  // ---------------------------------------------------------------------------
  // The expiration field of a symbol

  /** `s.replace(u, '')`: every non-overlapping occurrence of `u`, scanning left to right, removed. */
  function RemoveAll(s: string, u: string): string
    decreases |s|
  {
    if u == [] || |s| < |u| then s
    else if s[..|u|] == u then RemoveAll(s[|u|..], u)
    else [s[0]] + RemoveAll(s[1..], u)
  }

  /** `s[i:j]`, clipped to the string as Python clips slices. */
  function Slice(s: string, i: nat, j: nat): string
  {
    var hi := if j <= |s| then j else |s|;
    var lo := if i <= hi then i else hi;
    s[lo..hi]
  }

  /** `exp_str`: the first six characters once the underlying is removed from the symbol. */
  function ExpiryField(symbol: string, underlying: string): string
  {
    Slice(RemoveAll(symbol, underlying), 0, 6)
  }

  /** `datetime(2000 + int(YY), int(MM), int(DD))`; `None` is the `ValueError` the roll engine skips. */
  function ParseExpiry(expStr: string): (r: Option<Date>)
    ensures r.Some? ==> ValidDate(r.value)
  {
    var yy := PyInt(Slice(expStr, 0, 2));
    var mm := PyInt(Slice(expStr, 2, 4));
    var dd := PyInt(Slice(expStr, 4, 6));
    if yy.None? || mm.None? || dd.None? then None
    else if !ValidDate(Date(2000 + yy.value, mm.value, dd.value)) then None
    else Some(Date(2000 + yy.value, mm.value, dd.value))
  }

  /** Removing a digit-free, non-empty underlying keeps a leading run of digits in place. */
  lemma {:induction false} RemoveAllKeepsDigits(s: string, u: string, n: nat)
    requires u != [] && NoDigits(u)
    requires n <= |s| && forall i :: 0 <= i < n ==> IsDigit(s[i])
    ensures n <= |RemoveAll(s, u)| && RemoveAll(s, u)[..n] == s[..n]
    decreases |s|
  {
    if n > 0 {
      if |s| >= |u| {
        assert s[..|u|] != u by {
          assert IsDigit(s[0]) && !IsDigit(u[0]);
        }
      }
      RemoveAllKeepsDigits(s[1..], u, n - 1);
      assert RemoveAll(s, u) == [s[0]] + RemoveAll(s[1..], u);
    }
  }

  /** The symbol of an option expiring on 20YY-MM-DD starts, after its underlying, with the digits of that date. */
  function ExpiryDigits(yy: nat, mm: nat, dd: nat): (e: string)
    ensures |e| == 6 && AllDigits(e)
  {
    EncodeDigits(yy, 2) + EncodeDigits(mm, 2) + EncodeDigits(dd, 2)
  }

  /** Removing a digit-free underlying from its own symbol leaves the text after it. */
  lemma ExpiryFieldAfterUnderlying(underlying: string, rest: string)
    requires NoDigits(underlying)
    requires 6 <= |rest| && forall i :: 0 <= i < 6 ==> IsDigit(rest[i])
    ensures ExpiryField(underlying + rest, underlying) == rest[..6]
  {
    var symbol := underlying + rest;
    if underlying == [] {
      assert symbol == rest;
    } else {
      assert symbol[..|underlying|] == underlying && symbol[|underlying|..] == rest;
      RemoveAllKeepsDigits(rest, underlying, 6);
    }
  }

  /** A zero-padded two-digit field reads as its number. */
  lemma TwoDigitField(k: nat)
    requires k < 100
    ensures PyInt(EncodeDigits(k, 2)) == Some(k)
  {
    PyIntDigits(EncodeDigits(k, 2));
    EncodeDigitsValue(k, 2);
  }

  lemma ExpiryDigitsFields(yy: nat, mm: nat, dd: nat)
    ensures var e := ExpiryDigits(yy, mm, dd);
            Slice(e, 0, 2) == EncodeDigits(yy, 2) && Slice(e, 2, 4) == EncodeDigits(mm, 2) &&
            Slice(e, 4, 6) == EncodeDigits(dd, 2)
  {
    var e := ExpiryDigits(yy, mm, dd);
    assert e[0..2] == EncodeDigits(yy, 2);
    assert e[2..4] == EncodeDigits(mm, 2);
    assert e[4..6] == EncodeDigits(dd, 2);
  }

  /** Six digits spelling a valid 20YY-MM-DD read back as that date. */
  lemma ParseExpiryDigits(yy: nat, mm: nat, dd: nat)
    requires yy < 100 && mm < 100 && dd < 100 && ValidDate(Date(2000 + yy, mm, dd))
    ensures ParseExpiry(ExpiryDigits(yy, mm, dd)) == Some(Date(2000 + yy, mm, dd))
  {
    var e := ExpiryDigits(yy, mm, dd);
    ExpiryDigitsFields(yy, mm, dd);
    TwoDigitField(yy);
    TwoDigitField(mm);
    TwoDigitField(dd);
    ParseExpiryOfFields(e, yy, mm, dd);
  }

  /** An expiry whose three fields read as numbers is the date they name, when there is one. */
  lemma ParseExpiryOfFields(expStr: string, yy: int, mm: int, dd: int)
    requires PyInt(Slice(expStr, 0, 2)) == Some(yy)
    requires PyInt(Slice(expStr, 2, 4)) == Some(mm)
    requires PyInt(Slice(expStr, 4, 6)) == Some(dd)
    ensures ParseExpiry(expStr) == if ValidDate(Date(2000 + yy, mm, dd)) then Some(Date(2000 + yy, mm, dd)) else None
  {
  }

  /**
   * Round trip: from a symbol written for a valid 20YY-MM-DD expiry, the roll
   * engine reads back that date, whatever the type character and the strike.
   */
  lemma ExpiryRoundTrip(underlying: string, yy: nat, mm: nat, dd: nat, optionType: char, strikeMills: nat)
    requires NoDigits(underlying)
    requires yy < 100 && mm < 100 && dd < 100 && ValidDate(Date(2000 + yy, mm, dd))
    ensures var symbol := OptionSymbol(underlying, ExpiryDigits(yy, mm, dd), optionType, strikeMills);
            ParseExpiry(ExpiryField(symbol, underlying)) == Some(Date(2000 + yy, mm, dd))
  {
    var e := ExpiryDigits(yy, mm, dd);
    var rest := e + [optionType] + EncodeDigits(strikeMills, 8);
    assert OptionSymbol(underlying, e, optionType, strikeMills) == underlying + rest;
    assert rest[..6] == e;
    assert forall i :: 0 <= i < 6 ==> IsDigit(rest[i]) by {
      assert forall i :: 0 <= i < 6 ==> rest[i] == e[i];
    }
    ExpiryFieldAfterUnderlying(underlying, rest);
    ParseExpiryDigits(yy, mm, dd);
  }
}

=== FILE: ledger.dfy ===
/**
 * The trade database as the execution and rolling code use it: two append-only
 * tables, one row per premium collected and one row per trade.  Dates are day
 * ordinals; the row's own timestamp, its notes and the cost-basis refresh that
 * follows an insert are not modelled.
 */
module Ledger {
  import opened Wrappers

  /** A row of the `premiums` table. */
  datatype PremiumRecord = PremiumRecord(symbol: string, optionType: char, strike: real, premium: real,
                                         contracts: int, expiration: Option<int>, status: string)

  /** A row of the `trade_history` table. */
  datatype TradeRecord = TradeRecord(symbol: string, tradeType: string, quantity: int, price: real,
                                     strike: Option<real>, expiration: Option<int>, premium: Option<real>)

  class WheelDatabase {
    var premiums: seq<PremiumRecord>
    var trades: seq<TradeRecord>

    constructor ()
      ensures premiums == [] && trades == []
    {
      premiums := [];
      trades := [];
    }

    /** `add_premium` with the default status `collected`: one premium row at the end. */
    method AddPremium(symbol: string, optionType: char, strike: real, premium: real, contracts: int,
                      expiration: Option<int>)
      modifies this
      ensures premiums == old(premiums) + [PremiumRecord(symbol, optionType, strike, premium, contracts,
                                                         expiration, "collected")]
      ensures trades == old(trades)
    {
      premiums := premiums + [PremiumRecord(symbol, optionType, strike, premium, contracts, expiration, "collected")];
    }

    /** `add_trade`: one trade row at the end. */
    method AddTrade(symbol: string, tradeType: string, quantity: int, price: real, strike: Option<real>,
                    expiration: Option<int>, premium: Option<real>)
      modifies this
      ensures trades == old(trades) + [TradeRecord(symbol, tradeType, quantity, price, strike, expiration, premium)]
      ensures premiums == old(premiums)
    {
      trades := trades + [TradeRecord(symbol, tradeType, quantity, price, strike, expiration, premium)];
    }
  }
}

=== FILE: option_symbols.dfy ===
/**
 * Option-symbol parsing (OCC style: `AAPL241231P00150000` is the underlying `AAPL`,
 * expiry 2024-12-31, a put, strike 150.000).
 *
 * The parser reads the symbol left to right and stops at the first digit whose
 * remainder is at least 15 characters long: the 6 characters after it are the
 * expiry, the next is the option type, and everything after that is the strike
 * in thousandths of a dollar.  Symbols it cannot split are returned whole
 * (`NotAnOption`).  Digits are ASCII digits, and a strike field that is not
 * all digits is taken as making `float` raise (`BadStrike`), although `float`
 * also reads signs, blanks, decimal points, underscores and exponents.
 */
module OptionSymbols {

  /** Length of the fixed suffix: 6 expiry digits, 1 type character, 8 strike digits. */
  const SuffixLength: nat := 15

  predicate IsDigit(c: char) { '0' <= c <= '9' }

  predicate AllDigits(s: string) { forall i :: 0 <= i < |s| ==> IsDigit(s[i]) }

  predicate NoDigits(s: string) { forall i :: 0 <= i < |s| ==> !IsDigit(s[i]) }

  function DigitValue(c: char): nat
    requires IsDigit(c)
  {
    c as int - '0' as int
  }

  function DigitChar(d: nat): (c: char)
    requires d < 10
    ensures IsDigit(c) && DigitValue(c) == d
  {
    ('0' as int + d) as char
  }

  /** The number a decimal digit string stands for, most significant digit first. */
  function DigitsValue(s: string): nat
    requires AllDigits(s)
  {
    if s == [] then 0 else DigitsValue(s[..|s| - 1]) * 10 + DigitValue(s[|s| - 1])
  }

  function Pow10(w: nat): (p: nat)
    ensures p >= 1
  {
    if w == 0 then 1 else 10 * Pow10(w - 1)
  }

  /** `k` written with exactly `w` decimal digits, zero-padded (the strike field is `w` = 8). */
  function EncodeDigits(k: nat, w: nat): (s: string)
    ensures |s| == w && AllDigits(s)
  {
    if w == 0 then [] else EncodeDigits(k / 10, w - 1) + [DigitChar(k % 10)]
  }

  /** What `parse_option_symbol` answers. */
  datatype ParsedSymbol =
    | OptionParts(underlying: string, optionType: char, strikeMills: nat)
      // the tuple (underlying, option_type, strike); strike = strikeMills / 1000
    | NotAnOption
      // the tuple (symbol, None, None)
    | BadStrike
      // `float(strike_str)` raised (any strike field not all ASCII digits)

  /** The underlying a caller sees: the parsed prefix, or the whole symbol when it does not split. */
  function UnderlyingOf(symbol: string, p: ParsedSymbol): string
  {
    if p.OptionParts? then p.underlying else symbol
  }

  /** The suffix splits at `i`: first-digit position, enough characters left. */
  predicate SplitsAt(s: string, i: nat)
  {
    i + SuffixLength <= |s| && IsDigit(s[i])
  }

  /** Scans from position `i` for the first split point. */
  function ScanFrom(s: string, i: nat): ParsedSymbol
    requires i <= |s|
    decreases |s| - i
  {
    if i == |s| then NotAnOption
    else if IsDigit(s[i]) && |s| - i >= SuffixLength then
      var rest := s[i..];
      var strike := rest[7..];
      if AllDigits(strike) then OptionParts(s[..i], rest[6], DigitsValue(strike)) else BadStrike
    else
      ScanFrom(s, i + 1)
  }

  /** `parse_option_symbol`. */
  function ParseOptionSymbol(s: string): ParsedSymbol
  {
    if |s| < SuffixLength then NotAnOption else ScanFrom(s, 0)
  }

  /** What a scan from `i` finds, when no position before `i` was a split point. */
  lemma {:induction false} ScanFromSpec(s: string, i: nat)
    requires i <= |s|
    requires forall k :: 0 <= k < i ==> !SplitsAt(s, k)
    ensures var r := ScanFrom(s, i);
            (r.NotAnOption? <==> forall k :: i <= k < |s| ==> !SplitsAt(s, k)) &&
            (r.OptionParts? ==>
               var j := |r.underlying|;
               SplitsAt(s, j) && NoDigits(s[..j]) && r.underlying == s[..j] &&
               r.optionType == s[j + 6] && AllDigits(s[j + 7..]) && r.strikeMills == DigitsValue(s[j + 7..])) &&
            (r.BadStrike? ==> exists j: nat :: SplitsAt(s, j) && NoDigits(s[..j]) && !AllDigits(s[j + 7..]))
    decreases |s| - i
  {
    if i < |s| {
      if IsDigit(s[i]) && |s| - i >= SuffixLength {
        assert s[i..][7..] == s[i + 7..];
        assert forall k :: 0 <= k < i ==> !IsDigit(s[k]) by {
          forall k | 0 <= k < i ensures !IsDigit(s[k]) {
            assert !SplitsAt(s, k);
          }
        }
        assert NoDigits(s[..i]) && SplitsAt(s, i);
      } else {
        ScanFromSpec(s, i + 1);
      }
    }
  }

  /**
   * Which case `parse_option_symbol` answers depends only on where the first digit
   * with at least 15 characters from it stands: none means the symbol is returned
   * whole; otherwise the prefix before it is the underlying, the 7th character from
   * it the type, and the rest the strike in thousandths.
   */
  lemma ParseOptionSymbolSpec(s: string)
    ensures var r := ParseOptionSymbol(s);
            (r.NotAnOption? <==> forall k :: 0 <= k < |s| ==> !SplitsAt(s, k)) &&
            (r.OptionParts? ==>
               var j := |r.underlying|;
               SplitsAt(s, j) && NoDigits(r.underlying) && r.underlying == s[..j] &&
               r.optionType == s[j + 6] && AllDigits(s[j + 7..]) && r.strikeMills == DigitsValue(s[j + 7..])) &&
            (r.BadStrike? ==> exists j: nat :: SplitsAt(s, j) && NoDigits(s[..j]) && !AllDigits(s[j + 7..]))
  {
    if |s| >= SuffixLength {
      ScanFromSpec(s, 0);
    }
  }

  /** Decoding an encoded number gives it back when it fits in the width. */
  lemma {:induction false} EncodeDigitsValue(k: nat, w: nat)
    requires k < Pow10(w)
    ensures DigitsValue(EncodeDigits(k, w)) == k
  {
    if w > 0 {
      var s := EncodeDigits(k, w);
      assert s[..|s| - 1] == EncodeDigits(k / 10, w - 1);
      var p := Pow10(w - 1);
      assert k / 10 < p by {
        assert k < 10 * p;
        assert (k / 10) * 10 <= k;
      }
      EncodeDigitsValue(k / 10, w - 1);
    }
  }

  /** The symbol the broker builds from an underlying, a 6-digit expiry, a type and a strike in thousandths. */
  function OptionSymbol(underlying: string, expiry: string, optionType: char, strikeMills: nat): string
  {
    underlying + expiry + [optionType] + EncodeDigits(strikeMills, 8)
  }

  /** Round trip: parsing an encoded symbol gives back the underlying, the type and the strike. */
  lemma {:induction false} ParseOptionSymbolRoundTrip(underlying: string, expiry: string, optionType: char, strikeMills: nat)
    requires NoDigits(underlying)
    requires |expiry| == 6 && AllDigits(expiry)
    requires strikeMills < Pow10(8)
    ensures ParseOptionSymbol(OptionSymbol(underlying, expiry, optionType, strikeMills))
            == OptionParts(underlying, optionType, strikeMills)
  {
    var s := OptionSymbol(underlying, expiry, optionType, strikeMills);
    var i := |underlying|;
    assert SplitsAt(s, i) by { assert s[i] == expiry[0]; }
    var r := ParseOptionSymbol(s);
    assert s[..i] == underlying;
    assert s[i + 7..] == EncodeDigits(strikeMills, 8);
    EncodeDigitsValue(strikeMills, 8);
    SplitPositionUnique(s, underlying, r);
  }

  /** Helper: when the prefix up to `|underlying|` has no digit and a split exists there, the parser splits there. */
  lemma SplitPositionUnique(s: string, underlying: string, r: ParsedSymbol)
    requires r == ParseOptionSymbol(s)
    requires |underlying| <= |s| && s[..|underlying|] == underlying && NoDigits(underlying)
    requires SplitsAt(s, |underlying|)
    requires AllDigits(s[|underlying| + 7..])
    ensures r == OptionParts(underlying, s[|underlying| + 6], DigitsValue(s[|underlying| + 7..]))
  {
    ScanSplitsAtFirst(s, 0, |underlying|);
  }

  lemma {:induction false} ScanSplitsAtFirst(s: string, k: nat, i: nat)
    requires k <= i && i + SuffixLength <= |s|
    requires forall m :: 0 <= m < k ==> !SplitsAt(s, m)
    requires forall m :: k <= m < i ==> !IsDigit(s[m])
    requires IsDigit(s[i]) && AllDigits(s[i + 7..])
    ensures ScanFrom(s, k) == OptionParts(s[..i], s[i + 6], DigitsValue(s[i + 7..]))
    decreases i - k
  {
    if k < i {
      assert !SplitsAt(s, k);
      ScanSplitsAtFirst(s, k + 1, i);
    } else {
      assert s[i..][7..] == s[i + 7..];
    }
  }

  /** The eight strike digits of the example symbol. */
  lemma ExampleStrikeDigits()
    ensures EncodeDigits(150000, 8) == "00150000"
  {
    assert EncodeDigits(0, 2) == "00";
    assert EncodeDigits(1, 3) == "001";
    assert EncodeDigits(15, 4) == "0015";
    assert EncodeDigits(150, 5) == "00150";
    assert EncodeDigits(1500, 6) == "001500";
    assert EncodeDigits(15000, 7) == "0015000";
  }

  /** The example of the symbol format: `AAPL241231P00150000` is AAPL, a put, strike 150.000. */
  lemma ParseExample()
    ensures ParseOptionSymbol("AAPL241231P00150000") == OptionParts("AAPL", 'P', 150000)
  {
    ExampleStrikeDigits();
    assert "AAPL241231P00150000" == OptionSymbol("AAPL", "241231", 'P', 150000);
    ParseOptionSymbolRoundTrip("AAPL", "241231", 'P', 150000);
  }
}

=== FILE: order_manager.dfy ===
/**
 * The limit-order manager: it places option orders at the quote midpoint,
 * tracks them by order id, reprices them step by step toward the far side of
 * the spread, cancels the ones that stay unfilled too long, and forgets the
 * ones the broker reports filled, cancelled or expired.
 *
 * Prices are integer cents (the source rounds every price to two decimals).
 * Time is an integer count of seconds.  Every broker answer (the quote of a
 * symbol, the id given to a new order, an order's status, whether a cancel or
 * a replace succeeded) is a parameter; a broker call that raises is one of
 * those answers.
 */
module OrderManager {
  import opened Wrappers

  /** A quote in cents. */
  datatype Quote = Quote(bid: int, ask: int)

  datatype Side = Buy | Sell

  /** `PendingOrder`. */
  datatype PendingOrder = PendingOrder(
    orderId: string, symbol: string, side: Side, quantity: int,
    limitPrice: int, targetPrice: int,       // cents
    createdAt: int, lastUpdated: int,        // seconds
    orderType: string, underlying: string,
    strike: Option<real>, expiration: Option<int>,
    attempts: nat, maxAttempts: nat)

  // ---------------------------------------------------------------------------
  // Prices

  /**
   * `h` half-cents rounded to a whole cent, an exact half going to the even
   * cent (Python's `round(x, 2)` on the exact value).
   */
  function RoundHalfCents(h: int): (c: int)
    ensures 2 * c - 1 <= h <= 2 * c + 1
    ensures h % 2 == 0 ==> 2 * c == h
  {
    if h % 2 == 0 then h / 2
    else
      var q := (h - 1) / 2;
      if q % 2 == 0 then q else q + 1
  }

  lemma RoundMonotone(h1: int, h2: int)
    requires h1 <= h2
    ensures RoundHalfCents(h1) <= RoundHalfCents(h2)
  {
  }

  /** `round((bid + ask) / 2, 2)`. */
  function Midpoint(q: Quote): int
  {
    RoundHalfCents(q.bid + q.ask)
  }

  /** The opening price of a sell: the midpoint plus the adjustment, never below the bid. */
  function SellLimit(q: Quote, adjustment: int): int
  {
    var p := Midpoint(q) + adjustment;
    if p >= q.bid then p else q.bid
  }

  /** The opening price of a buy: the midpoint plus the adjustment, never above the ask. */
  function BuyLimit(q: Quote, adjustment: int): int
  {
    var p := Midpoint(q) + adjustment;
    if p <= q.ask then p else q.ask
  }

  /** `min(attempts * 0.01, spread * 0.5)`, in half-cents. */
  function RepriceStep(attempts: nat, q: Quote): int
  {
    var spread := q.ask - q.bid;
    if 2 * attempts <= spread then 2 * attempts else spread
  }

  /** The repriced limit of a sell after `attempts` repricings: down from the ask, never below the bid. */
  function SellReprice(attempts: nat, q: Quote): int
  {
    var p := 2 * q.ask - RepriceStep(attempts, q);
    RoundHalfCents(if 2 * q.bid >= p then 2 * q.bid else p)
  }

  /** The repriced limit of a buy after `attempts` repricings: up from the bid, never above the ask. */
  function BuyReprice(attempts: nat, q: Quote): int
  {
    var p := 2 * q.bid + RepriceStep(attempts, q);
    RoundHalfCents(if 2 * q.ask <= p then 2 * q.ask else p)
  }

  function RepricedLimit(side: Side, attempts: nat, q: Quote): int
  {
    if side == Sell then SellReprice(attempts, q) else BuyReprice(attempts, q)
  }

  /** A new sell never asks less than the bid, and a new buy never pays more than the ask. */
  lemma OpeningLimits(q: Quote, adjustment: int)
    ensures SellLimit(q, adjustment) >= q.bid
    ensures adjustment == 0 && q.bid <= q.ask ==> SellLimit(q, adjustment) == Midpoint(q)
    ensures BuyLimit(q, adjustment) <= q.ask
    ensures adjustment == 0 && q.bid <= q.ask ==> BuyLimit(q, adjustment) == Midpoint(q)
  {
    if q.bid <= q.ask {
      RoundMonotone(2 * q.bid, q.bid + q.ask);
      RoundMonotone(q.bid + q.ask, 2 * q.ask);
    }
  }

  /** A whole number of cents is already rounded. */
  lemma RoundWhole(x: int)
    ensures RoundHalfCents(2 * x) == x
  {
  }

  /** On an uncrossed quote a repriced sell lies between the midpoint and the ask. */
  lemma SellRepriceBounds(attempts: nat, q: Quote)
    requires q.bid <= q.ask
    ensures Midpoint(q) <= SellReprice(attempts, q) <= q.ask
  {
    var p := 2 * q.ask - RepriceStep(attempts, q);
    assert q.bid + q.ask <= p <= 2 * q.ask;
    RoundMonotone(q.bid + q.ask, p);
    RoundMonotone(p, 2 * q.ask);
    RoundWhole(q.ask);
  }

  /** On an uncrossed quote a repriced buy lies between the bid and the midpoint. */
  lemma BuyRepriceBounds(attempts: nat, q: Quote)
    requires q.bid <= q.ask
    ensures q.bid <= BuyReprice(attempts, q) <= Midpoint(q)
  {
    var p := 2 * q.bid + RepriceStep(attempts, q);
    assert 2 * q.bid <= p <= q.bid + q.ask;
    RoundMonotone(2 * q.bid, p);
    RoundMonotone(p, q.bid + q.ask);
    RoundWhole(q.bid);
  }

  /**
   * On an uncrossed quote a repriced sell lies between the midpoint and the ask,
   * and a repriced buy between the bid and the midpoint; on a locked quote both
   * are the bid.
   */
  lemma RepriceBounds(attempts: nat, q: Quote)
    requires q.bid <= q.ask
    ensures Midpoint(q) <= SellReprice(attempts, q) <= q.ask
    ensures q.bid <= BuyReprice(attempts, q) <= Midpoint(q)
    ensures q.bid == q.ask ==> SellReprice(attempts, q) == q.bid == BuyReprice(attempts, q)
  {
    SellRepriceBounds(attempts, q);
    BuyRepriceBounds(attempts, q);
    if q.bid == q.ask {
      RoundWhole(q.bid);
    }
  }

  /** Each repricing attempt moves a sell down, or a buy up, or leaves it where it was. */
  lemma RepriceMovesTowardFill(a: nat, b: nat, q: Quote)
    requires a <= b && q.bid <= q.ask
    ensures SellReprice(b, q) <= SellReprice(a, q)
    ensures BuyReprice(a, q) <= BuyReprice(b, q)
  {
    var sa := 2 * q.ask - RepriceStep(a, q);
    var sb := 2 * q.ask - RepriceStep(b, q);
    RoundMonotone(if 2 * q.bid >= sb then 2 * q.bid else sb, if 2 * q.bid >= sa then 2 * q.bid else sa);
    var ba := 2 * q.bid + RepriceStep(a, q);
    var bb := 2 * q.bid + RepriceStep(b, q);
    RoundMonotone(if 2 * q.ask <= ba then 2 * q.ask else ba, if 2 * q.ask <= bb then 2 * q.ask else bb);
  }

  // ---------------------------------------------------------------------------
  // One order

  /** `should_update`: at least `updateInterval` seconds since the last update. */
  predicate ShouldUpdate(o: PendingOrder, now: int, updateInterval: int)
  {
    now - o.lastUpdated >= updateInterval
  }

  /** `is_expired`: at least `maxAgeMinutes` minutes since the order was placed. */
  predicate IsExpired(o: PendingOrder, now: int, maxAgeMinutes: int)
  {
    now - o.createdAt >= maxAgeMinutes * 60
  }

  /** What `_reprice_order` does to an order, and whether it answers True. */
  function Repriced(o: PendingOrder, quote: Option<Quote>, replaceOk: bool, now: int): (PendingOrder, bool)
  {
    if quote.None? then (o, false)
    else
      var newPrice := RepricedLimit(o.side, o.attempts, quote.value);
      if newPrice == o.limitPrice || !replaceOk then (o, false)
      else (o.(limitPrice := newPrice, lastUpdated := now, attempts := o.attempts + 1), true)
  }

  /** The order's status as the broker reports it (`LookupFailed`: the status query raised). */
  datatype BrokerStatus = StatusFilled | StatusCanceled | StatusExpired | StatusOpen | LookupFailed

  /** What `update_pending_orders` reports for one order. */
  datatype Report =
    | Filled
    | Closed(status: BrokerStatus)   // the broker cancelled or expired it; reported as the status's string
    | Expired                        // too old: cancelled here
    | RepricedReport                 // 'repriced', whether or not the price actually moved
    | Pending
    | Error

  /**
   * One order's turn in `update_pending_orders`: the order as it stays tracked
   * (`None` once it is dropped) and the report.
   */
  function Poll(o: PendingOrder, now: int, updateInterval: int, maxOrderAge: int, status: BrokerStatus,
                quote: Option<Quote>, cancelOk: bool, replaceOk: bool): (Option<PendingOrder>, Report)
  {
    if status == LookupFailed then (Some(o), Error)
    else if status == StatusFilled then (None, Filled)
    else if status == StatusCanceled || status == StatusExpired then (None, Closed(status))
    else if IsExpired(o, now, maxOrderAge) then
      if cancelOk then (None, Expired) else (Some(o), Error)
    else if ShouldUpdate(o, now, updateInterval) then (Some(Repriced(o, quote, replaceOk, now).0), RepricedReport)
    else (Some(o), Pending)
  }

  /** A terminal broker status drops the order and reports 'filled' or the status. */
  lemma TerminalStatusDrops(o: PendingOrder, now: int, updateInterval: int, maxOrderAge: int, status: BrokerStatus,
                            quote: Option<Quote>, cancelOk: bool, replaceOk: bool)
    requires status in {StatusFilled, StatusCanceled, StatusExpired}
    ensures var (next, report) := Poll(o, now, updateInterval, maxOrderAge, status, quote, cancelOk, replaceOk);
            next.None? && (report == Filled <==> status == StatusFilled) && (report != Filled ==> report == Closed(status))
  {
  }

  /** An open order past its age limit is cancelled and dropped; if the cancel raises it stays, unchanged, and reports an error. */
  lemma AgedOrderExpires(o: PendingOrder, now: int, updateInterval: int, maxOrderAge: int,
                         quote: Option<Quote>, cancelOk: bool, replaceOk: bool)
    requires now - o.createdAt >= maxOrderAge * 60
    ensures var (next, report) := Poll(o, now, updateInterval, maxOrderAge, StatusOpen, quote, cancelOk, replaceOk);
            (cancelOk ==> next.None? && report == Expired) && (!cancelOk ==> next == Some(o) && report == Error)
  {
  }

  /**
   * An open, young order due for an update reports 'repriced'; it keeps its id,
   * and either nothing changes or it takes the repriced limit with the attempt
   * count up by exactly one.
   */
  lemma DueOrderReprices(o: PendingOrder, now: int, updateInterval: int, maxOrderAge: int,
                         quote: Option<Quote>, cancelOk: bool, replaceOk: bool)
    requires now - o.createdAt < maxOrderAge * 60 && now - o.lastUpdated >= updateInterval
    ensures var (next, report) := Poll(o, now, updateInterval, maxOrderAge, StatusOpen, quote, cancelOk, replaceOk);
            report == RepricedReport && next.Some? && next.value.orderId == o.orderId &&
            (next.value == o ||
             (quote.Some? && next.value == o.(limitPrice := RepricedLimit(o.side, o.attempts, quote.value),
                                               lastUpdated := now, attempts := o.attempts + 1) &&
              next.value.limitPrice != o.limitPrice))
  {
  }

  /** An unchanged price means no broker call and no change to the order. */
  lemma SamePriceSkips(o: PendingOrder, q: Quote, replaceOk: bool, now: int)
    requires RepricedLimit(o.side, o.attempts, q) == o.limitPrice
    ensures Repriced(o, Some(q), replaceOk, now) == (o, false)
  {
  }

  // ---------------------------------------------------------------------------
  // All orders

  /** The broker's answers during one update, per order id (quotes per symbol). */
  datatype Answers = Answers(status: string -> BrokerStatus, quotes: string -> Option<Quote>,
                             cancelOk: string -> bool, replaceOk: string -> bool)

  /** The turn of the order tracked under `id`. */
  function PollId(m: map<string, PendingOrder>, id: string, now: int, updateInterval: int, maxOrderAge: int,
                  a: Answers): (Option<PendingOrder>, Report)
    requires id in m
  {
    Poll(m[id], now, updateInterval, maxOrderAge, a.status(id), a.quotes(m[id].symbol), a.cancelOk(id), a.replaceOk(id))
  }

  /** The tracked orders after every order in `done` has had its turn. */
  function PolledMap(m: map<string, PendingOrder>, done: set<string>, now: int, updateInterval: int, maxOrderAge: int,
                     a: Answers): map<string, PendingOrder>
  {
    map id | id in m && (id !in done || PollId(m, id, now, updateInterval, maxOrderAge, a).0.Some?)
      :: if id in done then PollId(m, id, now, updateInterval, maxOrderAge, a).0.value else m[id]
  }

  /** The reports for the orders in `done`. */
  function Reports(m: map<string, PendingOrder>, done: set<string>, now: int, updateInterval: int, maxOrderAge: int,
                   a: Answers): map<string, Report>
  {
    map id | id in m && id in done :: PollId(m, id, now, updateInterval, maxOrderAge, a).1
  }

  /** One more order's turn changes only that order's entry. */
  lemma PolledMapStep(m: map<string, PendingOrder>, done: set<string>, id: string, now: int, updateInterval: int,
                      maxOrderAge: int, a: Answers)
    requires id in m && id !in done
    ensures var next := PollId(m, id, now, updateInterval, maxOrderAge, a).0;
            var before := PolledMap(m, done, now, updateInterval, maxOrderAge, a);
            PolledMap(m, done + {id}, now, updateInterval, maxOrderAge, a) ==
              if next.Some? then before[id := next.value] else before - {id}
  {
    var next := PollId(m, id, now, updateInterval, maxOrderAge, a).0;
    var before := PolledMap(m, done, now, updateInterval, maxOrderAge, a);
    var after := PolledMap(m, done + {id}, now, updateInterval, maxOrderAge, a);
    var expected := if next.Some? then before[id := next.value] else before - {id};
    assert after.Keys == expected.Keys;
  }

  lemma ReportsStep(m: map<string, PendingOrder>, done: set<string>, id: string, now: int, updateInterval: int,
                    maxOrderAge: int, a: Answers)
    requires id in m && id !in done
    ensures Reports(m, done + {id}, now, updateInterval, maxOrderAge, a) ==
              Reports(m, done, now, updateInterval, maxOrderAge, a)[id := PollId(m, id, now, updateInterval, maxOrderAge, a).1]
  {
  }

  /** A turn keeps the order's id. */
  lemma PollKeepsId(o: PendingOrder, now: int, updateInterval: int, maxOrderAge: int, status: BrokerStatus,
                    quote: Option<Quote>, cancelOk: bool, replaceOk: bool)
    ensures var next := Poll(o, now, updateInterval, maxOrderAge, status, quote, cancelOk, replaceOk).0;
            next.Some? ==> next.value.orderId == o.orderId
  {
  }

  /** No order ever appears during an update: the tracked ids only shrink, and an order the broker closed is gone. */
  lemma PollNeverAdds(m: map<string, PendingOrder>, now: int, updateInterval: int, maxOrderAge: int, a: Answers, id: string)
    ensures var m' := PolledMap(m, m.Keys, now, updateInterval, maxOrderAge, a);
            m'.Keys <= m.Keys &&
            (id in m && a.status(id) in {StatusFilled, StatusCanceled, StatusExpired} ==> id !in m')
  {
  }

  /** `OrderManager`. */
  class OrderManager {
    const updateInterval: int   // seconds
    const maxOrderAge: int      // minutes
    var pendingOrders: map<string, PendingOrder>

    /** Every order is tracked under its own id. */
    predicate Valid()
      reads this
    {
      forall id :: id in pendingOrders ==> pendingOrders[id].orderId == id
    }

    constructor (updateInterval: int, maxOrderAge: int)
      ensures this.updateInterval == updateInterval && this.maxOrderAge == maxOrderAge
      ensures pendingOrders == map[] && Valid()
    {
      this.updateInterval := updateInterval;
      this.maxOrderAge := maxOrderAge;
      pendingOrders := map[];
    }

    /**
     * `submit_limit_sell`: `quote` is the symbol's latest quote (`None` when the
     * snapshot or the quote is missing) and `placed` the id the broker gives the
     * order (`None` when the submission raises).
     */
    method SubmitLimitSell(symbol: string, quantity: int, adjustment: int, orderType: string, underlying: Option<string>,
                           strike: Option<real>, quote: Option<Quote>, placed: Option<string>, now: int)
      returns (r: Option<string>)
      requires Valid()
      modifies this
      ensures Valid()
      ensures quote.None? || placed.None? ==> r.None? && pendingOrders == old(pendingOrders)
      ensures quote.Some? && placed.Some? ==>
                r == placed &&
                pendingOrders == old(pendingOrders)[placed.value := PendingOrder(
                  placed.value, symbol, Sell, quantity, SellLimit(quote.value, adjustment), quote.value.bid, now, now,
                  orderType, if underlying.Some? && underlying.value != "" then underlying.value else symbol,
                  strike, None, 0, 10)]
    {
      if quote.None? {
        return None;
      }
      var limitPrice := Midpoint(quote.value);
      limitPrice := if limitPrice + adjustment >= quote.value.bid then limitPrice + adjustment else quote.value.bid;
      if placed.None? {
        return None;
      }
      var id := placed.value;
      var u := if underlying.Some? && underlying.value != "" then underlying.value else symbol;
      pendingOrders := pendingOrders[id := PendingOrder(id, symbol, Sell, quantity, limitPrice, quote.value.bid,
                                                        now, now, orderType, u, strike, None, 0, 10)];
      r := Some(id);
    }

    /** `submit_limit_buy`, with the same broker answers as a sell. */
    method SubmitLimitBuy(symbol: string, quantity: int, adjustment: int, orderType: string,
                          quote: Option<Quote>, placed: Option<string>, now: int)
      returns (r: Option<string>)
      requires Valid()
      modifies this
      ensures Valid()
      ensures quote.None? || placed.None? ==> r.None? && pendingOrders == old(pendingOrders)
      ensures quote.Some? && placed.Some? ==>
                r == placed &&
                pendingOrders == old(pendingOrders)[placed.value := PendingOrder(
                  placed.value, symbol, Buy, quantity, BuyLimit(quote.value, adjustment), quote.value.ask, now, now,
                  orderType, symbol, None, None, 0, 10)]
    {
      if quote.None? {
        return None;
      }
      var limitPrice := Midpoint(quote.value);
      limitPrice := if limitPrice + adjustment <= quote.value.ask then limitPrice + adjustment else quote.value.ask;
      if placed.None? {
        return None;
      }
      var id := placed.value;
      pendingOrders := pendingOrders[id := PendingOrder(id, symbol, Buy, quantity, limitPrice, quote.value.ask,
                                                        now, now, orderType, symbol, None, None, 0, 10)];
      r := Some(id);
    }

    /** `_reprice_order`: the order after the attempt, and whether the broker took the new price. */
    static method RepriceOrder(o: PendingOrder, quote: Option<Quote>, replaceOk: bool, now: int)
      returns (next: PendingOrder, ok: bool)
      ensures (next, ok) == Repriced(o, quote, replaceOk, now)
    {
      if quote.None? {
        return o, false;
      }
      var q := quote.value;
      var newPrice;
      if o.side == Sell {
        var spread := q.ask - q.bid;
        var adjustment := if 2 * o.attempts <= spread then 2 * o.attempts else spread;
        var p := 2 * q.ask - adjustment;
        newPrice := RoundHalfCents(if 2 * q.bid >= p then 2 * q.bid else p);
      } else {
        var spread := q.ask - q.bid;
        var adjustment := if 2 * o.attempts <= spread then 2 * o.attempts else spread;
        var p := 2 * q.bid + adjustment;
        newPrice := RoundHalfCents(if 2 * q.ask <= p then 2 * q.ask else p);
      }
      if newPrice == o.limitPrice {
        return o, false;
      }
      if !replaceOk {
        return o, false;
      }
      next := o.(limitPrice := newPrice, lastUpdated := now, attempts := o.attempts + 1);
      ok := true;
    }

    /** The body of the update loop for one order. */
    method PollOrder(o: PendingOrder, now: int, status: BrokerStatus, quote: Option<Quote>, cancelOk: bool, replaceOk: bool)
      returns (next: Option<PendingOrder>, report: Report)
      ensures (next, report) == Poll(o, now, updateInterval, maxOrderAge, status, quote, cancelOk, replaceOk)
    {
      if status == LookupFailed {
        return Some(o), Error;
      }
      if status == StatusFilled {
        return None, Filled;
      }
      if status == StatusCanceled || status == StatusExpired {
        return None, Closed(status);
      }
      if now - o.createdAt >= maxOrderAge * 60 {
        if !cancelOk {
          return Some(o), Error;
        }
        return None, Expired;
      }
      if now - o.lastUpdated >= updateInterval {
        var updated, _ := RepriceOrder(o, quote, replaceOk, now);
        return Some(updated), RepricedReport;
      }
      return Some(o), Pending;
    }

    /**
     * `update_pending_orders`: every order tracked at the start gets exactly one
     * report, and an error on one order does not stop the others.
     */
    method UpdatePendingOrders(now: int, a: Answers) returns (results: map<string, Report>)
      requires Valid()
      modifies this
      ensures Valid()
      ensures pendingOrders == PolledMap(old(pendingOrders), old(pendingOrders).Keys, now, updateInterval, maxOrderAge, a)
      ensures results == Reports(old(pendingOrders), old(pendingOrders).Keys, now, updateInterval, maxOrderAge, a)
      ensures results.Keys == old(pendingOrders).Keys
    {
      ghost var start := pendingOrders;
      results := map[];
      var remaining := pendingOrders.Keys;
      assert start.Keys - remaining == {};
      while remaining != {}
        invariant remaining <= start.Keys
        invariant Valid()
        invariant pendingOrders == PolledMap(start, start.Keys - remaining, now, updateInterval, maxOrderAge, a)
        invariant results == Reports(start, start.Keys - remaining, now, updateInterval, maxOrderAge, a)
        decreases remaining
      {
        var id :| id in remaining;
        ghost var done := start.Keys - remaining;
        assert id in pendingOrders && pendingOrders[id] == start[id];
        var o := pendingOrders[id];
        var next, report := PollOrder(o, now, a.status(id), a.quotes(o.symbol), a.cancelOk(id), a.replaceOk(id));
        PolledMapStep(start, done, id, now, updateInterval, maxOrderAge, a);
        ReportsStep(start, done, id, now, updateInterval, maxOrderAge, a);
        PollKeepsId(o, now, updateInterval, maxOrderAge, a.status(id), a.quotes(o.symbol), a.cancelOk(id), a.replaceOk(id));
        if next.Some? {
          pendingOrders := pendingOrders[id := next.value];
        } else {
          pendingOrders := pendingOrders - {id};
        }
        results := results[id := report];
        remaining := remaining - {id};
        assert start.Keys - remaining == done + {id};
      }
    }

    /** `cancel_all_pending`: answers how many orders were cancelled; those whose cancel raised stay tracked. */
    method CancelAllPending(cancelOk: string -> bool) returns (cancelled: nat)
      requires Valid()
      modifies this
      ensures Valid()
      ensures pendingOrders == map id | id in old(pendingOrders) && !cancelOk(id) :: old(pendingOrders)[id]
      ensures cancelled == |old(pendingOrders).Keys| - |pendingOrders.Keys|
    {
      ghost var start := pendingOrders;
      cancelled := 0;
      var remaining := pendingOrders.Keys;
      while remaining != {}
        invariant remaining <= start.Keys
        invariant pendingOrders == map id | id in start && (id in remaining || !cancelOk(id)) :: start[id]
        invariant cancelled + |pendingOrders.Keys| == |start.Keys|
        decreases remaining
      {
        var id :| id in remaining;
        if cancelOk(id) {
          assert pendingOrders.Keys - {id} == (pendingOrders - {id}).Keys;
          pendingOrders := pendingOrders - {id};
          cancelled := cancelled + 1;
        }
        remaining := remaining - {id};
      }
    }

    /** `get_pending_orders`: every tracked order once. */
    method GetPendingOrders() returns (r: seq<PendingOrder>)
      requires Valid()
      ensures |r| == |pendingOrders.Keys|
      ensures forall id :: id in pendingOrders ==> pendingOrders[id] in r
      ensures forall i :: 0 <= i < |r| ==> r[i].orderId in pendingOrders && pendingOrders[r[i].orderId] == r[i]
    {
      r := [];
      var remaining := pendingOrders.Keys;
      while remaining != {}
        invariant remaining <= pendingOrders.Keys
        invariant |r| + |remaining| == |pendingOrders.Keys|
        invariant forall id :: id in pendingOrders && id !in remaining ==> pendingOrders[id] in r
        invariant forall i :: 0 <= i < |r| ==> r[i].orderId in pendingOrders && r[i].orderId !in remaining &&
                                               pendingOrders[r[i].orderId] == r[i]
        decreases remaining
      {
        var id :| id in remaining;
        r := r + [pendingOrders[id]];
        remaining := remaining - {id};
      }
    }

    /** `has_pending_orders`. */
    method HasPendingOrders() returns (b: bool)
      ensures b <==> pendingOrders != map[]
    {
      b := |pendingOrders| > 0;
    }
  }
}

=== FILE: premium_tracker.dfy ===
/**
 * The premium ledger: per-symbol totals of call and put premium collected, and
 * the premium-adjusted cost basis that covered-call strikes are chosen against.
 * Premiums are per-share option prices in dollars (an option covers 100 shares).
 */
module PremiumTracker {
  import opened Wrappers

  datatype Transaction = Transaction(timestamp: string, optionType: string, premium: real, strike: real, expiry: string)

  datatype SymbolHistory = SymbolHistory(totalCallPremium: real, totalPutPremium: real, transactions: seq<Transaction>)

  type History = map<string, SymbolHistory>

  /** `t.upper() == "C"`, for an ASCII upper-case letter `c`. */
  predicate UpperIs(t: string, c: char)
    requires 'A' <= c <= 'Z'
  {
    t == [c] || t == [(c as int + 32) as char]
  }

  const EmptyHistory := SymbolHistory(0.0, 0.0, [])

  /** The ledger after `add_premium`. */
  function WithPremium(h: History, symbol: string, amount: real, optionType: string, strike: real,
                       expiry: string, timestamp: string): History
  {
    var entry := if symbol in h then h[symbol] else EmptyHistory;
    var txns := entry.transactions + [Transaction(timestamp, optionType, amount, strike, expiry)];
    h[symbol := if UpperIs(optionType, 'C') then entry.(totalCallPremium := entry.totalCallPremium + amount, transactions := txns)
                else if UpperIs(optionType, 'P') then entry.(totalPutPremium := entry.totalPutPremium + amount, transactions := txns)
                else entry.(transactions := txns)]
  }

  /** `get_total_premium`: `None` asks for calls plus puts. */
  function TotalPremium(h: History, symbol: string, optionType: Option<string>): (r: real)
    ensures symbol !in h ==> r == 0.0
    ensures symbol in h && optionType.None? ==> r == h[symbol].totalCallPremium + h[symbol].totalPutPremium
    ensures optionType.Some? && !UpperIs(optionType.value, 'C') && !UpperIs(optionType.value, 'P') ==> r == 0.0
  {
    if symbol !in h then 0.0
    else if optionType.None? then h[symbol].totalCallPremium + h[symbol].totalPutPremium
    else if UpperIs(optionType.value, 'C') then h[symbol].totalCallPremium
    else if UpperIs(optionType.value, 'P') then h[symbol].totalPutPremium
    else 0.0
  }

  /**
   * `get_adjusted_cost_basis`: the basis per share less the call premium collected
   * per share, floored at zero; unchanged when no shares are held.
   */
  function AdjustedCostBasis(h: History, symbol: string, basis: real, shares: int): (r: real)
    ensures shares <= 0 ==> r == basis
    ensures shares > 0 ==> r >= 0.0
    ensures shares > 0 && TotalPremium(h, symbol, Some("C")) == 0.0 && basis >= 0.0 ==> r == basis
  {
    if shares <= 0 then basis
    else
      var perShare := TotalPremium(h, symbol, Some("C")) * 100.0 / (shares as real);
      var adjusted := basis - perShare;
      if adjusted < 0.0 then 0.0 else adjusted
  }

  /** Adding a premium records exactly one transaction and moves exactly the matching total. */
  lemma AddPremiumEffect(h: History, symbol: string, amount: real, optionType: string, strike: real,
                         expiry: string, timestamp: string)
    ensures var h' := WithPremium(h, symbol, amount, optionType, strike, expiry, timestamp);
            && symbol in h'
            && |h'[symbol].transactions| == (if symbol in h then |h[symbol].transactions| else 0) + 1
            && TotalPremium(h', symbol, Some("C")) ==
                 TotalPremium(h, symbol, Some("C")) + (if UpperIs(optionType, 'C') then amount else 0.0)
            && TotalPremium(h', symbol, Some("P")) ==
                 TotalPremium(h, symbol, Some("P")) + (if UpperIs(optionType, 'P') then amount else 0.0)
            && (forall other :: other != symbol ==> (other in h' <==> other in h))
            && (forall other :: other != symbol && other in h ==> h'[other] == h[other])
  {
    assert !(UpperIs(optionType, 'C') && UpperIs(optionType, 'P'));
  }

  /** Put premiums never move the adjusted basis. */
  lemma PutPremiumKeepsBasis(h: History, symbol: string, amount: real, strike: real, expiry: string,
                             timestamp: string, basis: real, shares: int)
    ensures AdjustedCostBasis(WithPremium(h, symbol, amount, "P", strike, expiry, timestamp), symbol, basis, shares)
            == AdjustedCostBasis(h, symbol, basis, shares)
  {
    AddPremiumEffect(h, symbol, amount, "P", strike, expiry, timestamp);
  }

  /** Collecting more call premium never raises the adjusted basis. */
  lemma CallPremiumLowersBasis(h: History, symbol: string, amount: real, strike: real, expiry: string,
                               timestamp: string, basis: real, shares: int)
    requires amount >= 0.0
    ensures AdjustedCostBasis(WithPremium(h, symbol, amount, "C", strike, expiry, timestamp), symbol, basis, shares)
            <= AdjustedCostBasis(h, symbol, basis, shares)
  {
    AddPremiumEffect(h, symbol, amount, "C", strike, expiry, timestamp);
    if shares > 0 {
      var before := TotalPremium(h, symbol, Some("C"));
      var after := TotalPremium(WithPremium(h, symbol, amount, "C", strike, expiry, timestamp), symbol, Some("C"));
      assert after >= before;
      assert after * 100.0 / (shares as real) >= before * 100.0 / (shares as real) by {
        DivMonotone(before * 100.0, after * 100.0, shares as real);
      }
    }
  }

  lemma DivMonotone(x: real, y: real, d: real)
    requires x <= y && d > 0.0
    ensures x / d <= y / d
  {
    assert y / d - x / d == (y - x) / d;
  }

  /** 100 shares bought at $50 with $1.50 and $1.00 of call premium give an adjusted basis of $47.50. */
  lemma AdjustedBasisExample(strike: real, expiry: string, t1: string, t2: string)
    ensures var h := WithPremium(WithPremium(map[], "XYZ", 1.50, "C", strike, expiry, t1), "XYZ", 1.00, "C", strike, expiry, t2);
            AdjustedCostBasis(h, "XYZ", 50.0, 100) == 47.50
  {
    var h1 := WithPremium(map[], "XYZ", 1.50, "C", strike, expiry, t1);
    AddPremiumEffect(map[], "XYZ", 1.50, "C", strike, expiry, t1);
    AddPremiumEffect(h1, "XYZ", 1.00, "C", strike, expiry, t2);
  }

  /** The in-memory premium ledger (`self.history`); loading and saving the JSON file are not modelled. */
  class PremiumTracker {
    var history: History

    /** A tracker whose history was loaded as `loaded` (`{}` when the file does not exist). */
    constructor (loaded: History)
      ensures history == loaded
    {
      history := loaded;
    }

    /** `add_premium`; `timestamp` falls back to the caller's clock reading `now`. */
    method AddPremium(symbol: string, amount: real, optionType: string, strike: real, expiry: string,
                      timestamp: Option<string>, now: string)
      modifies this
      ensures history == WithPremium(old(history), symbol, amount, optionType, strike, expiry,
                                     if timestamp.Some? then timestamp.value else now)
    {
      if symbol !in history {
        history := history[symbol := EmptyHistory];
      }
      var stamp := if timestamp.Some? then timestamp.value else now;
      var entry := history[symbol];
      entry := entry.(transactions := entry.transactions + [Transaction(stamp, optionType, amount, strike, expiry)]);
      if UpperIs(optionType, 'C') {
        entry := entry.(totalCallPremium := entry.totalCallPremium + amount);
      } else if UpperIs(optionType, 'P') {
        entry := entry.(totalPutPremium := entry.totalPutPremium + amount);
      }
      history := history[symbol := entry];
    }

    function GetTotalPremium(symbol: string, optionType: Option<string>): real
      reads this
    {
      TotalPremium(history, symbol, optionType)
    }

    function GetAdjustedCostBasis(symbol: string, basis: real, shares: int): real
      reads this
    {
      AdjustedCostBasis(history, symbol, basis, shares)
    }

    /** `reset_symbol`: forgets the symbol, so its totals read as zero; other symbols keep theirs. */
    method ResetSymbol(symbol: string)
      modifies this
      ensures history == old(history) - {symbol}
      ensures GetTotalPremium(symbol, None) == 0.0
      ensures forall other, t :: other != symbol ==> GetTotalPremium(other, t) == TotalPremium(old(history), other, t)
    {
      if symbol in history {
        history := history - {symbol};
      }
    }
  }
}

=== FILE: retry_decorator.dfy ===
/**
 * Retrying failed broker calls and the circuit breaker that stops calling a
 * broker that keeps failing.  The wrapped function is not run: what its i-th
 * call does is a parameter (`answer(i)`), and so are the clock readings and
 * the random numbers the jitter draws.
 */
module RetryDecorator {
  import opened Wrappers

  /** What one call of the wrapped function does. */
  datatype CallOutcome<T> =
    | Success(value: T)
    | Caught(error: string)     // raised an exception the retry (or breaker) is configured to catch
    | Uncaught(error: string)   // raised any other exception

  // ---------------------------------------------------------------------------
  // Backoff

  function Pow2(n: nat): (p: nat)
    ensures p >= 1
  {
    if n == 0 then 1 else 2 * Pow2(n - 1)
  }

  /** `min(base_delay * 2**attempt, max_delay)`. */
  function CappedDelay(attempt: nat, baseDelay: real, maxDelay: real): real
  {
    var d := baseDelay * Pow2(attempt) as real;
    if d <= maxDelay then d else maxDelay
  }

  /** `exponential_backoff_with_jitter`; `u` is the value `random.random()` drew, in [0, 1). */
  function Backoff(attempt: nat, baseDelay: real, maxDelay: real, jitter: bool, u: real): real
    requires 0.0 <= u < 1.0
  {
    var delay := CappedDelay(attempt, baseDelay, maxDelay);
    if jitter then delay * (0.5 + u * 0.5) else delay
  }

  /** The delay never exceeds `max_delay`, and it doubles with each attempt until it reaches it. */
  lemma CappedDelayGrowth(attempt: nat, baseDelay: real, maxDelay: real)
    ensures CappedDelay(attempt, baseDelay, maxDelay) <= maxDelay
    ensures baseDelay >= 0.0 && baseDelay * (2 * Pow2(attempt)) as real <= maxDelay ==>
              CappedDelay(attempt + 1, baseDelay, maxDelay) == 2.0 * CappedDelay(attempt, baseDelay, maxDelay)
  {
    if baseDelay >= 0.0 && baseDelay * (2 * Pow2(attempt)) as real <= maxDelay {
      assert baseDelay * (2 * Pow2(attempt)) as real == 2.0 * (baseDelay * Pow2(attempt) as real);
      assert baseDelay * Pow2(attempt) as real <= baseDelay * (2 * Pow2(attempt)) as real;
    }
  }

  /**
   * Without jitter the delay is the capped exponential; with jitter it lies in
   * [delay/2, delay), or is 0 when the capped delay is 0.
   */
  lemma BackoffRange(attempt: nat, baseDelay: real, maxDelay: real, jitter: bool, u: real)
    requires 0.0 <= u < 1.0
    ensures var delay := CappedDelay(attempt, baseDelay, maxDelay);
            var r := Backoff(attempt, baseDelay, maxDelay, jitter, u);
            (!jitter ==> r == delay) &&
            (jitter && delay > 0.0 ==> delay / 2.0 <= r < delay) &&
            (jitter && delay == 0.0 ==> r == 0.0)
  {
    var delay := CappedDelay(attempt, baseDelay, maxDelay);
    if jitter && delay > 0.0 {
      var r := Backoff(attempt, baseDelay, maxDelay, jitter, u);
      assert r == delay / 2.0 + (delay * u) / 2.0;
      assert 0.0 <= delay * u < delay by {
        assert delay * u < delay * 1.0;
      }
    }
  }

  // ---------------------------------------------------------------------------
  // Retry loop

  /** What the decorated function ends with. */
  datatype RetryOutcome<T> =
    | Returned(value: T)
    | RetryFailed(last: string)   // `RetryException` after the last caught failure
    | Propagated(error: string)   // an uncaught exception, raised at once
    | NoAttempts                  // `max_attempts <= 0`: the loop never runs and the wrapper returns None

  /** The first attempt in [k, maxAttempts) that is not a caught failure, or `maxAttempts` if there is none. */
  function FirstUncaught<T>(answer: nat -> CallOutcome<T>, k: nat, maxAttempts: nat): (d: nat)
    requires k <= maxAttempts
    ensures k <= d <= maxAttempts
    ensures forall j :: k <= j < d ==> answer(j).Caught?
    ensures d < maxAttempts ==> !answer(d).Caught?
    decreases maxAttempts - k
  {
    if k == maxAttempts then maxAttempts
    else if !answer(k).Caught? then k
    else FirstUncaught(answer, k + 1, maxAttempts)
  }

  /** The outcome of the decorated call and how many times the function ran. */
  function RetrySpec<T>(maxAttempts: int, answer: nat -> CallOutcome<T>): (RetryOutcome<T>, nat)
  {
    if maxAttempts <= 0 then (NoAttempts, 0)
    else
      var k := FirstUncaught(answer, 0, maxAttempts);
      if k == maxAttempts then (RetryFailed(answer(maxAttempts - 1).error), maxAttempts as nat)
      else if answer(k).Success? then (Returned(answer(k).value), k + 1)
      else (Propagated(answer(k).error), k + 1)
  }

  /** The delay slept after the caught failure of attempt `attempt`. */
  function RetryDelay(attempt: nat, baseDelay: real, maxDelay: real, backoff: bool, jitter: bool, u: real): real
    requires 0.0 <= u < 1.0
  {
    if backoff then Backoff(attempt, baseDelay, maxDelay, jitter, u) else baseDelay
  }

  /**
   * `retry_on_failure`'s wrapper: calls the function until it succeeds, raises an
   * exception it does not catch, or has failed `max_attempts` times; sleeps the
   * backoff delay between attempts.  `noise(i)` is the jitter drawn after attempt `i`.
   */
  method RetryOnFailure<T>(maxAttempts: int, answer: nat -> CallOutcome<T>, baseDelay: real, maxDelay: real,
                           backoff: bool, jitter: bool, noise: nat -> real)
    returns (r: RetryOutcome<T>, calls: nat, delays: seq<real>)
    requires forall i: nat :: 0.0 <= noise(i) < 1.0
    ensures (r, calls) == RetrySpec(maxAttempts, answer)
    ensures calls == 0 ==> delays == []
    ensures calls > 0 ==> |delays| == calls - 1
    ensures forall i :: 0 <= i < |delays| ==> delays[i] == RetryDelay(i, baseDelay, maxDelay, backoff, jitter, noise(i))
  {
    calls := 0;
    delays := [];
    var attempt := 0;
    while attempt < maxAttempts
      invariant 0 <= attempt && (maxAttempts > 0 ==> attempt < maxAttempts) && (maxAttempts <= 0 ==> attempt == 0)
      invariant calls == attempt && |delays| == attempt
      invariant forall j :: 0 <= j < attempt ==> answer(j).Caught?
      invariant forall i :: 0 <= i < |delays| ==> delays[i] == RetryDelay(i, baseDelay, maxDelay, backoff, jitter, noise(i))
      decreases maxAttempts - attempt
    {
      calls := calls + 1;
      var outcome := answer(attempt);
      var k := FirstUncaught(answer, 0, maxAttempts);
      match outcome {
        case Success(v) =>
          assert k == attempt;
          return Returned(v), calls, delays;
        case Uncaught(e) =>
          assert k == attempt;
          return Propagated(e), calls, delays;
        case Caught(e) =>
          if attempt == maxAttempts - 1 {
            assert k == maxAttempts;
            return RetryFailed(e), calls, delays;
          }
          delays := delays + [RetryDelay(attempt, baseDelay, maxDelay, backoff, jitter, noise(attempt))];
      }
      attempt := attempt + 1;
    }
    r := NoAttempts;
  }

  /** The function runs at least once and at most `max_attempts` times. */
  lemma RetryCallBounds<T>(maxAttempts: int, answer: nat -> CallOutcome<T>)
    requires maxAttempts > 0
    ensures 1 <= RetrySpec(maxAttempts, answer).1 <= maxAttempts
  {
  }

  /** The call returns a value exactly when some attempt succeeds after nothing but caught failures. */
  lemma ReturnsIff<T>(maxAttempts: int, answer: nat -> CallOutcome<T>)
    ensures RetrySpec(maxAttempts, answer).0.Returned? <==>
              exists k :: 0 <= k < maxAttempts && answer(k).Success? && forall j :: 0 <= j < k ==> answer(j).Caught?
  {
    if maxAttempts > 0 {
      var d := FirstUncaught(answer, 0, maxAttempts);
      if exists k :: 0 <= k < maxAttempts && answer(k).Success? && forall j :: 0 <= j < k ==> answer(j).Caught? {
        var k :| 0 <= k < maxAttempts && answer(k).Success? && forall j :: 0 <= j < k ==> answer(j).Caught?;
        assert d == k;
      }
    }
  }

  /** A function that succeeds at once runs once. */
  lemma ImmediateSuccess<T>(maxAttempts: int, answer: nat -> CallOutcome<T>)
    requires maxAttempts >= 1 && answer(0).Success?
    ensures RetrySpec(maxAttempts, answer) == (Returned(answer(0).value), 1)
  {
  }

  /** Two caught failures then a success, with three attempts allowed: three calls and the value. */
  lemma RecoversOnThirdTry<T>(answer: nat -> CallOutcome<T>)
    requires answer(0).Caught? && answer(1).Caught? && answer(2).Success?
    ensures RetrySpec(3, answer) == (Returned(answer(2).value), 3)
  {
    assert FirstUncaught(answer, 0, 3) == 2 by {
      assert FirstUncaught(answer, 0, 3) == FirstUncaught(answer, 1, 3);
      assert FirstUncaught(answer, 1, 3) == FirstUncaught(answer, 2, 3);
    }
  }

  /** When every attempt is a caught failure, the function runs `max_attempts` times and RetryException is raised. */
  lemma ExhaustionRaises<T>(maxAttempts: int, answer: nat -> CallOutcome<T>)
    requires maxAttempts >= 1
    requires forall j :: 0 <= j < maxAttempts ==> answer(j).Caught?
    ensures RetrySpec(maxAttempts, answer) == (RetryFailed(answer(maxAttempts - 1).error), maxAttempts as nat)
  {
  }

  /** An exception the retry does not catch propagates from the first call, without retry. */
  lemma UncaughtPropagates<T>(maxAttempts: int, answer: nat -> CallOutcome<T>)
    requires maxAttempts >= 1 && answer(0).Uncaught?
    ensures RetrySpec(maxAttempts, answer) == (Propagated(answer(0).error), 1)
  {
  }

  // ---------------------------------------------------------------------------
  // Circuit breaker

  datatype BreakerState = Closed | Open | HalfOpen

  /** What `CircuitBreaker.call` ends with. */
  datatype BreakerOutcome<T> =
    | Passed(value: T)
    | Rejected              // `RetryException`: open and the recovery timeout has not elapsed; the function is not called
    | Raised(error: string) // the function's exception, re-raised

  /** The breaker's mutable fields as one value. */
  datatype Breaker = Breaker(state: BreakerState, failureCount: nat, lastFailureTime: Option<real>)

  /**
   * Whether an open breaker lets a call through at time `now`.  A failure time of
   * 0.0 is falsy and keeps the breaker open, like a missing one.
   */
  predicate RecoveryElapsed(b: Breaker, recoveryTimeout: real, now: real)
  {
    b.lastFailureTime.Some? && b.lastFailureTime.value != 0.0 && now - b.lastFailureTime.value >= recoveryTimeout
  }

  /**
   * One `call`: `now` is the clock before the call, `failedAt` the clock read when
   * a caught failure is recorded, `outcome` what the function does if it is called.
   */
  function BreakerCall<T>(b: Breaker, threshold: int, recoveryTimeout: real, now: real, failedAt: real,
                          outcome: CallOutcome<T>): (Breaker, BreakerOutcome<T>)
  {
    if b.state == Open && !RecoveryElapsed(b, recoveryTimeout, now) then (b, Rejected)
    else
      var s := if b.state == Open then HalfOpen else b.state;
      match outcome
      case Success(v) => (if s == HalfOpen then Breaker(Closed, 0, b.lastFailureTime) else b.(state := s), Passed(v))
      case Caught(e) =>
        var count := b.failureCount + 1;
        (Breaker(if count >= threshold then Open else s, count, Some(failedAt)), Raised(e))
      case Uncaught(e) => (b.(state := s), Raised(e))
  }

  /** Open breakers have seen at least `threshold` failures and remember when the last one was. */
  predicate BreakerInv(b: Breaker, threshold: int)
  {
    (b.state != Closed ==> b.failureCount >= threshold) && (b.state == Open ==> b.lastFailureTime.Some?)
  }

  /** Every call keeps the invariant. */
  lemma BreakerCallKeepsInv<T>(b: Breaker, threshold: int, recoveryTimeout: real, now: real, failedAt: real,
                               outcome: CallOutcome<T>)
    requires BreakerInv(b, threshold)
    ensures BreakerInv(BreakerCall(b, threshold, recoveryTimeout, now, failedAt, outcome).0, threshold)
  {
  }

  /** While open and before the timeout elapses, a call is rejected and nothing changes, whatever the function would do. */
  lemma OpenRejects<T>(b: Breaker, threshold: int, recoveryTimeout: real, now: real, failedAt: real,
                       outcome: CallOutcome<T>)
    requires b.state == Open && b.lastFailureTime.Some? && now - b.lastFailureTime.value < recoveryTimeout
    ensures BreakerCall(b, threshold, recoveryTimeout, now, failedAt, outcome) == (b, Rejected)
  {
  }

  /** After the timeout an open breaker calls the function: success closes it with a zero count, a caught failure reopens it. */
  lemma HalfOpenTrial<T>(b: Breaker, threshold: int, recoveryTimeout: real, now: real, failedAt: real,
                         outcome: CallOutcome<T>)
    requires BreakerInv(b, threshold) && b.state == Open && RecoveryElapsed(b, recoveryTimeout, now)
    ensures var (b', r) := BreakerCall(b, threshold, recoveryTimeout, now, failedAt, outcome);
            (outcome.Success? ==> b'.state == Closed && b'.failureCount == 0 && r == Passed(outcome.value)) &&
            (outcome.Caught? ==> b'.state == Open && b'.lastFailureTime == Some(failedAt) && r == Raised(outcome.error))
  {
  }

  /** Each caught failure adds one to the count; reaching the threshold opens the breaker. */
  lemma FailureCounts<T>(b: Breaker, threshold: int, recoveryTimeout: real, now: real, failedAt: real, e: string)
    requires b.state == Closed
    ensures var b' := BreakerCall(b, threshold, recoveryTimeout, now, failedAt, CallOutcome<T>.Caught(e)).0;
            b'.failureCount == b.failureCount + 1 && b'.lastFailureTime == Some(failedAt) &&
            (b'.state == Open <==> b.failureCount + 1 >= threshold)
  {
  }

  /** A success while closed does not reset the failure count. */
  lemma ClosedSuccessKeepsCount<T>(b: Breaker, threshold: int, recoveryTimeout: real, now: real, failedAt: real, v: T)
    requires b.state == Closed
    ensures BreakerCall(b, threshold, recoveryTimeout, now, failedAt, Success(v)) == (b, Passed(v))
  {
  }

  /** With a threshold of 2, two failures open a new breaker and the next call within the timeout is rejected. */
  lemma TwoFailuresOpen<T>(recoveryTimeout: real, t1: real, t2: real, t3: real, e1: string, e2: string, f: CallOutcome<T>)
    requires t2 != 0.0 && t3 - t2 < recoveryTimeout
    ensures var b1 := BreakerCall(Breaker(Closed, 0, None), 2, recoveryTimeout, t1, t1, CallOutcome<T>.Caught(e1)).0;
            var b2 := BreakerCall(b1, 2, recoveryTimeout, t2, t2, CallOutcome<T>.Caught(e2)).0;
            b2.state == Open && BreakerCall(b2, 2, recoveryTimeout, t3, t3, f).1 == Rejected
  {
  }

  /** `CircuitBreaker`. */
  class CircuitBreaker {
    const failureThreshold: int
    const recoveryTimeout: real
    var state: BreakerState
    var failureCount: nat
    var lastFailureTime: Option<real>

    function Snapshot(): Breaker
      reads this
    {
      Breaker(state, failureCount, lastFailureTime)
    }

    predicate Valid()
      reads this
    {
      BreakerInv(Snapshot(), failureThreshold)
    }

    /** A new breaker is closed, with no failures and no failure time. */
    constructor (failureThreshold: int, recoveryTimeout: real)
      ensures this.failureThreshold == failureThreshold && this.recoveryTimeout == recoveryTimeout
      ensures Snapshot() == Breaker(Closed, 0, None)
      ensures Valid()
    {
      this.failureThreshold := failureThreshold;
      this.recoveryTimeout := recoveryTimeout;
      state := Closed;
      failureCount := 0;
      lastFailureTime := None;
    }

    /** `call`: guards, calls the function (its outcome is `outcome`), and records the result. */
    method Call<T>(now: real, failedAt: real, outcome: CallOutcome<T>) returns (r: BreakerOutcome<T>)
      requires Valid()
      modifies this
      ensures (Snapshot(), r) == BreakerCall(old(Snapshot()), failureThreshold, recoveryTimeout, now, failedAt, outcome)
      ensures Valid()
    {
      if state == Open {
        if lastFailureTime.Some? && lastFailureTime.value != 0.0 && now - lastFailureTime.value >= recoveryTimeout {
          state := HalfOpen;
        } else {
          return Rejected;
        }
      }
      match outcome {
        case Success(v) =>
          if state == HalfOpen {
            state := Closed;
            failureCount := 0;
          }
          r := Passed(v);
        case Caught(e) =>
          failureCount := failureCount + 1;
          lastFailureTime := Some(failedAt);
          if failureCount >= failureThreshold {
            state := Open;
          }
          r := Raised(e);
        case Uncaught(e) =>
          r := Raised(e);
      }
    }

    /** `reset`: closed, no failures, no failure time. */
    method Reset()
      modifies this
      ensures Snapshot() == Breaker(Closed, 0, None)
      ensures Valid()
    {
      failureCount := 0;
      lastFailureTime := None;
      state := Closed;
    }
  }
}

=== FILE: rolling.dfy ===
/**
 * The roll engine: short puts close to expiry are found, a replacement put is
 * chosen for each by its symbol's rolling strategy, and each roll buys the old
 * contract back and then sells the new one.  The clock is the `today` day
 * ordinal, the option chain of an underlying is a parameter, and so are the
 * broker's answers to the two market orders of each roll.
 */
module Rolling {
  import opened Wrappers
  import opened Sequences
  import opened OptionSymbols
  import opened ExpiryDates
  import SM = StateManager
  import L = Ledger
  import S = Strategy
  import C = ConfigLoader

  /**
   * The exceptions that escape the roll engine: `float` on a strike field that
   * is not a number (`ValueError`), and a zero strike or a `dte` of -1 in the
   * option screen (`ZeroDivisionError`).
   */
  datatype RollError = ValueError | ZeroDivisionError

  /** One entry of the rollable list; `expiration` is a day ordinal. */
  datatype Rollable = Rollable(position: SM.Position, underlying: string, strike: real, expiration: int,
                               daysToExpiry: int, quantity: nat)

  // ---------------------------------------------------------------------------
  // identify_rollable_positions

  /** What the scan makes of one position: skipped (`None`), rollable, or raising. */
  function Assess(p: SM.Position, c: C.ConfigData, today: int): Result<Option<Rollable>, RollError>
  {
    if p.assetClass != SM.UsOption || p.qty >= 0 then Ok(None)
    else
      match ParseOptionSymbol(p.symbol)
      case BadStrike => Err(ValueError)
      case NotAnOption => Ok(None)
      case OptionParts(u, t, k) =>
        if t != 'P' || !C.RollingEnabledFor(c, u) then Ok(None)
        else
          match ParseExpiry(ExpiryField(p.symbol, u))
          case None => Ok(None)
          case Some(exp) =>
            var daysToExpiry := Ordinal(exp) - today;
            if daysToExpiry <= C.DaysBeforeExpiry(c) then
              Ok(Some(Rollable(p, u, k as real / 1000.0, Ordinal(exp), daysToExpiry, -p.qty)))
            else Ok(None)
  }

  /**
   * A scan that keeps what `f` makes of each element (nothing, for `None`), in
   * order, and stops with the first error.
   */
  function Collect<T, U, E>(xs: seq<T>, f: T -> Result<Option<U>, E>): Result<seq<U>, E>
  {
    if xs == [] then Ok([])
    else
      var prev := Collect(xs[..|xs| - 1], f);
      if prev.Err? then prev
      else match f(xs[|xs| - 1])
        case Err(e) => Err(e)
        case Ok(None) => prev
        case Ok(Some(r)) => Ok(prev.value + [r])
  }

  /** The scan fails exactly when `f` fails on some element, and then with one of the errors `f` gives. */
  lemma {:induction false} CollectErr<T, U, E>(xs: seq<T>, f: T -> Result<Option<U>, E>)
    ensures Collect(xs, f).Err? <==> exists i :: 0 <= i < |xs| && f(xs[i]).Err?
    ensures Collect(xs, f).Err? ==> exists i :: 0 <= i < |xs| && f(xs[i]) == Err(Collect(xs, f).error)
  {
    if xs != [] {
      var init := xs[..|xs| - 1];
      CollectErr(init, f);
      if Collect(init, f).Err? {
        var i :| 0 <= i < |init| && f(init[i]) == Err(Collect(init, f).error);
        assert xs[i] == init[i];
      }
      if exists i :: 0 <= i < |xs| && f(xs[i]).Err? {
        var i :| 0 <= i < |xs| && f(xs[i]).Err?;
        if i < |init| {
          assert init[i] == xs[i];
        }
      }
    }
  }

  /** A successful scan holds exactly what `f` keeps, and no more elements than it scanned. */
  lemma {:induction false} CollectMembers<T, U(!new), E>(xs: seq<T>, f: T -> Result<Option<U>, E>)
    requires Collect(xs, f).Ok?
    ensures forall x :: x in Collect(xs, f).value <==> exists i :: 0 <= i < |xs| && f(xs[i]) == Ok(Some(x))
    ensures |Collect(xs, f).value| <= |xs|
  {
    if xs != [] {
      var init := xs[..|xs| - 1];
      CollectMembers(init, f);
      var prev := Collect(init, f).value;
      var a := f(xs[|xs| - 1]);
      var rs := Collect(xs, f).value;
      assert rs == prev + (if a.value.Some? then [a.value.value] else []);
      forall x | x in rs
        ensures exists i :: 0 <= i < |xs| && f(xs[i]) == Ok(Some(x))
      {
        if x in prev {
          var i :| 0 <= i < |init| && f(init[i]) == Ok(Some(x));
          assert xs[i] == init[i];
        } else {
          assert f(xs[|xs| - 1]) == Ok(Some(x));
        }
      }
      forall x, i | 0 <= i < |xs| && f(xs[i]) == Ok(Some(x))
        ensures x in rs
      {
        if i < |init| {
          assert init[i] == xs[i];
        }
      }
    }
  }

  function AssessOn(c: C.ConfigData, today: int): SM.Position -> Result<Option<Rollable>, RollError>
  {
    p => Assess(p, c, today)
  }

  /** `identify_rollable_positions` as a function of the positions: rollable entries in position order. */
  function RollableIn(positions: seq<SM.Position>, c: C.ConfigData, today: int): Result<seq<Rollable>, RollError>
  {
    Collect(positions, AssessOn(c, today))
  }

  /**
   * Only a short put of a symbol with rolling enabled, whose expiration can be
   * read from its symbol and is at most `days_before_expiry` days away, is
   * rollable; its quantity is the absolute position size.  A strike field that
   * is not a number raises, and nothing else does.
   */
  lemma AssessSpec(p: SM.Position, c: C.ConfigData, today: int)
    ensures var a := Assess(p, c, today);
            a.Err? <==> p.assetClass == SM.UsOption && p.qty < 0 && ParseOptionSymbol(p.symbol).BadStrike?
    ensures var a := Assess(p, c, today);
            a.Ok? && a.value.Some? <==>
              p.assetClass == SM.UsOption && p.qty < 0 && ParseOptionSymbol(p.symbol).OptionParts? &&
              ParseOptionSymbol(p.symbol).optionType == 'P' &&
              C.RollingEnabledFor(c, ParseOptionSymbol(p.symbol).underlying) &&
              ParseExpiry(ExpiryField(p.symbol, ParseOptionSymbol(p.symbol).underlying)).Some? &&
              Ordinal(ParseExpiry(ExpiryField(p.symbol, ParseOptionSymbol(p.symbol).underlying)).value) - today
                <= C.DaysBeforeExpiry(c)
    ensures var a := Assess(p, c, today);
            a.Ok? && a.value.Some? ==>
              var x := a.value.value;
              var parsed := ParseOptionSymbol(p.symbol);
              x.position == p && x.underlying == parsed.underlying && x.strike == parsed.strikeMills as real / 1000.0 &&
              x.expiration == Ordinal(ParseExpiry(ExpiryField(p.symbol, x.underlying)).value) &&
              x.daysToExpiry == x.expiration - today && x.quantity == -p.qty > 0
  {
  }

  /** The scan raises exactly when some position raises, and always with `ValueError`. */
  lemma RollableInErr(positions: seq<SM.Position>, c: C.ConfigData, today: int)
    ensures RollableIn(positions, c, today).Err? <==>
              exists i :: 0 <= i < |positions| && Assess(positions[i], c, today).Err?
    ensures RollableIn(positions, c, today) != Err(ZeroDivisionError)
  {
    CollectErr(positions, AssessOn(c, today));
  }

  /**
   * When the scan succeeds it lists exactly the rollable entries of the
   * positions: nothing else, and no position is dropped.
   */
  lemma RollableInMembers(positions: seq<SM.Position>, c: C.ConfigData, today: int)
    requires RollableIn(positions, c, today).Ok?
    ensures forall x :: x in RollableIn(positions, c, today).value <==>
              exists i :: 0 <= i < |positions| && Assess(positions[i], c, today) == Ok(Some(x))
    ensures |RollableIn(positions, c, today).value| <= |positions|
  {
    CollectMembers(positions, AssessOn(c, today));
  }

  /** Every listed entry is a short put close to expiry, of a symbol with rolling enabled, taken from the positions. */
  lemma RollableSound(positions: seq<SM.Position>, c: C.ConfigData, today: int)
    requires RollableIn(positions, c, today).Ok?
    ensures forall x :: x in RollableIn(positions, c, today).value ==>
              x.position in positions && x.position.assetClass == SM.UsOption && x.position.qty < 0 &&
              x.quantity == -x.position.qty &&
              ParseOptionSymbol(x.position.symbol).OptionParts? && ParseOptionSymbol(x.position.symbol).optionType == 'P' &&
              ParseOptionSymbol(x.position.symbol).underlying == x.underlying &&
              C.RollingEnabledFor(c, x.underlying) &&
              x.daysToExpiry == x.expiration - today && x.daysToExpiry <= C.DaysBeforeExpiry(c)
  {
    RollableInMembers(positions, c, today);
    forall x | x in RollableIn(positions, c, today).value
      ensures x.position in positions && x.position.assetClass == SM.UsOption && x.position.qty < 0 &&
              x.quantity == -x.position.qty &&
              ParseOptionSymbol(x.position.symbol).OptionParts? && ParseOptionSymbol(x.position.symbol).optionType == 'P' &&
              ParseOptionSymbol(x.position.symbol).underlying == x.underlying &&
              C.RollingEnabledFor(c, x.underlying) &&
              x.daysToExpiry == x.expiration - today && x.daysToExpiry <= C.DaysBeforeExpiry(c)
    {
      var i :| 0 <= i < |positions| && Assess(positions[i], c, today) == Ok(Some(x));
      AssessSpec(positions[i], c, today);
    }
  }

  /**
   * Round trip through the roll engine's reading of a symbol: a symbol the
   * broker writes for a put on a digit-free underlying, a valid 20YY-MM-DD
   * expiry and a strike of at most eight digits parses back to that
   * underlying, put type and strike, and its expiry reads back as that date.
   */
  lemma StandardSymbolReadBack(underlying: string, yy: nat, mm: nat, dd: nat, strikeMills: nat)
    requires NoDigits(underlying) && strikeMills < Pow10(8)
    requires yy < 100 && mm < 100 && dd < 100 && ValidDate(Date(2000 + yy, mm, dd))
    ensures var symbol := OptionSymbol(underlying, ExpiryDigits(yy, mm, dd), 'P', strikeMills);
            ParseOptionSymbol(symbol) == OptionParts(underlying, 'P', strikeMills) &&
            ParseExpiry(ExpiryField(symbol, underlying)) == Some(Date(2000 + yy, mm, dd))
  {
    ParseOptionSymbolRoundTrip(underlying, ExpiryDigits(yy, mm, dd), 'P', strikeMills);
    ExpiryRoundTrip(underlying, yy, mm, dd, 'P', strikeMills);
  }

  /**
   * A short put of a symbol with rolling enabled, whose symbol and expiry read
   * as given, is rollable exactly when the expiry is at most
   * `days_before_expiry` days away; the entry carries the strike and the
   * expiry the symbol encodes (with the lemma above, any symbol the broker
   * writes for a valid date).
   */
  lemma AssessOfParts(p: SM.Position, c: C.ConfigData, today: int, underlying: string, strikeMills: nat, expiry: Date)
    requires p.assetClass == SM.UsOption && p.qty < 0 && C.RollingEnabledFor(c, underlying)
    requires ParseOptionSymbol(p.symbol) == OptionParts(underlying, 'P', strikeMills)
    requires ParseExpiry(ExpiryField(p.symbol, underlying)) == Some(expiry)
    ensures Assess(p, c, today) ==
              if Ordinal(expiry) - today <= C.DaysBeforeExpiry(c)
              then Ok(Some(Rollable(p, underlying, strikeMills as real / 1000.0, Ordinal(expiry), Ordinal(expiry) - today, -p.qty)))
              else Ok(None)
  {
  }

  /** `identify_rollable_positions`: the scan over the positions, raising out of the loop as the parser does. */
  method IdentifyRollablePositions(positions: seq<SM.Position>, c: C.ConfigData, today: int)
    returns (r: Result<seq<Rollable>, RollError>)
    ensures r == RollableIn(positions, c, today)
  {
    var rollable: seq<Rollable> := [];
    var i := 0;
    while i < |positions|
      invariant 0 <= i <= |positions|
      invariant RollableIn(positions[..i], c, today) == Ok(rollable)
    {
      assert positions[..i + 1][..i] == positions[..i];
      var a := Assess(positions[i], c, today);
      if a.Err? {
        RollableInErr(positions, c, today);
        assert RollableIn(positions, c, today).Err? by {
          assert Assess(positions[i], c, today).Err?;
        }
        assert RollableIn(positions, c, today).error == ValueError;
        return Err(ValueError);
      }
      if a.value.Some? {
        rollable := rollable + [a.value.value];
      }
      i := i + 1;
    }
    assert positions[..i] == positions;
    return Ok(rollable);
  }

  // ---------------------------------------------------------------------------
  // find_roll_targets

  /**
   * The rolling-strategy screen of one candidate put: a bid at least
   * `min_premium_to_roll`, and then for "forward" a strike at or above the
   * current one, for "down" a strike below it, for "both" any strike, each
   * with more days to expiry than the current put; any other strategy keeps
   * nothing.
   */
  predicate RollRule(o: S.Contract, strategy: string, currentStrike: real, daysToExpiry: int, minPremium: real)
  {
    !(o.bidPrice < minPremium) &&
    if strategy == "forward" then o.strike >= currentStrike && o.dte > daysToExpiry
    else if strategy == "down" then o.strike < currentStrike && o.dte > daysToExpiry
    else if strategy == "both" then o.dte > daysToExpiry
    else false
  }

  /** The screen with the symbol's strategy and the configured premium floor. */
  function RuleFor(r: Rollable, c: C.ConfigData): S.Contract -> bool
  {
    o => RollRule(o, C.RollingStrategyFor(c, r.underlying), r.strike, r.daysToExpiry, C.MinPremiumToRoll(c))
  }

  /** The contracts of scored candidates sorted by score, largest first. */
  function Ranked(fs: seq<S.Contract>, score: S.Contract -> real): seq<S.Contract>
  {
    S.Contracts(SortDesc(S.Zip(fs, S.ScoreOptions(fs, score)), S.ScoreOf))
  }

  /**
   * `find_roll_targets` as a function of the put chain (the contracts that
   * have a snapshot): the strategy screen, then `filter_options` with no
   * strike floor, then the survivors by score, largest first.
   */
  function RollTargets(puts: seq<S.Contract>, r: Rollable, c: C.ConfigData, th: S.Thresholds,
                       score: S.Contract -> real): Result<seq<S.Contract>, RollError>
  {
    match S.FilterOptions(Filter(puts, RuleFor(r, c)), th, 0.0)
    case Err(_) => Err(ZeroDivisionError)
    case Ok(fs) => if fs == [] then Ok([]) else Ok(Ranked(fs, score))
  }

  /** Each contract paired with its own score, in order. */
  lemma ZipScored(fs: seq<S.Contract>, score: S.Contract -> real)
    ensures var zs := S.Zip(fs, S.ScoreOptions(fs, score));
            |zs| == |fs| && forall m :: 0 <= m < |zs| ==> zs[m] == S.Candidate(fs[m], score(fs[m]))
  {
  }

  /** Ranking reorders the candidates by score without losing or adding one. */
  lemma RankedSpec(fs: seq<S.Contract>, score: S.Contract -> real)
    ensures |Ranked(fs, score)| == |fs|
    ensures forall o :: o in Ranked(fs, score) <==> o in fs
    ensures forall i, j :: 0 <= i < j < |Ranked(fs, score)| ==> score(Ranked(fs, score)[i]) >= score(Ranked(fs, score)[j])
  {
    var zs := S.Zip(fs, S.ScoreOptions(fs, score));
    var sorted := SortDesc(zs, S.ScoreOf);
    SortDescSpec(zs, S.ScoreOf);
    SameMembers(zs, sorted);
    var t := Ranked(fs, score);
    ZipScored(fs, score);
    forall k | 0 <= k < |sorted| ensures sorted[k].score == score(sorted[k].contract) && sorted[k].contract in fs {
      assert sorted[k] in zs;
    }
    forall o | o in fs ensures o in t {
      var m :| 0 <= m < |fs| && fs[m] == o;
      assert zs[m] in multiset(sorted);
      var k :| 0 <= k < |sorted| && sorted[k] == zs[m];
      assert t[k] == o;
    }
    forall i, j | 0 <= i < j < |t| ensures score(t[i]) >= score(t[j]) {
      assert S.ScoreOf(sorted[i]) >= S.ScoreOf(sorted[j]);
    }
  }

  /** `find_roll_targets`: the strategy screen as a loop over the chain, then the option screen and the ranking. */
  method FindRollTargets(puts: seq<S.Contract>, r: Rollable, c: C.ConfigData, th: S.Thresholds,
                         score: S.Contract -> real)
    returns (targets: Result<seq<S.Contract>, RollError>)
    ensures targets == RollTargets(puts, r, c, th, score)
  {
    var strategy := C.RollingStrategyFor(c, r.underlying);
    var minPremium := C.MinPremiumToRoll(c);
    var filtered: seq<S.Contract> := [];
    var i := 0;
    while i < |puts|
      invariant 0 <= i <= |puts|
      invariant filtered == Filter(puts[..i], RuleFor(r, c))
    {
      var option := puts[i];
      FilterSnoc(puts[..i], option, RuleFor(r, c));
      assert puts[..i + 1] == puts[..i] + [option];
      if !(option.bidPrice < minPremium) {
        if strategy == "forward" {
          if option.strike >= r.strike && option.dte > r.daysToExpiry {
            filtered := filtered + [option];
          }
        } else if strategy == "down" {
          if option.strike < r.strike && option.dte > r.daysToExpiry {
            filtered := filtered + [option];
          }
        } else if strategy == "both" {
          if option.dte > r.daysToExpiry {
            filtered := filtered + [option];
          }
        }
      }
      i := i + 1;
    }
    assert puts[..i] == puts;
    var screened := S.FilterOptions(filtered, th, 0.0);
    if screened.Err? {
      return Err(ZeroDivisionError);
    }
    if screened.value == [] {
      return Ok([]);
    }
    return Ok(Ranked(screened.value, score));
  }

  /**
   * The targets, when the screen does not raise, are exactly the puts of the
   * chain that pass both the strategy screen and `filter_options`, best score
   * first; every one of them has a delta.  The screen raises exactly when
   * some put passing the strategy screen makes `filter_options` divide by zero.
   */
  lemma RollTargetsSpec(puts: seq<S.Contract>, r: Rollable, c: C.ConfigData, th: S.Thresholds,
                        score: S.Contract -> real)
    ensures var t := RollTargets(puts, r, c, th, score);
            t.Err? <==> exists o :: o in puts && RuleFor(r, c)(o) && S.Keep(o, th, 0.0).Err?
    ensures var t := RollTargets(puts, r, c, th, score);
            t.Ok? ==>
              (forall o :: o in t.value <==> o in puts && RuleFor(r, c)(o) && S.Keep(o, th, 0.0) == Ok(true)) &&
              (forall i, j :: 0 <= i < j < |t.value| ==> score(t.value[i]) >= score(t.value[j])) &&
              (forall o :: o in t.value ==> o.delta.Some?)
  {
    var kept := Filter(puts, RuleFor(r, c));
    FilterSpec(puts, RuleFor(r, c));
    S.FilterOptionsSpec(kept, th, 0.0);
    var t := RollTargets(puts, r, c, th, score);
    if (exists o :: o in puts && RuleFor(r, c)(o) && S.Keep(o, th, 0.0).Err?) {
      var o :| o in puts && RuleFor(r, c)(o) && S.Keep(o, th, 0.0).Err?;
      assert o in kept;
      var i :| 0 <= i < |kept| && kept[i] == o;
    }
    if t.Ok? {
      var fs := S.FilterOptions(kept, th, 0.0).value;
      S.KeptContractsPassScreens(kept, th, 0.0);
      if fs != [] {
        RankedSpec(fs, score);
      }
    }
  }

  // ---------------------------------------------------------------------------
  // execute_roll

  /** A market order sent to the broker. */
  datatype MarketOrder = MarketBuy(symbol: string, qty: nat) | MarketSell(symbol: string, qty: nat)

  /** What one roll does: its answer, the orders it sends and the ledger rows it writes. */
  datatype RollEffects = RollEffects(ok: bool, orders: seq<MarketOrder>, trades: seq<L.TradeRecord>,
                                     premiums: seq<L.PremiumRecord>)

  /** The `buy_to_close` row: market price unknown, so price and premium 0. */
  function CloseRow(r: Rollable): L.TradeRecord
  {
    L.TradeRecord(r.underlying, "buy_to_close", r.quantity, 0.0, Some(r.strike), Some(r.expiration), Some(0.0))
  }

  function OpenPremiumRow(r: Rollable, target: S.Contract): L.PremiumRecord
  {
    L.PremiumRecord(r.underlying, 'P', target.strike, target.bidPrice, r.quantity, Some(target.expiration), "collected")
  }

  function OpenTradeRow(r: Rollable, target: S.Contract): L.TradeRecord
  {
    L.TradeRecord(r.underlying, "sell_put", r.quantity, target.bidPrice, Some(target.strike), Some(target.expiration),
                  Some(target.bidPrice))
  }

  /**
   * `execute_roll` as a function of the broker's answers: the buy to close,
   * the sell to open once the buy went through, and the ledger rows once both
   * did.  The premium row's note formats the target's delta, so a target
   * without one raises after the close row is written.
   */
  function Roll(r: Rollable, target: S.Contract, buyOk: bool, sellOk: bool, hasDb: bool): RollEffects
  {
    var orders := [MarketBuy(r.position.symbol, r.quantity)] +
                  (if buyOk then [MarketSell(target.symbol, r.quantity)] else []);
    if !(buyOk && sellOk) then RollEffects(false, orders, [], [])
    else if !hasDb then RollEffects(true, orders, [], [])
    else if target.delta.None? then RollEffects(false, orders, [CloseRow(r)], [])
    else RollEffects(true, orders, [CloseRow(r), OpenTradeRow(r, target)], [OpenPremiumRow(r, target)])
  }

  /**
   * A roll always sends the buy to close first, for the position's quantity;
   * the sell to open of the target, for the same quantity, follows only when
   * the buy went through, and no other order is sent, so a close whose open
   * fails is not undone.  It succeeds exactly when both orders go through
   * (and, with a ledger, the target has a delta); no ledger row is written
   * unless both orders went through, and a successful roll with a ledger
   * writes the close and open trades and one premium row for the new put.
   */
  lemma RollSpec(r: Rollable, target: S.Contract, buyOk: bool, sellOk: bool, hasDb: bool)
    ensures var e := Roll(r, target, buyOk, sellOk, hasDb);
            1 <= |e.orders| <= 2 && e.orders[0] == MarketBuy(r.position.symbol, r.quantity) &&
            (|e.orders| == 2 <==> buyOk) &&
            (buyOk ==> e.orders[1] == MarketSell(target.symbol, r.quantity))
    ensures var e := Roll(r, target, buyOk, sellOk, hasDb);
            e.ok <==> buyOk && sellOk && (hasDb ==> target.delta.Some?)
    ensures var e := Roll(r, target, buyOk, sellOk, hasDb);
            (e.trades != [] || e.premiums != []) ==> buyOk && sellOk && hasDb
    ensures var e := Roll(r, target, buyOk, sellOk, hasDb);
            e.ok && hasDb ==>
              e.trades == [CloseRow(r), OpenTradeRow(r, target)] && e.premiums == [OpenPremiumRow(r, target)]
    ensures var e := Roll(r, target, buyOk, sellOk, hasDb);
            !e.ok ==> e.premiums == [] && |e.trades| <= 1
  {
  }

  /**
   * `execute_roll`: the broker's answers to the two market orders are
   * parameters (`false` is an order that raised); the ledger, when there is
   * one, gets the rows of a roll whose two orders went through.
   */
  method ExecuteRoll(db: L.WheelDatabase?, r: Rollable, target: S.Contract, buyOk: bool, sellOk: bool)
    returns (ok: bool, orders: seq<MarketOrder>)
    modifies db
    ensures var e := Roll(r, target, buyOk, sellOk, db != null);
            ok == e.ok && orders == e.orders &&
            (db != null ==> db.trades == old(db.trades) + e.trades && db.premiums == old(db.premiums) + e.premiums)
  {
    orders := [MarketBuy(r.position.symbol, r.quantity)];
    if !buyOk {
      return false, orders;
    }
    orders := orders + [MarketSell(target.symbol, r.quantity)];
    if !sellOk {
      return false, orders;
    }
    if db != null {
      db.AddTrade(r.underlying, "buy_to_close", r.quantity, 0.0, Some(r.strike), Some(r.expiration), Some(0.0));
      if target.delta.None? {
        // formatting the missing delta into the premium row's note raises
        return false, orders;
      }
      db.AddPremium(r.underlying, 'P', target.strike, target.bidPrice, r.quantity, Some(target.expiration));
      db.AddTrade(r.underlying, "sell_put", r.quantity, target.bidPrice, Some(target.strike), Some(target.expiration),
                  Some(target.bidPrice));
    }
    return true, orders;
  }

  // ---------------------------------------------------------------------------
  // process_rolls

  /**
   * The world the roll loop sees: the put chain of each underlying (contracts
   * with a snapshot), and whether the buy and the sell of the roll attempted
   * for the k-th rollable position go through.
   */
  datatype Market = Market(chainOf: string -> seq<S.Contract>, buyOk: nat -> bool, sellOk: nat -> bool)

  /** What the roll loop has done: rolls that succeeded, orders sent, ledger rows written, and the error that stopped it. */
  datatype Outcome = Outcome(count: nat, orders: seq<MarketOrder>, trades: seq<L.TradeRecord>,
                             premiums: seq<L.PremiumRecord>, error: Option<RollError>)

  /** The value `process_rolls` returns (or the exception it raises) and the orders it sent, as the outcome `o` says. */
  predicate Reports(r: Result<nat, RollError>, orders: seq<MarketOrder>, o: Outcome)
  {
    (r.Err? <==> o.error.Some?) && (r.Err? ==> r.error == o.error.value) && (r.Ok? ==> r.value == o.count) &&
    orders == o.orders
  }

  /** The targets `find_roll_targets` finds for each rollable position, in this market. */
  function TargetsIn(c: C.ConfigData, th: S.Thresholds, score: S.Contract -> real, m: Market)
    : Rollable -> Result<seq<S.Contract>, RollError>
  {
    (x: Rollable) => RollTargets(m.chainOf(x.underlying), x, c, th, score)
  }

  /** `targetsOf` gives, for every rollable position, what `find_roll_targets` finds for it in this market. */
  ghost predicate FindsTargets(targetsOf: Rollable -> Result<seq<S.Contract>, RollError>, c: C.ConfigData,
                               th: S.Thresholds, score: S.Contract -> real, m: Market)
  {
    forall x {:trigger RollTargets(m.chainOf(x.underlying), x, c, th, score)} ::
      targetsOf(x) == RollTargets(m.chainOf(x.underlying), x, c, th, score)
  }

  lemma TargetsInFinds(c: C.ConfigData, th: S.Thresholds, score: S.Contract -> real, m: Market)
    ensures FindsTargets(TargetsIn(c, th, score, m), c, th, score, m)
  {
  }

  /**
   * The loop of `process_rolls` over the first `k` rollable positions, for
   * any way `targetsOf` of finding the targets of a position.
   */
  function RollsUpTo(rs: seq<Rollable>, k: nat, targetsOf: Rollable -> Result<seq<S.Contract>, RollError>,
                     m: Market, hasDb: bool): Outcome
    requires k <= |rs|
  {
    if k == 0 then Outcome(0, [], [], [], None)
    else
      var o := RollsUpTo(rs, k - 1, targetsOf, m, hasDb);
      if o.error.Some? then o
      else match targetsOf(rs[k - 1])
        case Err(e) => o.(error := Some(e))
        case Ok(ts) =>
          if ts == [] then o
          else
            var e := Roll(rs[k - 1], ts[0], m.buyOk(k - 1), m.sellOk(k - 1), hasDb);
            Outcome(o.count + (if e.ok then 1 else 0), o.orders + e.orders, o.trades + e.trades,
                    o.premiums + e.premiums, None)
  }

  /** `process_rolls` as a function of its inputs. */
  function ProcessRollsSpec(positions: seq<SM.Position>, c: C.ConfigData, today: int, th: S.Thresholds,
                            score: S.Contract -> real, m: Market, hasDb: bool): Outcome
  {
    if !C.RollingGloballyEnabled(c) then Outcome(0, [], [], [], None)
    else match RollableIn(positions, c, today)
      case Err(e) => Outcome(0, [], [], [], Some(e))
      case Ok(rs) => RollsUpTo(rs, |rs|, TargetsIn(c, th, score, m), m, hasDb)
  }

  /** Every target found has a delta. */
  ghost predicate TargetsHaveDelta(targetsOf: Rollable -> Result<seq<S.Contract>, RollError>)
  {
    forall x :: targetsOf(x).Ok? ==> forall o :: o in targetsOf(x).value ==> o.delta.Some?
  }

  /** The targets of `find_roll_targets` passed `filter_options`, so they all have a delta. */
  lemma TargetsInHaveDelta(c: C.ConfigData, th: S.Thresholds, score: S.Contract -> real, m: Market)
    ensures TargetsHaveDelta(TargetsIn(c, th, score, m))
  {
    forall x | TargetsIn(c, th, score, m)(x).Ok?
      ensures forall o :: o in TargetsIn(c, th, score, m)(x).value ==> o.delta.Some?
    {
      RollTargetsSpec(m.chainOf(x.underlying), x, c, th, score);
    }
  }

  /** Every sell to open comes right after a buy to close of the same quantity. */
  predicate ClosesBeforeOpens(orders: seq<MarketOrder>)
  {
    forall j :: 0 <= j < |orders| && orders[j].MarketSell? ==>
      0 < j && orders[j - 1].MarketBuy? && orders[j - 1].qty == orders[j].qty
  }

  /** Whether position `j` has a target to roll into. */
  predicate HasTarget(rs: seq<Rollable>, j: nat, targetsOf: Rollable -> Result<seq<S.Contract>, RollError>)
    requires j < |rs|
  {
    targetsOf(rs[j]).Ok? && targetsOf(rs[j]).value != []
  }

  /** The roll made at position `k - 1`, when the loop reaches it without an error and finds a target. */
  lemma RollsUpToStep(rs: seq<Rollable>, k: nat, targetsOf: Rollable -> Result<seq<S.Contract>, RollError>,
                      m: Market, hasDb: bool)
    requires 0 < k <= |rs|
    requires RollsUpTo(rs, k - 1, targetsOf, m, hasDb).error.None? && HasTarget(rs, k - 1, targetsOf)
    ensures var o := RollsUpTo(rs, k - 1, targetsOf, m, hasDb);
            var e := Roll(rs[k - 1], targetsOf(rs[k - 1]).value[0], m.buyOk(k - 1), m.sellOk(k - 1), hasDb);
            RollsUpTo(rs, k, targetsOf, m, hasDb) ==
              Outcome(o.count + (if e.ok then 1 else 0), o.orders + e.orders, o.trades + e.trades,
                      o.premiums + e.premiums, None)
  {
  }

  /** Without a target, or after an error, position `k - 1` changes nothing except that an error there is recorded. */
  lemma RollsUpToSkip(rs: seq<Rollable>, k: nat, targetsOf: Rollable -> Result<seq<S.Contract>, RollError>,
                      m: Market, hasDb: bool)
    requires 0 < k <= |rs|
    requires !(RollsUpTo(rs, k - 1, targetsOf, m, hasDb).error.None? && HasTarget(rs, k - 1, targetsOf))
    ensures var o := RollsUpTo(rs, k - 1, targetsOf, m, hasDb);
            var o' := RollsUpTo(rs, k, targetsOf, m, hasDb);
            o'.count == o.count && o'.orders == o.orders && o'.trades == o.trades && o'.premiums == o.premiums &&
            (o'.error.None? ==> o.error.None?)
  {
  }

  /**
   * The roll loop counts at most one success per position and writes two
   * trade rows and one premium row per successful roll and none for a failed
   * one (and nothing without a ledger).
   */
  lemma {:induction false} RollsUpToLedger(rs: seq<Rollable>, k: nat, targetsOf: Rollable -> Result<seq<S.Contract>, RollError>,
                                           m: Market, hasDb: bool)
    requires k <= |rs| && TargetsHaveDelta(targetsOf)
    ensures var o := RollsUpTo(rs, k, targetsOf, m, hasDb);
            o.count <= k &&
            (hasDb ==> |o.trades| == 2 * o.count && |o.premiums| == o.count) &&
            (!hasDb ==> o.trades == [] && o.premiums == [])
  {
    if k > 0 {
      RollsUpToLedger(rs, k - 1, targetsOf, m, hasDb);
      if RollsUpTo(rs, k - 1, targetsOf, m, hasDb).error.None? && HasTarget(rs, k - 1, targetsOf) {
        var ts := targetsOf(rs[k - 1]).value;
        assert ts[0].delta.Some? by {
          assert ts[0] in ts;
        }
        RollSpec(rs[k - 1], ts[0], m.buyOk(k - 1), m.sellOk(k - 1), hasDb);
        RollsUpToStep(rs, k, targetsOf, m, hasDb);
      } else {
        RollsUpToSkip(rs, k, targetsOf, m, hasDb);
      }
    }
  }

  /** The roll loop sends every sell to open right after a buy to close of the same quantity. */
  lemma {:induction false} RollsUpToOrders(rs: seq<Rollable>, k: nat, targetsOf: Rollable -> Result<seq<S.Contract>, RollError>,
                                           m: Market, hasDb: bool)
    requires k <= |rs|
    ensures ClosesBeforeOpens(RollsUpTo(rs, k, targetsOf, m, hasDb).orders)
  {
    if k > 0 {
      RollsUpToOrders(rs, k - 1, targetsOf, m, hasDb);
      var o := RollsUpTo(rs, k - 1, targetsOf, m, hasDb);
      if o.error.None? && HasTarget(rs, k - 1, targetsOf) {
        var ts := targetsOf(rs[k - 1]).value;
        var e := Roll(rs[k - 1], ts[0], m.buyOk(k - 1), m.sellOk(k - 1), hasDb);
        RollSpec(rs[k - 1], ts[0], m.buyOk(k - 1), m.sellOk(k - 1), hasDb);
        assert ClosesBeforeOpens(e.orders);
        ClosesBeforeOpensAppend(o.orders, e.orders);
        RollsUpToStep(rs, k, targetsOf, m, hasDb);
      } else {
        RollsUpToSkip(rs, k, targetsOf, m, hasDb);
      }
    }
  }

  /**
   * Unless an error stopped it, the roll loop sends the buy to close of every
   * position that has a target: a missing target or a failed roll does not
   * stop the positions after it.
   */
  lemma {:induction false} RollsUpToAttempts(rs: seq<Rollable>, k: nat, targetsOf: Rollable -> Result<seq<S.Contract>, RollError>,
                                             m: Market, hasDb: bool)
    requires k <= |rs|
    ensures var o := RollsUpTo(rs, k, targetsOf, m, hasDb);
            o.error.None? ==>
              forall j :: 0 <= j < k && HasTarget(rs, j, targetsOf) ==>
                MarketBuy(rs[j].position.symbol, rs[j].quantity) in o.orders
  {
    if k > 0 {
      RollsUpToAttempts(rs, k - 1, targetsOf, m, hasDb);
      var o := RollsUpTo(rs, k - 1, targetsOf, m, hasDb);
      var o' := RollsUpTo(rs, k, targetsOf, m, hasDb);
      if o.error.None? && HasTarget(rs, k - 1, targetsOf) {
        var ts := targetsOf(rs[k - 1]).value;
        var e := Roll(rs[k - 1], ts[0], m.buyOk(k - 1), m.sellOk(k - 1), hasDb);
        RollSpec(rs[k - 1], ts[0], m.buyOk(k - 1), m.sellOk(k - 1), hasDb);
        RollsUpToStep(rs, k, targetsOf, m, hasDb);
        forall j | 0 <= j < k && HasTarget(rs, j, targetsOf)
          ensures MarketBuy(rs[j].position.symbol, rs[j].quantity) in o'.orders
        {
          if j < k - 1 {
            InAppendLeft(MarketBuy(rs[j].position.symbol, rs[j].quantity), o.orders, e.orders);
          } else {
            assert o'.orders[|o.orders|] == e.orders[0];
          }
        }
      } else {
        RollsUpToSkip(rs, k, targetsOf, m, hasDb);
      }
    }
  }

  /** Appending the orders of one roll keeps every sell right after its buy. */
  lemma ClosesBeforeOpensAppend(orders: seq<MarketOrder>, more: seq<MarketOrder>)
    requires ClosesBeforeOpens(orders) && ClosesBeforeOpens(more)
    requires more != [] ==> more[0].MarketBuy?
    ensures ClosesBeforeOpens(orders + more)
  {
    var all := orders + more;
    forall j | 0 <= j < |all| && all[j].MarketSell?
      ensures 0 < j && all[j - 1].MarketBuy? && all[j - 1].qty == all[j].qty
    {
      if j >= |orders| {
        assert all[j] == more[j - |orders|];
        if j > |orders| {
          assert all[j - 1] == more[j - 1 - |orders|];
        }
      }
    }
  }

  /**
   * `process_rolls` returns 0 without sending anything when rolling is
   * disabled or nothing is rollable; otherwise it counts at most one success
   * per rollable position, and every order and ledger row it produces obeys
   * the loop's invariants.
   */
  lemma ProcessRollsFacts(positions: seq<SM.Position>, c: C.ConfigData, today: int, th: S.Thresholds,
                          score: S.Contract -> real, m: Market, hasDb: bool)
    ensures var o := ProcessRollsSpec(positions, c, today, th, score, m, hasDb);
            (!C.RollingGloballyEnabled(c) || RollableIn(positions, c, today) == Ok([])) ==>
              o == Outcome(0, [], [], [], None)
    ensures var o := ProcessRollsSpec(positions, c, today, th, score, m, hasDb);
            C.RollingGloballyEnabled(c) && RollableIn(positions, c, today).Ok? ==>
              o.count <= |RollableIn(positions, c, today).value|
    ensures var o := ProcessRollsSpec(positions, c, today, th, score, m, hasDb);
            ClosesBeforeOpens(o.orders) &&
            (hasDb ==> |o.trades| == 2 * o.count && |o.premiums| == o.count) &&
            (!hasDb ==> o.trades == [] && o.premiums == [])
  {
    if C.RollingGloballyEnabled(c) && RollableIn(positions, c, today).Ok? {
      var rs := RollableIn(positions, c, today).value;
      TargetsInHaveDelta(c, th, score, m);
      RollsUpToLedger(rs, |rs|, TargetsIn(c, th, score, m), m, hasDb);
      RollsUpToOrders(rs, |rs|, TargetsIn(c, th, score, m), m, hasDb);
    }
  }

  /** An error at position `k - 1` is recorded and nothing else changes. */
  lemma RollsUpToFails(rs: seq<Rollable>, k: nat, targetsOf: Rollable -> Result<seq<S.Contract>, RollError>,
                       m: Market, hasDb: bool)
    requires 0 < k <= |rs|
    requires RollsUpTo(rs, k - 1, targetsOf, m, hasDb).error.None? && targetsOf(rs[k - 1]).Err?
    ensures RollsUpTo(rs, k, targetsOf, m, hasDb) ==
              RollsUpTo(rs, k - 1, targetsOf, m, hasDb).(error := Some(targetsOf(rs[k - 1]).error))
  {
  }

  /** Once an error is recorded, the later positions change nothing. */
  lemma {:induction false} RollsUpToStops(rs: seq<Rollable>, k: nat, n: nat,
                                          targetsOf: Rollable -> Result<seq<S.Contract>, RollError>, m: Market, hasDb: bool)
    requires k <= n <= |rs| && RollsUpTo(rs, k, targetsOf, m, hasDb).error.Some?
    ensures RollsUpTo(rs, n, targetsOf, m, hasDb) == RollsUpTo(rs, k, targetsOf, m, hasDb)
    decreases n - k
  {
    if k < n {
      RollsUpToStops(rs, k, n - 1, targetsOf, m, hasDb);
    }
  }

  /** The loop reaches position `k - 1` without an error, finds its targets, and sends and writes what a roll there does. */
  lemma RollsUpToNext(rs: seq<Rollable>, k: nat, targetsOf: Rollable -> Result<seq<S.Contract>, RollError>,
                      m: Market, hasDb: bool, o: Outcome, ok: bool, sent: seq<MarketOrder>,
                      trades: seq<L.TradeRecord>, premiums: seq<L.PremiumRecord>)
    requires 0 < k <= |rs|
    requires RollsUpTo(rs, k - 1, targetsOf, m, hasDb) == o && o.error.None? && targetsOf(rs[k - 1]).Ok?
    requires HasTarget(rs, k - 1, targetsOf) ==>
               var e := Roll(rs[k - 1], targetsOf(rs[k - 1]).value[0], m.buyOk(k - 1), m.sellOk(k - 1), hasDb);
               ok == e.ok && sent == e.orders && trades == e.trades && premiums == e.premiums
    requires !HasTarget(rs, k - 1, targetsOf) ==> !ok && sent == [] && trades == [] && premiums == []
    ensures RollsUpTo(rs, k, targetsOf, m, hasDb) ==
              Outcome(o.count + (if ok then 1 else 0), o.orders + sent, o.trades + trades, o.premiums + premiums, None)
  {
    if !HasTarget(rs, k - 1, targetsOf) {
      assert o.orders + sent == o.orders && o.trades + trades == o.trades && o.premiums + premiums == o.premiums;
    }
  }

  /**
   * One pass of the roll loop's body: `find_roll_targets` for the position,
   * then `execute_roll` into the first target when there is one.
   */
  method RollAt(db: L.WheelDatabase?, x: Rollable, k: nat, c: C.ConfigData, th: S.Thresholds,
                score: S.Contract -> real, m: Market, ghost targetsOf: Rollable -> Result<seq<S.Contract>, RollError>)
    returns (targets: Result<seq<S.Contract>, RollError>, ok: bool, sent: seq<MarketOrder>)
    requires FindsTargets(targetsOf, c, th, score, m)
    modifies db
    ensures targets == targetsOf(x)
    ensures targets.Ok? && targets.value != [] ==>
              var e := Roll(x, targets.value[0], m.buyOk(k), m.sellOk(k), db != null);
              ok == e.ok && sent == e.orders &&
              (db != null ==> db.trades == old(db.trades) + e.trades && db.premiums == old(db.premiums) + e.premiums)
    ensures !(targets.Ok? && targets.value != []) ==>
              !ok && sent == [] && (db != null ==> db.trades == old(db.trades) && db.premiums == old(db.premiums))
  {
    targets := FindRollTargets(m.chainOf(x.underlying), x, c, th, score);
    if targets.Err? || targets.value == [] {
      return targets, false, [];
    }
    ok, sent := ExecuteRoll(db, x, targets.value[0], m.buyOk(k), m.sellOk(k));
  }

  /**
   * The loop's body at position `i`, reached without an error: what it sends
   * and writes takes the loop from its outcome over the first `i` positions
   * to its outcome over the first `i + 1`.
   */
  method RollStep(db: L.WheelDatabase?, rs: seq<Rollable>, i: nat, c: C.ConfigData, th: S.Thresholds,
                  score: S.Contract -> real, m: Market,
                  ghost targetsOf: Rollable -> Result<seq<S.Contract>, RollError>, ghost o: Outcome)
    returns (error: Option<RollError>, ok: bool, sent: seq<MarketOrder>, ghost o': Outcome,
             ghost written: seq<L.TradeRecord>, ghost paid: seq<L.PremiumRecord>)
    requires i < |rs| && FindsTargets(targetsOf, c, th, score, m)
    requires o == RollsUpTo(rs, i, targetsOf, m, db != null) && o.error.None?
    modifies db
    ensures o' == RollsUpTo(rs, i + 1, targetsOf, m, db != null) && error == o'.error
    ensures error.Some? ==>
              o' == o.(error := error) && (db != null ==> db.trades == old(db.trades) && db.premiums == old(db.premiums))
    ensures error.None? ==>
              o'.count == o.count + (if ok then 1 else 0) && o'.orders == o.orders + sent &&
              o'.trades == o.trades + written && o'.premiums == o.premiums + paid &&
              (db != null ==> db.trades == old(db.trades) + written && db.premiums == old(db.premiums) + paid)
  {
    ghost var hasDb := db != null;
    var targets;
    targets, ok, sent := RollAt(db, rs[i], i, c, th, score, m, targetsOf);
    if targets.Err? {
      RollsUpToFails(rs, i + 1, targetsOf, m, hasDb);
      o' := RollsUpTo(rs, i + 1, targetsOf, m, hasDb);
      error, written, paid := Some(targets.error), [], [];
      return;
    }
    ghost var e := if targets.value == [] then RollEffects(false, [], [], [])
                   else Roll(rs[i], targets.value[0], m.buyOk(i), m.sellOk(i), hasDb);
    RollsUpToNext(rs, i + 1, targetsOf, m, hasDb, o, ok, sent, e.trades, e.premiums);
    o' := RollsUpTo(rs, i + 1, targetsOf, m, hasDb);
    error, written, paid := None, e.trades, e.premiums;
  }

  /**
   * The loop of `process_rolls` over a non-empty rollable list: counting
   * successes, skipping a position without a target, and stopping when an
   * exception escapes `find_roll_targets`; the orders it sends are returned in
   * the order sent.
   */
  method RollEach(db: L.WheelDatabase?, rs: seq<Rollable>, c: C.ConfigData, th: S.Thresholds,
                  score: S.Contract -> real, m: Market, ghost targetsOf: Rollable -> Result<seq<S.Contract>, RollError>)
    returns (r: Result<nat, RollError>, orders: seq<MarketOrder>)
    requires FindsTargets(targetsOf, c, th, score, m)
    modifies db
    ensures Reports(r, orders, RollsUpTo(rs, |rs|, targetsOf, m, db != null))
    ensures db != null ==> db.trades == old(db.trades) + RollsUpTo(rs, |rs|, targetsOf, m, true).trades
    ensures db != null ==> db.premiums == old(db.premiums) + RollsUpTo(rs, |rs|, targetsOf, m, true).premiums
  {
    ghost var o := RollsUpTo(rs, 0, targetsOf, m, db != null);
    var successfulRolls := 0;
    orders := [];
    var i := 0;
    while i < |rs|
      invariant 0 <= i <= |rs| && o == RollsUpTo(rs, i, targetsOf, m, db != null) && o.error.None?
      invariant successfulRolls == o.count && orders == o.orders
      invariant db != null ==> db.trades == old(db.trades) + o.trades && db.premiums == old(db.premiums) + o.premiums
    {
      var error, ok, sent, o', written, paid := RollStep(db, rs, i, c, th, score, m, targetsOf, o);
      if error.Some? {
        RollsUpToStops(rs, i + 1, |rs|, targetsOf, m, db != null);
        return Err(error.value), orders;
      }
      if ok {
        successfulRolls := successfulRolls + 1;
      }
      orders := orders + sent;
      if db != null {
        AppendAssoc(old(db.trades), o.trades, written);
        AppendAssoc(old(db.premiums), o.premiums, paid);
      }
      o := o';
      i := i + 1;
    }
    return Ok(successfulRolls), orders;
  }

  /**
   * `process_rolls`: nothing when rolling is disabled, the scan for rollable
   * positions (which may raise), nothing when none is rollable, then the roll
   * loop.
   */
  method ProcessRolls(db: L.WheelDatabase?, positions: seq<SM.Position>, c: C.ConfigData, today: int,
                      th: S.Thresholds, score: S.Contract -> real, m: Market)
    returns (r: Result<nat, RollError>, orders: seq<MarketOrder>)
    modifies db
    ensures Reports(r, orders, ProcessRollsSpec(positions, c, today, th, score, m, db != null))
    ensures db != null ==> db.trades == old(db.trades) + ProcessRollsSpec(positions, c, today, th, score, m, true).trades
    ensures db != null ==> db.premiums == old(db.premiums) + ProcessRollsSpec(positions, c, today, th, score, m, true).premiums
  {
    if !C.RollingGloballyEnabled(c) {
      return Ok(0), [];
    }
    var rollable := IdentifyRollablePositions(positions, c, today);
    if rollable.Err? {
      return Err(rollable.error), [];
    }
    if rollable.value == [] {
      return Ok(0), [];
    }
    TargetsInFinds(c, th, score, m);
    r, orders := RollEach(db, rollable.value, c, th, score, m, TargetsIn(c, th, score, m));
  }
}

=== FILE: runner.dfy ===
/**
 * The continuous runner: the market-hours window, one strategy cycle (rolls
 * first, then the state refresh, covered calls on long shares, the put
 * eligibility list and the buying power the puts may use) and the polling
 * loop that spaces cycles and order updates by their intervals.  Broker
 * snapshots, the clock and the shutdown signal are inputs; the order-placing
 * calls are modelled in ExecutionLimit, and a cycle answers what it asks them
 * to do.  As written those calls raise, which `WithSales` adds to a cycle.
 */
module Runner {
  import opened Wrappers
  import opened Sequences
  import SM = StateManager
  import TSM = ThreadSafeManager
  import OM = OrderManager
  import C = ConfigLoader
  import S = Strategy
  import L = Ledger
  import R = Rolling
  import SMx = StrategyMatrix
  import EL = ExecutionLimit

  // ---------------------------------------------------------------------------
  // Market hours

  /** A `datetime.time` in New York: hour, minute, second and microsecond. */
  datatype ClockTime = ClockTime(hour: nat, minute: nat, second: nat, micro: nat)

  predicate ValidClock(t: ClockTime)
  {
    t.hour < 24 && t.minute < 60 && t.second < 60 && t.micro < 1000000
  }

  /** `a <= b` on times: field by field, hour first. */
  predicate NotAfter(a: ClockTime, b: ClockTime)
  {
    a.hour < b.hour ||
    (a.hour == b.hour && (a.minute < b.minute ||
    (a.minute == b.minute && (a.second < b.second ||
    (a.second == b.second && a.micro <= b.micro)))))
  }

  /** Microseconds since midnight. */
  function MicrosOfDay(t: ClockTime): nat
  {
    ((t.hour * 60 + t.minute) * 60 + t.second) * 1000000 + t.micro
  }

  /** `is_market_open`: a weekday (Monday is 0) between 09:30 and 16:00, both included. */
  predicate IsMarketOpen(weekday: nat, t: ClockTime)
  {
    weekday < 5 && NotAfter(ClockTime(9, 30, 0, 0), t) && NotAfter(t, ClockTime(16, 0, 0, 0))
  }

  /** With `y` and `y'` below the base, comparing `x * base + y` is comparing `x` first, then `y`. */
  lemma Lex(x: nat, y: nat, x': nat, y': nat, base: nat)
    requires y < base && y' < base
    ensures x * base + y <= x' * base + y' <==> x < x' || (x == x' && y <= y')
  {
    if x < x' {
      assert (x + 1) * base <= x' * base;
    } else if x > x' {
      assert (x' + 1) * base <= x * base;
    }
  }

  /** Comparing times field by field is comparing them on the clock. */
  lemma NotAfterIsClockOrder(a: ClockTime, b: ClockTime)
    requires ValidClock(a) && ValidClock(b)
    ensures NotAfter(a, b) <==> MicrosOfDay(a) <= MicrosOfDay(b)
  {
    Lex(a.hour, a.minute, b.hour, b.minute, 60);
    Lex(a.hour * 60 + a.minute, a.second, b.hour * 60 + b.minute, b.second, 60);
    Lex((a.hour * 60 + a.minute) * 60 + a.second, a.micro, (b.hour * 60 + b.minute) * 60 + b.second, b.micro, 1000000);
  }

  /** The market is open on weekdays from 09:30:00.000000 to 16:00:00.000000, both ends included. */
  lemma MarketOpenWindow(weekday: nat, t: ClockTime)
    requires ValidClock(t)
    ensures IsMarketOpen(weekday, t) <==> weekday < 5 && 34200000000 <= MicrosOfDay(t) <= 57600000000
  {
    NotAfterIsClockOrder(ClockTime(9, 30, 0, 0), t);
    NotAfterIsClockOrder(t, ClockTime(16, 0, 0, 0));
  }

  /** The closing instant is still open, the microsecond after is not, and neither is the microsecond before the opening. */
  lemma MarketOpenBoundaries()
    ensures IsMarketOpen(0, ClockTime(16, 0, 0, 0)) && IsMarketOpen(4, ClockTime(9, 30, 0, 0))
    ensures !IsMarketOpen(0, ClockTime(16, 0, 0, 1)) && !IsMarketOpen(0, ClockTime(9, 29, 59, 999999))
    ensures !IsMarketOpen(5, ClockTime(12, 0, 0, 0)) && !IsMarketOpen(6, ClockTime(12, 0, 0, 0))
  {
  }

  // ---------------------------------------------------------------------------
  // One strategy cycle

  /** The account figures a cycle reads before anything else. */
  datatype Account = Account(actualBalance: real, optionsBuyingPower: real)

  /** The part of the non-margin balance the strategy may use. */
  function Allocated(actualBalance: real, allocation: real): real
  {
    actualBalance * allocation
  }

  /** The buying power offered to the puts: the smaller of the two limits, never below zero. */
  function BuyingPower(optionsBuyingPower: real, allocatedFunds: real): real
  {
    var least := if optionsBuyingPower <= allocatedFunds then optionsBuyingPower else allocatedFunds;
    if least >= 0.0 then least else 0.0
  }

  /** The buying power is never negative, never above either limit that is positive, and is the smaller limit when both are positive. */
  lemma BuyingPowerSpec(optionsBuyingPower: real, allocatedFunds: real)
    ensures var bp := BuyingPower(optionsBuyingPower, allocatedFunds);
            bp >= 0.0 &&
            (bp > 0.0 ==> bp <= optionsBuyingPower && bp <= allocatedFunds) &&
            (bp > 0.0 <==> optionsBuyingPower > 0.0 && allocatedFunds > 0.0) &&
            (optionsBuyingPower > 0.0 && allocatedFunds > 0.0 ==> bp == optionsBuyingPower || bp == allocatedFunds)
  {
  }

  /** Whether an order of kind `kind` (`'put'` or `'call'`) on `underlying` is pending. */
  predicate PendingFor(pending: map<string, OM.PendingOrder>, underlying: string, kind: string)
  {
    exists id :: id in pending && pending[id].underlying == underlying && pending[id].orderType == kind
  }

  /** The pending orders of one kind on one underlying, as the cycle's list comprehensions collect them. */
  function Matching(orders: seq<OM.PendingOrder>, underlying: string, kind: string): seq<OM.PendingOrder>
  {
    Filter(orders, (o: OM.PendingOrder) => o.underlying == underlying && o.orderType == kind)
  }

  /** Over a listing of every pending order, the comprehension is empty exactly when no such order is pending. */
  lemma MatchingEmpty(pending: map<string, OM.PendingOrder>, orders: seq<OM.PendingOrder>, underlying: string, kind: string)
    requires forall id :: id in pending ==> pending[id] in orders
    requires forall i :: 0 <= i < |orders| ==> orders[i].orderId in pending && pending[orders[i].orderId] == orders[i]
    ensures Matching(orders, underlying, kind) == [] <==> !PendingFor(pending, underlying, kind)
  {
    var p := (o: OM.PendingOrder) => o.underlying == underlying && o.orderType == kind;
    FilterSpec(orders, p);
    if PendingFor(pending, underlying, kind) {
      var id :| id in pending && pending[id].underlying == underlying && pending[id].orderType == kind;
      assert pending[id] in Filter(orders, p);
    }
    if Matching(orders, underlying, kind) != [] {
      var o := Matching(orders, underlying, kind)[0];
      assert o in orders && p(o);
      var i :| 0 <= i < |orders| && orders[i] == o;
      assert orders[i].orderId in pending;
    }
  }

  /** Whether the order manager lists a pending order of kind `kind` on `underlying`, as the cycle's comprehensions ask. */
  method HasPendingOf(om: OM.OrderManager, underlying: string, kind: string) returns (b: bool)
    requires om.Valid()
    ensures b <==> PendingFor(om.pendingOrders, underlying, kind)
  {
    var orders := om.GetPendingOrders();
    MatchingEmpty(om.pendingOrders, orders, underlying, kind);
    b := Matching(orders, underlying, kind) != [];
  }

  /** The underlyings that get a covered call: those in the long-shares state with no pending call. */
  function CallSymbols(states: map<string, SM.WheelState>, pending: map<string, OM.PendingOrder>): set<string>
  {
    set s | s in states && states[s].kind == SM.LongShares && !PendingFor(pending, s, "call")
  }

  /** Eligibility for puts: the capacity rule allows another layer and no put is pending. */
  function PutEligible(counts: map<string, SM.Counts>, pending: map<string, OM.PendingOrder>, maxLayers: int)
    : string -> bool
  {
    (s: string) => TSM.Allowed(counts, s, maxLayers) && !PendingFor(pending, s, "put")
  }

  /**
   * Why a cycle stopped early: an exception from the rolls, from deriving the
   * state, or from a sale (the line of `core/execution_limit.py` that raised).
   */
  datatype CycleError = RollFailed(rollError: R.RollError) | StateFailed(deriveError: SM.DeriveError) | SaleFailed(line: nat)

  /**
   * What a cycle did: nothing when no symbol is enabled; the error that ended
   * it; or the rolls made, the positions the state was derived from, the
   * underlyings offered a covered call, the underlyings eligible for puts (in
   * configuration order), the buying power, and whether puts are sold.
   */
  datatype Cycle =
    | NoSymbols
    | Raised(error: CycleError)
    | Ran(rolls: nat, positions: seq<SM.Position>, calls: set<string>, allowed: seq<string>,
          buyingPower: real, sellPuts: bool)

  /** The roll step's answer: its count, or the exception it raised. */
  function RollAnswer(o: R.Outcome): Result<nat, R.RollError>
  {
    if o.error.Some? then Err(o.error.value) else Ok(o.count)
  }

  /** `run_strategy_cycle` as a function of the snapshots it reads and the roll step's answer. */
  function CycleSpec(c: C.ConfigData, positions: seq<SM.Position>, refetched: seq<SM.Position>, account: Account,
                     pending: map<string, OM.PendingOrder>, rolled: Result<nat, R.RollError>): Cycle
  {
    var symbols := C.EnabledSymbols(c);
    if symbols == [] then NoSymbols
    else match rolled
      case Err(e) => Raised(RollFailed(e))
      case Ok(n) =>
        var ps := if n > 0 then refetched else positions;
        if SM.RiskOf(ps).Err? then Raised(StateFailed(SM.RiskOf(ps).error))
        else if SM.CountsOf(ps).Err? then Raised(StateFailed(SM.CountsOf(ps).error))
        else if SM.DeriveState(ps, None).Err? then Raised(StateFailed(SM.DeriveState(ps, None).error))
        else
          var counts := SM.CountsOf(ps).value;
          var allowed := Filter(symbols, PutEligible(counts, pending, C.MaxWheelLayers(c)));
          var bp := BuyingPower(account.optionsBuyingPower, Allocated(account.actualBalance, C.BalanceAllocation(c)));
          Ran(n, ps, CallSymbols(SM.DeriveState(ps, None).value, pending), allowed, bp, bp > 0.0 && allowed != [])
  }

  /** With no enabled symbol the cycle ends at once, before rolls, state or orders. */
  lemma NoSymbolsNoActivity(c: C.ConfigData, positions: seq<SM.Position>, refetched: seq<SM.Position>, account: Account,
                            pending: map<string, OM.PendingOrder>, rolled: Result<nat, R.RollError>)
    ensures CycleSpec(c, positions, refetched, account, pending, rolled) == NoSymbols <==> C.EnabledSymbols(c) == []
  {
  }

  /** A roll error ends the cycle; after the rolls, the state comes from refetched positions exactly when a roll succeeded. */
  lemma RollsFirst(c: C.ConfigData, positions: seq<SM.Position>, refetched: seq<SM.Position>, account: Account,
                   pending: map<string, OM.PendingOrder>, rolled: Result<nat, R.RollError>)
    requires C.EnabledSymbols(c) != []
    ensures var cy := CycleSpec(c, positions, refetched, account, pending, rolled);
            (rolled.Err? ==> cy == Raised(RollFailed(rolled.error))) &&
            (cy.Ran? ==> rolled == Ok(cy.rolls) && cy.positions == (if cy.rolls > 0 then refetched else positions))
  {
  }

  /**
   * A covered call is offered exactly to the underlyings in the long-shares
   * state without a pending call, and those underlyings hold shares.
   */
  lemma CallsSpec(c: C.ConfigData, positions: seq<SM.Position>, refetched: seq<SM.Position>, account: Account,
                  pending: map<string, OM.PendingOrder>, rolled: Result<nat, R.RollError>, s: string)
    requires CycleSpec(c, positions, refetched, account, pending, rolled).Ran?
    ensures var cy := CycleSpec(c, positions, refetched, account, pending, rolled);
            var states := SM.DeriveState(cy.positions, None).value;
            (s in cy.calls <==> s in states && states[s].kind == SM.LongShares && !PendingFor(pending, s, "call")) &&
            (s in cy.calls ==> SM.Get(SM.CountsOf(cy.positions).value, s) == states[s].counts) &&
            (s in cy.calls ==> exists i :: 0 <= i < |cy.positions| && cy.positions[i].assetClass == SM.UsEquity &&
                                           cy.positions[i].symbol == s && cy.positions[i].qty > 0)
  {
    var cy := CycleSpec(c, positions, refetched, account, pending, rolled);
    var ps := cy.positions;
    if s in cy.calls {
      SM.LongSharesRecordsEntry(ps, s, None);
      var i :| 0 <= i < |ps| && ps[i].assetClass == SM.UsEquity && ps[i].symbol == s;
      if ps[i].qty <= 0 {
        SM.WrongSignRaises(ps, i, None);
        assert false;
      }
    }
  }

  /**
   * The put list keeps the configuration's order and holds exactly the enabled
   * underlyings that the capacity rule allows and that have no pending put;
   * puts are sold exactly when it is non-empty and the buying power positive.
   */
  lemma AllowedSpec(c: C.ConfigData, positions: seq<SM.Position>, refetched: seq<SM.Position>, account: Account,
                    pending: map<string, OM.PendingOrder>, rolled: Result<nat, R.RollError>, s: string)
    requires CycleSpec(c, positions, refetched, account, pending, rolled).Ran?
    ensures var cy := CycleSpec(c, positions, refetched, account, pending, rolled);
            var counts := SM.CountsOf(cy.positions).value;
            IsSubsequence(cy.allowed, C.EnabledSymbols(c)) &&
            (s in cy.allowed <==> s in C.EnabledSymbols(c) && TSM.Allowed(counts, s, C.MaxWheelLayers(c)) &&
                                  !PendingFor(pending, s, "put")) &&
            (cy.sellPuts <==> cy.buyingPower > 0.0 && cy.allowed != []) &&
            cy.buyingPower >= 0.0
  {
    var cy := CycleSpec(c, positions, refetched, account, pending, rolled);
    var counts := SM.CountsOf(cy.positions).value;
    FilterSpec(C.EnabledSymbols(c), PutEligible(counts, pending, C.MaxWheelLayers(c)));
    BuyingPowerSpec(account.optionsBuyingPower, Allocated(account.actualBalance, C.BalanceAllocation(c)));
  }

  /** An underlying eligible for puts is below capacity: neither its puts nor its share lots reach the limit. */
  lemma AllowedBelowCapacity(c: C.ConfigData, positions: seq<SM.Position>, refetched: seq<SM.Position>, account: Account,
                             pending: map<string, OM.PendingOrder>, rolled: Result<nat, R.RollError>, s: string)
    requires CycleSpec(c, positions, refetched, account, pending, rolled).Ran?
    requires s in CycleSpec(c, positions, refetched, account, pending, rolled).allowed
    ensures var cy := CycleSpec(c, positions, refetched, account, pending, rolled);
            SM.CountsFor(cy.positions, s).puts < C.MaxWheelLayers(c) &&
            SM.CountsFor(cy.positions, s).shares < C.MaxWheelLayers(c)
  {
    var cy := CycleSpec(c, positions, refetched, account, pending, rolled);
    AllowedSpec(c, positions, refetched, account, pending, rolled, s);
    TSM.AllowedAfterCounting(cy.positions, s, C.MaxWheelLayers(c));
  }

  /** The cycle's covered calls: the long-shares underlyings without a pending call. */
  method CallCandidates(om: OM.OrderManager, states: map<string, SM.WheelState>) returns (calls: set<string>)
    requires om.Valid()
    ensures calls == CallSymbols(states, om.pendingOrders)
  {
    calls := {};
    var remaining := states.Keys;
    while remaining != {}
      invariant remaining <= states.Keys
      invariant calls == set s | s in states && s !in remaining && states[s].kind == SM.LongShares &&
                                 !PendingFor(om.pendingOrders, s, "call")
      decreases remaining
    {
      var symbol :| symbol in remaining;
      if states[symbol].kind == SM.LongShares {
        var callPending := HasPendingOf(om, symbol, "call");
        if !callPending {
          calls := calls + {symbol};
        }
      }
      remaining := remaining - {symbol};
    }
  }

  /** The cycle's put list: the enabled underlyings, in order, that the state holder allows and that have no pending put. */
  method EligibleForPuts(tsm: TSM.ThreadSafeStateManager, om: OM.OrderManager, symbols: seq<string>, maxLayers: int)
    returns (allowed: seq<string>)
    requires om.Valid()
    ensures allowed == Filter(symbols, PutEligible(tsm.positionCounts, om.pendingOrders, maxLayers))
  {
    ghost var eligible := PutEligible(tsm.positionCounts, om.pendingOrders, maxLayers);
    allowed := [];
    var i := 0;
    while i < |symbols|
      invariant 0 <= i <= |symbols|
      invariant allowed == Filter(symbols[..i], eligible)
    {
      var symbol := symbols[i];
      assert symbols[..i + 1] == symbols[..i] + [symbol];
      FilterSnoc(symbols[..i], symbol, eligible);
      var ok := tsm.IsPositionAllowed(symbol, maxLayers);
      if ok {
        var putPending := HasPendingOf(om, symbol, "put");
        if !putPending {
          allowed := allowed + [symbol];
        }
      }
      i := i + 1;
    }
    assert symbols[..i] == symbols;
  }

  /**
   * `run_strategy_cycle`: rolls first (the positions are fetched again when one
   * succeeded), then risk, counts and state are cached in the state holder,
   * and the cycle settles its covered calls, its put list and buying power.
   * An exception from the rolls or from deriving the state ends the cycle.
   */
  method RunStrategyCycle(tsm: TSM.ThreadSafeStateManager, om: OM.OrderManager, db: L.WheelDatabase?,
                          c: C.ConfigData, positions: seq<SM.Position>, refetched: seq<SM.Position>,
                          account: Account, today: int, th: S.Thresholds, score: S.Contract -> real, m: R.Market)
    returns (cycle: Cycle)
    requires om.Valid()
    modifies tsm, db
    ensures var o := R.ProcessRollsSpec(positions, c, today, th, score, m, db != null);
            cycle == CycleSpec(c, positions, refetched, account, om.pendingOrders, RollAnswer(o))
    ensures C.EnabledSymbols(c) == [] ==>
              tsm.state == old(tsm.state) && tsm.positionCounts == old(tsm.positionCounts) &&
              tsm.currentRisk == old(tsm.currentRisk) &&
              (db != null ==> db.trades == old(db.trades) && db.premiums == old(db.premiums))
    ensures cycle.Ran? ==>
              tsm.state == SM.DeriveState(cycle.positions, None).value &&
              tsm.positionCounts == SM.CountsOf(cycle.positions).value &&
              tsm.currentRisk == SM.RiskOf(cycle.positions).value
    ensures C.EnabledSymbols(c) != [] && db != null ==>
              db.trades == old(db.trades) + R.ProcessRollsSpec(positions, c, today, th, score, m, true).trades &&
              db.premiums == old(db.premiums) + R.ProcessRollsSpec(positions, c, today, th, score, m, true).premiums
    ensures var rolled := RollAnswer(R.ProcessRollsSpec(positions, c, today, th, score, m, db != null));
            C.EnabledSymbols(c) != [] && rolled.Err? ==>
              tsm.state == old(tsm.state) && tsm.positionCounts == old(tsm.positionCounts) &&
              tsm.currentRisk == old(tsm.currentRisk)
    ensures var rolled := RollAnswer(R.ProcessRollsSpec(positions, c, today, th, score, m, db != null));
            C.EnabledSymbols(c) != [] && rolled.Ok? ==>
              var ps := if rolled.value > 0 then refetched else positions;
              var risk, counts, states := SM.RiskOf(ps), SM.CountsOf(ps), SM.DeriveState(ps, None);
              tsm.currentRisk == (if risk.Ok? then risk.value else old(tsm.currentRisk)) &&
              tsm.positionCounts == (if risk.Ok? && counts.Ok? then counts.value else old(tsm.positionCounts)) &&
              tsm.state == (if risk.Ok? && counts.Ok? && states.Ok? then states.value else old(tsm.state))
  {
    var symbols := C.EnabledSymbols(c);
    if symbols == [] {
      return NoSymbols;
    }
    var rolled, _ := R.ProcessRolls(db, positions, c, today, th, score, m);
    if rolled.Err? {
      return Raised(RollFailed(rolled.error));
    }
    var ps := positions;
    if rolled.value > 0 {
      ps := refetched;
    }
    var risk := tsm.CalculateRisk(ps);
    if risk.Err? {
      return Raised(StateFailed(risk.error));
    }
    var counts := tsm.CountPositionsBySymbol(ps);
    if counts.Err? {
      return Raised(StateFailed(counts.error));
    }
    var states := tsm.UpdateState(ps, None);
    if states.Err? {
      return Raised(StateFailed(states.error));
    }
    var maxLayers := C.MaxWheelLayers(c);
    var calls := CallCandidates(om, states.value);
    var allowed := EligibleForPuts(tsm, om, symbols, maxLayers);
    var bp := BuyingPower(account.optionsBuyingPower, Allocated(account.actualBalance, C.BalanceAllocation(c)));
    cycle := Ran(rolled.value, ps, calls, allowed, bp, bp > 0.0 && allowed != []);
  }

  // ---------------------------------------------------------------------------
  // The strategy matrix shown during a cycle

  /** The matrix row the cycle shows, as written: the put list is still empty when the matrix is shown. */
  function MatrixRowAsWritten(c: C.ConfigData, counts: map<string, SM.Counts>, states: map<string, SM.WheelState>,
                              s: string): SMx.Row
  {
    SMx.MatrixRow(s, counts, states, C.MaxWheelLayers(c), [])
  }

  /** As written, the matrix never shows SEEKING ENTRY, even for an underlying the same cycle then sells puts on. */
  lemma MatrixNeverSeeksEntry(c: C.ConfigData, counts: map<string, SM.Counts>, states: map<string, SM.WheelState>,
                              s: string)
    ensures MatrixRowAsWritten(c, counts, states, s).action != SMx.SeekingEntry
    ensures s !in counts && C.MaxWheelLayers(c) > 0 ==> MatrixRowAsWritten(c, counts, states, s).action == SMx.Ready
  {
  }

  /** The matrix row with the cycle's put list filled in first. */
  function MatrixRowShown(c: C.ConfigData, counts: map<string, SM.Counts>, states: map<string, SM.WheelState>,
                          allowed: seq<string>, s: string): SMx.Row
  {
    SMx.MatrixRow(s, counts, states, C.MaxWheelLayers(c), allowed)
  }

  /** With the put list filled in, every underlying the cycle will sell puts on shows SEEKING ENTRY. */
  lemma MatrixShowsEntry(c: C.ConfigData, positions: seq<SM.Position>, refetched: seq<SM.Position>, account: Account,
                         pending: map<string, OM.PendingOrder>, rolled: Result<nat, R.RollError>, s: string)
    requires CycleSpec(c, positions, refetched, account, pending, rolled).Ran?
    requires s in CycleSpec(c, positions, refetched, account, pending, rolled).allowed
    ensures var cy := CycleSpec(c, positions, refetched, account, pending, rolled);
            MatrixRowShown(c, SM.CountsOf(cy.positions).value, SM.DeriveState(cy.positions, None).value, cy.allowed, s)
              .action == SMx.SeekingEntry
  {
    var cy := CycleSpec(c, positions, refetched, account, pending, rolled);
    AllowedSpec(c, positions, refetched, account, pending, rolled, s);
    SMx.AtCapacityIffNotAllowed(s, SM.CountsOf(cy.positions).value, SM.DeriveState(cy.positions, None).value,
                                C.MaxWheelLayers(c), cy.allowed);
  }


  // ---------------------------------------------------------------------------
  // The cycle's sales

  /** Whether a cycle goes on to place orders: it ran, and it offers a covered call or sells puts. */
  predicate PlacesOrders(cy: Cycle)
  {
    cy.Ran? && (cy.calls != {} || cy.sellPuts)
  }

  /**
   * The cycle once its sales are called, given the strategy calls each sale
   * makes before it trades: covered calls are sold before the put list is
   * built, and a sale whose calls do not bind raises out of the cycle, which
   * has no handler of its own.
   */
  function WithSales(cy: Cycle, callSearch: seq<EL.StrategyCall>, putSearch: seq<EL.StrategyCall>): Cycle
  {
    if cy.Ran? && cy.calls != {} && EL.FirstUnbound(callSearch).Some? then
      Raised(SaleFailed(EL.FirstUnbound(callSearch).value))
    else if cy.Ran? && cy.sellPuts && EL.FirstUnbound(putSearch).Some? then
      Raised(SaleFailed(EL.FirstUnbound(putSearch).value))
    else cy
  }

  /**
   * As written, every cycle that reaches its sales raises: at line 107 of
   * `core/execution_limit.py` when some underlying is offered a covered call,
   * so the put list is never built, and otherwise at line 30 when there is
   * buying power and an underlying to sell puts on.  No cycle places an order.
   */
  lemma CycleAsWrittenRaises(c: C.ConfigData, positions: seq<SM.Position>, refetched: seq<SM.Position>, account: Account,
                             pending: map<string, OM.PendingOrder>, rolled: Result<nat, R.RollError>)
    ensures var cy := CycleSpec(c, positions, refetched, account, pending, rolled);
            var w := WithSales(cy, EL.CallSearchAsWritten, EL.PutSearchAsWritten);
            (w.Raised? <==> cy.Raised? || (cy.Ran? && (cy.calls != {} || (cy.buyingPower > 0.0 && cy.allowed != [])))) &&
            (cy.Ran? && cy.calls != {} ==> w == Raised(SaleFailed(107))) &&
            (cy.Ran? && cy.calls == {} && cy.buyingPower > 0.0 && cy.allowed != [] ==> w == Raised(SaleFailed(30))) &&
            !PlacesOrders(w)
  {
    var cy := CycleSpec(c, positions, refetched, account, pending, rolled);
    if cy.Ran? {
      AllowedSpec(c, positions, refetched, account, pending, rolled, "");
    }
    SalesAsWrittenRaise(cy);
  }

  /** The sales as written, added to any cycle that decides its sales as a run of `run_strategy_cycle` does. */
  lemma SalesAsWrittenRaise(cy: Cycle)
    requires cy.Ran? ==> (cy.sellPuts <==> cy.buyingPower > 0.0 && cy.allowed != [])
    ensures var w := WithSales(cy, EL.CallSearchAsWritten, EL.PutSearchAsWritten);
            (w.Raised? <==> cy.Raised? || (cy.Ran? && (cy.calls != {} || (cy.buyingPower > 0.0 && cy.allowed != [])))) &&
            (cy.Ran? && cy.calls != {} ==> w == Raised(SaleFailed(107))) &&
            (cy.Ran? && cy.calls == {} && cy.buyingPower > 0.0 && cy.allowed != [] ==> w == Raised(SaleFailed(30))) &&
            !PlacesOrders(w)
  {
    EL.PutSearchRaises();
    EL.CallSearchRaises();
  }

  /**
   * With sales whose strategy calls bind, the cycle is the one specified: it
   * places orders exactly when it offers a covered call, or has buying power
   * and an underlying to sell puts on.
   */
  lemma CycleWithBindingSales(c: C.ConfigData, positions: seq<SM.Position>, refetched: seq<SM.Position>, account: Account,
                              pending: map<string, OM.PendingOrder>, rolled: Result<nat, R.RollError>,
                              callSearch: seq<EL.StrategyCall>, putSearch: seq<EL.StrategyCall>)
    requires EL.FirstUnbound(callSearch).None? && EL.FirstUnbound(putSearch).None?
    ensures var cy := CycleSpec(c, positions, refetched, account, pending, rolled);
            WithSales(cy, callSearch, putSearch) == cy &&
            (PlacesOrders(cy) <==> cy.Ran? && (cy.calls != {} || (cy.buyingPower > 0.0 && cy.allowed != [])))
  {
  }
  // ---------------------------------------------------------------------------
  // The polling loop

  /**
   * What one pass of the loop observes: the clock (seconds), whether the
   * market is open, whether a shutdown signal has arrived, and whether the
   * order manager holds pending orders.
   */
  datatype Tick = Tick(now: int, marketOpen: bool, exitRequested: bool, ordersPending: bool)

  /** What the loop does: a strategy cycle, or an update of the pending orders. */
  datatype Event = CycleRun(at: int) | OrdersUpdated(at: int)

  /** The loop's variables: the last cycle and update times, what it has done, and whether it has left. */
  datatype LoopState = LoopState(lastCycle: int, lastUpdate: int, events: seq<Event>, stopped: bool)

  /** The command-line settings that steer the loop. */
  datatype Settings = Settings(cycleInterval: int, updateInterval: int, once: bool)

  /** A strategy cycle at the tick's time. */
  function RunCycle(s: LoopState, t: Tick): LoopState
  {
    s.(lastCycle := t.now, events := s.events + [CycleRun(t.now)])
  }

  /** The update step: when the update interval has passed, pending orders (if any) are updated and the time noted. */
  function RunUpdate(s: LoopState, t: Tick, cfg: Settings): LoopState
  {
    if t.now - s.lastUpdate < cfg.updateInterval then s
    else if t.ordersPending then s.(lastUpdate := t.now, events := s.events + [OrdersUpdated(t.now)])
    else s.(lastUpdate := t.now)
  }

  /**
   * One pass: leave on a shutdown signal; on a closed market leave under
   * `--once` and otherwise wait; run a cycle when the cycle interval has
   * passed (and leave after it under `--once`); then the update step.
   */
  function Pass(s: LoopState, t: Tick, cfg: Settings): LoopState
  {
    if s.stopped then s
    else if t.exitRequested then s.(stopped := true)
    else if !t.marketOpen then (if cfg.once then s.(stopped := true) else s)
    else if t.now - s.lastCycle >= cfg.cycleInterval then
      (if cfg.once then RunCycle(s, t).(stopped := true) else RunUpdate(RunCycle(s, t), t, cfg))
    else RunUpdate(s, t, cfg)
  }

  /** The loop after its first `k` passes, starting from times 0. */
  function Loop(ticks: seq<Tick>, k: nat, cfg: Settings): LoopState
    requires k <= |ticks|
  {
    if k == 0 then LoopState(0, 0, [], false) else Pass(Loop(ticks, k - 1, cfg), ticks[k - 1], cfg)
  }

  /**
   * `main` after the setup: under `--once` with the market closed at start it
   * returns before the loop (and skips the clean-up); otherwise it runs the
   * loop and then cleans up.
   */
  function MainSpec(ticks: seq<Tick>, openAtStart: bool, cfg: Settings): (seq<Event>, bool)
  {
    if !openAtStart && cfg.once then ([], false) else (Loop(ticks, |ticks|, cfg).events, true)
  }

  /** The times of the cycles run. */
  function CycleTimes(events: seq<Event>): seq<int>
  {
    if events == [] then []
    else CycleTimes(events[..|events| - 1]) +
         (if events[|events| - 1].CycleRun? then [events[|events| - 1].at] else [])
  }

  /** The times of the order updates run. */
  function UpdateTimes(events: seq<Event>): seq<int>
  {
    if events == [] then []
    else UpdateTimes(events[..|events| - 1]) +
         (if events[|events| - 1].OrdersUpdated? then [events[|events| - 1].at] else [])
  }

  /** Each time is at least `gap` after the one before it, the first at least `gap` after `start`. */
  predicate Gapped(times: seq<int>, start: int, gap: int)
  {
    (times != [] ==> times[0] - start >= gap) &&
    forall j :: 0 < j < |times| ==> times[j] - times[j - 1] >= gap
  }

  /** One more time, at least `gap` after the last (or after `start`), keeps the times gapped. */
  lemma GappedSnoc(times: seq<int>, start: int, gap: int, x: int)
    requires Gapped(times, start, gap)
    requires x - (if times == [] then start else times[|times| - 1]) >= gap
    ensures Gapped(times + [x], start, gap)
  {
    var ts := times + [x];
    forall j | 0 < j < |ts| ensures ts[j] - ts[j - 1] >= gap {
      if j < |times| {
        assert ts[j] == times[j] && ts[j - 1] == times[j - 1];
      }
    }
  }

  lemma CycleTimesSnoc(events: seq<Event>, e: Event)
    ensures CycleTimes(events + [e]) == CycleTimes(events) + (if e.CycleRun? then [e.at] else [])
  {
    assert (events + [e])[..|events|] == events;
  }

  lemma UpdateTimesSnoc(events: seq<Event>, e: Event)
    ensures UpdateTimes(events + [e]) == UpdateTimes(events) + (if e.OrdersUpdated? then [e.at] else [])
  {
    assert (events + [e])[..|events|] == events;
  }

  /** The last cycle time is the time of the last cycle run, or the starting 0. */
  predicate CycleClock(s: LoopState)
  {
    var ts := CycleTimes(s.events);
    s.lastCycle == (if ts == [] then 0 else ts[|ts| - 1])
  }

  /** The cycles so far are spaced by the cycle interval, and the clock remembers the last one. */
  predicate CyclesGapped(s: LoopState, cfg: Settings)
  {
    CycleClock(s) && Gapped(CycleTimes(s.events), 0, cfg.cycleInterval)
  }

  /** A cycle run once the interval has passed keeps the cycles spaced. */
  lemma RunCycleGapped(s: LoopState, t: Tick, cfg: Settings)
    requires CyclesGapped(s, cfg) && t.now - s.lastCycle >= cfg.cycleInterval
    ensures CyclesGapped(RunCycle(s, t), cfg)
  {
    CycleTimesSnoc(s.events, CycleRun(t.now));
    GappedSnoc(CycleTimes(s.events), 0, cfg.cycleInterval, t.now);
  }

  /** The update step runs no cycle and leaves the cycle clock alone. */
  lemma RunUpdateKeepsCycles(s: LoopState, t: Tick, cfg: Settings)
    ensures CycleTimes(RunUpdate(s, t, cfg).events) == CycleTimes(s.events)
    ensures RunUpdate(s, t, cfg).lastCycle == s.lastCycle
  {
    if t.now - s.lastUpdate >= cfg.updateInterval && t.ordersPending {
      CycleTimesSnoc(s.events, OrdersUpdated(t.now));
    }
  }

  /** One pass keeps the cycles spaced. */
  lemma PassCycles(s: LoopState, t: Tick, cfg: Settings)
    requires CyclesGapped(s, cfg)
    ensures CyclesGapped(Pass(s, t, cfg), cfg)
  {
    if !s.stopped && !t.exitRequested && t.marketOpen {
      if t.now - s.lastCycle >= cfg.cycleInterval {
        RunCycleGapped(s, t, cfg);
        RunUpdateKeepsCycles(RunCycle(s, t), t, cfg);
      } else {
        RunUpdateKeepsCycles(s, t, cfg);
      }
    }
  }

  /** Cycles run at least a cycle interval apart, the first at least one interval after time 0. */
  lemma {:induction false} CyclesSpaced(ticks: seq<Tick>, k: nat, cfg: Settings)
    requires k <= |ticks|
    ensures Gapped(CycleTimes(Loop(ticks, k, cfg).events), 0, cfg.cycleInterval)
    ensures CycleClock(Loop(ticks, k, cfg))
  {
    if k > 0 {
      CyclesSpaced(ticks, k - 1, cfg);
      PassCycles(Loop(ticks, k - 1, cfg), ticks[k - 1], cfg);
    }
  }

  /** The update clock is not earlier than the last update run, not below 0, and the updates are spaced by `gap`. */
  predicate UpdatesGapped(lastUpdate: int, events: seq<Event>, gap: int)
  {
    var ts := UpdateTimes(events);
    lastUpdate >= 0 && (ts != [] ==> lastUpdate >= ts[|ts| - 1]) && Gapped(ts, 0, gap)
  }

  /** With a non-negative interval the update step keeps the updates spaced. */
  lemma RunUpdateGapped(s: LoopState, t: Tick, cfg: Settings)
    requires cfg.updateInterval >= 0 && UpdatesGapped(s.lastUpdate, s.events, cfg.updateInterval)
    ensures var s' := RunUpdate(s, t, cfg); UpdatesGapped(s'.lastUpdate, s'.events, cfg.updateInterval)
  {
    if t.now - s.lastUpdate >= cfg.updateInterval && t.ordersPending {
      UpdateTimesSnoc(s.events, OrdersUpdated(t.now));
      GappedSnoc(UpdateTimes(s.events), 0, cfg.updateInterval, t.now);
    }
  }

  /** A cycle runs no update and leaves the update clock alone. */
  lemma RunCycleKeepsUpdates(s: LoopState, t: Tick)
    ensures UpdateTimes(RunCycle(s, t).events) == UpdateTimes(s.events)
    ensures RunCycle(s, t).lastUpdate == s.lastUpdate
  {
    UpdateTimesSnoc(s.events, CycleRun(t.now));
  }

  /** One pass keeps the updates spaced. */
  lemma PassUpdates(s: LoopState, t: Tick, cfg: Settings)
    requires cfg.updateInterval >= 0 && UpdatesGapped(s.lastUpdate, s.events, cfg.updateInterval)
    ensures var s' := Pass(s, t, cfg); UpdatesGapped(s'.lastUpdate, s'.events, cfg.updateInterval)
  {
    var s' := Pass(s, t, cfg);
    if s.stopped || t.exitRequested || !t.marketOpen {
      assert s'.lastUpdate == s.lastUpdate && s'.events == s.events;
    } else if t.now - s.lastCycle >= cfg.cycleInterval {
      var c := RunCycle(s, t);
      RunCycleKeepsUpdates(s, t);
      if cfg.once {
        assert s'.lastUpdate == c.lastUpdate && s'.events == c.events;
      } else {
        RunUpdateGapped(c, t, cfg);
      }
    } else {
      RunUpdateGapped(s, t, cfg);
    }
  }

  /** With a non-negative update interval, order updates run at least that interval apart. */
  lemma {:induction false} UpdatesSpaced(ticks: seq<Tick>, k: nat, cfg: Settings)
    requires k <= |ticks| && cfg.updateInterval >= 0
    ensures Gapped(UpdateTimes(Loop(ticks, k, cfg).events), 0, cfg.updateInterval)
    ensures UpdatesGapped(Loop(ticks, k, cfg).lastUpdate, Loop(ticks, k, cfg).events, cfg.updateInterval)
  {
    if k > 0 {
      UpdatesSpaced(ticks, k - 1, cfg);
      PassUpdates(Loop(ticks, k - 1, cfg), ticks[k - 1], cfg);
    }
  }

  /** Under `--once` the loop runs at most one cycle, and once it has run one it has left. */
  lemma {:induction false} OnceRunsOneCycle(ticks: seq<Tick>, k: nat, cfg: Settings)
    requires k <= |ticks| && cfg.once
    ensures |CycleTimes(Loop(ticks, k, cfg).events)| <= 1
    ensures CycleTimes(Loop(ticks, k, cfg).events) != [] ==> Loop(ticks, k, cfg).stopped
  {
    if k > 0 {
      OnceRunsOneCycle(ticks, k - 1, cfg);
      var s := Loop(ticks, k - 1, cfg);
      var t := ticks[k - 1];
      if !s.stopped && !t.exitRequested && t.marketOpen {
        if t.now - s.lastCycle >= cfg.cycleInterval {
          CycleTimesSnoc(s.events, CycleRun(t.now));
        } else {
          RunUpdateKeepsCycles(s, t, cfg);
        }
      }
    }
  }

  /** After the loop has left, later observations change nothing. */
  lemma {:induction false} StoppedStays(ticks: seq<Tick>, k: nat, n: nat, cfg: Settings)
    requires k <= n <= |ticks| && Loop(ticks, k, cfg).stopped
    ensures Loop(ticks, n, cfg) == Loop(ticks, k, cfg)
    decreases n - k
  {
    if k < n {
      StoppedStays(ticks, k, n - 1, cfg);
    }
  }

  /** Nothing happens on a pass that sees the market closed or a shutdown signal. */
  lemma QuietPass(s: LoopState, t: Tick, cfg: Settings)
    requires !t.marketOpen || t.exitRequested
    ensures Pass(s, t, cfg).events == s.events
    ensures t.exitRequested || cfg.once ==> Pass(s, t, cfg).stopped
  {
  }

  /**
   * The loop of `main`: each pass reads one observation; a shutdown signal or,
   * under `--once`, a closed market ends it; a closed market otherwise means
   * waiting for the next observation.
   */
  method MainLoop(ticks: seq<Tick>, cfg: Settings) returns (events: seq<Event>)
    ensures events == Loop(ticks, |ticks|, cfg).events
  {
    var lastCycle := 0;
    var lastUpdate := 0;
    events := [];
    var i := 0;
    while i < |ticks|
      invariant 0 <= i <= |ticks|
      invariant Loop(ticks, i, cfg) == LoopState(lastCycle, lastUpdate, events, false)
    {
      var t := ticks[i];
      if t.exitRequested {
        StoppedStays(ticks, i + 1, |ticks|, cfg);
        return;
      }
      if !t.marketOpen {
        if cfg.once {
          StoppedStays(ticks, i + 1, |ticks|, cfg);
          return;
        }
        i := i + 1;
        continue;
      }
      if t.now - lastCycle >= cfg.cycleInterval {
        events := events + [CycleRun(t.now)];
        lastCycle := t.now;
        if cfg.once {
          StoppedStays(ticks, i + 1, |ticks|, cfg);
          return;
        }
      }
      if t.now - lastUpdate >= cfg.updateInterval {
        if t.ordersPending {
          events := events + [OrdersUpdated(t.now)];
        }
        lastUpdate := t.now;
      }
      i := i + 1;
    }
  }

  /** The clean-up of `main`: every pending order is cancelled, those whose cancel fails stay tracked. */
  method Shutdown(om: OM.OrderManager, cancelOk: string -> bool) returns (cancelled: nat)
    requires om.Valid()
    modifies om
    ensures om.Valid()
    ensures om.pendingOrders == map id | id in old(om.pendingOrders) && !cancelOk(id) :: old(om.pendingOrders)[id]
    ensures cancelled == |old(om.pendingOrders).Keys| - |om.pendingOrders.Keys|
  {
    cancelled := 0;
    var pending := om.HasPendingOrders();
    if pending {
      cancelled := om.CancelAllPending(cancelOk);
    } else {
      assert om.pendingOrders == map id | id in om.pendingOrders && !cancelOk(id) :: om.pendingOrders[id];
    }
  }

  /**
   * `main`: under `--once` with the market closed at start it leaves at once;
   * otherwise it runs the loop and cancels the pending orders on the way out.
   */
  method RunMain(om: OM.OrderManager, ticks: seq<Tick>, openAtStart: bool, cfg: Settings, cancelOk: string -> bool)
    returns (events: seq<Event>, cleanedUp: bool)
    requires om.Valid()
    modifies om
    ensures (events, cleanedUp) == MainSpec(ticks, openAtStart, cfg)
    ensures !cleanedUp ==> om.pendingOrders == old(om.pendingOrders)
    ensures cleanedUp ==> forall id :: id in om.pendingOrders ==> id in old(om.pendingOrders) && !cancelOk(id)
  {
    if !openAtStart && cfg.once {
      return [], false;
    }
    events := MainLoop(ticks, cfg);
    var _ := Shutdown(om, cancelOk);
    cleanedUp := true;
  }
}

=== FILE: sequences.dfy ===
/**
 * Order-preserving filters and the stable descending sort that Python's
 * `sort(key=..., reverse=True)` performs, with the facts the rest of the model
 * uses about them.
 */
module Sequences {

  /** `xs` is `ys` with some elements left out, the rest in the same order. */
  predicate IsSubsequence<T(==)>(xs: seq<T>, ys: seq<T>)
  {
    if ys == [] then xs == []
    else (xs != [] && xs[0] == ys[0] && IsSubsequence(xs[1..], ys[1..])) || IsSubsequence(xs, ys[1..])
  }

  /** A list comprehension with a condition: the elements satisfying `p`, in order. */
  function Filter<T>(xs: seq<T>, p: T -> bool): seq<T>
  {
    if xs == [] then [] else (if p(xs[0]) then [xs[0]] else []) + Filter(xs[1..], p)
  }

  /** The filter keeps exactly the elements satisfying the condition, in their order. */
  lemma {:induction false} FilterSpec<T(!new)>(xs: seq<T>, p: T -> bool)
    ensures IsSubsequence(Filter(xs, p), xs)
    ensures forall x :: x in Filter(xs, p) <==> x in xs && p(x)
    ensures |Filter(xs, p)| <= |xs|
  {
    if xs != [] {
      FilterSpec(xs[1..], p);
      var rest := Filter(xs[1..], p);
      if p(xs[0]) {
        assert ([xs[0]] + rest)[1..] == rest;
      } else {
        assert [] + rest == rest;
      }
      assert forall x :: x in xs <==> x == xs[0] || x in xs[1..];
    }
  }

  lemma {:induction false} FilterAppend<T>(xs: seq<T>, ys: seq<T>, p: T -> bool)
    ensures Filter(xs + ys, p) == Filter(xs, p) + Filter(ys, p)
  {
    if xs == [] {
      assert xs + ys == ys;
    } else {
      var zs := xs + ys;
      assert zs[0] == xs[0] && zs[1..] == xs[1..] + ys;
      FilterAppend(xs[1..], ys, p);
      var head := if p(xs[0]) then [xs[0]] else [];
      assert Filter(zs, p) == head + Filter(xs[1..] + ys, p);
      assert Filter(xs, p) == head + Filter(xs[1..], p);
      AppendAssoc(head, Filter(xs[1..], p), Filter(ys, p));
    }
  }

  /** Filtering one more element at the end. */
  lemma FilterSnoc<T>(xs: seq<T>, x: T, p: T -> bool)
    ensures Filter(xs + [x], p) == Filter(xs, p) + (if p(x) then [x] else [])
  {
    FilterAppend(xs, [x], p);
    assert Filter([x], p) == (if p(x) then [x] else []) + Filter([x][1..], p);
  }

  /** Keeping every element changes nothing. */
  lemma {:induction false} FilterAll<T>(xs: seq<T>, p: T -> bool)
    requires forall i :: 0 <= i < |xs| ==> p(xs[i])
    ensures Filter(xs, p) == xs
  {
    if xs != [] {
      FilterAll(xs[1..], p);
    }
  }

  /** Keeping no element leaves nothing. */
  lemma {:induction false} FilterNone<T>(xs: seq<T>, p: T -> bool)
    requires forall i :: 0 <= i < |xs| ==> !p(xs[i])
    ensures Filter(xs, p) == []
  {
    if xs != [] {
      FilterNone(xs[1..], p);
    }
  }

  /** Two positions satisfying the condition leave at least two elements. */
  lemma {:induction false} FilterKeepsTwo<T(!new)>(xs: seq<T>, p: T -> bool, i: int, j: int)
    requires 0 <= i < j < |xs| && p(xs[i]) && p(xs[j])
    ensures |Filter(xs, p)| >= 2
  {
    if i == 0 {
      FilterSpec(xs[1..], p);
      assert xs[1..][j - 1] == xs[j];
      assert xs[j] in Filter(xs[1..], p);
    } else {
      FilterKeepsTwo(xs[1..], p, i - 1, j - 1);
    }
  }

  /** Regrouping an append with one more element at the end. */
  lemma AppendSnoc<T>(a: seq<T>, b: seq<T>, x: T)
    ensures a + (b + [x]) == (a + b) + [x]
  {
  }

  /** Regrouping an append with one more element at the front of the second part. */
  lemma AppendCons<T>(a: seq<T>, x: T, b: seq<T>)
    ensures a + ([x] + b) == (a + [x]) + b
  {
  }

  /** Regrouping a three-part append. */
  lemma AppendAssoc<T>(a: seq<T>, b: seq<T>, c: seq<T>)
    ensures a + (b + c) == (a + b) + c
  {
  }

  /** An element of the first part is an element of the append. */
  lemma InAppendLeft<T>(x: T, a: seq<T>, b: seq<T>)
    requires x in a
    ensures x in a + b
  {
    var i :| 0 <= i < |a| && a[i] == x;
    assert (a + b)[i] == x;
  }

  /** A sequence is its prefix, the element at `i` and its suffix. */
  lemma SplitAt<T>(xs: seq<T>, i: nat)
    requires i < |xs|
    ensures xs == (xs[..i] + [xs[i]]) + xs[i + 1..]
  {
  }

  /** Taking out the element at `i` takes one copy of it out of the multiset. */
  lemma RemoveAtMultiset<T>(xs: seq<T>, i: nat)
    requires i < |xs|
    ensures multiset(xs[..i] + xs[i + 1..]) == multiset(xs) - multiset{xs[i]}
  {
    assert xs == xs[..i] + [xs[i]] + xs[i + 1..];
  }

  /** Two sequences with the same multiset have the same members. */
  lemma SameMembers<T>(xs: seq<T>, ys: seq<T>)
    requires multiset(xs) == multiset(ys)
    ensures forall x :: x in xs <==> x in ys
  {
    forall x ensures x in xs <==> x in ys {
      assert x in xs <==> x in multiset(xs);
      assert x in ys <==> x in multiset(ys);
    }
  }

  /** No element occurs twice. */
  predicate Distinct<T(==)>(xs: seq<T>)
  {
    forall i, j :: 0 <= i < j < |xs| ==> xs[i] != xs[j]
  }

  /** Sorted by `key`, largest first. */
  predicate SortedDesc<T>(xs: seq<T>, key: T -> real)
  {
    forall i, j :: 0 <= i < j < |xs| ==> key(xs[i]) >= key(xs[j])
  }

  /** Inserts `x` in front of the first element whose key is not larger than its own. */
  function InsertDesc<T>(x: T, xs: seq<T>, key: T -> real): seq<T>
  {
    if xs == [] || key(xs[0]) <= key(x) then [x] + xs else [xs[0]] + InsertDesc(x, xs[1..], key)
  }

  /** `sorted(xs, key=key, reverse=True)`: a stable sort, largest key first. */
  function SortDesc<T>(xs: seq<T>, key: T -> real): seq<T>
  {
    if xs == [] then [] else InsertDesc(xs[0], SortDesc(xs[1..], key), key)
  }

  lemma {:induction false} InsertDescMembers<T(!new)>(x: T, xs: seq<T>, key: T -> real)
    ensures multiset(InsertDesc(x, xs, key)) == multiset(xs) + multiset{x}
    ensures forall y :: y in InsertDesc(x, xs, key) <==> y == x || y in xs
  {
    if xs != [] && key(xs[0]) > key(x) {
      InsertDescMembers(x, xs[1..], key);
      assert xs == [xs[0]] + xs[1..];
    }
  }

  lemma {:induction false} InsertDescSorted<T(!new)>(x: T, xs: seq<T>, key: T -> real)
    requires SortedDesc(xs, key)
    ensures SortedDesc(InsertDesc(x, xs, key), key)
  {
    if xs != [] && key(xs[0]) > key(x) {
      var rest := InsertDesc(x, xs[1..], key);
      InsertDescSorted(x, xs[1..], key);
      InsertDescMembers(x, xs[1..], key);
      var r := [xs[0]] + rest;
      forall j | 0 <= j < |rest| ensures key(xs[0]) >= key(rest[j]) {
        assert rest[j] in rest;
        if rest[j] != x {
          assert rest[j] in xs[1..];
          var k :| 0 <= k < |xs[1..]| && xs[1..][k] == rest[j];
          assert xs[k + 1] == rest[j];
        }
      }
      forall i, j | 0 <= i < j < |r| ensures key(r[i]) >= key(r[j]) {
        if i > 0 {
          assert r[i] == rest[i - 1] && r[j] == rest[j - 1];
        } else {
          assert r[j] == rest[j - 1];
        }
      }
    }
  }

  /** The sort is sorted and a permutation of its input. */
  lemma {:induction false} SortDescSpec<T(!new)>(xs: seq<T>, key: T -> real)
    ensures SortedDesc(SortDesc(xs, key), key)
    ensures multiset(SortDesc(xs, key)) == multiset(xs)
    ensures |SortDesc(xs, key)| == |xs|
  {
    if xs != [] {
      SortDescSpec(xs[1..], key);
      InsertDescSorted(xs[0], SortDesc(xs[1..], key), key);
      InsertDescMembers(xs[0], SortDesc(xs[1..], key), key);
      assert xs == [xs[0]] + xs[1..];
    }
  }

  /** The condition "has key `v`". */
  function KeyIs<T>(key: T -> real, v: real): T -> bool
  {
    x => key(x) == v
  }

  /** Inserting `x` only passes over elements with a larger key, so among equal keys `x` comes first. */
  lemma {:induction false} InsertDescStable<T>(x: T, xs: seq<T>, key: T -> real, v: real)
    ensures Filter(InsertDesc(x, xs, key), KeyIs(key, v)) == Filter([x] + xs, KeyIs(key, v))
  {
    if xs != [] && key(xs[0]) > key(x) {
      var p := KeyIs(key, v);
      var rest := InsertDesc(x, xs[1..], key);
      InsertDescStable(x, xs[1..], key, v);
      assert ([xs[0]] + rest)[1..] == rest;
      assert ([x] + xs[1..])[1..] == xs[1..];
      assert ([x] + xs)[1..] == xs;
      assert Filter(xs, p) == (if p(xs[0]) then [xs[0]] else []) + Filter(xs[1..], p);
      if p(x) {
        assert !p(xs[0]);
      } else {
        assert Filter([x] + xs[1..], p) == Filter(xs[1..], p);
      }
    }
  }

  /**
   * The sort is stable: the elements with any one key come out in the order
   * they went in.  With `SortDescSpec` this determines the output.
   */
  lemma {:induction false} SortDescStable<T>(xs: seq<T>, key: T -> real, v: real)
    ensures Filter(SortDesc(xs, key), KeyIs(key, v)) == Filter(xs, KeyIs(key, v))
  {
    if xs != [] {
      var sorted := SortDesc(xs[1..], key);
      SortDescStable(xs[1..], key, v);
      InsertDescStable(xs[0], sorted, key, v);
      assert ([xs[0]] + sorted)[1..] == sorted;
    }
  }

  lemma {:induction false} InsertDescDistinct<T(!new)>(x: T, xs: seq<T>, key: T -> real)
    requires Distinct(xs) && x !in xs
    ensures Distinct(InsertDesc(x, xs, key))
  {
    if xs != [] && key(xs[0]) > key(x) {
      assert xs == [xs[0]] + xs[1..];
      assert xs[0] !in xs[1..] by {
        forall k | 0 <= k < |xs[1..]| ensures xs[1..][k] != xs[0] {
          assert xs[1..][k] == xs[k + 1];
        }
      }
      InsertDescDistinct(x, xs[1..], key);
      InsertDescMembers(x, xs[1..], key);
      var rest := InsertDesc(x, xs[1..], key);
      var r := [xs[0]] + rest;
      forall i, j | 0 <= i < j < |r| ensures r[i] != r[j] {
        if i == 0 {
          assert r[j] in rest;
        } else {
          assert r[i] == rest[i - 1] && r[j] == rest[j - 1];
        }
      }
    }
  }

  /** Sorting a list without repeats keeps it without repeats. */
  lemma {:induction false} SortDescDistinct<T(!new)>(xs: seq<T>, key: T -> real)
    requires Distinct(xs)
    ensures Distinct(SortDesc(xs, key))
  {
    if xs != [] {
      assert xs[0] !in xs[1..] by {
        forall k | 0 <= k < |xs[1..]| ensures xs[1..][k] != xs[0] {
          assert xs[1..][k] == xs[k + 1];
        }
      }
      SortDescDistinct(xs[1..], key);
      SortDescSpec(xs[1..], key);
      assert xs[0] !in multiset(SortDesc(xs[1..], key));
      InsertDescDistinct(xs[0], SortDesc(xs[1..], key), key);
    }
  }

  /**
   * `numpy.argmax`: the position of the largest value, the first one when
   * several are equally large.
   */
  function Argmax(xs: seq<real>): (k: nat)
    requires |xs| > 0
    ensures k < |xs|
    ensures forall j :: 0 <= j < |xs| ==> xs[j] <= xs[k]
    ensures forall j :: 0 <= j < k ==> xs[j] < xs[k]
  {
    if |xs| == 1 then 0
    else
      var k := Argmax(xs[..|xs| - 1]);
      assert forall j :: 0 <= j < |xs| - 1 ==> xs[..|xs| - 1][j] == xs[j];
      if xs[|xs| - 1] > xs[k] then |xs| - 1 else k
  }
}

=== FILE: state_manager.dfy ===
/**
 * Wheel-state derivation.  One pass over the broker's positions classifies every
 * underlying as `long_shares`, `short_put` or `short_call` (with
 * `short_call_awaiting_stock` as the state of a call seen before its shares),
 * counts puts, calls and 100-share lots per underlying, and sums the capital at
 * risk.  The wheel is defined only for long stock and short options: anything
 * else is a data-integrity error and raises.
 */
module StateManager {
  import opened Wrappers
  import opened OptionSymbols
  import PT = PremiumTracker
  import opened Sequences

  datatype AssetClass = UsEquity | UsOption | OtherAsset  // other classes (crypto) are ignored by every rule

  /** A broker position: signed quantity (negative is short), average entry price in dollars. */
  datatype Position = Position(symbol: string, assetClass: AssetClass, qty: int, avgEntryPrice: real)

  /** Per-underlying counts: puts and calls by contracts, shares in lots of 100. */
  datatype Counts = Counts(puts: nat, calls: nat, shares: nat)

  datatype Kind = LongShares | ShortPut | ShortCall | ShortCallAwaitingStock

  /** The fields a `long_shares` entry records: entry price, premium-adjusted price, share count. */
  datatype Entry = Entry(price: real, adjustedPrice: real, qty: int)

  /** A state while positions are still being read. */
  datatype Partial = Partial(kind: Kind, entry: Option<Entry>)

  /** A final per-underlying state, with the counts of its positions. */
  datatype WheelState = WheelState(kind: Kind, entry: Option<Entry>, counts: Counts)

  /** Why derivation raised. */
  datatype DeriveError =
    | ShortStock(symbol: string)        // an equity position with quantity <= 0
    | LongOption(symbol: string)        // an option position with quantity >= 0
    | UnexpectedState(underlying: string)
    | UnknownOptionType(underlying: string)
    | MalformedStrike(symbol: string)   // the symbol parser raised on the strike digits
    | InvalidFinalState                 // an underlying ended as short_call_awaiting_stock

  function Abs(x: int): nat { if x < 0 then -x else x }

  predicate FinalKind(k: Kind) { k == ShortPut || k == LongShares || k == ShortCall }

  function Get(c: map<string, Counts>, u: string): Counts { if u in c then c[u] else Counts(0, 0, 0) }

  /** The underlying and the option type of an option position, as the parser reads them. */
  function OptionTypeOf(p: ParsedSymbol): Option<char>
  {
    if p.OptionParts? then Some(p.optionType) else None
  }

  predicate IsShortPutOn(p: Position, s: string)
  {
    p.assetClass == UsOption && p.qty < 0 &&
    var parsed := ParseOptionSymbol(p.symbol);
    parsed.OptionParts? && parsed.underlying == s && parsed.optionType == 'P'
  }

  predicate IsShortCallOn(p: Position, s: string)
  {
    p.assetClass == UsOption && p.qty < 0 &&
    var parsed := ParseOptionSymbol(p.symbol);
    parsed.OptionParts? && parsed.underlying == s && parsed.optionType == 'C'
  }

  predicate HasBadStrike(p: Position)
  {
    p.assetClass == UsOption && ParseOptionSymbol(p.symbol).BadStrike?
  }

  // ---------------------------------------------------------------------------
  // State derivation

  /** One iteration of the derivation loop. */
  function Step(st: map<string, Partial>, p: Position, tracker: Option<PT.History>): Result<map<string, Partial>, DeriveError>
  {
    match p.assetClass
    case UsEquity =>
      if p.qty <= 0 then Err(ShortStock(p.symbol))
      else if p.symbol in st then
        if st[p.symbol].kind != ShortCallAwaitingStock then Err(UnexpectedState(p.symbol))
        else Ok(st[p.symbol := st[p.symbol].(kind := ShortCall)])
      else
        var adjusted := if tracker.Some? then PT.AdjustedCostBasis(tracker.value, p.symbol, p.avgEntryPrice, p.qty)
                        else p.avgEntryPrice;
        Ok(st[p.symbol := Partial(LongShares, Some(Entry(p.avgEntryPrice, adjusted, p.qty)))])
    case UsOption =>
      if p.qty >= 0 then Err(LongOption(p.symbol))
      else
        var parsed := ParseOptionSymbol(p.symbol);
        if parsed.BadStrike? then Err(MalformedStrike(p.symbol))
        else
          var u := UnderlyingOf(p.symbol, parsed);
          var t := OptionTypeOf(parsed);
          if u in st then
            if st[u].kind == ShortPut && t == Some('P') then Ok(st)
            else if st[u].kind == LongShares && t == Some('C') then Ok(st[u := st[u].(kind := ShortCall)])
            else Err(UnexpectedState(u))
          else if t == Some('C') then Ok(st[u := Partial(ShortCallAwaitingStock, None)])
          else if t == Some('P') then Ok(st[u := Partial(ShortPut, None)])
          else Err(UnknownOptionType(u))
    case OtherAsset => Ok(st)
  }

  /** The derivation loop over the first `|ps|` positions. */
  function DeriveFrom(ps: seq<Position>, tracker: Option<PT.History>): Result<map<string, Partial>, DeriveError>
  {
    if ps == [] then Ok(map[])
    else
      var prev := DeriveFrom(ps[..|ps| - 1], tracker);
      if prev.Err? then prev else Step(prev.value, ps[|ps| - 1], tracker)
  }

  /**
   * `update_state`: the derivation loop, then the counts, then the final check.
   * Every surviving state is final and carries exactly its underlying's counts.
   */
  function DeriveState(ps: seq<Position>, tracker: Option<PT.History>): (r: Result<map<string, WheelState>, DeriveError>)
    ensures r.Ok? ==> forall u :: u in r.value ==> FinalKind(r.value[u].kind)
    ensures r.Ok? ==> CountsOf(ps).Ok? &&
                      forall u :: u in r.value ==> r.value[u].counts == Get(CountsOf(ps).value, u)
  {
    var partial := DeriveFrom(ps, tracker);
    if partial.Err? then Err(partial.error)
    else
      var counts := CountsOf(ps);
      if counts.Err? then Err(counts.error)
      else if exists u :: u in partial.value && !FinalKind(partial.value[u].kind) then Err(InvalidFinalState)
      else Ok(map u | u in partial.value :: WheelState(partial.value[u].kind, partial.value[u].entry, Get(counts.value, u)))
  }

  // ---------------------------------------------------------------------------
  // Counting

  /** One iteration of the counting loop (a `defaultdict`: a touched key appears with zero counts). */
  function CountStep(c: map<string, Counts>, p: Position): Result<map<string, Counts>, DeriveError>
  {
    match p.assetClass
    case UsEquity =>
      var e := Get(c, p.symbol);
      Ok(c[p.symbol := e.(shares := e.shares + Abs(p.qty) / 100)])
    case UsOption =>
      var parsed := ParseOptionSymbol(p.symbol);
      if parsed.BadStrike? then Err(MalformedStrike(p.symbol))
      else if parsed.OptionParts? && parsed.optionType == 'P' then
        var e := Get(c, parsed.underlying);
        Ok(c[parsed.underlying := e.(puts := e.puts + Abs(p.qty))])
      else if parsed.OptionParts? && parsed.optionType == 'C' then
        var e := Get(c, parsed.underlying);
        Ok(c[parsed.underlying := e.(calls := e.calls + Abs(p.qty))])
      else Ok(c)
    case OtherAsset => Ok(c)
  }

  /** `count_positions_by_symbol`, as the loop computes it. */
  function CountsOf(ps: seq<Position>): Result<map<string, Counts>, DeriveError>
  {
    if ps == [] then Ok(map[])
    else
      var prev := CountsOf(ps[..|ps| - 1]);
      if prev.Err? then prev else CountStep(prev.value, ps[|ps| - 1])
  }

  function Plus(a: Counts, b: Counts): Counts
  {
    Counts(a.puts + b.puts, a.calls + b.calls, a.shares + b.shares)
  }

  /** What one position contributes to the counts of underlying `s`. */
  function Contribution(p: Position, s: string): Counts
  {
    match p.assetClass
    case UsEquity => if p.symbol == s then Counts(0, 0, Abs(p.qty) / 100) else Counts(0, 0, 0)
    case UsOption =>
      var parsed := ParseOptionSymbol(p.symbol);
      if parsed.OptionParts? && parsed.underlying == s && parsed.optionType == 'P' then Counts(Abs(p.qty), 0, 0)
      else if parsed.OptionParts? && parsed.underlying == s && parsed.optionType == 'C' then Counts(0, Abs(p.qty), 0)
      else Counts(0, 0, 0)
    case OtherAsset => Counts(0, 0, 0)
  }

  /** Reference definition: the counts of `s`, summed position by position. */
  function CountsFor(ps: seq<Position>, s: string): Counts
  {
    if ps == [] then Counts(0, 0, 0) else Plus(CountsFor(ps[..|ps| - 1], s), Contribution(ps[|ps| - 1], s))
  }

  lemma AddAt(c: map<string, Counts>, u: string, s: string, add: Counts)
    ensures Get(c[u := Plus(Get(c, u), add)], s) == Plus(Get(c, s), if u == s then add else Counts(0, 0, 0))
  {
    if u == s {
    } else {
      PlusZero(Get(c, s));
    }
  }

  lemma PlusZero(g: Counts)
    ensures Plus(g, Counts(0, 0, 0)) == g
  {
  }

  // One counting step adds exactly the position's contribution, case by case.

  lemma SharesStep(c: map<string, Counts>, p: Position, s: string)
    requires p.assetClass == UsEquity
    ensures CountStep(c, p) == Ok(c[p.symbol := Plus(Get(c, p.symbol), Counts(0, 0, Abs(p.qty) / 100))])
    ensures Contribution(p, s) == if p.symbol == s then Counts(0, 0, Abs(p.qty) / 100) else Counts(0, 0, 0)
  {
  }

  lemma SharesCounted(c: map<string, Counts>, p: Position, s: string)
    requires p.assetClass == UsEquity
    ensures Get(CountStep(c, p).value, s) == Plus(Get(c, s), Contribution(p, s))
  {
    SharesStep(c, p, s);
    AddAt(c, p.symbol, s, Counts(0, 0, Abs(p.qty) / 100));
  }

  lemma OptionStep(c: map<string, Counts>, p: Position, s: string)
    requires p.assetClass == UsOption
    requires ParseOptionSymbol(p.symbol).OptionParts?
    requires ParseOptionSymbol(p.symbol).optionType == 'P' || ParseOptionSymbol(p.symbol).optionType == 'C'
    ensures var parsed := ParseOptionSymbol(p.symbol);
            var add := if parsed.optionType == 'P' then Counts(Abs(p.qty), 0, 0) else Counts(0, Abs(p.qty), 0);
            CountStep(c, p) == Ok(c[parsed.underlying := Plus(Get(c, parsed.underlying), add)]) &&
            Contribution(p, s) == if parsed.underlying == s then add else Counts(0, 0, 0)
  {
  }

  lemma OptionCounted(c: map<string, Counts>, p: Position, s: string)
    requires p.assetClass == UsOption
    requires ParseOptionSymbol(p.symbol).OptionParts?
    requires ParseOptionSymbol(p.symbol).optionType == 'P' || ParseOptionSymbol(p.symbol).optionType == 'C'
    ensures Get(CountStep(c, p).value, s) == Plus(Get(c, s), Contribution(p, s))
  {
    OptionStep(c, p, s);
    var parsed := ParseOptionSymbol(p.symbol);
    var add := if parsed.optionType == 'P' then Counts(Abs(p.qty), 0, 0) else Counts(0, Abs(p.qty), 0);
    AddAt(c, parsed.underlying, s, add);
  }

  lemma NothingCounted(c: map<string, Counts>, p: Position, s: string)
    requires CountStep(c, p).Ok?
    requires p.assetClass == OtherAsset ||
             (p.assetClass == UsOption && !(ParseOptionSymbol(p.symbol).OptionParts? &&
                                            (ParseOptionSymbol(p.symbol).optionType == 'P' ||
                                             ParseOptionSymbol(p.symbol).optionType == 'C')))
    ensures Get(CountStep(c, p).value, s) == Plus(Get(c, s), Contribution(p, s))
  {
    var parsed := ParseOptionSymbol(p.symbol);
    assert p.assetClass == UsOption ==>
             !parsed.BadStrike? && !(parsed.OptionParts? && (parsed.optionType == 'P' || parsed.optionType == 'C'));
    assert CountStep(c, p) == Ok(c);
    assert Contribution(p, s) == Counts(0, 0, 0);
    PlusZero(Get(c, s));
  }

  /** Counting raises exactly when some option symbol has a malformed strike. */
  lemma {:induction false} CountsOkIff(ps: seq<Position>)
    ensures CountsOf(ps).Ok? <==> forall i :: 0 <= i < |ps| ==> !HasBadStrike(ps[i])
  {
    if ps != [] {
      var init := ps[..|ps| - 1];
      CountsOkIff(init);
      assert forall i :: 0 <= i < |init| ==> init[i] == ps[i];
    }
  }

  /** The counts per underlying are the sums of the reference definitions, whatever the order of positions. */
  lemma {:induction false} CountsAreSums(ps: seq<Position>, s: string)
    requires CountsOf(ps).Ok?
    ensures Get(CountsOf(ps).value, s) == CountsFor(ps, s)
  {
    if ps != [] {
      CountsAreSums(ps[..|ps| - 1], s);
      var c := CountsOf(ps[..|ps| - 1]).value;
      var p := ps[|ps| - 1];
      var parsed := ParseOptionSymbol(p.symbol);
      if p.assetClass == UsEquity {
        SharesCounted(c, p, s);
      } else if p.assetClass == UsOption && parsed.OptionParts? && (parsed.optionType == 'P' || parsed.optionType == 'C') {
        OptionCounted(c, p, s);
      } else {
        NothingCounted(c, p, s);
      }
    }
  }

  // ---------------------------------------------------------------------------
  // Risk

  /** Capital held in shares: entry price times share count. */
  function SharesAtRisk(avgEntryPrice: real, qty: int): real
  {
    avgEntryPrice * Abs(qty) as real
  }

  /** Cash securing short puts: strike times 100 shares per contract. */
  function PutsAtRisk(strikeMills: nat, qty: int): (r: real)
    ensures r >= 0.0
  {
    100.0 * (strikeMills as real / 1000.0) * Abs(qty) as real
  }

  /** What one position adds to the capital at risk; only puts among options add anything. */
  function PositionRisk(p: Position): Result<real, DeriveError>
  {
    match p.assetClass
    case UsEquity => Ok(SharesAtRisk(p.avgEntryPrice, p.qty))
    case UsOption =>
      var parsed := ParseOptionSymbol(p.symbol);
      if parsed.BadStrike? then Err(MalformedStrike(p.symbol))
      else if parsed.OptionParts? && parsed.optionType == 'P' then
        Ok(PutsAtRisk(parsed.strikeMills, p.qty))
      else Ok(0.0)
    case OtherAsset => Ok(0.0)
  }

  /** `calculate_risk`, as the loop computes it. */
  function RiskOf(ps: seq<Position>): Result<real, DeriveError>
  {
    if ps == [] then Ok(0.0)
    else
      var prev := RiskOf(ps[..|ps| - 1]);
      if prev.Err? then prev
      else
        var add := PositionRisk(ps[|ps| - 1]);
        if add.Err? then Err(add.error) else Ok(prev.value + add.value)
  }

  function RiskContribution(p: Position): real
  {
    var c := PositionRisk(p);
    if c.Ok? then c.value else 0.0
  }

  /** Reference definition: the sum of every position's contribution. */
  function TotalRisk(ps: seq<Position>): real
  {
    if ps == [] then 0.0 else RiskContribution(ps[0]) + TotalRisk(ps[1..])
  }

  lemma {:induction false} TotalRiskAppend(a: seq<Position>, b: seq<Position>)
    ensures TotalRisk(a + b) == TotalRisk(a) + TotalRisk(b)
  {
    if a == [] {
      assert a + b == b;
    } else {
      assert (a + b)[0] == a[0];
      assert (a + b)[1..] == a[1..] + b;
      TotalRiskAppend(a[1..], b);
    }
  }

  /** The loop's result is the reference sum, and it raises exactly on a malformed strike. */
  lemma {:induction false} RiskIsTotal(ps: seq<Position>)
    ensures RiskOf(ps).Ok? <==> forall i :: 0 <= i < |ps| ==> !HasBadStrike(ps[i])
    ensures RiskOf(ps).Ok? ==> RiskOf(ps).value == TotalRisk(ps)
  {
    if ps != [] {
      var init := ps[..|ps| - 1];
      RiskIsTotal(init);
      assert forall i :: 0 <= i < |init| ==> init[i] == ps[i];
      TotalRiskAppend(init, [ps[|ps| - 1]]);
      assert init + [ps[|ps| - 1]] == ps;
    }
  }

  lemma TotalRiskSingle(x: Position)
    ensures TotalRisk([x]) == RiskContribution(x)
  {
    assert [x][1..] == [];
  }

  /** Taking one position out of the sum takes out its contribution. */
  lemma TotalRiskRemove(qs: seq<Position>, i: nat)
    requires i < |qs|
    ensures TotalRisk(qs) == RiskContribution(qs[i]) + TotalRisk(qs[..i] + qs[i + 1..])
  {
    var a, x, b := qs[..i], qs[i], qs[i + 1..];
    SplitAt(qs, i);
    TotalRiskAppend(a + [x], b);
    TotalRiskAppend(a, [x]);
    TotalRiskAppend(a, b);
    TotalRiskSingle(x);
  }

  /** The reference sum does not depend on the order of the positions. */
  lemma {:induction false} TotalRiskPermutation(ps: seq<Position>, qs: seq<Position>)
    requires multiset(ps) == multiset(qs)
    ensures TotalRisk(ps) == TotalRisk(qs)
    decreases |ps|
  {
    if ps == [] {
      assert |qs| == |multiset(qs)| == 0;
    } else {
      var x := ps[0];
      assert x in multiset(qs);
      var i :| 0 <= i < |qs| && qs[i] == x;
      RemoveAtMultiset(qs, i);
      assert ps == [x] + ps[1..];
      assert multiset(ps[1..]) == multiset(ps) - multiset{x};
      TotalRiskPermutation(ps[1..], qs[..i] + qs[i + 1..]);
      TotalRiskRemove(qs, i);
    }
  }

  /** Risk is order-independent: permuting the positions gives the same outcome. */
  lemma RiskOrderIndependent(ps: seq<Position>, qs: seq<Position>)
    requires multiset(ps) == multiset(qs)
    ensures RiskOf(ps).Ok? <==> RiskOf(qs).Ok?
    ensures RiskOf(ps).Ok? ==> RiskOf(ps).value == RiskOf(qs).value
  {
    RiskIsTotal(ps);
    RiskIsTotal(qs);
    TotalRiskPermutation(ps, qs);
    forall i | 0 <= i < |ps| ensures exists j :: 0 <= j < |qs| && qs[j] == ps[i] {
      assert ps[i] in multiset(qs);
    }
    forall j | 0 <= j < |qs| ensures exists i :: 0 <= i < |ps| && ps[i] == qs[j] {
      assert qs[j] in multiset(ps);
    }
  }

  // ---------------------------------------------------------------------------
  // Properties of the derivation

  /** How one step can move a symbol already present: it stays, or long shares / an awaiting call become a short call. */
  lemma StepTransition(st: map<string, Partial>, p: Position, tracker: Option<PT.History>, u: string)
    requires Step(st, p, tracker).Ok? && u in st
    ensures var next := Step(st, p, tracker).value;
            u in next &&
            (next[u] == st[u] ||
             (next[u].kind == ShortCall && next[u].entry == st[u].entry &&
              (st[u].kind == LongShares || st[u].kind == ShortCallAwaitingStock)))
  {
  }

  /** Short stock or a long option anywhere in the list makes derivation raise; neither is coerced. */
  lemma WrongSignRaises(ps: seq<Position>, i: nat, tracker: Option<PT.History>)
    requires i < |ps|
    requires (ps[i].assetClass == UsEquity && ps[i].qty <= 0) || (ps[i].assetClass == UsOption && ps[i].qty >= 0)
    ensures DeriveState(ps, tracker).Err?
  {
    assert ps[..i + 1][..i] == ps[..i];
    DeriveErrKept(ps, i + 1, tracker);
  }

  /** Once the shares of `s` have been read, `s` is in `long_shares` or `short_call` for as long as nothing raises. */
  lemma {:induction false} SharesKeepShareState(ps: seq<Position>, i: nat, tracker: Option<PT.History>)
    requires i < |ps| && ps[i].assetClass == UsEquity
    requires DeriveFrom(ps, tracker).Ok?
    ensures var st := DeriveFrom(ps, tracker).value;
            ps[i].symbol in st && (st[ps[i].symbol].kind == LongShares || st[ps[i].symbol].kind == ShortCall)
  {
    var s := ps[i].symbol;
    var init := ps[..|ps| - 1];
    var last := ps[|ps| - 1];
    var prev := DeriveFrom(init, tracker);
    assert prev.Ok?;
    if i < |ps| - 1 {
      assert init[i] == ps[i];
      SharesKeepShareState(init, i, tracker);
      StepTransition(prev.value, last, tracker, s);
    }
  }

  /** Once a short put on `s` has been read, `s` stays in `short_put` for as long as nothing raises. */
  lemma {:induction false} PutKeepsPutState(ps: seq<Position>, i: nat, s: string, tracker: Option<PT.History>)
    requires i < |ps| && IsShortPutOn(ps[i], s)
    requires DeriveFrom(ps, tracker).Ok?
    ensures var st := DeriveFrom(ps, tracker).value;
            s in st && st[s].kind == ShortPut
  {
    var init := ps[..|ps| - 1];
    var last := ps[|ps| - 1];
    var prev := DeriveFrom(init, tracker);
    assert prev.Ok?;
    if i < |ps| - 1 {
      assert init[i] == ps[i];
      PutKeepsPutState(init, i, s, tracker);
      StepTransition(prev.value, last, tracker, s);
    }
  }

  /** Long shares and a short put on the same underlying raise, whichever is listed first. */
  lemma SharesWithPutRaise(ps: seq<Position>, i: nat, j: nat, tracker: Option<PT.History>)
    requires i < |ps| && j < |ps|
    requires ps[i].assetClass == UsEquity
    requires var parsed := ParseOptionSymbol(ps[j].symbol);
             ps[j].assetClass == UsOption && parsed.OptionParts? && parsed.underlying == ps[i].symbol &&
             parsed.optionType == 'P'
    ensures DeriveState(ps, tracker).Err?
  {
    if ps[i].qty <= 0 {
      WrongSignRaises(ps, i, tracker);
    } else if ps[j].qty >= 0 {
      WrongSignRaises(ps, j, tracker);
    } else if DeriveFrom(ps, tracker).Ok? {
      SharesKeepShareState(ps, i, tracker);
      PutKeepsPutState(ps, j, ps[i].symbol, tracker);
    }
  }

  /** A list of short puts on one underlying derives `short_put` for it, however many there are. */
  lemma {:induction false} PutsOnlyGiveShortPut(ps: seq<Position>, s: string, tracker: Option<PT.History>)
    requires |ps| >= 1
    requires forall i :: 0 <= i < |ps| ==> IsShortPutOn(ps[i], s)
    ensures DeriveFrom(ps, tracker) == Ok(map[s := Partial(ShortPut, None)])
  {
    if |ps| > 1 {
      var init := ps[..|ps| - 1];
      assert forall i :: 0 <= i < |init| ==> init[i] == ps[i];
      PutsOnlyGiveShortPut(init, s, tracker);
    }
  }

  lemma SeveralPutsStayShortPut(ps: seq<Position>, s: string, tracker: Option<PT.History>)
    requires |ps| >= 1
    requires forall i :: 0 <= i < |ps| ==> IsShortPutOn(ps[i], s)
    ensures DeriveState(ps, tracker).Ok?
    ensures DeriveState(ps, tracker).value.Keys == {s}
    ensures DeriveState(ps, tracker).value[s].kind == ShortPut
  {
    PutsOnlyGiveShortPut(ps, s, tracker);
    CountsOkIff(ps);
  }

  /** Two positions are read as two steps from the empty dictionary. */
  lemma DeriveTwo(a: Position, b: Position, tracker: Option<PT.History>)
    ensures DeriveFrom([a, b], tracker) ==
              (var first := Step(map[], a, tracker);
               if first.Err? then first else Step(first.value, b, tracker))
  {
    assert [a, b][..1] == [a] && [a, b][1] == b;
    assert [a][..0] == [];
    assert DeriveFrom([a], tracker) == Step(map[], a, tracker);
  }

  lemma SharesStepOnEmpty(shares: Position, tracker: Option<PT.History>)
    requires shares.assetClass == UsEquity && shares.qty > 0
    ensures Step(map[], shares, tracker).Ok?
    ensures Step(map[], shares, tracker).value.Keys == {shares.symbol}
    ensures Step(map[], shares, tracker).value[shares.symbol].kind == LongShares
  {
  }

  lemma CallStepOnEmpty(call: Position, s: string, tracker: Option<PT.History>)
    requires IsShortCallOn(call, s)
    ensures Step(map[], call, tracker) == Ok(map[s := Partial(ShortCallAwaitingStock, None)])
  {
  }

  lemma CallAfterShares(st: map<string, Partial>, call: Position, s: string, tracker: Option<PT.History>)
    requires IsShortCallOn(call, s) && s in st && st[s].kind == LongShares
    ensures Step(st, call, tracker).Ok?
    ensures Step(st, call, tracker).value.Keys == st.Keys
    ensures Step(st, call, tracker).value[s].kind == ShortCall
  {
  }

  lemma SharesAfterCall(st: map<string, Partial>, shares: Position, tracker: Option<PT.History>)
    requires shares.assetClass == UsEquity && shares.qty > 0
    requires shares.symbol in st && st[shares.symbol].kind == ShortCallAwaitingStock
    ensures Step(st, shares, tracker).Ok?
    ensures Step(st, shares, tracker).value.Keys == st.Keys
    ensures Step(st, shares, tracker).value[shares.symbol].kind == ShortCall
  {
  }

  /** Long shares plus one short call end in `short_call`, in either order. */
  lemma SharesAndCallGiveShortCall(shares: Position, call: Position, tracker: Option<PT.History>)
    requires shares.assetClass == UsEquity && shares.qty > 0
    requires IsShortCallOn(call, shares.symbol)
    ensures DeriveState([shares, call], tracker).Ok?
    ensures DeriveState([shares, call], tracker).value[shares.symbol].kind == ShortCall
    ensures DeriveState([call, shares], tracker).Ok?
    ensures DeriveState([call, shares], tracker).value[shares.symbol].kind == ShortCall
  {
    var s := shares.symbol;
    DeriveTwo(shares, call, tracker);
    DeriveTwo(call, shares, tracker);
    var m1 := Step(map[], shares, tracker);
    var m2 := Step(map[], call, tracker);
    SharesStepOnEmpty(shares, tracker);
    CallStepOnEmpty(call, s, tracker);
    CallAfterShares(m1.value, call, s, tracker);
    SharesAfterCall(m2.value, shares, tracker);
    CountsOkIff([shares, call]);
    CountsOkIff([call, shares]);
  }

  /** Without shares of `s` in the list, `s` never reaches `long_shares` or `short_call`. */
  lemma {:induction false} NoSharesNoShareState(ps: seq<Position>, s: string, tracker: Option<PT.History>)
    requires forall k :: 0 <= k < |ps| ==> !(ps[k].assetClass == UsEquity && ps[k].symbol == s)
    requires DeriveFrom(ps, tracker).Ok?
    ensures var st := DeriveFrom(ps, tracker).value;
            s in st ==> st[s].kind == ShortPut || st[s].kind == ShortCallAwaitingStock
  {
    if ps != [] {
      var init := ps[..|ps| - 1];
      assert forall k :: 0 <= k < |init| ==> init[k] == ps[k];
      NoSharesNoShareState(init, s, tracker);
      StepNoShares(DeriveFrom(init, tracker).value, ps[|ps| - 1], s, tracker);
    }
  }

  lemma StepNoShares(st: map<string, Partial>, p: Position, s: string, tracker: Option<PT.History>)
    requires !(p.assetClass == UsEquity && p.symbol == s)
    requires s in st ==> st[s].kind == ShortPut || st[s].kind == ShortCallAwaitingStock
    requires Step(st, p, tracker).Ok?
    ensures var next := Step(st, p, tracker).value;
            s in next ==> next[s].kind == ShortPut || next[s].kind == ShortCallAwaitingStock
  {
  }

  /** An awaiting call stays awaiting across any step that does not bring its shares. */
  lemma StepKeepsAwaiting(st: map<string, Partial>, p: Position, s: string, tracker: Option<PT.History>)
    requires s in st && st[s].kind == ShortCallAwaitingStock
    requires !(p.assetClass == UsEquity && p.symbol == s)
    requires Step(st, p, tracker).Ok?
    ensures s in Step(st, p, tracker).value && Step(st, p, tracker).value[s] == st[s]
  {
  }

  /** A short call on `s` read while `s` is absent or a put leaves `s` awaiting its stock. */
  lemma CallStepAwaits(st: map<string, Partial>, p: Position, s: string, tracker: Option<PT.History>)
    requires IsShortCallOn(p, s)
    requires s in st ==> st[s].kind == ShortPut || st[s].kind == ShortCallAwaitingStock
    requires Step(st, p, tracker).Ok?
    ensures s in Step(st, p, tracker).value && Step(st, p, tracker).value[s].kind == ShortCallAwaitingStock
  {
  }

  /** Once a short call on `s` is read with no shares of `s` anywhere in the list, `s` stays awaiting its stock. */
  lemma {:induction false} CallWithoutSharesAwaits(ps: seq<Position>, i: nat, s: string, tracker: Option<PT.History>)
    requires i < |ps| && IsShortCallOn(ps[i], s)
    requires forall k :: 0 <= k < |ps| ==> !(ps[k].assetClass == UsEquity && ps[k].symbol == s)
    requires DeriveFrom(ps, tracker).Ok?
    ensures var st := DeriveFrom(ps, tracker).value;
            s in st && st[s].kind == ShortCallAwaitingStock
  {
    var init := ps[..|ps| - 1];
    var last := ps[|ps| - 1];
    assert forall k :: 0 <= k < |init| ==> init[k] == ps[k];
    var prev := DeriveFrom(init, tracker);
    assert prev.Ok?;
    if i < |ps| - 1 {
      CallWithoutSharesAwaits(init, i, s, tracker);
      StepKeepsAwaiting(prev.value, last, s, tracker);
    } else {
      NoSharesNoShareState(init, s, tracker);
      CallStepAwaits(prev.value, last, s, tracker);
    }
  }

  /** A short call with no shares of its underlying raises at the final check (or earlier). */
  lemma CallWithoutSharesRaises(ps: seq<Position>, i: nat, s: string, tracker: Option<PT.History>)
    requires i < |ps| && IsShortCallOn(ps[i], s)
    requires forall k :: 0 <= k < |ps| ==> !(ps[k].assetClass == UsEquity && ps[k].symbol == s)
    ensures DeriveState(ps, tracker).Err?
  {
    if DeriveFrom(ps, tracker).Ok? {
      CallWithoutSharesAwaits(ps, i, s, tracker);
    }
  }

  /** What the loop records for a symbol carrying an entry: it came from one of the symbol's equity positions. */
  lemma {:induction false} EntryFromShares(ps: seq<Position>, u: string, tracker: Option<PT.History>)
    requires DeriveFrom(ps, tracker).Ok?
    requires u in DeriveFrom(ps, tracker).value
    ensures var st := DeriveFrom(ps, tracker).value;
            (st[u].kind == LongShares ==> st[u].entry.Some?) &&
            (st[u].entry.Some? ==>
               exists i :: 0 <= i < |ps| && ps[i].assetClass == UsEquity && ps[i].symbol == u &&
                           st[u].entry.value.price == ps[i].avgEntryPrice && st[u].entry.value.qty == ps[i].qty &&
                           (tracker.None? ==> st[u].entry.value.adjustedPrice == ps[i].avgEntryPrice))
  {
    var init := ps[..|ps| - 1];
    var last := ps[|ps| - 1];
    var prev := DeriveFrom(init, tracker);
    assert prev.Ok?;
    var st := DeriveFrom(ps, tracker).value;
    if u in prev.value {
      EntryFromShares(init, u, tracker);
      StepTransition(prev.value, last, tracker, u);
      if st[u].entry.Some? {
        var i :| 0 <= i < |init| && init[i].assetClass == UsEquity && init[i].symbol == u &&
                 prev.value[u].entry.value.price == init[i].avgEntryPrice && prev.value[u].entry.value.qty == init[i].qty &&
                 (tracker.None? ==> prev.value[u].entry.value.adjustedPrice == init[i].avgEntryPrice);
        assert init[i] == ps[i];
      }
    } else {
      if st[u].entry.Some? {
        assert ps[|ps| - 1].symbol == u;
      }
    }
  }

  /** A `long_shares` state records the entry price and share count; without a tracker the adjusted price is the entry price. */
  lemma LongSharesRecordsEntry(ps: seq<Position>, u: string, tracker: Option<PT.History>)
    requires DeriveState(ps, tracker).Ok?
    requires u in DeriveState(ps, tracker).value && DeriveState(ps, tracker).value[u].kind == LongShares
    ensures var e := DeriveState(ps, tracker).value[u].entry;
            e.Some? &&
            exists i :: 0 <= i < |ps| && ps[i].assetClass == UsEquity && ps[i].symbol == u &&
                        e.value.price == ps[i].avgEntryPrice && e.value.qty == ps[i].qty &&
                        (tracker.None? ==> e.value.adjustedPrice == ps[i].avgEntryPrice)
  {
    EntryFromShares(ps, u, tracker);
  }

  // ---------------------------------------------------------------------------
  // The loops as the source writes them

  /** One more iteration of each loop, as the fold functions read it. */
  lemma RiskSnoc(ps: seq<Position>, i: nat)
    requires i < |ps|
    ensures RiskOf(ps[..i + 1]) ==
              (var prev := RiskOf(ps[..i]);
               if prev.Err? then prev
               else
                 var add := PositionRisk(ps[i]);
                 if add.Err? then Err(add.error) else Ok(prev.value + add.value))
  {
    assert ps[..i + 1][..i] == ps[..i];
  }

  lemma CountsSnoc(ps: seq<Position>, i: nat)
    requires i < |ps|
    ensures CountsOf(ps[..i + 1]) ==
              (var prev := CountsOf(ps[..i]); if prev.Err? then prev else CountStep(prev.value, ps[i]))
  {
    assert ps[..i + 1][..i] == ps[..i];
  }

  lemma DeriveSnoc(ps: seq<Position>, i: nat, tracker: Option<PT.History>)
    requires i < |ps|
    ensures DeriveFrom(ps[..i + 1], tracker) ==
              (var prev := DeriveFrom(ps[..i], tracker); if prev.Err? then prev else Step(prev.value, ps[i], tracker))
  {
    assert ps[..i + 1][..i] == ps[..i];
  }

  lemma EquityRisk(p: Position)
    requires p.assetClass == UsEquity
    ensures RiskContribution(p) == SharesAtRisk(p.avgEntryPrice, p.qty)
  {
  }

  lemma PutRisk(p: Position)
    requires p.assetClass == UsOption
    requires ParseOptionSymbol(p.symbol).OptionParts? && ParseOptionSymbol(p.symbol).optionType == 'P'
    ensures RiskContribution(p) == PutsAtRisk(ParseOptionSymbol(p.symbol).strikeMills, p.qty)
  {
  }

  lemma NoRisk(p: Position)
    requires p.assetClass == OtherAsset ||
             (p.assetClass == UsOption && !ParseOptionSymbol(p.symbol).BadStrike? &&
              !(ParseOptionSymbol(p.symbol).OptionParts? && ParseOptionSymbol(p.symbol).optionType == 'P'))
    ensures RiskContribution(p) == 0.0
  {
  }

  /** A loop iteration on a position whose symbol parses adds its contribution. */
  lemma RiskStep(ps: seq<Position>, i: nat, risk: real)
    requires i < |ps| && RiskOf(ps[..i]) == Ok(risk) && !HasBadStrike(ps[i])
    ensures RiskOf(ps[..i + 1]) == Ok(risk + RiskContribution(ps[i]))
  {
    RiskSnoc(ps, i);
  }

  /** `calculate_risk`: accumulates the risk of each position in turn. */
  method CalculateRisk(ps: seq<Position>) returns (r: Result<real, DeriveError>)
    ensures r == RiskOf(ps)
  {
    var risk := 0.0;
    for i := 0 to |ps|
      invariant RiskOf(ps[..i]) == Ok(risk)
    {
      var p := ps[i];
      if p.assetClass == UsEquity {
        RiskStep(ps, i, risk);
        EquityRisk(p);
        risk := risk + SharesAtRisk(p.avgEntryPrice, p.qty);
      } else if p.assetClass == UsOption {
        var parsed := ParseOptionSymbol(p.symbol);
        if parsed.BadStrike? {
          r := Err(MalformedStrike(p.symbol));
          RiskSnoc(ps, i);
          RiskErrKept(ps, i + 1);
          return;
        }
        RiskStep(ps, i, risk);
        if parsed.OptionParts? && parsed.optionType == 'P' {
          PutRisk(p);
          risk := risk + PutsAtRisk(parsed.strikeMills, p.qty);
        } else {
          NoRisk(p);
        }
      } else {
        RiskStep(ps, i, risk);
        NoRisk(p);
      }
    }
    assert ps[..|ps|] == ps;
    r := Ok(risk);
  }

  lemma {:induction false} RiskErrKept(ps: seq<Position>, n: nat)
    requires n <= |ps| && RiskOf(ps[..n]).Err?
    ensures RiskOf(ps) == RiskOf(ps[..n])
    decreases |ps| - n
  {
    if n < |ps| {
      assert ps[..n + 1][..n] == ps[..n];
      RiskErrKept(ps, n + 1);
    } else {
      assert ps[..n] == ps;
    }
  }

  lemma {:induction false} CountsErrPersists(ps: seq<Position>, n: nat)
    requires n <= |ps| && CountsOf(ps[..n]).Err?
    ensures CountsOf(ps) == CountsOf(ps[..n])
    decreases |ps| - n
  {
    if n < |ps| {
      assert ps[..n + 1][..n] == ps[..n];
      CountsErrPersists(ps, n + 1);
    } else {
      assert ps[..n] == ps;
    }
  }

  lemma {:induction false} DeriveErrKept(ps: seq<Position>, n: nat, tracker: Option<PT.History>)
    requires n <= |ps| && DeriveFrom(ps[..n], tracker).Err?
    ensures DeriveFrom(ps, tracker) == DeriveFrom(ps[..n], tracker)
    decreases |ps| - n
  {
    if n < |ps| {
      assert ps[..n + 1][..n] == ps[..n];
      DeriveErrKept(ps, n + 1, tracker);
    } else {
      assert ps[..n] == ps;
    }
  }

  /** The body of the counting loop for one position. */
  method CountPosition(counts: map<string, Counts>, p: Position) returns (r: Result<map<string, Counts>, DeriveError>)
    ensures r == CountStep(counts, p)
  {
    if p.assetClass == UsEquity {
      var e := Get(counts, p.symbol);
      r := Ok(counts[p.symbol := e.(shares := e.shares + Abs(p.qty) / 100)]);
    } else if p.assetClass == UsOption {
      var parsed := ParseOptionSymbol(p.symbol);
      if parsed.BadStrike? {
        return Err(MalformedStrike(p.symbol));
      }
      if parsed.OptionParts? && parsed.optionType == 'P' {
        var e := Get(counts, parsed.underlying);
        r := Ok(counts[parsed.underlying := e.(puts := e.puts + Abs(p.qty))]);
      } else if parsed.OptionParts? && parsed.optionType == 'C' {
        var e := Get(counts, parsed.underlying);
        r := Ok(counts[parsed.underlying := e.(calls := e.calls + Abs(p.qty))]);
      } else {
        r := Ok(counts);
      }
    } else {
      r := Ok(counts);
    }
  }

  /** `count_positions_by_symbol`: accumulates per-underlying counts into a default dictionary. */
  method CountPositionsBySymbol(ps: seq<Position>) returns (r: Result<map<string, Counts>, DeriveError>)
    ensures r == CountsOf(ps)
  {
    var counts: map<string, Counts> := map[];
    for i := 0 to |ps|
      invariant CountsOf(ps[..i]) == Ok(counts)
    {
      CountsSnoc(ps, i);
      var next := CountPosition(counts, ps[i]);
      if next.Err? {
        r := next;
        CountsErrPersists(ps, i + 1);
        return;
      }
      counts := next.value;
    }
    assert ps[..|ps|] == ps;
    r := Ok(counts);
  }

  /** The body of the derivation loop for one position: classify it, or raise. */
  method ReadPosition(state: map<string, Partial>, p: Position, tracker: Option<PT.History>)
    returns (r: Result<map<string, Partial>, DeriveError>)
    ensures r == Step(state, p, tracker)
  {
    if p.assetClass == UsEquity {
      r := ReadShares(state, p, tracker);
    } else if p.assetClass == UsOption {
      r := ReadOption(state, p);
    } else {
      r := Ok(state);
    }
  }

  method ReadShares(state: map<string, Partial>, p: Position, tracker: Option<PT.History>)
    returns (r: Result<map<string, Partial>, DeriveError>)
    requires p.assetClass == UsEquity
    ensures r == Step(state, p, tracker)
  {
    if p.qty <= 0 {
      return Err(ShortStock(p.symbol));
    }
    var underlying := p.symbol;
    if underlying in state {
      if state[underlying].kind != ShortCallAwaitingStock {
        return Err(UnexpectedState(underlying));
      }
      r := Ok(state[underlying := state[underlying].(kind := ShortCall)]);
    } else {
      var adjusted := if tracker.Some? then PT.AdjustedCostBasis(tracker.value, underlying, p.avgEntryPrice, p.qty)
                      else p.avgEntryPrice;
      r := Ok(state[underlying := Partial(LongShares, Some(Entry(p.avgEntryPrice, adjusted, p.qty)))]);
    }
  }

  method ReadOption(state: map<string, Partial>, p: Position) returns (r: Result<map<string, Partial>, DeriveError>)
    requires p.assetClass == UsOption
    ensures forall tracker :: r == Step(state, p, tracker)
  {
    if p.qty >= 0 {
      return Err(LongOption(p.symbol));
    }
    var parsed := ParseOptionSymbol(p.symbol);
    if parsed.BadStrike? {
      return Err(MalformedStrike(p.symbol));
    }
    var underlying := UnderlyingOf(p.symbol, parsed);
    var optionType := OptionTypeOf(parsed);
    if underlying in state {
      if state[underlying].kind == ShortPut && optionType == Some('P') {
        r := Ok(state);  // several puts on one underlying stay `short_put`
      } else if state[underlying].kind == LongShares && optionType == Some('C') {
        r := Ok(state[underlying := state[underlying].(kind := ShortCall)]);
      } else {
        r := Err(UnexpectedState(underlying));
      }
    } else if optionType == Some('C') {
      r := Ok(state[underlying := Partial(ShortCallAwaitingStock, None)]);
    } else if optionType == Some('P') {
      r := Ok(state[underlying := Partial(ShortPut, None)]);
    } else {
      r := Err(UnknownOptionType(underlying));
    }
  }

  /** The final pass of `update_state`: every state must be final, and each gets its counts. */
  method AttachCounts(state: map<string, Partial>, counts: map<string, Counts>)
    returns (r: Result<map<string, WheelState>, DeriveError>)
    ensures (exists u :: u in state && !FinalKind(state[u].kind)) ==> r == Err(InvalidFinalState)
    ensures (forall u :: u in state ==> FinalKind(state[u].kind)) ==>
              r == Ok(map u | u in state :: WheelState(state[u].kind, state[u].entry, Get(counts, u)))
  {
    var result: map<string, WheelState> := map[];
    var remaining := state.Keys;
    while remaining != {}
      invariant remaining <= state.Keys
      invariant result.Keys == state.Keys - remaining
      invariant forall u :: u in result ==> result[u] == WheelState(state[u].kind, state[u].entry, Get(counts, u))
      invariant forall u :: u in state && u !in remaining ==> FinalKind(state[u].kind)
      decreases remaining
    {
      var u :| u in remaining;
      if !FinalKind(state[u].kind) {
        return Err(InvalidFinalState);
      }
      result := result[u := WheelState(state[u].kind, state[u].entry, Get(counts, u))];
      remaining := remaining - {u};
    }
    assert result == map u | u in state :: WheelState(state[u].kind, state[u].entry, Get(counts, u));
    r := Ok(result);
  }

  /**
   * `update_state`: builds the state dictionary position by position, rewriting a
   * symbol's type in place, then checks every state and attaches its counts.
   */
  method ComputeState(ps: seq<Position>, tracker: Option<PT.History>) returns (r: Result<map<string, WheelState>, DeriveError>)
    ensures r == DeriveState(ps, tracker)
  {
    var state: map<string, Partial> := map[];
    for i := 0 to |ps|
      invariant DeriveFrom(ps[..i], tracker) == Ok(state)
    {
      DeriveSnoc(ps, i, tracker);
      var next := ReadPosition(state, ps[i], tracker);
      if next.Err? {
        r := Err(next.error);
        DeriveErrKept(ps, i + 1, tracker);
        return;
      }
      state := next.value;
    }
    assert ps[..|ps|] == ps;

    var countsResult := CountPositionsBySymbol(ps);
    if countsResult.Err? {
      r := Err(countsResult.error);
      return;
    }
    r := AttachCounts(state, countsResult.value);
  }

  /** `WheelStateManager`: holds the last derived state. */
  class WheelStateManager {
    var state: map<string, WheelState>

    constructor ()
      ensures state == map[]
    {
      state := map[];
    }

    /** Replaces the held state with a fresh derivation; when derivation raises the held state is untouched. */
    method UpdateState(ps: seq<Position>, tracker: Option<PT.History>) returns (r: Result<map<string, WheelState>, DeriveError>)
      modifies this
      ensures r == DeriveState(ps, tracker)
      ensures r.Ok? ==> state == r.value
      ensures r.Err? ==> state == old(state)
    {
      r := ComputeState(ps, tracker);
      if r.Ok? {
        state := r.value;
      }
    }

    function GetState(): map<string, WheelState>
      reads this
    {
      state
    }
  }
}

=== FILE: strategy.dfy ===
/**
 * Contract screening and selection: which underlyings are affordable, which
 * option contracts pass the delta, yield and open-interest screens, and which
 * scored contracts are sold, grouped per underlying and limited by the wheel
 * layers already held.  Scores are an abstract value per contract; the
 * thresholds of `config.params` are a parameter.
 */
module Strategy {
  import opened Wrappers
  import opened Sequences
  import SM = StateManager

  /** An option contract as the screens see it; `delta` and `oi` may be missing. */
  datatype Contract = Contract(symbol: string, underlying: string, strike: real, bidPrice: real,
                               delta: Option<real>, dte: int, oi: Option<int>, expiration: int)

  /** `DELTA_MIN`, `DELTA_MAX`, `YIELD_MIN`, `YIELD_MAX`, `OPEN_INTEREST_MIN` and `SCORE_MIN`. */
  datatype Thresholds = Thresholds(deltaMin: real, deltaMax: real, yieldMin: real, yieldMax: real,
                                   openInterestMin: int, scoreMin: real)

  /** One entry of the latest-trade answer: a symbol and its last price. */
  datatype Trade = Trade(symbol: string, price: real)

  // ---------------------------------------------------------------------------
  // filter_underlying

  function SymbolsOf(trades: seq<Trade>): seq<string>
  {
    seq(|trades|, i requires 0 <= i < |trades| => trades[i].symbol)
  }

  /** The symbols of the answer, in its order, whose 100 shares cost at most the limit. */
  function FilterUnderlying(trades: seq<Trade>, buyingPowerLimit: real): seq<string>
  {
    if trades == [] then []
    else (if 100.0 * trades[0].price <= buyingPowerLimit then [trades[0].symbol] else [])
         + FilterUnderlying(trades[1..], buyingPowerLimit)
  }

  /** A symbol is kept exactly when 100 shares at its price fit the limit; order is kept. */
  lemma {:induction false} FilterUnderlyingSpec(trades: seq<Trade>, limit: real)
    ensures IsSubsequence(FilterUnderlying(trades, limit), SymbolsOf(trades))
    ensures forall s :: s in FilterUnderlying(trades, limit) <==>
                        exists i :: 0 <= i < |trades| && trades[i].symbol == s && 100.0 * trades[i].price <= limit
  {
    if trades != [] {
      var t := trades[1..];
      FilterUnderlyingSpec(t, limit);
      var rest := FilterUnderlying(t, limit);
      assert SymbolsOf(trades)[1..] == SymbolsOf(t);
      if 100.0 * trades[0].price <= limit {
        assert ([trades[0].symbol] + rest)[1..] == rest;
      } else {
        assert [] + rest == rest;
      }
      forall s | exists i :: 0 <= i < |trades| && trades[i].symbol == s && 100.0 * trades[i].price <= limit
        ensures s in FilterUnderlying(trades, limit)
      {
        var i :| 0 <= i < |trades| && trades[i].symbol == s && 100.0 * trades[i].price <= limit;
        if i > 0 {
          assert t[i - 1] == trades[i];
        }
      }
      forall s | s in rest
        ensures exists i :: 0 <= i < |trades| && trades[i].symbol == s && 100.0 * trades[i].price <= limit
      {
        var k :| 0 <= k < |t| && t[k].symbol == s && 100.0 * t[k].price <= limit;
        assert trades[k + 1] == t[k];
      }
    }
  }

  // ---------------------------------------------------------------------------
  // filter_options

  function Abs(x: real): real
  {
    if x < 0.0 then -x else x
  }

  /** `delta` is present, non-zero and strictly between the delta bounds in absolute value. */
  predicate DeltaInBand(c: Contract, th: Thresholds)
  {
    c.delta.Some? && c.delta.value != 0.0 && th.deltaMin < Abs(c.delta.value) && Abs(c.delta.value) < th.deltaMax
  }

  /** The annualised yield `(bid / strike) * (365 / (dte + 1))`. */
  function Yield(c: Contract): real
    requires c.strike != 0.0 && c.dte + 1 != 0
  {
    (c.bidPrice / c.strike) * (365.0 / (c.dte + 1) as real)
  }

  /** `oi` is present, non-zero and above the open-interest minimum. */
  predicate OpenInterestAbove(c: Contract, th: Thresholds)
  {
    c.oi.Some? && c.oi.value != 0 && c.oi.value > th.openInterestMin
  }

  datatype FilterError = ZeroDivision

  /**
   * The screen of one contract, evaluated left to right as `and` does: the yield
   * is computed only for a contract inside the delta band, and a zero strike or
   * a `dte` of -1 then raises.
   */
  function Keep(c: Contract, th: Thresholds, minStrike: real): Result<bool, FilterError>
  {
    if !DeltaInBand(c, th) then Ok(false)
    else if c.strike == 0.0 || c.dte + 1 == 0 then Err(ZeroDivision)
    else Ok(th.yieldMin < Yield(c) && Yield(c) < th.yieldMax && OpenInterestAbove(c, th) && c.strike >= minStrike)
  }

  /** `filter_options`: the contracts passing the screen, in order; a raising contract fails the whole call. */
  function FilterOptions(options: seq<Contract>, th: Thresholds, minStrike: real): Result<seq<Contract>, FilterError>
  {
    if options == [] then Ok([])
    else match Keep(options[0], th, minStrike)
      case Err(e) => Err(e)
      case Ok(keep) =>
        var rest := FilterOptions(options[1..], th, minStrike);
        if rest.Err? then rest else Ok((if keep then [options[0]] else []) + rest.value)
  }

  /**
   * The filter fails exactly when some contract raises; otherwise it keeps, in
   * order, exactly the contracts whose screen passes.
   */
  lemma {:induction false} FilterOptionsSpec(options: seq<Contract>, th: Thresholds, minStrike: real)
    ensures FilterOptions(options, th, minStrike).Err? <==>
              exists i :: 0 <= i < |options| && Keep(options[i], th, minStrike).Err?
    ensures FilterOptions(options, th, minStrike).Ok? ==>
              IsSubsequence(FilterOptions(options, th, minStrike).value, options) &&
              forall c :: c in FilterOptions(options, th, minStrike).value <==>
                            c in options && Keep(c, th, minStrike) == Ok(true)
  {
    if options != [] {
      var t := options[1..];
      FilterOptionsSpec(t, th, minStrike);
      var rest := FilterOptions(t, th, minStrike);
      if (exists i :: 0 <= i < |t| && Keep(t[i], th, minStrike).Err?) {
        var i :| 0 <= i < |t| && Keep(t[i], th, minStrike).Err?;
        assert options[i + 1] == t[i];
      }
      if Keep(options[0], th, minStrike).Ok? && rest.Ok? {
        forall i | 0 <= i < |options| ensures Keep(options[i], th, minStrike).Ok? {
          if i > 0 {
            assert options[i] == t[i - 1];
          }
        }
        if Keep(options[0], th, minStrike).value {
          assert ([options[0]] + rest.value)[1..] == rest.value;
        } else {
          assert [] + rest.value == rest.value;
        }
        assert forall c :: c in options <==> c == options[0] || c in t;
      }
    }
  }

  /** Every kept contract is inside the delta and yield bands, above the open-interest minimum and at or above the strike floor. */
  lemma KeptContractsPassScreens(options: seq<Contract>, th: Thresholds, minStrike: real)
    requires FilterOptions(options, th, minStrike).Ok?
    ensures forall c :: c in FilterOptions(options, th, minStrike).value ==>
              c.strike >= minStrike && OpenInterestAbove(c, th) && DeltaInBand(c, th) &&
              c.strike != 0.0 && c.dte + 1 != 0 && th.yieldMin < Yield(c) < th.yieldMax
  {
    FilterOptionsSpec(options, th, minStrike);
  }

  // ---------------------------------------------------------------------------
  // score_options

  /** `score_options`: one score per contract, in the same order. */
  function ScoreOptions(options: seq<Contract>, score: Contract -> real): (r: seq<real>)
    ensures |r| == |options|
    ensures forall i :: 0 <= i < |options| ==> r[i] == score(options[i])
  {
    if options == [] then [] else [score(options[0])] + ScoreOptions(options[1..], score)
  }

  // ---------------------------------------------------------------------------
  // select_options: the specification

  /** A contract paired with its score. */
  datatype Candidate = Candidate(contract: Contract, score: real)

  /** `max_per_symbol`, `position_counts` (`None` is the empty map) and `n`. */
  datatype Limits = Limits(maxPerSymbol: int, positionCounts: map<string, SM.Counts>, n: Option<int>)

  function ScoreOf(c: Candidate): real
  {
    c.score
  }

  /** `zip(options, scores)`: pairs up to the shorter of the two lists. */
  function Zip(options: seq<Contract>, scores: seq<real>): seq<Candidate>
  {
    seq(if |options| <= |scores| then |options| else |scores|,
        i requires 0 <= i < |options| && i < |scores| => Candidate(options[i], scores[i]))
  }

  function AboveMin(scoreMin: real): Candidate -> bool
  {
    (c: Candidate) => c.score > scoreMin
  }

  /** The pairs whose score exceeds the minimum, in order. */
  function Candidates(options: seq<Contract>, scores: seq<real>, scoreMin: real): seq<Candidate>
  {
    Filter(Zip(options, scores), AboveMin(scoreMin))
  }

  function OnUnderlying(u: string): Candidate -> bool
  {
    (c: Candidate) => c.contract.underlying == u
  }

  function On(u: string): Contract -> bool
  {
    (c: Contract) => c.underlying == u
  }

  /** The candidates of one underlying, in order. */
  function Group(fs: seq<Candidate>, u: string): seq<Candidate>
  {
    Filter(fs, OnUnderlying(u))
  }

  /** The underlyings in order of first appearance: the key order of the grouping dictionary. */
  function GroupOrder(fs: seq<Candidate>): seq<string>
  {
    if fs == [] then []
    else
      var prev := GroupOrder(fs[..|fs| - 1]);
      var u := fs[|fs| - 1].contract.underlying;
      if u in prev then prev else prev + [u]
  }

  /** The grouping dictionary once each list is sorted by score, largest first. */
  function SortedGroups(fs: seq<Candidate>): map<string, seq<Candidate>>
  {
    map u | u in GroupOrder(fs) :: SortDesc(Group(fs, u), ScoreOf)
  }

  function GroupIn(groups: map<string, seq<Candidate>>, u: string): seq<Candidate>
  {
    if u in groups then groups[u] else []
  }

  /** The score at the head of an underlying's sorted list: its best score. */
  function Best(groups: map<string, seq<Candidate>>, u: string): real
  {
    if u in groups && groups[u] != [] then groups[u][0].score else 0.0
  }

  function ByBest(groups: map<string, seq<Candidate>>): string -> real
  {
    u => Best(groups, u)
  }

  /** `sorted_underlyings`: the keys, stably sorted by best score, largest first. */
  function RankUnderlyings(order: seq<string>, groups: map<string, seq<Candidate>>): seq<string>
  {
    SortDesc(order, ByBest(groups))
  }

  /** `n` is truthy: `None` and 0 impose no cap. */
  predicate Capped(n: Option<int>)
  {
    n.Some? && n.value != 0
  }

  function Max0(x: int): nat
  {
    if x < 0 then 0 else x
  }

  function Min(x: int, y: int): int
  {
    if x <= y then x else y
  }

  /** `positions_to_add`: the room left by the puts already held, at most the candidates available. */
  function Quota(lim: Limits, u: string, available: nat): (q: int)
    ensures q <= available
  {
    Min(lim.maxPerSymbol - SM.Get(lim.positionCounts, u).puts, available)
  }

  /** How many of an underlying's candidates the inner loop appends when `current` are already selected. */
  function Appended(quota: int, current: nat, n: Option<int>): (k: nat)
    ensures k <= Max0(quota)
  {
    var room := if Capped(n) then n.value - current else quota;
    Max0(Min(quota, room))
  }

  function Contracts(cs: seq<Candidate>): seq<Contract>
  {
    seq(|cs|, i requires 0 <= i < |cs| => cs[i].contract)
  }

  /** The selection after visiting the underlyings `us` in order. */
  function Fill(us: seq<string>, groups: map<string, seq<Candidate>>, lim: Limits): seq<Contract>
  {
    if us == [] then []
    else
      var prev := Fill(us[..|us| - 1], groups, lim);
      var g := GroupIn(groups, us[|us| - 1]);
      prev + Contracts(g[..Appended(Quota(lim, us[|us| - 1], |g|), |prev|, lim.n)])
  }

  /** How many of `u`'s candidates `Fill(us, ...)` took. */
  function Taken(us: seq<string>, groups: map<string, seq<Candidate>>, lim: Limits, u: string): (k: nat)
    ensures k <= Max0(Quota(lim, u, |GroupIn(groups, u)|))
  {
    if us == [] then 0
    else if us[|us| - 1] == u then
      var g := GroupIn(groups, u);
      Appended(Quota(lim, u, |g|), |Fill(us[..|us| - 1], groups, lim)|, lim.n)
    else Taken(us[..|us| - 1], groups, lim, u)
  }

  /** `select_options`, as a function of its inputs. */
  function SelectSpec(options: seq<Contract>, scores: seq<real>, scoreMin: real, lim: Limits): seq<Contract>
  {
    var fs := Candidates(options, scores, scoreMin);
    var groups := SortedGroups(fs);
    Fill(RankUnderlyings(GroupOrder(fs), groups), groups, lim)
  }

  /** Every list of the dictionary holds candidates of its own underlying only. */
  predicate WellFormed(groups: map<string, seq<Candidate>>)
  {
    forall u, k :: u in groups && 0 <= k < |groups[u]| ==> groups[u][k].contract.underlying == u
  }

  // ---------------------------------------------------------------------------
  // select_options: facts about the grouping

  lemma {:induction false} GroupOrderMembers(fs: seq<Candidate>)
    ensures forall u :: u in GroupOrder(fs) <==> Group(fs, u) != []
    ensures Distinct(GroupOrder(fs))
  {
    if fs != [] {
      var prev := fs[..|fs| - 1];
      var c := fs[|fs| - 1];
      assert fs == prev + [c];
      GroupOrderMembers(prev);
      forall u ensures Group(fs, u) == Group(prev, u) + (if c.contract.underlying == u then [c] else []) {
        FilterSnoc(prev, c, OnUnderlying(u));
      }
    }
  }

  /** The grouping loop's step: one more candidate extends the key order and its underlying's list. */
  lemma GroupStep(fs: seq<Candidate>, i: int)
    requires 0 <= i < |fs|
    ensures fs[..i + 1] == fs[..i] + [fs[i]]
    ensures GroupOrder(fs[..i + 1]) ==
              if fs[i].contract.underlying in GroupOrder(fs[..i]) then GroupOrder(fs[..i])
              else GroupOrder(fs[..i]) + [fs[i].contract.underlying]
    ensures forall v :: Group(fs[..i + 1], v) == Group(fs[..i], v) + (if fs[i].contract.underlying == v then [fs[i]] else [])
    ensures fs[i].contract.underlying !in GroupOrder(fs[..i]) ==> Group(fs[..i], fs[i].contract.underlying) == []
  {
    assert fs[..i + 1] == fs[..i] + [fs[i]];
    assert fs[..i + 1][..i] == fs[..i];
    forall v ensures Group(fs[..i + 1], v) == Group(fs[..i], v) + (if fs[i].contract.underlying == v then [fs[i]] else []) {
      FilterSnoc(fs[..i], fs[i], OnUnderlying(v));
    }
    GroupOrderMembers(fs[..i]);
  }

  /** A sorted group holds candidates of its own underlying only. */
  lemma SortedGroupOwn(fs: seq<Candidate>, u: string)
    ensures forall k :: 0 <= k < |SortDesc(Group(fs, u), ScoreOf)| ==> SortDesc(Group(fs, u), ScoreOf)[k].contract.underlying == u
  {
    var g := SortDesc(Group(fs, u), ScoreOf);
    SortDescSpec(Group(fs, u), ScoreOf);
    FilterSpec(fs, OnUnderlying(u));
    forall k | 0 <= k < |g| ensures g[k].contract.underlying == u {
      assert g[k] in multiset(Group(fs, u));
      assert OnUnderlying(u)(g[k]);
    }
  }

  /** The sorted dictionary: each list is its underlying's candidates, sorted. */
  lemma SortedGroupsFacts(fs: seq<Candidate>)
    ensures WellFormed(SortedGroups(fs))
    ensures forall u :: GroupIn(SortedGroups(fs), u) == SortDesc(Group(fs, u), ScoreOf)
  {
    var groups: map<string, seq<Candidate>> := SortedGroups(fs);
    forall u: string, k: int | u in groups && 0 <= k < |groups[u]| ensures groups[u][k].contract.underlying == u {
      SortedGroupOwn(fs, u);
    }
    forall u ensures GroupIn(groups, u) == SortDesc(Group(fs, u), ScoreOf) {
      if u !in groups {
        GroupOrderMembers(fs);
      }
    }
  }

  /** The ranking lists each underlying with a candidate exactly once. */
  lemma RankFacts(fs: seq<Candidate>)
    ensures Distinct(RankUnderlyings(GroupOrder(fs), SortedGroups(fs)))
    ensures forall u :: u in RankUnderlyings(GroupOrder(fs), SortedGroups(fs)) <==> u in GroupOrder(fs)
  {
    var groups := SortedGroups(fs);
    GroupOrderMembers(fs);
    SortDescDistinct(GroupOrder(fs), ByBest(groups));
    SortDescSpec(GroupOrder(fs), ByBest(groups));
    var r := RankUnderlyings(GroupOrder(fs), groups);
    assert forall u :: u in r <==> u in multiset(r);
  }

  // ---------------------------------------------------------------------------
  // select_options: facts about filling

  /** Once the cap is reached, later underlyings add nothing. */
  lemma {:induction false} FillStops(us: seq<string>, j: int, groups: map<string, seq<Candidate>>, lim: Limits)
    requires 0 <= j <= |us|
    requires Capped(lim.n) && |Fill(us[..j], groups, lim)| >= lim.n.value
    ensures Fill(us, groups, lim) == Fill(us[..j], groups, lim)
  {
    if j < |us| {
      var prev := us[..|us| - 1];
      assert prev[..j] == us[..j];
      FillStops(prev, j, groups, lim);
    } else {
      assert us[..j] == us;
    }
  }

  /** With a cap, the selection never exceeds it (and is empty when the cap is negative). */
  lemma {:induction false} FillBound(us: seq<string>, groups: map<string, seq<Candidate>>, lim: Limits)
    ensures Capped(lim.n) ==> |Fill(us, groups, lim)| <= Max0(lim.n.value)
  {
    if us != [] {
      FillBound(us[..|us| - 1], groups, lim);
    }
  }

  /** Every selected contract belongs to one of the visited underlyings. */
  lemma {:induction false} FillUnderlyingsIn(us: seq<string>, groups: map<string, seq<Candidate>>, lim: Limits)
    requires WellFormed(groups)
    ensures forall c :: c in Fill(us, groups, lim) ==> c.underlying in us
  {
    if us != [] {
      var prev := us[..|us| - 1];
      FillUnderlyingsIn(prev, groups, lim);
      assert forall c :: c in prev ==> c in us;
    }
  }

  /** How many contracts `u` gets: none when it is not visited, at most its quota, and its whole quota without a cap. */
  lemma {:induction false} TakenBounds(us: seq<string>, groups: map<string, seq<Candidate>>, lim: Limits, u: string)
    requires Distinct(us)
    ensures u !in us ==> Taken(us, groups, lim, u) == 0
    ensures !Capped(lim.n) && u in us ==> Taken(us, groups, lim, u) == Max0(Quota(lim, u, |GroupIn(groups, u)|))
  {
    if us != [] {
      var prev := us[..|us| - 1];
      assert us == prev + [us[|us| - 1]];
      assert Distinct(prev);
      TakenBounds(prev, groups, lim, u);
      if us[|us| - 1] == u {
        assert u !in prev;
      } else {
        assert u in us <==> u in prev;
      }
    }
  }

  /** The contracts selected for `u` are the first `Taken` of its list, within its quota. */
  lemma {:induction false} FillOn(us: seq<string>, groups: map<string, seq<Candidate>>, lim: Limits, u: string)
    requires Distinct(us) && WellFormed(groups)
    ensures Taken(us, groups, lim, u) <= Max0(Quota(lim, u, |GroupIn(groups, u)|))
    ensures Filter(Fill(us, groups, lim), On(u)) == Contracts(GroupIn(groups, u)[..Taken(us, groups, lim, u)])
    ensures u !in us ==> Taken(us, groups, lim, u) == 0
    ensures !Capped(lim.n) && u in us ==> Taken(us, groups, lim, u) == Max0(Quota(lim, u, |GroupIn(groups, u)|))
  {
    TakenBounds(us, groups, lim, u);
    FillOnFilter(us, groups, lim, u);
  }

  /** The filter half of `FillOn`, by induction on the visited underlyings. */
  lemma {:induction false} FillOnFilter(us: seq<string>, groups: map<string, seq<Candidate>>, lim: Limits, u: string)
    requires Distinct(us) && WellFormed(groups)
    ensures Filter(Fill(us, groups, lim), On(u)) == Contracts(GroupIn(groups, u)[..Taken(us, groups, lim, u)])
  {
    if us == [] {
      assert GroupIn(groups, u)[..0] == [];
    } else {
      var prev := us[..|us| - 1];
      var v := us[|us| - 1];
      assert us == prev + [v];
      assert Distinct(prev);
      FillOnFilter(prev, groups, lim, u);
      var p := Fill(prev, groups, lim);
      var g := GroupIn(groups, v);
      var block := Contracts(g[..Appended(Quota(lim, v, |g|), |p|, lim.n)]);
      FilterAppend(p, block, On(u));
      BlockOn(groups, lim, v, u, |p|);
      if v == u {
        assert u !in prev;
        TakenBounds(prev, groups, lim, u);
        assert GroupIn(groups, u)[..0] == [];
      }
    }
  }

  /** The block appended for `v` holds only contracts on `v`. */
  lemma BlockOn(groups: map<string, seq<Candidate>>, lim: Limits, v: string, u: string, current: nat)
    requires WellFormed(groups)
    ensures var g := GroupIn(groups, v);
            var block := Contracts(g[..Appended(Quota(lim, v, |g|), current, lim.n)]);
            Filter(block, On(u)) == if v == u then block else []
  {
    var g := GroupIn(groups, v);
    var block := Contracts(g[..Appended(Quota(lim, v, |g|), current, lim.n)]);
    if v == u {
      FilterAll(block, On(u));
    } else {
      FilterNone(block, On(u));
    }
  }

  /** The selection visits underlyings in the order of `us`, so it is ordered by any key `us` is sorted by. */
  lemma {:induction false} FillOrdered(us: seq<string>, groups: map<string, seq<Candidate>>, lim: Limits, key: string -> real)
    requires SortedDesc(us, key) && WellFormed(groups)
    ensures forall i, j :: 0 <= i < j < |Fill(us, groups, lim)| ==>
              key(Fill(us, groups, lim)[i].underlying) >= key(Fill(us, groups, lim)[j].underlying)
  {
    if us != [] {
      var prev := us[..|us| - 1];
      var v := us[|us| - 1];
      FillOrdered(prev, groups, lim, key);
      FillUnderlyingsIn(prev, groups, lim);
      var p := Fill(prev, groups, lim);
      var g := GroupIn(groups, v);
      var block := Contracts(g[..Appended(Quota(lim, v, |g|), |p|, lim.n)]);
      var r := p + block;
      forall i, j | 0 <= i < j < |r| ensures key(r[i].underlying) >= key(r[j].underlying) {
        if j < |p| {
          assert r[i] == p[i] && r[j] == p[j];
        } else if i >= |p| {
          assert r[i] == block[i - |p|] && r[j] == block[j - |p|];
        } else {
          assert r[i] == p[i] && r[j] == block[j - |p|];
          assert p[i] in p;
          var k :| 0 <= k < |prev| && prev[k] == p[i].underlying;
          assert us[k] == prev[k];
        }
      }
    }
  }

  // ---------------------------------------------------------------------------
  // select_options: what the selection promises

  /** A candidate is one of the zipped pairs, with a score above the minimum. */
  lemma CandidateZipped(options: seq<Contract>, scores: seq<real>, scoreMin: real, c: Candidate)
    requires c in Candidates(options, scores, scoreMin)
    ensures exists i :: 0 <= i < |options| && i < |scores| && options[i] == c.contract && scores[i] == c.score > scoreMin
  {
    FilterSpec(Zip(options, scores), AboveMin(scoreMin));
    var i :| 0 <= i < |Zip(options, scores)| && Zip(options, scores)[i] == c;
  }

  /** A candidate of an underlying's sorted group is one of the zipped pairs above the minimum. */
  lemma SortedGroupMember(options: seq<Contract>, scores: seq<real>, scoreMin: real, u: string, k: int)
    requires 0 <= k < |SortDesc(Group(Candidates(options, scores, scoreMin), u), ScoreOf)|
    ensures var c := SortDesc(Group(Candidates(options, scores, scoreMin), u), ScoreOf)[k];
            exists i :: 0 <= i < |options| && i < |scores| && options[i] == c.contract && scores[i] == c.score > scoreMin
  {
    var fs := Candidates(options, scores, scoreMin);
    var g := SortDesc(Group(fs, u), ScoreOf);
    SortDescSpec(Group(fs, u), ScoreOf);
    assert g[k] in multiset(Group(fs, u));
    FilterSpec(fs, OnUnderlying(u));
    CandidateZipped(options, scores, scoreMin, g[k]);
  }

  /** The selection for `u`, in terms of the per-underlying filling facts. */
  lemma SelectedOn(options: seq<Contract>, scores: seq<real>, scoreMin: real, lim: Limits, u: string)
    returns (t: nat)
    ensures var g := SortDesc(Group(Candidates(options, scores, scoreMin), u), ScoreOf);
            t <= |g| && t <= Max0(lim.maxPerSymbol - SM.Get(lim.positionCounts, u).puts) &&
            Filter(SelectSpec(options, scores, scoreMin, lim), On(u)) == Contracts(g[..t]) &&
            (!Capped(lim.n) ==> t == Min(Max0(lim.maxPerSymbol - SM.Get(lim.positionCounts, u).puts), |g|))
  {
    var fs := Candidates(options, scores, scoreMin);
    var groups := SortedGroups(fs);
    var us := RankUnderlyings(GroupOrder(fs), groups);
    var g := SortDesc(Group(fs, u), ScoreOf);
    assert GroupIn(groups, u) == g && WellFormed(groups) by {
      SortedGroupsFacts(fs);
    }
    assert Distinct(us) && (u in us <==> u in GroupOrder(fs)) by {
      RankFacts(fs);
    }
    FillOn(us, groups, lim, u);
    t := Taken(us, groups, lim, u);
    if u !in us {
      GroupOrderMembers(fs);
      assert g == [];
    }
  }

  /** Every selected contract was paired with a score above `SCORE_MIN`. */
  lemma SelectedAboveScoreMin(options: seq<Contract>, scores: seq<real>, scoreMin: real, lim: Limits)
    ensures forall c :: c in SelectSpec(options, scores, scoreMin, lim) ==>
              exists i :: 0 <= i < |options| && i < |scores| && options[i] == c && scores[i] > scoreMin
  {
    var r := SelectSpec(options, scores, scoreMin, lim);
    forall c | c in r
      ensures exists i :: 0 <= i < |options| && i < |scores| && options[i] == c && scores[i] > scoreMin
    {
      var u := c.underlying;
      var t := SelectedOn(options, scores, scoreMin, lim, u);
      var g := SortDesc(Group(Candidates(options, scores, scoreMin), u), ScoreOf);
      FilterSpec(r, On(u));
      assert c in Contracts(g[..t]);
      var k :| 0 <= k < t && Contracts(g[..t])[k] == c;
      SortedGroupMember(options, scores, scoreMin, u, k);
    }
  }

  /**
   * Per underlying, the selected contracts are, in order, the first `t` of its
   * candidates sorted by score, largest first, where `t` is at most the room
   * left by the puts already held; without a cap `t` is that room, bounded by
   * the candidates available.
   */
  lemma SelectedPerUnderlying(options: seq<Contract>, scores: seq<real>, scoreMin: real, lim: Limits, u: string)
    ensures var g := SortDesc(Group(Candidates(options, scores, scoreMin), u), ScoreOf);
            SortedDesc(g, ScoreOf) && multiset(g) == multiset(Group(Candidates(options, scores, scoreMin), u))
    ensures var g := SortDesc(Group(Candidates(options, scores, scoreMin), u), ScoreOf);
            var room := Max0(lim.maxPerSymbol - SM.Get(lim.positionCounts, u).puts);
            exists t :: 0 <= t <= |g| && t <= room &&
                        Filter(SelectSpec(options, scores, scoreMin, lim), On(u)) == Contracts(g[..t]) &&
                        (!Capped(lim.n) ==> t == Min(room, |g|))
  {
    var g := SortDesc(Group(Candidates(options, scores, scoreMin), u), ScoreOf);
    SortDescSpec(Group(Candidates(options, scores, scoreMin), u), ScoreOf);
    var t := SelectedOn(options, scores, scoreMin, lim, u);
    assert Filter(SelectSpec(options, scores, scoreMin, lim), On(u)) == Contracts(g[..t]);
  }

  /** With `max_per_symbol` 1 (or less) no underlying is selected twice. */
  lemma NoDuplicateUnderlyings(options: seq<Contract>, scores: seq<real>, scoreMin: real, lim: Limits)
    requires lim.maxPerSymbol <= 1
    ensures var r := SelectSpec(options, scores, scoreMin, lim);
            forall i, j :: 0 <= i < j < |r| ==> r[i].underlying != r[j].underlying
  {
    var r := SelectSpec(options, scores, scoreMin, lim);
    forall i, j | 0 <= i < j < |r| ensures r[i].underlying != r[j].underlying {
      if r[i].underlying == r[j].underlying {
        var u := r[i].underlying;
        var t := SelectedOn(options, scores, scoreMin, lim, u);
        FilterKeepsTwo(r, On(u), i, j);
        assert false;
      }
    }
  }

  /** A truthy `n` caps the selection at `n` (nothing at all for a negative `n`). */
  lemma SelectionCapped(options: seq<Contract>, scores: seq<real>, scoreMin: real, lim: Limits)
    requires Capped(lim.n)
    ensures |SelectSpec(options, scores, scoreMin, lim)| <= Max0(lim.n.value)
  {
    var fs := Candidates(options, scores, scoreMin);
    FillBound(RankUnderlyings(GroupOrder(fs), SortedGroups(fs)), SortedGroups(fs), lim);
  }

  /** Underlyings are filled in descending order of their best candidate's score. */
  lemma UnderlyingsByBestScore(options: seq<Contract>, scores: seq<real>, scoreMin: real, lim: Limits)
    ensures var fs := Candidates(options, scores, scoreMin);
            var r := SelectSpec(options, scores, scoreMin, lim);
            forall i, j :: 0 <= i < j < |r| ==> Best(SortedGroups(fs), r[i].underlying) >= Best(SortedGroups(fs), r[j].underlying)
  {
    var fs := Candidates(options, scores, scoreMin);
    var groups := SortedGroups(fs);
    SortedGroupsFacts(fs);
    SortDescSpec(GroupOrder(fs), ByBest(groups));
    FillOrdered(RankUnderlyings(GroupOrder(fs), groups), groups, lim, ByBest(groups));
  }

  /** An underlying's best score is the highest score among its candidates. */
  lemma BestIsTopScore(fs: seq<Candidate>, u: string, c: Candidate)
    requires c in Group(fs, u)
    ensures c.score <= Best(SortedGroups(fs), u)
  {
    var groups := SortedGroups(fs);
    var g := SortDesc(Group(fs, u), ScoreOf);
    SortedGroupsFacts(fs);
    SortDescSpec(Group(fs, u), ScoreOf);
    GroupOrderMembers(fs);
    assert c in multiset(g);
    var k :| 0 <= k < |g| && g[k] == c;
    assert GroupIn(groups, u) == g;
  }

  // ---------------------------------------------------------------------------
  // select_options: the loops

  /** The grouping loop: the dictionary of candidates per underlying, and its key order. */
  method GroupByUnderlying(filtered: seq<Candidate>) returns (order: seq<string>, byUnderlying: map<string, seq<Candidate>>)
    ensures order == GroupOrder(filtered)
    ensures forall u :: u in byUnderlying <==> u in order
    ensures forall u :: u in byUnderlying ==> byUnderlying[u] == Group(filtered, u)
  {
    order := [];
    byUnderlying := map[];
    for i := 0 to |filtered|
      invariant order == GroupOrder(filtered[..i])
      invariant forall u :: u in byUnderlying <==> u in order
      invariant forall u :: u in byUnderlying ==> byUnderlying[u] == Group(filtered[..i], u)
    {
      var c := filtered[i];
      var u := c.contract.underlying;
      GroupStep(filtered, i);
      if u !in byUnderlying {
        byUnderlying := byUnderlying[u := []];
        order := order + [u];
      }
      byUnderlying := byUnderlying[u := byUnderlying[u] + [c]];
    }
    assert filtered[..|filtered|] == filtered;
  }

  /** The in-place sort of each list, by score, largest first. */
  method SortEachGroup(order: seq<string>, groups: map<string, seq<Candidate>>) returns (sorted: map<string, seq<Candidate>>)
    requires Distinct(order)
    requires forall u :: u in groups <==> u in order
    ensures forall u :: u in sorted <==> u in order
    ensures forall u :: u in sorted ==> sorted[u] == SortDesc(groups[u], ScoreOf)
  {
    sorted := groups;
    for j := 0 to |order|
      invariant forall u :: u in sorted <==> u in order
      invariant forall u :: u in sorted ==> sorted[u] == if u in order[..j] then SortDesc(groups[u], ScoreOf) else groups[u]
    {
      var u := order[j];
      assert u !in order[..j] by {
        forall k | 0 <= k < j ensures order[..j][k] != u {
          assert order[k] != order[j];
        }
      }
      assert order[..j + 1] == order[..j] + [u];
      sorted := sorted[u := SortDesc(sorted[u], ScoreOf)];
    }
    assert order[..|order|] == order;
  }

  /** One more underlying: the selection grows by that underlying's appended candidates. */
  lemma FillStep(us: seq<string>, j: int, groups: map<string, seq<Candidate>>, lim: Limits)
    requires 0 <= j < |us|
    ensures var prev := Fill(us[..j], groups, lim);
            var g := GroupIn(groups, us[j]);
            Fill(us[..j + 1], groups, lim) == prev + Contracts(g[..Appended(Quota(lim, us[j], |g|), |prev|, lim.n)])
  {
    assert us[..j + 1][..j] == us[..j];
  }

  /** The inner loop: appends the first candidates of one underlying, at most `positionsToAdd`, stopping at the cap. */
  method AppendCandidates(selected: seq<Contract>, g: seq<Candidate>, positionsToAdd: int, n: Option<int>)
    returns (after: seq<Contract>)
    requires positionsToAdd <= |g|
    ensures after == selected + Contracts(g[..Appended(positionsToAdd, |selected|, n)])
  {
    after := selected;
    var i := 0;
    while i < positionsToAdd
      invariant 0 <= i <= Appended(positionsToAdd, |selected|, n)
      invariant after == selected + Contracts(g[..i])
    {
      if Capped(n) && |after| >= n.value {
        break;
      }
      assert Contracts(g[..i + 1]) == Contracts(g[..i]) + [g[i].contract];
      after := after + [g[i].contract];
      i := i + 1;
    }
  }

  /** The nested selection loops over the ranked underlyings. */
  method FillSelection(sortedUnderlyings: seq<string>, byUnderlying: map<string, seq<Candidate>>, lim: Limits)
    returns (selected: seq<Contract>)
    ensures selected == Fill(sortedUnderlyings, byUnderlying, lim)
  {
    selected := [];
    for j := 0 to |sortedUnderlyings|
      invariant selected == Fill(sortedUnderlyings[..j], byUnderlying, lim)
    {
      var u := sortedUnderlyings[j];
      var g := GroupIn(byUnderlying, u);
      var currentPositions := SM.Get(lim.positionCounts, u).puts;
      var positionsToAdd := Min(lim.maxPerSymbol - currentPositions, |g|);
      FillStep(sortedUnderlyings, j, byUnderlying, lim);
      selected := AppendCandidates(selected, g, positionsToAdd, lim.n);
      if Capped(lim.n) && |selected| >= lim.n.value {
        FillStops(sortedUnderlyings, j + 1, byUnderlying, lim);
        return;
      }
    }
    assert sortedUnderlyings[..|sortedUnderlyings|] == sortedUnderlyings;
  }

  /**
   * `select_options`: groups the candidates above the minimum score by
   * underlying, sorts each group and the underlyings by score, then fills each
   * underlying up to its room, stopping at a truthy `n`.
   */
  method SelectOptions(options: seq<Contract>, scores: seq<real>, n: Option<int>, maxPerSymbol: int,
                       positionCounts: map<string, SM.Counts>, scoreMin: real)
    returns (selected: seq<Contract>)
    ensures selected == SelectSpec(options, scores, scoreMin, Limits(maxPerSymbol, positionCounts, n))
  {
    var filtered := Candidates(options, scores, scoreMin);
    var order, byUnderlying := GroupByUnderlying(filtered);
    GroupOrderMembers(filtered);
    byUnderlying := SortEachGroup(order, byUnderlying);
    assert byUnderlying == SortedGroups(filtered);
    var sortedUnderlyings := RankUnderlyings(order, byUnderlying);
    selected := FillSelection(sortedUnderlyings, byUnderlying, Limits(maxPerSymbol, positionCounts, n));
  }
}

=== FILE: strategy_matrix.dfy ===
/**
 * The per-symbol classification of the strategy matrix: the wheel state shown
 * for an underlying, its layer usage and the action it is in (at capacity,
 * seeking entry, managing, ready).  The surrounding loop only formats and logs
 * rows; the formatting is not modelled.
 */
module StrategyMatrix {
  import SM = StateManager
  import TSM = ThreadSafeManager

  /** What the matrix says the strategy is doing on an underlying. */
  datatype Action = AtCapacity | SeekingEntry | Managing | Ready

  /** One row of the matrix: the displayed state, the layers in use and the action. */
  datatype Row = Row(state: string, layers: nat, counts: SM.Counts, action: Action)

  /** The `type` the state manager stores for each kind of wheel state. */
  function TypeName(k: SM.Kind): string
  {
    match k
    case LongShares => "long_shares"
    case ShortPut => "short_put"
    case ShortCall => "short_call"
    case ShortCallAwaitingStock => "short_call_awaiting_stock"
  }

  /** `str.upper()` on one ASCII character: a lower-case letter becomes its capital, any other character stays. */
  function UpperChar(ch: char): char
  {
    if 'a' <= ch <= 'z' then (ch as int - 32) as char else ch
  }

  /** `str.upper()` on ASCII text. */
  function Upper(s: string): string
  {
    seq(|s|, i requires 0 <= i < |s| => UpperChar(s[i]))
  }

  /** `str.replace('_', ' ')`. */
  function Spaced(s: string): string
  {
    seq(|s|, i requires 0 <= i < |s| => if s[i] == '_' then ' ' else s[i])
  }

  /** `s[:n]`: the first `n` characters, or all of them when there are fewer. */
  function Take(s: string, n: nat): string
  {
    if |s| <= n then s else s[..n]
  }

  /** A state's `type` as the matrix shows it: spaced, upper-cased and cut to twelve characters. */
  function Shown(name: string): string
  {
    Take(Upper(Spaced(name)), 12)
  }

  /**
   * The state column: IDLE when the underlying holds nothing; otherwise its
   * state's `type` (`idle` when it has no state) as shown.
   */
  function StateLabel(c: SM.Counts, states: map<string, SM.WheelState>, symbol: string): string
  {
    if c.puts > 0 || c.calls > 0 || c.shares > 0 then
      Shown(if symbol in states then TypeName(states[symbol].kind) else "idle")
    else "IDLE"
  }

  /** The action column, from the layers in use against the limit and the list of underlyings open for puts. */
  function ActionFor(layers: nat, maxLayers: int, symbol: string, allowed: seq<string>): Action
  {
    if layers >= maxLayers then AtCapacity
    else if symbol in allowed then SeekingEntry
    else if layers > 0 then Managing
    else Ready
  }

  /** The row of `display_strategy_matrix` for one underlying; an underlying without counts has zero counts. */
  function MatrixRow(symbol: string, positionCounts: map<string, SM.Counts>, states: map<string, SM.WheelState>,
                     maxLayers: int, allowed: seq<string>): Row
  {
    var c := SM.Get(positionCounts, symbol);
    var layers := TSM.Layers(c);
    Row(StateLabel(c, states, symbol), layers, c, ActionFor(layers, maxLayers, symbol, allowed))
  }

  /** Each action holds exactly in its own case, checked in the order capacity, entry, managing. */
  lemma ActionSpec(layers: nat, maxLayers: int, symbol: string, allowed: seq<string>)
    ensures ActionFor(layers, maxLayers, symbol, allowed) == AtCapacity <==> layers >= maxLayers
    ensures ActionFor(layers, maxLayers, symbol, allowed) == SeekingEntry <==> layers < maxLayers && symbol in allowed
    ensures ActionFor(layers, maxLayers, symbol, allowed) == Managing <==>
              layers < maxLayers && symbol !in allowed && layers > 0
    ensures ActionFor(layers, maxLayers, symbol, allowed) == Ready <==>
              layers < maxLayers && symbol !in allowed && layers == 0
  {
  }

  /**
   * The matrix shows AT CAPACITY exactly when the capacity rule refuses
   * another put on the underlying: both use the larger of puts and share lots.
   */
  lemma AtCapacityIffNotAllowed(symbol: string, positionCounts: map<string, SM.Counts>,
                                states: map<string, SM.WheelState>, maxLayers: int, allowed: seq<string>)
    ensures MatrixRow(symbol, positionCounts, states, maxLayers, allowed).action == AtCapacity <==>
              !TSM.Allowed(positionCounts, symbol, maxLayers)
  {
  }

  /** The layers shown are the larger of puts and share lots; calls are not counted. */
  lemma LayersSpec(symbol: string, positionCounts: map<string, SM.Counts>, states: map<string, SM.WheelState>,
                   maxLayers: int, allowed: seq<string>)
    ensures var row := MatrixRow(symbol, positionCounts, states, maxLayers, allowed);
            row.layers >= row.counts.puts && row.layers >= row.counts.shares &&
            (row.layers == row.counts.puts || row.layers == row.counts.shares)
    ensures var c := SM.Get(positionCounts, symbol);
            forall calls: nat ::
              var other := MatrixRow(symbol, positionCounts[symbol := c.(calls := calls)], states, maxLayers, allowed);
              other.layers == MatrixRow(symbol, positionCounts, states, maxLayers, allowed).layers &&
              other.action == MatrixRow(symbol, positionCounts, states, maxLayers, allowed).action
  {
  }

  /** An underlying missing from the counts is IDLE with no layers, and at capacity only under a limit of zero or less. */
  lemma MissingSymbolRow(symbol: string, positionCounts: map<string, SM.Counts>, states: map<string, SM.WheelState>,
                         maxLayers: int, allowed: seq<string>)
    requires symbol !in positionCounts
    ensures var row := MatrixRow(symbol, positionCounts, states, maxLayers, allowed);
            row.state == "IDLE" && row.layers == 0 && row.counts == SM.Counts(0, 0, 0) &&
            row.action == (if maxLayers <= 0 then AtCapacity else if symbol in allowed then SeekingEntry else Ready)
  {
  }

  /** An underlying with no puts, calls or shares is IDLE whatever state is recorded for it. */
  lemma NothingHeldIsIdle(symbol: string, positionCounts: map<string, SM.Counts>, states: map<string, SM.WheelState>,
                          maxLayers: int, allowed: seq<string>)
    requires SM.Get(positionCounts, symbol) == SM.Counts(0, 0, 0)
    ensures MatrixRow(symbol, positionCounts, states, maxLayers, allowed).state == "IDLE"
  {
  }

  /** The names the state manager stores, as the matrix shows them. */
  lemma ShownNames()
    ensures Shown("short_put") == "SHORT PUT"
    ensures Shown("long_shares") == "LONG SHARES"
    ensures Shown("short_call") == "SHORT CALL"
    ensures Shown("short_call_awaiting_stock") == "SHORT CALL A"
    ensures Shown("idle") == "IDLE"
  {
  }

  /**
   * An underlying holding something shows its state's name in capitals with
   * spaces, and IDLE when the state manager has no state for it.
   */
  lemma HeldStateLabels(symbol: string, positionCounts: map<string, SM.Counts>, states: map<string, SM.WheelState>,
                        maxLayers: int, allowed: seq<string>)
    requires SM.Get(positionCounts, symbol) != SM.Counts(0, 0, 0)
    ensures var shown := MatrixRow(symbol, positionCounts, states, maxLayers, allowed).state;
            (symbol !in states ==> shown == "IDLE") &&
            (symbol in states && states[symbol].kind == SM.ShortPut ==> shown == "SHORT PUT") &&
            (symbol in states && states[symbol].kind == SM.LongShares ==> shown == "LONG SHARES") &&
            (symbol in states && states[symbol].kind == SM.ShortCall ==> shown == "SHORT CALL") &&
            (symbol in states && states[symbol].kind == SM.ShortCallAwaitingStock ==> shown == "SHORT CALL A")
  {
    ShownNames();
  }
}

=== FILE: thread_safe_manager.dfy ===
/**
 * The cached state holder: the last derived wheel state, per-underlying counts
 * and capital at risk, plus the layer-capacity rule the runner consults before
 * selling another put.  The lock that serialises the methods is not modelled;
 * the class is sequential.  Dafny maps are values, so every reader already
 * answers a copy that a caller cannot use to change the cache.
 */
module ThreadSafeManager {
  import opened Wrappers
  import SM = StateManager
  import PT = PremiumTracker

  /** What `get_state` answers: every state, or one symbol's state (`None` standing for `{}`). */
  datatype StateView = AllStates(states: map<string, SM.WheelState>) | OneState(entry: Option<SM.WheelState>)

  /** Wheel layers held on an underlying: the larger of its put count and its share lots; calls do not count. */
  function Layers(c: SM.Counts): nat
  {
    if c.puts >= c.shares then c.puts else c.shares
  }

  /** The capacity rule: another put is allowed while fewer than `maxLayers` layers are held. */
  predicate Allowed(counts: map<string, SM.Counts>, symbol: string, maxLayers: int)
  {
    Layers(SM.Get(counts, symbol)) < maxLayers
  }

  /** Calls never use up capacity: two count maps differing only in calls answer alike. */
  lemma CallsIgnored(counts: map<string, SM.Counts>, symbol: string, calls: nat, maxLayers: int)
    ensures var c := SM.Get(counts, symbol);
            Allowed(counts[symbol := c.(calls := calls)], symbol, maxLayers) == Allowed(counts, symbol, maxLayers)
  {
  }

  /** An underlying with no counts is allowed exactly when the limit is positive. */
  lemma UnknownSymbolAllowed(counts: map<string, SM.Counts>, symbol: string, maxLayers: int)
    requires symbol !in counts
    ensures Allowed(counts, symbol, maxLayers) <==> 0 < maxLayers
  {
  }

  /** A higher limit never turns an allowed underlying away. */
  lemma AllowedMonotone(counts: map<string, SM.Counts>, symbol: string, m: int, m': int)
    requires m <= m' && Allowed(counts, symbol, m)
    ensures Allowed(counts, symbol, m')
  {
  }

  /**
   * After counting the broker's positions, an underlying is allowed exactly when
   * its short puts (by contracts) and its share lots (shares div 100), summed over
   * every position, are each below the limit.
   */
  lemma AllowedAfterCounting(ps: seq<SM.Position>, symbol: string, maxLayers: int)
    requires SM.CountsOf(ps).Ok?
    ensures Allowed(SM.CountsOf(ps).value, symbol, maxLayers) <==>
              SM.CountsFor(ps, symbol).puts < maxLayers && SM.CountsFor(ps, symbol).shares < maxLayers
  {
    SM.CountsAreSums(ps, symbol);
  }

  /** `ThreadSafeStateManager`, without its lock. */
  class ThreadSafeStateManager {
    var state: map<string, SM.WheelState>
    var positionCounts: map<string, SM.Counts>
    var currentRisk: real

    constructor ()
      ensures state == map[] && positionCounts == map[] && currentRisk == 0.0
    {
      state := map[];
      positionCounts := map[];
      currentRisk := 0.0;
    }

    /**
     * `update_state`: derives and caches the state and answers it; when derivation
     * raises, the error propagates and the cached state is left as it was.
     */
    method UpdateState(ps: seq<SM.Position>, tracker: Option<PT.History>)
      returns (r: Result<map<string, SM.WheelState>, SM.DeriveError>)
      modifies this
      ensures r == SM.DeriveState(ps, tracker)
      ensures r.Ok? ==> state == r.value
      ensures r.Err? ==> state == old(state)
      ensures positionCounts == old(positionCounts) && currentRisk == old(currentRisk)
    {
      r := SM.ComputeState(ps, tracker);
      if r.Ok? {
        state := r.value;
      }
    }

    /** `calculate_risk`: computes, caches and answers the capital at risk. */
    method CalculateRisk(ps: seq<SM.Position>) returns (r: Result<real, SM.DeriveError>)
      modifies this
      ensures r == SM.RiskOf(ps)
      ensures r.Ok? ==> currentRisk == r.value
      ensures r.Err? ==> currentRisk == old(currentRisk)
      ensures state == old(state) && positionCounts == old(positionCounts)
    {
      r := SM.CalculateRisk(ps);
      if r.Ok? {
        currentRisk := r.value;
      }
    }

    /** `count_positions_by_symbol`: computes, caches and answers the counts. */
    method CountPositionsBySymbol(ps: seq<SM.Position>) returns (r: Result<map<string, SM.Counts>, SM.DeriveError>)
      modifies this
      ensures r == SM.CountsOf(ps)
      ensures r.Ok? ==> positionCounts == r.value
      ensures r.Err? ==> positionCounts == old(positionCounts)
      ensures state == old(state) && currentRisk == old(currentRisk)
    {
      r := SM.CountPositionsBySymbol(ps);
      if r.Ok? {
        positionCounts := r.value;
      }
    }

    /** `get_state`: a missing or empty symbol asks for every state; an unknown symbol gets nothing. */
    method GetState(symbol: Option<string>) returns (v: StateView)
      ensures symbol.None? || symbol == Some("") ==> v == AllStates(state)
      ensures symbol.Some? && symbol.value != "" && symbol.value !in state ==> v == OneState(None)
      ensures symbol.Some? && symbol.value != "" && symbol.value in state ==> v == OneState(Some(state[symbol.value]))
    {
      if symbol.Some? && symbol.value != "" {
        if symbol.value in state {
          v := OneState(Some(state[symbol.value]));
        } else {
          v := OneState(None);
        }
      } else {
        v := AllStates(state);
      }
    }

    /** `get_position_count`: the cached counts, zeros for an unknown symbol. */
    method GetPositionCount(symbol: string) returns (c: SM.Counts)
      ensures symbol !in positionCounts ==> c == SM.Counts(0, 0, 0)
      ensures symbol in positionCounts ==> c == positionCounts[symbol]
    {
      c := SM.Get(positionCounts, symbol);
    }

    /** `get_current_risk`: the last cached risk. */
    method GetCurrentRisk() returns (risk: real)
      ensures risk == currentRisk
    {
      risk := currentRisk;
    }

    /** `is_position_allowed`: the capacity rule against the cached counts. */
    method IsPositionAllowed(symbol: string, maxLayers: int) returns (allowed: bool)
      ensures allowed <==> Allowed(positionCounts, symbol, maxLayers)
      ensures allowed <==> SM.Get(positionCounts, symbol).puts < maxLayers &&
                           SM.Get(positionCounts, symbol).shares < maxLayers
    {
      var counts := SM.Get(positionCounts, symbol);
      var currentLayers := if counts.puts >= counts.shares then counts.puts else counts.shares;
      allowed := currentLayers < maxLayers;
    }

    /** `reset`: back to the state of a new holder. */
    method Reset()
      modifies this
      ensures state == map[] && positionCounts == map[] && currentRisk == 0.0
      ensures forall s, m :: Allowed(positionCounts, s, m) <==> 0 < m
    {
      state := map[];
      positionCounts := map[];
      currentRisk := 0.0;
    }
  }
}

=== FILE: wrappers.dfy ===
/** Failure-compatible wrappers used across the model. */
module Wrappers {

  /** A value that may be absent (Python's `None`). */
  datatype Option<+T> = None | Some(value: T)

  /** The outcome of an operation that may raise: `Err` carries why it raised. */
  datatype Result<+T, +E> = Ok(value: T) | Err(error: E)
}
